=== FILE: README.md ===
# Project Orbit core, modelled in Dafny

Project Orbit is a space game. It is built on a home-grown graphics engine with two back ends: an OpenGL rasterizer and a Cycles path tracer. Blender tools author its content. Between the calls into OpenGL, Cycles, tinygltf, OpenImageIO, Recast/Detour and Blender sits a layer of sequential, deterministic logic. This project models that layer as immutable datatypes and pure functions, and proves what the code promises about it.

The modules follow the program's files:

- `Interior` (tools/blender/interior_builder.py): the ship-interior builder. It turns blueprint volumes into a sparse occupancy grid with levels, cells and walls toward unoccupied neighbours. It also covers the delete operator and the operators' availability checks.
- `Exporter` (tools/blender/project_orbit_scene_exporter.py): the Blender exporter. It reads the asset id from a library path, splits the scene objects, converts axes from Blender to glTF, and writes one record per library object.
- `Environment` (source/game_core/EnvironmentBase.cpp): the consumer of those records. It reads them from scene extras, loads each referenced asset once from its zero-padded path, places the imported nodes, decides material overrides and builds name dictionaries.
- `EngineTypes` (source/graphics_engine/GraphicsEngineTypes.h): the JSON-like `Value` with its accessors, and the running bounding boxes, hits, textures and buffers.
- `GltfLoader` and `GltfModel` (source/graphics_engine/GLTFModelLoader.cpp): the loader's default-filling converters, buffer access, extension readers, required-extension validation and node/skin/texture bookkeeping.
- `SceneManager` and `SceneVariants` (source/graphics_engine/SceneManager.cpp): index and joint decoding, memoisation per glTF index, materials and skinning per primitive, keyframe segments, skin-weight order, the common-ancestor search, and material variants.
- `MeshShader` (source/graphics_engine/MeshShaderProgram.h): the program key order, vertex-input locations, the coverage kernel, flag-selected texture samples and uniform uploads.
- `RasterizerMesh`, `RasterizerEngine` and `SceneGraph` (source/graphics_engine/RasterizerMesh.cpp, RasterizerEngine.cpp): the GPU buffer layout and draw bindings, buffer release, program selection and caching, off-screen buffer sizes, the render-job queue, and node, skin, mesh and scene creation.
- `MeshTools` (source/graphics_engine/Tools.cpp): strided element-wise buffer arithmetic and buffer initialisation.
- `AnimationPlayer` (source/graphics_engine/AnimationPlayer.cpp): the blended track stack.
- `Pathtracer` (source/graphics_engine/PathtracerEngine.cpp): the nested suspend counter, the job queue, and node and mesh creation.
- `NavigationMesh` (source/game_core/NavigationMesh.cpp): the area-to-flag table, gathering build geometry from a node tree, deinitialisation, and drawing geometry per polygon.
- `ImageMemory` (source/cycles/src/app/image_memory_oiio.cpp): the in-memory image loader. It chooses the storage type, compacts channels, converts CMYK and associates alpha.
- `LibList` (source/lib/get_lib_list.py): the DLL sorting helper. It finds files, classifies DLLs, serialises lists and removes duplicates.
- `Common`: Option, Result and small shared helpers.

Floating-point values are modelled as `real`, since only their order, clamping and exact identities matter here. Fixed-width integers are written out explicitly where the width matters:

- the 16-bit index counter of the navigation mesh;
- the 32-bit products of the off-screen buffer sizes;
- the byte-level index decoding.

Object references become indices into the manager's lists, and a null reference becomes `None`.

## Model

| member | source | states |
|---|---|---|
| Interior.Normalize | tools/blender/interior_builder.py:72-77 | each axis of the box holds the smaller of the volume's two ends as its start and the larger as its end |
| Interior.NormalizeIgnoresCornerOrder | tools/blender/interior_builder.py:72-77 | exchanging every start with its end gives the same normalised box |
| Interior.Rasterize | tools/blender/interior_builder.py:84-87 | a cell is produced exactly when it lies in the half-open box on all three axes |
| Interior.Occupancy | tools/blender/interior_builder.py:71-87 | a cell is occupied exactly when some normalised volume covers it (the reference predicate `Covered`) |
| Interior.Bounds | tools/blender/interior_builder.py:65-66 | the running bounds are the zero-seeded hull: they enclose the origin and every volume, and each bound is 0 or attained by some volume |
| Interior.BoundsUnique | tools/blender/interior_builder.py:78-83 | two volume lists with the same members have the same hull |
| Interior.OccupiedWithinBounds | tools/blender/interior_builder.py:78-87 | every occupied cell lies inside the computed bounds |
| Interior.OrderIndependent | tools/blender/interior_builder.py:71-87 | repeating or reordering volumes changes neither the occupied cells nor the bounds |
| Interior.FlatVolumeAddsNothing | tools/blender/interior_builder.py:84-87 | a volume of zero thickness on some axis adds no cell |
| Interior.Walls | tools/blender/interior_builder.py:116-149 | a cell carries a wall exactly when meshes are requested and that wall's horizontal neighbour is unoccupied; no wall twice |
| Interior.Column | tools/blender/interior_builder.py:107-115 | a column's objects have the column's x and a y in range, each built from its own grid cell |
| Interior.ColumnOrdered | tools/blender/interior_builder.py:107 | a column lists its cells in ascending y |
| Interior.ColumnContents | tools/blender/interior_builder.py:107-108 | a column has an object at y exactly when y is in range and that cell is occupied |
| Interior.LevelCells | tools/blender/interior_builder.py:106-115 | a level's objects lie in the bounds rectangle, each built from its own grid cell |
| Interior.LevelCellsOrdered | tools/blender/interior_builder.py:106-107 | a level lists its cells x-major, then by y |
| Interior.LevelCellsContents | tools/blender/interior_builder.py:106-115 | a level has an object at (x, y) exactly when (x, y) is in the rectangle and occupied on that floor |
| Interior.BuildLevels | tools/blender/interior_builder.py:100-105 | one level per z in [z_min, z_max), ascending, tagged with its floor number and placed at z times the cell height, even when the floor is empty |
| Interior.Construct | tools/blender/interior_builder.py:62-115 | the built interior has cell sizes 1, 1 and 2.5 and one level per floor from z_min up to z_max, level k being floor z_min + k |
| Interior.LevelMatchesGrid | tools/blender/interior_builder.py:100-115 | level k holds an object at (x, y) exactly when that cell is inside the bounds and occupied |
| Interior.ConstructMatchesGrid | tools/blender/interior_builder.py:62-115 | after construction, level k's cells are exactly the occupied cells of floor z_min + k, without duplicates |
| Interior.EveryOccupiedCellHasALevel | tools/blender/interior_builder.py:100-115 | every occupied cell appears in the level of its floor |
| Interior.OrderedMeansNoDuplicates | tools/blender/interior_builder.py:106-110 | no two cell objects of a level share a grid position |
| Interior.TwoCellExample | tools/blender/interior_builder.py:123-149 | two adjacent cells get no wall between them: the left one gets right, up and down walls, the right one left, up and down walls |
| Interior.RemovalOrder | tools/blender/interior_builder.py:176-180 | the object itself is the last id removed |
| Interior.RemovalIds | tools/blender/interior_builder.py:176-180 | every id of the subtree is removed exactly as often as it occurs there |
| Interior.ChildrenRemovalIds | tools/blender/interior_builder.py:178-179 | the children's removals remove exactly the children's subtrees |
| Interior.Delete | tools/blender/interior_builder.py:170-174 | deleting removes the whole tree once, root last, and forgets the root; with no root it removes nothing |
| Interior.ChildRunInside | tools/blender/interior_builder.py:178-179 | each child's removal run appears contiguously inside its parent's children run |
| Interior.ChildRemovedBeforeParent | tools/blender/interior_builder.py:176-180 | every child's whole subtree is removed before its parent |
| Interior.CellObject | tools/blender/interior_builder.py:110-146 | a cell object has one mesh instance per floor and wall of the cell, none of them with children |
| Interior.CellObjects | tools/blender/interior_builder.py:108-146 | one cell object per cell of the level, in order, each with one leaf per floor and wall |
| Interior.LevelObjects | tools/blender/interior_builder.py:100-146 | one level object per level, whose children are that level's cell objects |
| Interior.RootObject | tools/blender/interior_builder.py:93-146 | the new root has one child per level, each level one child per cell, and each cell one child per floor and wall |
| Interior.ConstructOperator | tools/blender/interior_builder.py:57-99 | construction makes the new root, holding the interior that Construct builds from the volumes, current (so deletion becomes possible), keeps the blueprint path, and records cell sizes 1, 1 and 2.5 |
| Interior.DeleteRemovesConstruction | tools/blender/interior_builder.py:93-181 | deleting right after a construction removes exactly the objects of the built tree, the root last, and forgets the root |
| EngineTypes.StrLessIrreflexive | source/graphics_engine/GraphicsEngineTypes.h:90 | the key order of a value's object map (bytewise lexicographic) never puts a key before itself |
| EngineTypes.StrLessTransitive | source/graphics_engine/GraphicsEngineTypes.h:90 | the key order is transitive |
| EngineTypes.StrLessTotal | source/graphics_engine/GraphicsEngineTypes.h:90 | any two different keys are ordered one way or the other |
| EngineTypes.AscendingListingUnique | source/graphics_engine/GraphicsEngineTypes.h:127-133 | two strictly ascending listings of the same key set are equal, so the key listing is determined by the keys |
| EngineTypes.SameKeysSameEmptiness | source/graphics_engine/GraphicsEngineTypes.h:127-133 | listings of the same key set are empty together |
| EngineTypes.At | source/graphics_engine/GraphicsEngineTypes.h:103-108 | element lookup on an array with a non-negative index gives the element in range and the null value past the end |
| EngineTypes.Get | source/graphics_engine/GraphicsEngineTypes.h:109-115 | member lookup on an object gives the mapped value when the key is present and the null value otherwise |
| EngineTypes.ArrayLen | source/graphics_engine/GraphicsEngineTypes.h:116-120 | a value that is not an array has length 0 |
| EngineTypes.ConstructorsRoundTrip | source/graphics_engine/GraphicsEngineTypes.h:92-155 | the default value is null; each constructor sets its own tag and payload, reading the payload back gives the input, and the integer constructor also stores the number as a real |
| EngineTypes.WrongTypeReadsAreEmpty | source/graphics_engine/GraphicsEngineTypes.h:116-126 | only arrays have a length and only objects have members; on an object `has` is key membership, and a missing key reads as null |
| EngineTypes.LeastKey | source/graphics_engine/GraphicsEngineTypes.h:131 | the chosen key is in the set and below every other key |
| EngineTypes.Keys | source/graphics_engine/GraphicsEngineTypes.h:127-133 | keys is empty for non-objects and otherwise lists exactly the object's keys, strictly ascending (so each once) |
| EngineTypes.Update2 | source/graphics_engine/GraphicsEngineTypes.h:48-55 | after update the box contains the point, the minimum never grows, the maximum never shrinks, and each bound is the old one or the point's coordinate |
| EngineTypes.Update3 | source/graphics_engine/GraphicsEngineTypes.h:61-68 | the same for the three-dimensional box |
| EngineTypes.UpdateAllEncloses | source/graphics_engine/GraphicsEngineTypes.h:61-68 | after updating with a list of points, every earlier-enclosed point and every listed point is enclosed |
| EngineTypes.UpdateEmpty | source/graphics_engine/GraphicsEngineTypes.h:61-68 | updating the empty box (minimum FLT_MAX, maximum -FLT_MAX) with one finite point gives the box at that point |
| Exporter.FindFrom | tools/blender/project_orbit_scene_exporter.py:14 | the result is -1 exactly when the pattern occurs nowhere from the start position, and otherwise its first occurrence there |
| Exporter.RFindFrom | tools/blender/project_orbit_scene_exporter.py:16 | the result is -1 exactly when the pattern occurs nowhere up to the position, and otherwise its last occurrence there |
| Exporter.SliceBound | tools/blender/project_orbit_scene_exporter.py:15-18 | a Python slice bound is clamped into the string |
| Exporter.TrimStart | tools/blender/project_orbit_scene_exporter.py:19 | stripping leading whitespace never lengthens the text |
| Exporter.TrimEnd | tools/blender/project_orbit_scene_exporter.py:19 | stripping trailing whitespace never lengthens the text |
| Exporter.TrimStartDropsSpaces | tools/blender/project_orbit_scene_exporter.py:19 | what remains is a suffix, everything removed is whitespace, and the remainder does not start with whitespace |
| Exporter.TrimEndDropsSpaces | tools/blender/project_orbit_scene_exporter.py:19 | what remains is a prefix, everything removed is whitespace, and the remainder does not end with whitespace |
| Exporter.StripUnspaced | tools/blender/project_orbit_scene_exporter.py:19 | text that neither starts nor ends with whitespace is left as it is |
| Exporter.Ungrouped | tools/blender/project_orbit_scene_exporter.py:19 | digit groups without their underscores are a non-empty run of digits |
| Exporter.PlainDigitsGroup | tools/blender/project_orbit_scene_exporter.py:19 | a plain run of digits is a single digit group and loses nothing when ungrouped |
| Exporter.ParseStripped | tools/blender/project_orbit_scene_exporter.py:19 | stripped text parses exactly when, after an optional sign, it is digit groups separated by single underscores |
| Exporter.ParseInt | tools/blender/project_orbit_scene_exporter.py:19 | `int()` succeeds exactly when the text, stripped of surrounding whitespace, is an optional sign followed by digit groups separated by single underscores |
| Exporter.DigitsParse | tools/blender/project_orbit_scene_exporter.py:19 | a plain run of digits reads as its value, negated after "-" and unchanged after "+" |
| Exporter.SignedDigitsUnspaced | tools/blender/project_orbit_scene_exporter.py:19 | optionally signed plain digits are their own strip |
| Exporter.SignedDigitsRead | tools/blender/project_orbit_scene_exporter.py:19 | optionally signed plain digits read as their value, negated after a minus sign |
| Exporter.LeadingSpaceIgnored | tools/blender/project_orbit_scene_exporter.py:19 | a whitespace character in front does not change what `int()` returns |
| Exporter.TrailingSpaceIgnored | tools/blender/project_orbit_scene_exporter.py:19 | a whitespace character at the end does not change what `int()` returns |
| Exporter.TrimStartThenEnd | tools/blender/project_orbit_scene_exporter.py:19 | a trailing whitespace character does not change the stripped text |
| Exporter.ParseIntStripsSpaces | tools/blender/project_orbit_scene_exporter.py:19 | " 42\n" reads as 42 |
| Exporter.FortyTwo | tools/blender/project_orbit_scene_exporter.py:19 | "42" reads as 42 |
| Exporter.ParseIntJoinsGroups | tools/blender/project_orbit_scene_exporter.py:19 | "1_0" reads as 10 |
| Exporter.ParseIntSignedZeros | tools/blender/project_orbit_scene_exporter.py:19 | "-07" reads as -7 |
| Exporter.ParseIntRejects | tools/blender/project_orbit_scene_exporter.py:19 | "1__0", "_1", "1_", "", " ", "- 1" and "+" are rejected |
| Exporter.PadId | source/game_core/EnvironmentBase.cpp:66-68 | the zero-padded id text is all digits and at least eight characters long |
| Exporter.FixedDigitsValue | source/game_core/EnvironmentBase.cpp:66-68 | reading back the fixed-width digits of a number that fits gives the number |
| Exporter.PadIdParses | source/game_core/EnvironmentBase.cpp:66-68 | `int()` of a zero-padded id gives the id back |
| Exporter.NoStraddle | tools/blender/project_orbit_scene_exporter.py:14 | "database" cannot occur across the end of a root that does not contain it |
| Exporter.StraddleMisses | tools/blender/project_orbit_scene_exporter.py:14 | no occurrence of "database" starts inside the root part of an asset path |
| Exporter.GetAssetIdRecoversPaddedId | tools/blender/project_orbit_scene_exporter.py:12-19 | for a root without "database", `get_asset_id` of root + "database" + separator + zero-padded id + separator + "asset.blend" is the id: the exporter recovers the id the environment pads |
| Exporter.GetAssetId | tools/blender/project_orbit_scene_exporter.py:12-19 | `get_asset_id` is `int()` of one piece of the path, and that piece lies after the first "database" when there is one |
| Exporter.IdPiece | tools/blender/project_orbit_scene_exporter.py:14-18 | the piece the slices pick lies inside the path, after the first "database" when there is one |
| Exporter.IdPieceIsSlices | tools/blender/project_orbit_scene_exporter.py:14-18 | the piece is exactly what the four Python slices leave |
| Exporter.LibraryAssetId | tools/blender/project_orbit_scene_exporter.py:13 | a missing library fails; otherwise the id is `int()` of the library path's id piece |
| Exporter.FindIs | tools/blender/project_orbit_scene_exporter.py:14 | `find` returns the first occurrence |
| Exporter.RFindIs | tools/blender/project_orbit_scene_exporter.py:16 | `rfind` returns an occurrence at the very end |
| Exporter.PadSix | source/game_core/EnvironmentBase.cpp:66-68 | id 6 is written "00000006" |
| Exporter.LocationToGltf | tools/blender/project_orbit_scene_exporter.py:53 | a location has three components |
| Exporter.RotationToGltf | tools/blender/project_orbit_scene_exporter.py:54 | a rotation has four components |
| Exporter.ScaleToGltf | tools/blender/project_orbit_scene_exporter.py:55 | a scale goes through the location's axis swap, (x, y, z) to [x, z, ...], but its last component is y itself rather than the location's -y: scales are not mirrored |
| Exporter.LocationRoundTrip | tools/blender/project_orbit_scene_exporter.py:53 | the location conversion (x, y, z) to [x, z, -y] is undone by the inverse change of basis |
| Exporter.ScaleInvolutive | tools/blender/project_orbit_scene_exporter.py:55 | the scale conversion only swaps y and z, so applying it twice gives back (x, y, z) |
| Exporter.RotationUsesLocationBasis | tools/blender/project_orbit_scene_exporter.py:53-54 | the rotation keeps w and sends its vector part through the location's change of basis |
| Exporter.ExportSelection | tools/blender/project_orbit_scene_exporter.py:32 | the exported objects are exactly the scene objects without a library override |
| Exporter.Names | tools/blender/project_orbit_scene_exporter.py:35-38 | a name is in the set exactly when some listed object carries it |
| Exporter.LibraryObjects | tools/blender/project_orbit_scene_exporter.py:42 | the library objects are exactly the scene objects with a library override |
| Exporter.LibraryObjectsAppend | tools/blender/project_orbit_scene_exporter.py:42 | the library objects of a concatenation are those of the first part followed by those of the second, so they keep scene order |
| Exporter.LibraryObjectsSingle | tools/blender/project_orbit_scene_exporter.py:42 | one object is listed exactly when it has a library override |
| Exporter.ExportSelectionAppend | tools/blender/project_orbit_scene_exporter.py:32 | the exported objects of a concatenation are those of the first part followed by those of the second, so they keep scene order |
| Exporter.PartitionIsExact | tools/blender/project_orbit_scene_exporter.py:32-42 | every scene object is in exactly one of the two lists, as often as it occurs in the scene |
| Exporter.OverrideSlot | tools/blender/project_orbit_scene_exporter.py:71-73 | a slot can be described only when both the original and the replacement material exist |
| Exporter.OverrideSlots | tools/blender/project_orbit_scene_exporter.py:69-75 | the override list succeeds exactly when the object has every referenced slot and each slot can be described; it then has one entry per referenced slot, in slot order |
| Exporter.RecordFields | tools/blender/project_orbit_scene_exporter.py:56-63 | a record has exactly the keys name, type, location, rotation, scale and mesh |
| Exporter.Record | tools/blender/project_orbit_scene_exporter.py:44-75 | a successful record is an object with the six keys, plus library_materials_override exactly when the object's data is overridden; an override without reference fails, and so does an object without a data block once its library id reads |
| Exporter.RecordExtendsFields | tools/blender/project_orbit_scene_exporter.py:47-63 | a record's fields are the object's name and type, its converted transform, and mesh {node_name: the reference's name, asset_id: the reference library's id} |
| Exporter.OverrideSlotsAreObjects | tools/blender/project_orbit_scene_exporter.py:69-75 | each override entry is an object |
| Exporter.RealArrayReads | tools/blender/project_orbit_scene_exporter.py:53-61 | a list of reals written as a value reads back element by element |
| Exporter.Collect | tools/blender/project_orbit_scene_exporter.py:43-77 | the loop's outcome: all values exactly when every step succeeds, one per step in order, each the value that step produced |
| Exporter.CollectFailsAtFirst | tools/blender/project_orbit_scene_exporter.py:43-77 | when the loop fails, the reason is that of the first failing step, and every step before it succeeded |
| Exporter.Records | tools/blender/project_orbit_scene_exporter.py:43-77 | the records succeed exactly when every library object's record does, and are then one record per library object, in scene order |
| Exporter.RecordsFailsAtFirst | tools/blender/project_orbit_scene_exporter.py:43-77 | a failure reports the reason of the first library object whose record fails; every earlier one succeeds |
| Exporter.Export | tools/blender/project_orbit_scene_exporter.py:29-92 | the export fails exactly when the records fail, with their reason; a failed export leaves the scene property as it was and the selection switched to the export selection; otherwise the exported objects are the export selection, the scene property holds only library_objects, which is the array of records, and the prior selection is restored |
| Exporter.ExportRecordsEveryLibraryObject | tools/blender/project_orbit_scene_exporter.py:29-92 | the export succeeds exactly when every library object has a record, and library_objects then holds one record per library object, in scene order |
| Environment.AsULong | source/game_core/EnvironmentBase.cpp:124-156 | an int asset id used as an unsigned key is reduced modulo 2^32 and unchanged when already in range |
| Environment.GetLibraryData | source/game_core/EnvironmentBase.cpp:36-55 | nodes and scenes (which must carry project_orbit_data) give extra["project_orbit_data"]["library_objects"]; any other container fails |
| Environment.PreOrder | source/game_core/EnvironmentBase.cpp:187-204 | a node's visit starts with the node itself |
| Environment.RegisterMaterials | source/game_core/EnvironmentBase.cpp:191-199 | registering a mesh's materials adds exactly their names, each mapped to a material of that name, keeping other entries |
| Environment.RegisterAll | source/game_core/EnvironmentBase.cpp:173-185 | building the dictionaries leaves the scenes untouched |
| Environment.RegisterAllNodeKeys | source/game_core/EnvironmentBase.cpp:189 | the node dictionary's names are exactly the visited nodes' names (plus earlier ones) |
| Environment.RegisterAllLastWins | source/game_core/EnvironmentBase.cpp:189 | for duplicate names, the node visited last is the one kept |
| Environment.RegisterAllMaterialNames | source/game_core/EnvironmentBase.cpp:196-197 | every material registered under a name has that name |
| Environment.RegisterAllMaterialsPresent | source/game_core/EnvironmentBase.cpp:191-199 | every material of every visited mesh is registered under its name |
| Environment.RegisterKeepsMaterials | source/game_core/EnvironmentBase.cpp:187-204 | visiting a node never removes a registered material name |
| Environment.BuildDictionaries | source/game_core/EnvironmentBase.cpp:173-185 | the asset keeps its model's scenes |
| Environment.DictionariesLastWins | source/game_core/EnvironmentBase.cpp:173-205 | over the pre-order of all scenes, the last node with a name wins and every material key maps to a material of that name |
| Environment.LoadLibraryAsset | source/game_core/EnvironmentBase.cpp:57-81 | a disabled context or a known id changes nothing; otherwise the asking context gets an entry, the rasterizer context's entry holds the loaded model's dictionaries, and the path cache only gains this asset's path, never overwriting |
| Environment.ReusesCachedFile | source/game_core/EnvironmentBase.cpp:70-71 | a path loaded before is handed to the loader as the preloaded file |
| Environment.PathtracerEntryIsEmpty | source/game_core/EnvironmentBase.cpp:72-73 | a load requested by the path tracer context leaves that context's entry empty |
| Environment.CollectIdsExact | source/game_core/EnvironmentBase.cpp:86-105 | the ids to load are exactly the mesh asset ids and override asset ids of the records |
| Environment.LeastId | source/game_core/EnvironmentBase.cpp:108 | the least id of a non-empty set |
| Environment.Ascending | source/game_core/EnvironmentBase.cpp:108-111 | the set's ids listed once each in ascending order |
| Environment.LoadLibraryAssets | source/game_core/EnvironmentBase.cpp:83-112 | succeeds exactly for node and scene containers; the ids loaded are exactly the collected ones, strictly ascending, so each once |
| Environment.ExportedRecordReadsBack | source/game_core/EnvironmentBase.cpp:120-139 | an exported record reads back with the object's name, the reference node's name and asset id, position (x, z, -y) and the rotation built as (w, x, y, z) from the four stored numbers |
| Environment.ExportedRecordIdsReadable | source/game_core/EnvironmentBase.cpp:90-104 | every exported record has the fields the loader reads |
| Environment.PlacementOfFields | source/game_core/EnvironmentBase.cpp:120-134 | reading a record's fields gives name, node name, id, position, quaternion from rotation[0..3] and scale |
| Environment.ResolveSlot | source/game_core/EnvironmentBase.cpp:147-164 | when the names differ or the override's asset id differs from the mesh's, the slot takes the override asset's material of the replacement name (failing when missing); otherwise the mesh's own slot-j material |
| Environment.ReplacementHasRequestedName | source/game_core/EnvironmentBase.cpp:153-158 | a replaced slot's material carries the requested replacement name |
| Environment.UnchangedSlotKeepsOwnMaterial | source/game_core/EnvironmentBase.cpp:160-164 | same names and same asset id keep the mesh's own material |
| Environment.ResolveSlots | source/game_core/EnvironmentBase.cpp:145-165 | one material per override entry, each resolved by the slot rule at its index |
| Environment.AddLibraryAsset | source/game_core/EnvironmentBase.cpp:118-169 | the imported copy is the named node of the record's asset, renamed and placed from the record, and gets a material list exactly when the record has overrides |
| Environment.AddLibraryAssets | source/game_core/EnvironmentBase.cpp:114-171 | one imported object per record, in record order |
| Environment.ImportAll | source/game_core/EnvironmentBase.cpp:114-171 | one imported object per record, each exactly what importing that record alone gives |
| Environment.AssetPathCarriesId | source/game_core/EnvironmentBase.cpp:66-68 | the asset path is root + "\database\" + the zero-padded id + "\asset.glb", and the exporter's id parser reads that padded id back |
| GltfLoader.VectorToColor | source/graphics_engine/GLTFModelLoader.cpp:373-392 | [] becomes (0,0,0,1), [r,g,b] becomes (r,g,b,1) and [r,g,b,a] itself; other lengths are excluded as the loader leaves them undefined |
| GltfLoader.ColorRoundTrip | source/graphics_engine/GLTFModelLoader.cpp:373-392 | a colour written as four numbers reads back as itself, a three-vector reads as the same vector with alpha 1, and the empty vector as opaque black |
| GltfLoader.VectorToTranslation | source/graphics_engine/GLTFModelLoader.cpp:394-406 | a 3-vector is copied and [] gives zero |
| GltfLoader.VectorToScale | source/graphics_engine/GLTFModelLoader.cpp:408-420 | a 3-vector is copied and [] gives ones |
| GltfLoader.TransformDefaultsAreNeutral | source/graphics_engine/GLTFModelLoader.cpp:394-420 | a missing translation reads as the zero vector and a missing scale as ones; written vectors read back as themselves |
| GltfLoader.VectorToRotation | source/graphics_engine/GLTFModelLoader.cpp:422-438 | any length other than 4 gives the identity rotation |
| GltfLoader.RotationRoundTrip | source/graphics_engine/GLTFModelLoader.cpp:422-438 | the glTF XYZW order (section 3.5.2 of the glTF 2.0 specification) is read as w = in[3], x = in[0], y = in[1], z = in[2]: writing a quaternion in that order and reading it back gives it, and the other way round |
| GltfLoader.SizeT | source/graphics_engine/GLTFModelLoader.cpp:445-456 | size_t arithmetic wraps modulo 2^64 and is exact in range |
| GltfLoader.BufferAccess | source/graphics_engine/GLTFModelLoader.cpp:440-456 | stride is the view's byteStride when non-zero, else components times component size (tightly packed, section 3.6.2.4 of glTF 2.0); offset is view offset plus accessor offset; length is view length minus accessor offset |
| GltfLoader.AccessEndsWithView | source/graphics_engine/GLTFModelLoader.cpp:445-456 | the accessed range ends where the view ends; an accessor offset past the view's length wraps the length around |
| GltfLoader.ValueToTextureInfo | source/graphics_engine/GLTFModelLoader.cpp:497-509 | a missing index or texCoord keeps the default texture info's value |
| GltfLoader.LoadTransmission | source/graphics_engine/GLTFModelLoader.cpp:128-154 | found exactly when the extension key is present, destination untouched otherwise; when found, the factor is the given number or 0 and the texture the given texture info or none |
| GltfLoader.LoadIor | source/graphics_engine/GLTFModelLoader.cpp:156-176 | the same found/untouched rule for KHR_materials_ior; when found, the ior is the given number or 1.5 |
| GltfLoader.LoadVolume | source/graphics_engine/GLTFModelLoader.cpp:178-228 | the same rule for KHR_materials_volume; when found, thickness is the given number or 0, the thickness texture the given one or none, the attenuation distance the given finite number or infinity, and the attenuation colour the three given components or (1,1,1) |
| GltfLoader.LoadEmissiveStrength | source/graphics_engine/GLTFModelLoader.cpp:230-250 | the same rule for KHR_materials_emissive_strength; when found, the strength is the given number or 1.0 |
| GltfLoader.LoadLightsPunctual | source/graphics_engine/GLTFModelLoader.cpp:252-272 | the same rule for KHR_lights_punctual; when found, the light index is the given number or -1 |
| GltfLoader.LoadTextureTransform | source/graphics_engine/GLTFModelLoader.cpp:274-317 | the same rule for KHR_texture_transform; when found, offset, rotation, scale and texCoord are the given values or (0,0), 0, (1,1) and -1 |
| GltfLoader.EmptyExtensionsGiveDefaults | source/graphics_engine/GLTFModelLoader.cpp:128-371 | a present but empty extension gives the defaults: transmission 0, ior 1.5, thickness 0, attenuation distance infinite and colour (1,1,1), emissive strength 1, light -1, offset (0,0), rotation 0, scale (1,1), texCoord -1 |
| GltfLoader.FoundOverwritesEverything | source/graphics_engine/GLTFModelLoader.cpp:128-317 | once an extension is found, the result does not depend on the destination's previous contents |
| GltfLoader.GivenFieldsWin | source/graphics_engine/GLTFModelLoader.cpp:128-272 | whatever else the extensions hold, a number written as transmissionFactor, ior, emissiveStrength or light is the value read for that field |
| GltfLoader.SetField | source/graphics_engine/GLTFModelLoader.cpp:128-272 | writing a field into an extension object sets that field and keeps every other field |
| GltfLoader.LoadVariantNames | source/graphics_engine/GLTFModelLoader.cpp:319-340 | found exactly when KHR_materials_variants is present; the names are the variants' names in order |
| GltfLoader.LoadMappings | source/graphics_engine/GLTFModelLoader.cpp:342-371 | found exactly when KHR_materials_variants is present; one mapping per entry, whose material is the entry's material and whose variants are the entry's variants in order |
| GltfLoader.ValidateExtensions | source/graphics_engine/GLTFModelLoader.cpp:511-542 | validation passes exactly when every required extension is one of transmission, emissive strength and variants; a failure ends with the required-extension warning |
| GltfLoader.AnyUnsupportedExact | source/graphics_engine/GLTFModelLoader.cpp:511-542 | the unsupported check holds exactly when some listed name is outside the supported set |
| GltfLoader.WarningsExact | source/graphics_engine/GLTFModelLoader.cpp:511-542 | each unsupported name gets a warning, there are no more warnings than listed names, and there are warnings exactly when some name is unsupported |
| GltfLoader.UsedExtensionsOnlyWarn | source/graphics_engine/GLTFModelLoader.cpp:511-542 | extensions that are merely used never change the verdict |
| GltfLoader.FileExtension | source/graphics_engine/GLTFModelLoader.cpp:80 | the file type is the text after the last '.', empty when there is none |
| GltfLoader.LoadModelAsWritten | source/graphics_engine/GLTFModelLoader.cpp:69-126 | as written, a model loads exactly when the file parses, whatever the extension check says |
| GltfLoader.LoadModel | source/graphics_engine/GLTFModelLoader.cpp:69-126 | corrected: a model loads exactly when the file parses and every required extension is supported, and then equals the as-written model |
| GltfLoader.UnsupportedRequiredExtensionStillLoads | source/graphics_engine/GLTFModelLoader.cpp:123 | a .glb requiring KHR_materials_ior fails validation yet loads as written, and is rejected by the corrected loader |
| GltfModel.SubtreeStep | source/graphics_engine/GLTFModelLoader.cpp:562-567 | a child of a node in a subtree is in that subtree |
| GltfModel.VisitSound | source/graphics_engine/GLTFModelLoader.cpp:559-568 | visiting a node records only true facts: each recorded parent is the node's real parent (or -1 for a scene root) and each recorded scene really contains the node |
| GltfModel.VisitChildrenSound | source/graphics_engine/GLTFModelLoader.cpp:562-567 | the same for the loop over a node's children |
| GltfModel.VisitRootsSound | source/graphics_engine/GLTFModelLoader.cpp:544-557 | the same for the loop over every scene's roots |
| GltfModel.VisitGrows | source/graphics_engine/GLTFModelLoader.cpp:559-568 | a visit never forgets a recorded node and always records the visited one |
| GltfModel.VisitChildrenGrows | source/graphics_engine/GLTFModelLoader.cpp:562-567 | the children loop never forgets a recorded node |
| GltfModel.VisitRootsGrows | source/graphics_engine/GLTFModelLoader.cpp:548-556 | the scene loop never forgets a recorded node |
| GltfModel.VisitCovers | source/graphics_engine/GLTFModelLoader.cpp:559-568 | every node of the visited subtree gets a parent, and every descendant a scene |
| GltfModel.VisitChildrenCovers | source/graphics_engine/GLTFModelLoader.cpp:562-567 | every node under a remaining child gets a parent and a scene |
| GltfModel.VisitRootsCovers | source/graphics_engine/GLTFModelLoader.cpp:548-556 | every node of a later scene gets a parent and a scene |
| GltfModel.VisitRootsCoversFrom | source/graphics_engine/GLTFModelLoader.cpp:550-555 | every node under a remaining root of the current scene gets a parent and a scene |
| GltfModel.NodeHierarchy | source/graphics_engine/GLTFModelLoader.cpp:544-568 | the parent and scene maps built from the scenes record only true facts: parents are direct parents or -1 for roots, and scenes contain their nodes |
| GltfModel.NodeHierarchyExact | source/graphics_engine/GLTFModelLoader.cpp:544-568 | exactly the nodes reachable from a scene get a parent and a scene; roots map to parent -1, every descendant to its direct parent and to a scene that contains it |
| GltfModel.IsRoot | source/graphics_engine/GLTFModelLoader.cpp:610-625 | a node is a root exactly when its reported parent is -1; otherwise the recorded parent is reported |
| GltfModel.IsRootMatchesDocument | source/graphics_engine/GLTFModelLoader.cpp:544-625 | for a reachable node of a tree-shaped document, IsRoot holds exactly for scene roots, a non-root's reported parent really has it as a child, and the reported scene contains it |
| GltfModel.AddJointsEffect | source/graphics_engine/GLTFModelLoader.cpp:596-601 | a skin's joints map to that skin and to their last position in its joint list; skeletons are untouched |
| GltfModel.JointMapsExact | source/graphics_engine/GLTFModelLoader.cpp:584-603 | a node is in both joint maps exactly when some skin lists it, and the entries are its last occurrence over all skins (later skins overwrite) |
| GltfModel.SkeletonMapExact | source/graphics_engine/GLTFModelLoader.cpp:589-595 | a node has a skin list exactly when it is the non-negative skeleton of some skin, and the list holds those skins in ascending order |
| GltfModel.SkeletonStep | source/graphics_engine/GLTFModelLoader.cpp:591-595 | one more skin keeps the skeleton map exact |
| GltfModel.SkeletonStepKeys | source/graphics_engine/GLTFModelLoader.cpp:591-595 | one more skin keeps the skeleton map's keys exact |
| GltfModel.ListsSkinsAppend | source/graphics_engine/GLTFModelLoader.cpp:594 | a skin with this skeleton is appended at the end of its list |
| GltfModel.ListsSkinsSkip | source/graphics_engine/GLTFModelLoader.cpp:592 | a skin with another skeleton leaves the list as it was |
| GltfModel.AddJoints | source/graphics_engine/GLTFModelLoader.cpp:596-601 | adding a skin's joints leaves the skeleton map alone, keeps the two joint maps on the same keys, and maps each joint to this skin or to what it had |
| GltfModel.SkinMapsOf | source/graphics_engine/GLTFModelLoader.cpp:583-603 | both joint maps have the same keys, every joint maps to a real skin, and every listed skeleton is non-negative with a non-empty skin list |
| GltfModel.IsJoint | source/graphics_engine/GLTFModelLoader.cpp:627-641 | a node is a joint exactly when both joint maps hold it, and then its skin and position are reported |
| GltfModel.IsSkeleton | source/graphics_engine/GLTFModelLoader.cpp:643-655 | a node is a skeleton exactly when the skeleton map holds it, and then its skin list is reported |
| GltfModel.LinearTexturesExact | source/graphics_engine/GLTFModelLoader.cpp:570-608 | a texture index is linear-space exactly when it is some material's metallic-roughness, normal or occlusion texture |
| GltfModel.LinearTextures | source/graphics_engine/GLTFModelLoader.cpp:570-581 | every material's metallic-roughness, normal and occlusion texture is in the linear set |
| GltfModel.IsInLinearSpace | source/graphics_engine/GLTFModelLoader.cpp:605-608 | looking a texture up in the linear set answers exactly whether some material uses it for metallic-roughness, normal or occlusion data |
| SceneManager.LittleEndian | source/graphics_engine/SceneManager.cpp:303-318 | the value of k little-endian bytes is below 256^k |
| SceneManager.PowerValues | source/graphics_engine/SceneManager.cpp:303-335 | one, two and four bytes span 256, 65536 and 2^32 values |
| SceneManager.GetIndex | source/graphics_engine/SceneManager.cpp:303-322 | decoding succeeds exactly for the six integer component types (any other type throws); the result is a 32-bit unsigned number, and unsigned types read their little-endian bytes at index times stride |
| SceneManager.Encode | source/graphics_engine/SceneManager.cpp:303-318 | a number is written as exactly k bytes |
| SceneManager.EncodeDecode | source/graphics_engine/SceneManager.cpp:303-318 | reading back the little-endian bytes of a number gives the number |
| SceneManager.GetIndexRoundTrip | source/graphics_engine/SceneManager.cpp:303-322 | an index written in two's complement reads back as the index modulo 2^32: unsigned types zero-extend and signed types sign-extend |
| SceneManager.GetJoint | source/graphics_engine/SceneManager.cpp:324-335 | only unsigned byte and unsigned short joints are accepted, read at vertex times stride plus joint times the component size |
| SceneManager.GetJointRoundTrip | source/graphics_engine/SceneManager.cpp:330-331 | an unsigned-short joint reads back from its two bytes |
| SceneManager.GetOrCreate | source/graphics_engine/SceneManager.cpp:174-179 | a known (type, index) returns its object and creates nothing; an unknown one creates exactly one new object and records it, keeping every other entry |
| SceneManager.MemoisedOnce | source/graphics_engine/SceneManager.cpp:174-200 | a repeated request returns the first object and changes nothing, and different keys get different objects |
| SceneManager.MeshMaterials | source/graphics_engine/SceneManager.cpp:790-804 | one material per primitive: the default material exactly for material -1, otherwise the glTF material of that index |
| SceneManager.SkinningExact | source/graphics_engine/SceneManager.cpp:806-817 | the scan from a primitive on finds skinning exactly when a later primitive has JOINTS_0 or WEIGHTS_0 |
| SceneManager.UsesSkinning | source/graphics_engine/SceneManager.cpp:806-817 | skinning is on exactly when some primitive has JOINTS_0 or WEIGHTS_0 |
| SceneManager.UpperBound | source/graphics_engine/SceneManager.cpp:1570 | upper_bound stops at the first key later than the time |
| SceneManager.UpperBoundExact | source/graphics_engine/SceneManager.cpp:1570 | every key before the upper bound is at or before the time |
| SceneManager.InterpolationValues | source/graphics_engine/SceneManager.cpp:1563-1586 | the factor is clamped to [0, 1] |
| SceneManager.SegmentStart | source/graphics_engine/SceneManager.cpp:1570-1579 | the segment's first key has a next key |
| SceneManager.LookupAsWritten | source/graphics_engine/SceneManager.cpp:1570-1586 | the engine's iterator steps: the lookup leaves the key map exactly when the sampler has fewer than two keys, and otherwise gives the segment InterpolationValues describes |
| SceneManager.OneKeyLookupUndefined | source/graphics_engine/SceneManager.cpp:1570-1579 | a one-key sampler has no defined lookup at any time |
| SceneManager.SampleSegment | source/graphics_engine/SceneManager.cpp:1563-1586 | the intended lookup: a single key is held (both ends are its output) and the factor lies in [0, 1]; with two or more keys it equals the engine's lookup |
| SceneManager.SegmentIsConsecutive | source/graphics_engine/SceneManager.cpp:1579-1585 | the segment is a pair of consecutive keys |
| SceneManager.BeforeFirstKey | source/graphics_engine/SceneManager.cpp:1575-1578 | before the first key, the first pair is used with factor 0 |
| SceneManager.AfterLastKey | source/graphics_engine/SceneManager.cpp:1571-1574 | at or after the last key, the last pair is used with factor 1 |
| SceneManager.InsideKeys | source/graphics_engine/SceneManager.cpp:1570-1583 | inside the key range, the segment brackets the time and the factor is the fraction of the segment elapsed |
| SceneManager.Swap | source/graphics_engine/SceneManager.cpp:1100-1101 | swapping moves a weight and its joint id together, so the influences are permuted |
| SceneManager.PositivePrefix | source/graphics_engine/SceneManager.cpp:1106-1111 | the count covers the run of positive weights and stops at the first non-positive one |
| SceneManager.SwapRemovesInversion | source/graphics_engine/SceneManager.cpp:1097-1101 | swapping an out-of-order neighbour pair reduces the number of inversions |
| SceneManager.BubblePass | source/graphics_engine/SceneManager.cpp:1094-1103 | a pass permutes the influences, reduces the inversions when it swaps, and leaves a non-increasing sequence unchanged when it does not |
| SceneManager.SortInfluences | source/graphics_engine/SceneManager.cpp:1090-1111 | the four weights end non-increasing with their joint ids permuted alongside, wCount is assigned exactly when some weight is positive, and is then the length of the positive prefix (at least 1) |
| SceneManager.Hits | source/graphics_engine/SceneManager.cpp:1739-1748 | a node's hit count is at most the number of input nodes |
| SceneManager.HitsCountAll | source/graphics_engine/SceneManager.cpp:1739-1753 | a node is hit by every input exactly when it is a proper ancestor of every input node |
| SceneManager.HitsMap | source/graphics_engine/SceneManager.cpp:1738-1748 | each entry of the hits map is that node's hit count |
| SceneManager.FindCommonRoot | source/graphics_engine/SceneManager.cpp:1736-1757 | the result is a proper ancestor of every input node (the first one in key order), and nothing is returned only when there is no input or no such ancestor |
| SceneVariants.KeptNamesExact | source/graphics_engine/SceneManager.cpp:125-144 | with allVariants the model keeps every variant name; otherwise exactly the requested names, each as often as in the file, in file order |
| SceneVariants.SelectedIndices | source/graphics_engine/SceneManager.cpp:125-144 | an index is selected exactly when it is a variant index and allVariants is set or its name was requested |
| SceneVariants.LoadFilterAsWritten | source/graphics_engine/SceneManager.cpp:123-144 | as written, the filter keeps everything from earlier loads and adds this load's selected indices |
| SceneVariants.LoadFilter | source/graphics_engine/SceneManager.cpp:123-144 | corrected: the filter holds exactly this load's selected indices |
| SceneVariants.StaleVariantSurvivesNextLoad | source/graphics_engine/SceneManager.cpp:120-144 | after loading a file whose variant 0 is "red", loading a file with variants ["green", "red"] and asking for "red" leaves index 0 ("green") in the filter as written, while the corrected filter is {1} |
| SceneVariants.ApplyVariants | source/graphics_engine/SceneManager.cpp:1189-1199 | one mapping keeps every list the size of the default list |
| SceneVariants.ApplyMappings | source/graphics_engine/SceneManager.cpp:1169-1200 | one primitive's mappings keep every list the size of the default list; only the mappings the filter uses need a material |
| SceneVariants.SkippedMappingNeedsNoMaterial | source/graphics_engine/SceneManager.cpp:1172-1184 | a mapping none of whose variants is in the filter is skipped before its material is read: it needs no material, and applying it changes no list |
| SceneVariants.VariantLists | source/graphics_engine/SceneManager.cpp:1162-1202 | every variant list has one material per primitive; only the mappings the filter uses need a material |
| SceneVariants.ApplyVariantsEffect | source/graphics_engine/SceneManager.cpp:1189-1199 | each of the mapping's variants gets a list (starting from the defaults when new) whose slot i is the mapping's material; other lists are unchanged |
| SceneVariants.ApplyMappingsEffect | source/graphics_engine/SceneManager.cpp:1169-1200 | mappings with no variant in the filter are skipped; the slot takes the material of the last mapping naming the variant, and other slots are unchanged |
| SceneVariants.VariantListsExact | source/graphics_engine/SceneManager.cpp:1162-1202 | a variant has a list exactly when some used mapping names it; slot s holds the last such mapping's material for primitive s, or the default |
| SceneVariants.Least | source/graphics_engine/SceneManager.cpp:1204 | the least variant index of a non-empty set |
| SceneVariants.MeshVariants | source/graphics_engine/SceneManager.cpp:1203-1215 | mesh variants are created for exactly the listed variants in the filter, in ascending index order, each with its material list |
| MeshShader.Word | source/graphics_engine/MeshShaderProgram.h:5-10 | the material flag word uses only the six MAT_* bits |
| MeshShader.FlagBitsIndependent | source/graphics_engine/MeshShaderProgram.h:5-10 | the six MAT_* bits are distinct powers of two: each flag is set in the word exactly when its texture is on, and the word determines the flags |
| MeshShader.LessIsStrictTotalOrder | source/graphics_engine/MeshShaderProgram.h:20-26 | the lexicographic order on (materialFlags, morphTargetCount, coverageKernelDim) is irreflexive, transitive and asymmetric, and two parameter sets are incomparable exactly when equal |
| MeshShader.MorphTargetInputs | source/graphics_engine/MeshShaderProgram.h:41-51 | three inputs per morph target |
| MeshShader.MorphTargetLayout | source/graphics_engine/MeshShaderProgram.h:41-51 | morph target i's position, normal and tangent differences are three-component inputs at start+3i, start+3i+1 and start+3i+2 |
| MeshShader.VertexInputsContiguous | source/graphics_engine/MeshShaderProgram.h:433-525 | all vertex inputs sit at locations 0, 1, 2, … without gaps: morph targets start at 4 for static and at 6 for skinned shaders |
| MeshShader.CoverageOrderIsPermutation | source/graphics_engine/MeshShaderProgram.h:75-168 | for a supported dimension, the order in which kernel cells get covered visits every cell of the tile exactly once |
| MeshShader.Tile | source/graphics_engine/MeshShaderProgram.h:77 | a tile has dim squared cells |
| MeshShader.TileList | source/graphics_engine/MeshShaderProgram.h:75-168 | the kernel's tiles are the tiles of levels 0, 1, … in order |
| MeshShader.CoverageKernel | source/graphics_engine/MeshShaderProgram.h:68-185 | only dimensions 2 and 4 are accepted (anything else throws), and the kernel has (dim squared + 1) times dim squared entries |
| MeshShader.FlattenLength | source/graphics_engine/MeshShaderProgram.h:80-167 | concatenated tiles have the summed length |
| MeshShader.FlattenLookup | source/graphics_engine/MeshShaderProgram.h:80-167 | entry c of tile l sits at c + l times the tile size in the flattened kernel |
| MeshShader.IndexInPrefix | source/graphics_engine/MeshShaderProgram.h:70-72 | an index inside a tile of an earlier level lies before the end of the kernel |
| MeshShader.CoveredSetOne | source/graphics_engine/MeshShaderProgram.h:82-167 | covering one uncovered cell raises the covered count by one |
| MeshShader.NothingCovered | source/graphics_engine/MeshShaderProgram.h:77-80 | the first tile covers nothing |
| MeshShader.TileCells | source/graphics_engine/MeshShaderProgram.h:75-168 | tile k covers exactly the first k cells of the coverage order |
| MeshShader.TilesNested | source/graphics_engine/MeshShaderProgram.h:75-168 | tile k has exactly k covered cells, keeps every cell of tile k-1 covered, and the last tile is full |
| MeshShader.AllCellsListed | source/graphics_engine/MeshShaderProgram.h:75-168 | every cell is covered at some step |
| MeshShader.KernelLookup | source/graphics_engine/MeshShaderProgram.h:174-185 | kernel entry c + k times the tile size is cell c of tile k |
| MeshShader.MorphWeightsDeclared | source/graphics_engine/MeshShaderProgram.h:189-195 | the morphTargetWeights uniform is declared exactly when morphTargetCount > 0, with that many entries |
| MeshShader.SamplerBit | source/graphics_engine/MeshShaderProgram.h:5-10 | each sampler's bit is a real flag |
| MeshShader.FragmentSamples | source/graphics_engine/MeshShaderProgram.h:230-256 | the fragment shader samples a texture exactly when its MAT_* bit is set, each at most once |
| MeshShader.OcclusionBitIgnored | source/graphics_engine/MeshShaderProgram.h:230-256 | the occlusion bit never changes which textures are sampled |
| MeshShader.MorphWeightsUpload | source/graphics_engine/MeshShaderProgram.h:321-353 | the given weights are uploaded when their count equals morphTargetCount, zeros of that length otherwise |
| MeshShader.SetBones | source/graphics_engine/MeshShaderProgram.h:511-590 | at most 50 bone transforms are accepted, and the count uploaded is the number of transforms |
| RasterizerMesh.Assign | source/graphics_engine/RasterizerMesh.cpp:362-370 | assigning a mesh buffer copies count, stride, component size and type and leaves no GL handle |
| RasterizerMesh.UploadAll | source/graphics_engine/RasterizerMesh.cpp:68-80 | one uploaded buffer per source buffer, each keeping its source's layout and getting the next fresh handle |
| RasterizerMesh.UploadMorph | source/graphics_engine/RasterizerMesh.cpp:154-188 | exactly morphTargetCount position, normal and tangent difference buffers per submesh, each a copy of the mesh buffer's layout; target j gets three consecutive fresh handles, position then normal then tangent, as the per-target loop generates them |
| RasterizerMesh.UploadMorphAll | source/graphics_engine/RasterizerMesh.cpp:150-189 | one morph-buffer record per submesh, empty when there are no morph targets, handles assigned submesh after submesh and, within one, target after target |
| RasterizerMesh.BindMorphTargets | source/graphics_engine/RasterizerMesh.cpp:292-333 | one binding per morph target and stream, position, normal then tangent difference, at consecutive attribute locations from the start, three components each |
| RasterizerMesh.Create | source/graphics_engine/RasterizerMesh.cpp:39-66 | the mesh keeps the skinned flag and morph-target count it was created with |
| RasterizerMesh.CreateShape | source/graphics_engine/RasterizerMesh.cpp:52-202 | a mesh created from inputs that pass create's assertions has one buffer of each kind per submesh (joints and weights only when skinned) and copies each submesh's counts and index type |
| RasterizerMesh.CreateHandlesLive | source/graphics_engine/RasterizerMesh.cpp:68-202 | every buffer create stores holds a generated (non-zero) handle |
| RasterizerMesh.CreateStreamsLive | source/graphics_engine/RasterizerMesh.cpp:68-202 | every vertex-stream and index buffer holds a generated handle |
| RasterizerMesh.CreateMorphLive | source/graphics_engine/RasterizerMesh.cpp:150-189 | every morph difference buffer holds a generated handle |
| RasterizerMesh.Draw | source/graphics_engine/RasterizerMesh.cpp:207-351 | a draw binds positions, UVs, normals, tangents, then joints and weights when skinned, then three difference streams per morph target at consecutive locations 0, 1, 2, … whose component counts match the vertex shader's inputs; it draws the whole index buffer of the submesh and disables locations 0 to 3 |
| RasterizerMesh.DrawMatchesComponents | source/graphics_engine/RasterizerMesh.cpp:209-333 | bindings with the draw's component counts agree one for one with the vertex shader's declared inputs |
| RasterizerMesh.EnabledAfterDraw | source/graphics_engine/RasterizerMesh.cpp:346-350 | a location stays enabled after a draw exactly when it was bound and is not among the disabled ones |
| RasterizerMesh.DeleteBuffer | source/graphics_engine/RasterizerMesh.cpp:353-360 | a buffer's handle is freed exactly when it is non-zero, and the buffer is left with handle 0 |
| RasterizerMesh.DeleteBufferIdempotent | source/graphics_engine/RasterizerMesh.cpp:353-360 | deleting a buffer twice frees nothing the second time |
| RasterizerMesh.ReleasedAsWritten | source/graphics_engine/RasterizerMesh.cpp:17-37 | the destructor as written frees only handles the mesh holds |
| RasterizerMesh.Released | source/graphics_engine/RasterizerMesh.cpp:17-37 | the corrected release frees every handle the mesh holds |
| RasterizerMesh.MorphBuffersLeak | source/graphics_engine/RasterizerMesh.cpp:17-189 | for every created mesh with a submesh and a morph target, the destructor as written misses a live handle, while the corrected release frees them all |
| RasterizerEngine.ProgramParameters | source/graphics_engine/RasterizerEngine.cpp:389-399 | the albedo, metallic-roughness, normal and emissive bits are set exactly when the matching texture is valid; the occlusion and transmission bits are never set; the key carries the mesh's morph-target count and the current super-sampling factor |
| RasterizerEngine.SamplesValidTextures | source/graphics_engine/RasterizerEngine.cpp:389-399 | the selected program samples a texture exactly when the material has it valid, and never a transmission texture |
| RasterizerEngine.GetShaderProgram | source/graphics_engine/RasterizerEngine.cpp:401-418 | a key already in the skinned or static cache returns its program and changes nothing; an unknown key creates one new program for it in the right cache |
| RasterizerEngine.OneProgramPerKey | source/graphics_engine/RasterizerEngine.cpp:401-418 | after a request the caches stay valid, the returned program was built for that key and kind, and asking again returns the same program without creating another |
| RasterizerEngine.DistinctKeysDistinctPrograms | source/graphics_engine/RasterizerEngine.cpp:401-418 | two requests get the same program exactly when their (parameters, skinned) keys are equal |
| RasterizerEngine.DrawMesh | source/graphics_engine/RasterizerEngine.cpp:448-482 | the first primitive drawn without a cached program selects one from its own material and caches it; every primitive of this and every later draw uses the cached program, and nothing else of the mesh changes |
| RasterizerEngine.UpscaleFactorsSupported | source/graphics_engine/RasterizerEngine.cpp:393 | the viewport's factor 2 and the render jobs' factor 4 are exactly kernel sizes the mesh shader accepts |
| RasterizerEngine.UMul | source/graphics_engine/RasterizerEngine.cpp:178-193 | unsigned 32-bit products stay below 2^32 and are exact when they fit |
| RasterizerEngine.InitializeBuffers | source/graphics_engine/RasterizerEngine.cpp:166-189 | the emissive downscaler's factor is twice the super-sampling factor, the G-buffer, SSAO and PBR targets are w·ss by h·ss, and the emissive targets are half the viewport size (integer division) whenever the products fit in 32 bits |
| RasterizerEngine.ResizeBuffers | source/graphics_engine/RasterizerEngine.cpp:191-203 | resizing keeps the factors chosen at creation |
| RasterizerEngine.ResizeMatchesInitialize | source/graphics_engine/RasterizerEngine.cpp:166-203 | resizing with the creation factor gives exactly what creating the buffers at the new size gives |
| RasterizerEngine.HalfOfScaled | source/graphics_engine/RasterizerEngine.cpp:171-199 | (w·ss) / (2·ss) is w / 2 for every positive factor |
| RasterizerEngine.SubmitJob | source/graphics_engine/RasterizerEngine.cpp:813-817 | a submitted job is appended at the back and the queue before it is unchanged |
| RasterizerEngine.NextJob | source/graphics_engine/RasterizerEngine.cpp:915-919 | a draw runs no job exactly when the queue is empty, and otherwise takes the back job and leaves the rest |
| RasterizerEngine.LastSubmittedRunsFirst | source/graphics_engine/RasterizerEngine.cpp:813-919 | the queue behaves as a stack: the job submitted last runs next and the earlier ones stay queued |
| RasterizerEngine.CreateSkin | source/graphics_engine/RasterizerEngine.cpp:681-694 | a new skin keeps its inverse bind matrices and has one unbound joint per matrix and no skeleton |
| RasterizerEngine.CreateMesh | source/graphics_engine/RasterizerEngine.cpp:696-718 | a new mesh is skinned exactly when joint buffers are given, takes the first submesh's morph-target count (0 without morph targets), and its uploaded buffers have the shape drawing needs with live handles |
| SceneGraph.CreateScene | source/graphics_engine/RasterizerEngine.cpp:564-570 | a new empty scene with the given name is appended; nodes and earlier scenes are unchanged |
| SceneGraph.CreateNode | source/graphics_engine/RasterizerEngine.cpp:591-620 | the new node is appended with its name, container, local transform, mesh and skin and no children; it is added at the end of its parent's children or of its scene's roots, and every other node and scene keeps its lists |
| SceneGraph.CreateNodeKeepsConsistent | source/graphics_engine/RasterizerEngine.cpp:598-611 | creating a node keeps every node listed by the container it records, and every listed node recording that container |
| SceneGraph.AppendedKeepsConsistent | source/graphics_engine/RasterizerEngine.cpp:598-611 | appending a node to one container's list keeps the graph consistent |
| SceneGraph.AppendedNodesListed | source/graphics_engine/RasterizerEngine.cpp:598-611 | after an append every node's container exists and lists it |
| SceneGraph.AppendedChildren | source/graphics_engine/RasterizerEngine.cpp:603-606 | after an append every child listed by a node is a node that records that parent |
| SceneGraph.AppendedRoots | source/graphics_engine/RasterizerEngine.cpp:607-611 | after an append every root listed by a scene is a node that records that scene |
| SceneGraph.LoadModel | source/graphics_engine/RasterizerEngine.cpp:629-644 | with a preloaded file the load succeeds, clears the loaded file and adds the preloaded one; otherwise it fails exactly when reading the file fails, and keeps and adds what it read |
| SceneGraph.PreloadedIgnoresDisk | source/graphics_engine/RasterizerEngine.cpp:631-635 | with a preloaded file the outcome does not depend on what the disk would return |
| AnimationPlayer.Get | source/graphics_engine/AnimationPlayer.cpp:75-82 | the returned target is the library's entry for the name; a missing name is added with a default target and nothing else changes |
| AnimationPlayer.GetReturnsSameEntry | source/graphics_engine/AnimationPlayer.cpp:75-82 | asking for the same name twice gives the same entry and leaves the library as after the first request |
| AnimationPlayer.Peek | source/graphics_engine/AnimationPlayer.cpp:121-124 | the top track's name, or the empty string for an empty stack |
| AnimationPlayer.Push | source/graphics_engine/AnimationPlayer.cpp:84-100 | one new top track with zero elapsed time, the given blend time as both blend time and time left, not popping; a looping track inherits the previous top's loop time, otherwise it starts at 0; the tracks below are unchanged |
| AnimationPlayer.Pop | source/graphics_engine/AnimationPlayer.cpp:102-105 | removes exactly the top track |
| AnimationPlayer.PushPeekPop | source/graphics_engine/AnimationPlayer.cpp:84-124 | a pushed track is the one peeked, and popping it restores the previous stack |
| AnimationPlayer.PopSlowly | source/graphics_engine/AnimationPlayer.cpp:107-119 | an empty stack is left alone; otherwise only the top track is marked as popping |
| AnimationPlayer.PopSlowlyIdempotent | source/graphics_engine/AnimationPlayer.cpp:114-118 | marking the top track twice is the same as once |
| AnimationPlayer.WrapLoopTime | source/graphics_engine/AnimationPlayer.cpp:32-36 | the result is the input less a whole number of durations, no later than the animation's end and, when wrapping happened, within one duration of it; a time already in range is unchanged, and a duration is only needed when the time is past the end |
| AnimationPlayer.Advance | source/graphics_engine/AnimationPlayer.cpp:20-54 | elapsed time grows by the step; a non-looping track runs its loop time on with strength 0; a looping track's loop time is wrapped into the animation; while not popping or still within the blend time its strength is clamp(elapsed / blend) (1 without blend time) and its time left is kept; once popping past the blend time the time left drops by the step and the strength is clamp(timeLeft / blend) (0 without blend time) |
| AnimationPlayer.AdvancedLoopTimeInRange | source/graphics_engine/AnimationPlayer.cpp:26-36 | a looping track's new loop time is its old loop time plus the step, less whole durations, no later than the animation's end and unchanged by the wrap when already in range |
| AnimationPlayer.FadeInReachesFull | source/graphics_engine/AnimationPlayer.cpp:39-42 | a fading-in track with a positive blend time is at full strength exactly when its elapsed time has reached the blend time |
| AnimationPlayer.RatioReachesOne | source/graphics_engine/AnimationPlayer.cpp:39-42 | the clamped ratio elapsed / blend time is 1 exactly when the elapsed time has reached the blend time |
| AnimationPlayer.UnblendedTrackIsFull | source/graphics_engine/AnimationPlayer.cpp:39-44 | a looping, non-popping track without blend time plays at full strength |
| AnimationPlayer.UnblendedPoppedTrackIsGone | source/graphics_engine/AnimationPlayer.cpp:46-52 | a popping track past its blend time with no blend time has strength 0 |
| AnimationPlayer.AdvanceAll | source/graphics_engine/AnimationPlayer.cpp:22-59 | each track is advanced with its strength recorded at the same position |
| AnimationPlayer.FirstApplied | source/graphics_engine/AnimationPlayer.cpp:21-58 | the last position with full strength when one exists (0 otherwise): every later strength is below 1 |
| AnimationPlayer.Kept | source/graphics_engine/AnimationPlayer.cpp:61-66 | the tracks kept all have non-zero strength |
| AnimationPlayer.KeptExact | source/graphics_engine/AnimationPlayer.cpp:61-66 | a (track, strength) pair is kept exactly when it sits at or after the starting position with non-zero strength |
| AnimationPlayer.KeptLoopingAndPositive | source/graphics_engine/AnimationPlayer.cpp:29-66 | every kept track loops and has strength in (0, 1] |
| AnimationPlayer.AdvancedStrengths | source/graphics_engine/AnimationPlayer.cpp:22-54 | after advancing, every strength is in [0, 1] and is zero unless the track loops |
| AnimationPlayer.UpdateAsWritten | source/graphics_engine/AnimationPlayer.cpp:17-73 | the update as written leaves the zero-strength tracks removed from the stack |
| AnimationPlayer.Update | source/graphics_engine/AnimationPlayer.cpp:17-73 | the corrected update leaves the same stack as the update as written |
| AnimationPlayer.UpdateKeepsLoopingTracks | source/graphics_engine/AnimationPlayer.cpp:22-66 | after an update only looping tracks remain |
| AnimationPlayer.Positions | source/graphics_engine/AnimationPlayer.cpp:61-66 | the positions whose strength is not zero, each in range, strictly increasing and all of them |
| AnimationPlayer.KeptAt | source/graphics_engine/AnimationPlayer.cpp:61-66 | the k-th kept pair is the track and strength at the k-th non-zero position |
| AnimationPlayer.SurvivorsInOrder | source/graphics_engine/AnimationPlayer.cpp:61-66 | the stack after an update is exactly the advanced non-zero-strength tracks in their original order |
| AnimationPlayer.SurvivorsExact | source/graphics_engine/AnimationPlayer.cpp:61-66 | a track survives exactly when its advanced strength is not zero |
| AnimationPlayer.UpdateAppliesOwnStrength | source/graphics_engine/AnimationPlayer.cpp:56-72 | every track the corrected update applies is a survivor from the last full-strength position on, applied at its loop time with its own strength in (0, 1] |
| AnimationPlayer.UpdateAppliesSurvivorsInOrder | source/graphics_engine/AnimationPlayer.cpp:56-72 | the corrected update applies exactly the tracks with non-zero strength from the last full-strength position on, in stack order, each at its loop time with its own strength |
| AnimationPlayer.StrengthsMisalignedAfterRemoval | source/graphics_engine/AnimationPlayer.cpp:61-72 | on a three-track stack whose middle track is removed, the update as written applies the third track with strength 0 while the corrected update applies it with its own 0.5 |
| MeshTools.Element | source/graphics_engine/Tools.cpp:315-316 | an element read from a buffer has the vector's number of components |
| MeshTools.Combine | source/graphics_engine/Tools.cpp:318-328 | every component of the result is the sum (Add) or difference (Sub) of the matching components |
| MeshTools.SubUndoesAdd | source/graphics_engine/Tools.cpp:318-328 | subtracting what was added gives back the original vector |
| MeshTools.Write | source/graphics_engine/Tools.cpp:329-365 | a write puts the vector at its offset and leaves every other component unchanged |
| MeshTools.SpansDisjoint | source/graphics_engine/Tools.cpp:313-330 | when an element fits in the stride, earlier elements end before later ones start |
| MeshTools.WriteElements | source/graphics_engine/Tools.cpp:313-365 | components outside every element's span keep their value, and when elements fit in the stride each element holds the vector written to it |
| MeshTools.BufferOperation | source/graphics_engine/Tools.cpp:298-330 | for buffers of equal count and component size, for vec2, vec3 or vec4, every output element is the component-wise sum or difference of the input elements, each read at its own stride, and nothing outside the elements changes |
| MeshTools.Storage | source/graphics_engine/Tools.cpp:341-342 | newly resized storage has count·stride zeroed components |
| MeshTools.StorageFits | source/graphics_engine/Tools.cpp:341-365 | every element of a buffer whose stride covers an element lies inside the resized storage |
| MeshTools.BufferInitialization | source/graphics_engine/Tools.cpp:336-372 | the new buffer copies the source's count, stride, component size and type over count·stride fresh components; with Copy each element is the source's element, with Zero each is the zero vector, with None the storage is left as allocated; components outside the elements stay zero |
| Pathtracer.BeginUpdate | source/graphics_engine/PathtracerEngine.cpp:78-83 | the counter goes up by one; the session is suspended (one suspend request) only when no update was in progress |
| Pathtracer.EndUpdate | source/graphics_engine/PathtracerEngine.cpp:85-91 | the counter goes down by one and never below zero; the session is resumed (one resume request) only when the last update ends |
| Pathtracer.IdleIsBalanced | source/graphics_engine/PathtracerEngine.cpp:78-91 | an idle session is not suspended and has received no requests |
| Pathtracer.UpdatesKeepBalance | source/graphics_engine/PathtracerEngine.cpp:78-91 | entering or leaving an update keeps the session suspended exactly while the counter is positive |
| Pathtracer.Nested | source/graphics_engine/PathtracerEngine.cpp:139-157 | nested guards, each released in reverse order, restore the counter |
| Pathtracer.NestedRestores | source/graphics_engine/PathtracerEngine.cpp:78-157 | however deeply guards nest, the counter and suspension state are restored, and only the outermost guard on an idle session asks for one suspend and one resume |
| Pathtracer.Guarded | source/graphics_engine/PathtracerEngine.cpp:139-157 | one guarded call restores the counter and suspension state, suspending and resuming only when entered from idle |
| Pathtracer.RenderOffline | source/graphics_engine/PathtracerEngine.cpp:524-527 | a submitted job is appended at the back; whether a job is running is unchanged |
| Pathtracer.Update | source/graphics_engine/PathtracerEngine.cpp:213-234 | a frame starts the front job only when one is waiting and none is running, and otherwise changes nothing |
| Pathtracer.Finish | source/graphics_engine/PathtracerEngine.cpp:646 | the worker marks the engine idle and leaves the queue alone |
| Pathtracer.JobsRunInSubmissionOrder | source/graphics_engine/PathtracerEngine.cpp:213-234 | jobs start in exactly the order they were submitted |
| Pathtracer.OneJobAtATime | source/graphics_engine/PathtracerEngine.cpp:216 | while a job runs, no frame starts another, whatever is submitted meanwhile |
| Pathtracer.CreateNode | source/graphics_engine/PathtracerEngine.cpp:271-300 | the new node is appended to its container's list with the given name, transform and mesh, and never a skin |
| Pathtracer.CreateNodeIgnoresSkin | source/graphics_engine/PathtracerEngine.cpp:276-296 | the skin argument makes no difference, and creating a node keeps the graph consistent |
| Pathtracer.CreateMesh | source/graphics_engine/PathtracerEngine.cpp:343-398 | with no joint or weight buffers, the mesh keeps its name, materials and bounds, is not skinned, has no morph targets and has one primitive per material built from the buffers at that material's index |
| Pathtracer.CreateMeshIgnoresMorphTargets | source/graphics_engine/PathtracerEngine.cpp:362-386 | morph targets and buffers past the last material do not change the mesh |
| NavigationMesh.PolyAreaFlags | source/game_core/NavigationMesh.cpp:228-244 | the walkable area becomes ground; ground, grass and road polygons get the walk flag, water polygons the swim flag, door polygons walk and door; any other area keeps its flags |
| NavigationMesh.PolyFlags | source/game_core/NavigationMesh.cpp:228-244 | every polygon's area and flags are updated on their own, at the same position |
| NavigationMesh.PolyFlagsIdempotent | source/game_core/NavigationMesh.cpp:228-244 | updating the flags a second time changes nothing |
| NavigationMesh.Corners | source/game_core/NavigationMesh.cpp:396-408 | each triangle gives its three corners v0, v0 + e1 and v0 + e2, transformed to world space, in order |
| NavigationMesh.Floats | source/game_core/NavigationMesh.cpp:410-423 | the corners are stored as x, y, z floats, three per corner |
| NavigationMesh.AddMesh | source/game_core/NavigationMesh.cpp:387-425 | a missing or skinned mesh adds nothing; a static mesh appends its world-space corners, one index per corner counting on from the current index list, and grows the bounds by every corner |
| NavigationMesh.AddMeshKeeps | source/game_core/NavigationMesh.cpp:393-424 | adding a mesh keeps the indices 0, 1, …, n-1 over 3n floats and keeps every enclosed point enclosed |
| NavigationMesh.AddMeshEncloses | source/game_core/NavigationMesh.cpp:418-421 | every corner a mesh adds lies inside the bounds afterwards |
| NavigationMesh.AddNodeGeometryKeeps | source/game_core/NavigationMesh.cpp:385-432 | gathering a whole node tree keeps the geometry well formed and keeps every enclosed point enclosed |
| NavigationMesh.AddChildrenKeeps | source/game_core/NavigationMesh.cpp:427-431 | gathering the children in order, each under the composed transform, keeps the geometry well formed and the bounds growing |
| NavigationMesh.Deinitialize | source/game_core/NavigationMesh.cpp:291-312 | every Recast and Detour object is released, the vertex and triangle lists are emptied and the bounds reset to the empty box |
| NavigationMesh.DeinitializeResets | source/game_core/NavigationMesh.cpp:291-312 | after deinitialising, the geometry is well formed, its bounds contain no point, and deinitialising again changes nothing |
| NavigationMesh.Corner | source/game_core/NavigationMesh.cpp:356-371 | a detail corner below the polygon's vertex count is a polygon vertex; a later one is a detail vertex counted from the polygon's detail base |
| NavigationMesh.PolyVertices | source/game_core/NavigationMesh.cpp:353-376 | three vertices per detail triangle, vertex 3j + k being corner k of detail triangle j |
| NavigationMesh.Counter | source/game_core/NavigationMesh.cpp:348-375 | the 16-bit index counter equals the number of increments while that fits, and never exceeds it |
| NavigationMesh.Attributes | source/game_core/NavigationMesh.cpp:376-380 | each vertex gets the (x, z) UV, the up normal and the x-axis tangent, and the bounds grow by every vertex |
| NavigationMesh.GetTileGeometryAsWritten | source/game_core/NavigationMesh.cpp:330-383 | an off-mesh link yields nothing; otherwise the polygon's detail vertices come with three indices per vertex |
| NavigationMesh.GetTileGeometry | source/game_core/NavigationMesh.cpp:330-383 | the corrected geometry has one index per vertex, and every index names a vertex |
| NavigationMesh.GetTileGeometryDrawsDetailTriangles | source/game_core/NavigationMesh.cpp:354-376 | in the corrected geometry, detail triangle j is drawn from exactly its own three corners |
| NavigationMesh.TileIndicesOverrunVertices | source/game_core/NavigationMesh.cpp:373-376 | as written, every polygon with a detail triangle gets an index naming no vertex |
| ImageMemory.PixelType | source/cycles/src/app/image_memory_oiio.cpp:49-85 | the storage type is half exactly when the main format is half, float exactly when it is not but some format is floating point, 16-bit unsigned exactly when no format is floating point and the main one is 16-bit unsigned, bytes otherwise; the four-channel variant exactly when there is more than one channel |
| ImageMemory.ScanChannelFormats | source/cycles/src/app/image_memory_oiio.cpp:59-64 | the scan reports floating point exactly when some channel format is floating point |
| ImageMemory.LoadMetadata | source/cycles/src/app/image_memory_oiio.cpp:32-93 | no metadata exactly when the image cannot be opened; otherwise size, depth, channels, storage type, file format and colour-space hint come from the header and the sRGB flag from the loader |
| ImageMemory.FloatDataStaysFloat | source/cycles/src/app/image_memory_oiio.cpp:52-79 | an image with any floating-point channel gets a half or float storage type |
| ImageMemory.DoAssociateAlpha | source/cycles/src/app/image_memory_oiio.cpp:190-208 | alpha is associated exactly when asked for, the image has an alpha channel, and the format is DDS, PSD, or Targa whose alpha type is not 4 |
| ImageMemory.Flatten | source/cycles/src/app/image_memory_oiio.cpp:114-128 | rows laid out one after another start with the first row |
| ImageMemory.Reverse | source/cycles/src/app/image_memory_oiio.cpp:114-125 | reversal keeps the length and puts element i at the mirrored position |
| ImageMemory.Read | source/cycles/src/app/image_memory_oiio.cpp:114-128 | a flat image is stored bottom row first (negative scanline stride); a volume is stored in file order |
| ImageMemory.ReadFlipsFlatImages | source/cycles/src/app/image_memory_oiio.cpp:114-125 | reading a flat image whose rows were flipped gives the rows back in file order |
| ImageMemory.Compact | source/cycles/src/app/image_memory_oiio.cpp:109-139 | with more than four channels each of the width·height pixels keeps exactly its first four channels in order; otherwise the pixels are unchanged |
| ImageMemory.CmykToRgba | source/cycles/src/app/image_memory_oiio.cpp:147-156 | each colour is (1 - ink)·(1 - black) and alpha is one |
| ImageMemory.Cmyk | source/cycles/src/app/image_memory_oiio.cpp:141-157 | only four-channel JPEG images are converted, over width·height·depth pixels, and every other pixel is unchanged |
| ImageMemory.Associate | source/cycles/src/app/image_memory_oiio.cpp:159-166 | colour channels are multiplied by alpha and alpha is kept |
| ImageMemory.AssociateAll | source/cycles/src/app/image_memory_oiio.cpp:159-167 | association applies only to four-channel images when enabled, over width·height pixels, and every other pixel is unchanged |
| ImageMemory.OpaqueAssociationIsIdentity | source/cycles/src/app/image_memory_oiio.cpp:159-166 | associating an opaque pixel changes nothing |
| ImageMemory.CmykThenAssociateIsCmyk | source/cycles/src/app/image_memory_oiio.cpp:141-167 | association after the CMYK conversion changes none of the converted pixels |
| ImageMemory.ImagePixels | source/cycles/src/app/image_memory_oiio.cpp:114-128 | `read_image` writes width·height pixels of a flat image and width·height·depth of a volume |
| ImageMemory.TmpPixelsAsWritten | source/cycles/src/app/image_memory_oiio.cpp:107-112 | the temporary buffer of an image with more than four channels holds width·height pixels, whatever the depth |
| ImageMemory.VolumeOverrunsTmpPixels | source/cycles/src/app/image_memory_oiio.cpp:107-128 | for a volume with more than four channels the read writes width·height·(depth - 1) pixels past the temporary buffer |
| ImageMemory.TwoSliceVolumeOverruns | source/cycles/src/app/image_memory_oiio.cpp:107-128 | a 1×1×2 five-channel volume: the buffer holds one pixel and the read writes two |
| ImageMemory.TmpPixels | source/cycles/src/app/image_memory_oiio.cpp:107-112 | the corrected buffer holds every pixel the read writes, and is the written size for flat images |
| ImageMemory.LoadPixels | source/cycles/src/app/image_memory_oiio.cpp:170-248 | nothing is loaded exactly when the image cannot be opened; the NanoVDB kinds and the sentinel leave the storage as it was and still report success |
| ImageMemory.NarrowImagesLoadAsRead | source/cycles/src/app/image_memory_oiio.cpp:104-167 | with fewer than four channels the storage holds the pixels exactly as read |
| ImageMemory.WideImagesLoadCompacted | source/cycles/src/app/image_memory_oiio.cpp:104-139 | with more than four channels, at any depth, the storage holds the first width·height pixels read, each cut to its first four channels |
| ImageMemory.CmykJpegLoadsOpaque | source/cycles/src/app/image_memory_oiio.cpp:141-227 | every pixel of a four-channel JPEG the conversion covers is stored as its RGBA conversion and is opaque, whether or not association was asked for |
| ImageMemory.FlattenWidths | source/cycles/src/app/image_memory_oiio.cpp:104-128 | flattening rows of n-channel pixels gives n-channel pixels |
| ImageMemory.Equals | source/cycles/src/app/image_memory_oiio.cpp:260-264 | a loader never compares equal to another, itself included |
| LibList.Matching | source/lib/get_lib_list.py:7-9 | a path is listed for a directory exactly when it joins the directory with one of its files ending in the extension |
| LibList.FindFilesExact | source/lib/get_lib_list.py:4-10 | a path is found exactly when some directory of the walk has a file ending in the extension and the path joins the two |
| LibList.FindFiles | source/lib/get_lib_list.py:4-10 | every path found ends in the extension |
| LibList.JoinKeepsEnding | source/lib/get_lib_list.py:9 | joining a directory in front of a file name keeps the name's ending |
| LibList.IndexOf | source/lib/get_lib_list.py:13-20 | the position of the first occurrence of the separator, or the length when there is none |
| LibList.SplitStep | source/lib/get_lib_list.py:13-20 | splitting text that starts with a separator-free piece and a separator yields that piece followed by the split of the rest |
| LibList.IndexOfPrefix | source/lib/get_lib_list.py:13-20 | the first separator after a separator-free piece is at the piece's length |
| LibList.SplitTerminated | source/lib/get_lib_list.py:16-20 | splitting items each followed by the separator gives the items back, followed by the split of what comes after |
| LibList.SaveListRoundTrip | source/lib/get_lib_list.py:13-20 | for items without newlines or semicolons, both the one-line and the readable sections of the saved file give back exactly the items, in order |
| LibList.SavedLines | source/lib/get_lib_list.py:13-20 | the saved file's lines are "ONE LINE:", the semicolon-terminated items, an empty line, "READABLE:", then one item per line |
| LibList.Terminated | source/lib/get_lib_list.py:16-17 | terminating the items adds one character per item to their total length |
| LibList.SaveListToFile | source/lib/get_lib_list.py:13-20 | the saved file's length is the two headers plus twice the items' total length and count |
| LibList.TerminatedAvoids | source/lib/get_lib_list.py:16-20 | terminating items with one character adds no other character |
| LibList.RemoveDuplicates | source/lib/get_lib_list.py:23-24 | the result holds exactly the input's members, each once |
| LibList.IsDebugDll | source/lib/get_lib_list.py:32-71 | a name is a debug DLL exactly when it is in the debug list |
| LibList.IsOptimizedDll | source/lib/get_lib_list.py:74-91 | a name is an optimized DLL exactly when it is in the optimized list |
| LibList.DualListedDlls | source/lib/get_lib_list.py:65-84 | epoxy-0, SDL2, openvdb and tbb are in both lists |
| LibList.Basename | source/lib/get_lib_list.py:131 | the base name is the suffix of the path after its last separator: it holds no separator, and the character before it, when there is one, is a separator |
| LibList.CopiesFor | source/lib/get_lib_list.py:130-135 | a DLL is copied to the debug folder exactly when its base name is a debug DLL, and to the optimized folder exactly when it is an optimized DLL |
| LibList.Copies | source/lib/get_lib_list.py:132-135 | a copy to the debug folder exactly when the DLL is a debug DLL, one to the optimized folder exactly when it is optimized, each of the given path, at most two |
| LibList.CopyDllsExact | source/lib/get_lib_list.py:127-135 | a found DLL is copied to a folder exactly when its base name is in that folder's list |
| LibList.CopyDllsFrom | source/lib/get_lib_list.py:127-135 | every copy is of a found DLL whose base name is in the target folder's list |
| LibList.CopyDlls | source/lib/get_lib_list.py:127-135 | at most two copies per found DLL, each of a found DLL |
| LibList.TbbCopiedToBoth | source/lib/get_lib_list.py:67-135 | a found tbb.dll is copied to both folders |
| LibList.BasenameOfJoin | source/lib/get_lib_list.py:9-131 | the base name of a joined path is the file name joined on |

## Left out

- OpenGL calls: buffer uploads, shader compilation, texture binding and draw calls. GL object handles are modelled as consecutive numbers handed out from a first free handle, and a draw as the list of bindings it sets.
- Cycles itself: the session, scene, shader graph and mesh objects. A session is reduced to the suspend and resume requests it receives. `createMaterial`, `createImage` and `addNodeToCycles` in PathtracerEngine.cpp only translate into Cycles objects, so they are not modelled.
- glTF parsing by tinygltf, image decoding by OpenImageIO, the Recast/Detour navigation-mesh build, the Blender `bpy` operators and the glTF writer are foreign libraries. Their results enter the model as parameters: a parsed document, a file's rows of pixels, a built tile, a scene tree.
- Concurrency: the asynchronous model loaders and the render-job worker thread. Only the queue discipline is kept: one job at a time, in submission order for the path tracer, and last-submitted first for the rasterizer.
- Floating-point rounding: floats and doubles are `real`. OpenImageIO's storage conversions between half, float and 8/16-bit formats are not modelled; pixels are reals already in storage form.
- File-system I/O in the build helper: `os.walk` is a parameter (the walk's output), and `shutil.copy`, `shutil.rmtree` and `create_folder` become the list of copies to make. Path joining always inserts a backslash, whereas `os.path.join` does not add one after a trailing separator.
- The rasterizer's render passes (RasterizerEngine.cpp:261-363): shadow, opaque, transparent, coverage resolve and post-processing issue GL state changes and draw calls, and have no logic beyond the per-mesh draw that is modelled.
- `importScene`, `updateNodeLocalTransform`, `createMeshVariant` and `loadModel_Async` in the engines forward to the modelled operations or to the threads above.
- NavigationMesh `getTiles`, the build and `getTileGeometryPolyCount` wrap Detour queries.
- Interior builder: object names, custom properties on the cell and level objects beyond those recorded, the wall rotations and the glTF imports of the floor and wall meshes are Blender calls and are not modelled. Blender's object identities are replaced by numbers handed out in creation order.
- ImageMemory's `name()` and `osl_filepath()` accessors return stored fields.
- EngineTypes.IsHit, EngineTypes.NoHit and EngineTypes.IsValid are plain definitions used by other contracts, without a contract of their own.
- AnimationPlayer.Pop requires a non-empty stack; popping an empty stack is undefined behaviour in the engine.
- AnimationPlayer.Advance requires a looping track's animation to exist, since the engine dereferences it to read the end time, and to last a positive time when the advanced loop time is past the end, since otherwise the wrap loop never ends. The same holds for every track in AnimationPlayer.Update and its lemmas.
- SceneManager.SortInfluences: when no weight is positive the engine never assigns the triangle's weight count, so the field keeps whatever the uninitialised struct held; the model returns `None` there and promises no value.
- MeshTools.BufferOperation requires the three buffers to agree in count and component size and every element to lie inside its buffer; the engine asserts the first and reads out of bounds otherwise.
- MeshTools.BufferInitialization requires each source element to fit in the stride and, when copying, to lie inside the source buffer; the engine reads out of bounds otherwise.
- ImageMemory.LoadPixels models image depth as a natural number and follows the corrected temporary buffer (see Findings), so it also covers volumes with more than four channels, which the engine as written reads past the end of its buffer. Channel compaction and alpha association are stated for the first width × height pixels, as the engine loops over them.
- Exporter.ParseInt accepts the whitespace Python strips and ASCII decimal digits with underscores between digit groups; it does not accept the other Unicode decimal digits that Python's `int()` also reads.
- MeshTools counts strides and offsets in float components, where the engine counts bytes and copies componentSize × n bytes per element. The operations are instantiated only for float vectors, so the model takes 4-byte components and byte strides that are multiples of four: one unit here is four bytes there. Strides that are not a multiple of the component size are not modelled.
- RasterizerEngine.InitializeBuffers requires a positive upscale factor whose double fits in 32 bits; the buffer sizes are stated as 32-bit products.
- RasterizerEngine.CreateMesh and RasterizerMesh.Create require the source buffers that `create` asserts or reads for every submesh and morph target.
- NavigationMesh.GetTileGeometryDrawsDetailTriangles requires fewer than 65536 indices for the polygon, so that the 16-bit index counter does not wrap.
- NavigationMesh.AddMeshKeeps requires the gathered geometry to be well formed (three coordinates per index, and index k equal to k), which AddMesh keeps.
- GltfLoader.LoadTransmission requires the extension to be a JSON object whose factor is a number and whose texture is an object; the parser's behaviour on other JSON types is not modelled.
- GltfLoader.LoadIor requires the extension to be a JSON object whose `ior` is a number.
- GltfLoader.LoadVolume requires the extension to be a JSON object with numeric factors and an object-valued texture.
- GltfLoader.LoadEmissiveStrength requires the extension to be a JSON object whose strength is a number.
- GltfLoader.LoadLightsPunctual requires the extension to be a JSON object whose `light` is a number.
- GltfLoader.LoadTextureTransform requires the extension to be a JSON object whose offset and scale are pairs of numbers and whose rotation and texture coordinate set are numbers.
- GltfLoader.LoadVariantNames requires the variants to be an array of objects.
- GltfLoader.LoadMappings requires the mappings to be an array of objects with a material number and an array of variant numbers.
- GltfModel: node-hierarchy construction requires the node graph to be acyclic (witnessed by a height per node), which section 3.5.1 of the glTF 2.0 specification demands and the loader's unguarded recursion relies on.
- Environment.LoadLibraryAsset requires the loader to return meshes whose materials are named, as the engine asserts.
- Environment.AddLibraryAssets requires every library record to have the shape the engine asserts before reading it.
- SceneVariants.VariantLists and SceneVariants.ApplyMappings require a material (a non-negative index) only of the mappings the filter uses. The engine asserts the index is not -1 there and then indexes the model's materials with it. Mappings the filter skips may lack a material, as in the engine.
- Exporter.NoStraddle requires that the database directory does not occur inside the project root, so that the first occurrence found in a library path is the one after the root.
- SceneManager.InterpolationValues, SceneManager.SegmentStart and the lemmas about them take samplers with two or more keys. Fewer keys are the Findings case: SceneManager.LookupAsWritten models the engine's undefined lookup there, and SceneManager.SampleSegment the single key held.
- SceneManager.SampleSegment requires at least one key: a glTF accessor holds at least one element, and with no key the engine's lookup reads outside the map.
- Environment.AddLibraryAsset and Environment.ResolveSlot return a failure where the engine's behaviour is undefined. For a missing asset or node, `idToLibraryAsset[assetId]` and `mNameToNode[nodeName]` insert empty entries and a null node is imported. For a missing replacement material, `find(replacementName)->second` dereferences `end()`. A slot past the mesh's materials is read out of range by `materials[j]`. An overridden node without a mesh fails the engine's assert. The model promises nothing about what the engine does then, and does not model the empty entries the lookups insert.
- Exporter.Record: an object without a data block makes the exporter raise AttributeError when it reads the data's override; the model reports a failure with its own reason instead of the exception, and Exporter.Export then fails like for any other raising record.
- Exporter.Export: on failure the model returns the exception's reason; the export does not run, the scene property keeps its previous value and the selection stays switched to the export selection, because the operator raises before it sets the property and before it restores the selection.

## Findings

| source | as written | input that shows it | evidently intended | confidence | as-written member | corrected member |
|---|---|---|---|---|---|---|
| source/game_core/NavigationMesh.cpp:373-376 | each detail-triangle corner pushes one vertex but three indices, each taken from the running counter | any walkable polygon with one detail triangle: 3 vertices, 9 indices, and index 3 names no vertex | one index per vertex, so that the indices draw the detail triangles | medium, not executed | NavigationMesh.GetTileGeometryAsWritten | NavigationMesh.GetTileGeometry |
| source/graphics_engine/GLTFModelLoader.cpp:123 | the extension validation reports failure, but the loader returns the model anyway | a .glb whose document lists KHR_materials_ior under extensionsRequired | a model that requires an unsupported extension is not loaded, as the failure message says | medium, not executed | GltfLoader.LoadModelAsWritten | GltfLoader.LoadModel |
| source/graphics_engine/SceneManager.cpp:123-144 | the variant filter is only ever added to, so indices selected for an earlier file stay selected | load a file whose variant 0 is "red" with filter "red", then a file with variants "green", "red" with filter "red": variant 0 ("green") stays selected | the filter holds the indices selected for the file being loaded | medium, not executed | SceneVariants.LoadFilterAsWritten | SceneVariants.LoadFilter |
| source/graphics_engine/RasterizerMesh.cpp:17-37 | the destructor frees the vertex, index and joint buffers but not the morph-target buffers | any mesh created with a submesh and a morph target | every buffer the mesh created is freed | high, not executed | RasterizerMesh.ReleasedAsWritten | RasterizerMesh.Released |
| source/graphics_engine/AnimationPlayer.cpp:61-72 | zero-strength tracks are erased from the stack while the strength array keeps its old positions, so later tracks read a neighbour's strength | three looping tracks on a 10 s animation, dt 1: full, popped with no blend, blend time 2; the third is applied with strength 0 instead of 0.5 | each track is applied with its own strength | high, not executed | AnimationPlayer.UpdateAsWritten | AnimationPlayer.Update |
| source/cycles/src/app/image_memory_oiio.cpp:107-128 | with more than four channels the temporary buffer holds width·height·channels values, but `read_image` writes the whole image, width·height·depth·channels values | a 1×1×2 volume with five channels: a buffer of one pixel receives two | a temporary buffer sized by the whole image, width·height·depth·channels | medium, not executed | ImageMemory.VolumeOverrunsTmpPixels | ImageMemory.TmpPixels |
| source/graphics_engine/SceneManager.cpp:1570-1579 | with a single key, `upper_bound` returns `end()` at or after the key, and the code steps back to `begin()` and takes `std::prev` of it; before the key it returns `begin()`, and the code steps forward to `end()` and dereferences it | a sampler with one key, which the animation loader stores as given, at any time | the single key's output held at every time | medium, not executed | SceneManager.LookupAsWritten | SceneManager.SampleSegment |

=== FILE: animation_player.dfy ===
/**
 * The animation player: a stack of animation tracks blended over time.
 * Pushing starts a track that fades in, popping slowly lets the top track
 * fade out, and every update advances the tracks, drops those whose
 * strength has reached zero and applies the rest to the engine.
 *
 * A track refers to its animation target by name: the target lives in the
 * player's library under that name for as long as the player exists.
 */
module AnimationPlayer {
  import opened Common

  datatype Animation = Animation(inputMax: real, inputDuration: real)

  /** An animation target; one created on demand has no animation and no nodes. */
  datatype Target = Target(animation: Option<Animation>, nodes: seq<nat>)

  const DefaultTarget: Target := Target(None, [])

  datatype Track = Track(name: string, elapsedTime: real, loopTime: real, blendTime: real, loop: bool, pop: bool,
                         timeLeft: real)

  datatype Player = Player(library: map<string, Target>, stack: seq<Track>, playbackSpeed: real)

  // ---------------------------------------------------------------------------
  // Library and stack operations
  // ---------------------------------------------------------------------------

  /** The library entry for `name`, created with the default target if missing. */
  function Get(library: map<string, Target>, name: string): (r: (map<string, Target>, Target))
    ensures name in r.0 && r.1 == r.0[name]
    ensures name in library ==> r.0 == library
    ensures name !in library ==> r.0 == library[name := DefaultTarget]
  {
    if name in library then (library, library[name]) else (library[name := DefaultTarget], DefaultTarget)
  }

  /** Asking for the same name again returns the same entry and changes nothing. */
  lemma GetReturnsSameEntry(library: map<string, Target>, name: string)
    ensures Get(Get(library, name).0, name) == Get(library, name)
  {
  }

  /** The name of the top track, or the empty string for an empty stack. */
  function Peek(p: Player): (name: string)
    ensures p.stack == [] ==> name == ""
    ensures p.stack != [] ==> name == p.stack[|p.stack| - 1].name
  {
    if p.stack == [] then "" else p.stack[|p.stack| - 1].name
  }

  /**
   * A new top track bound to the library entry for `name`, fading in over
   * `blendTime`. A looping track continues the previous top track's loop
   * time; otherwise it starts at 0.
   */
  function Push(p: Player, name: string, blendTime: real, loop: bool): (q: Player)
    ensures |q.stack| == |p.stack| + 1 && q.stack[..|p.stack|] == p.stack
    ensures q.library == Get(p.library, name).0 && q.playbackSpeed == p.playbackSpeed
    ensures var t := q.stack[|p.stack|];
            && t.name == name && t.elapsedTime == 0.0 && t.blendTime == blendTime && t.timeLeft == blendTime
            && t.loop == loop && !t.pop
            && t.loopTime == (if loop && p.stack != [] then p.stack[|p.stack| - 1].loopTime else 0.0)
  {
    var loopTime := if loop && p.stack != [] then p.stack[|p.stack| - 1].loopTime else 0.0;
    var track := Track(name, 0.0, loopTime, blendTime, loop, false, blendTime);
    Player(Get(p.library, name).0, p.stack + [track], p.playbackSpeed)
  }

  /** Removes the top track at once; the stack must not be empty. */
  function Pop(p: Player): (q: Player)
    requires p.stack != []
    ensures q.stack == p.stack[..|p.stack| - 1] && q.library == p.library && q.playbackSpeed == p.playbackSpeed
  {
    p.(stack := p.stack[..|p.stack| - 1])
  }

  /** A pushed track is the one peeked, and popping it restores the stack it was pushed on. */
  lemma PushPeekPop(p: Player, name: string, blendTime: real, loop: bool)
    ensures Peek(Push(p, name, blendTime, loop)) == name
    ensures Pop(Push(p, name, blendTime, loop)).stack == p.stack
  {
  }

  /** Marks the top track to fade out; an empty stack is left alone. */
  function PopSlowly(p: Player): (q: Player)
    ensures p.stack == [] ==> q == p
    ensures p.stack != [] ==>
              && |q.stack| == |p.stack| && q.stack[..|p.stack| - 1] == p.stack[..|p.stack| - 1]
              && q.stack[|p.stack| - 1] == p.stack[|p.stack| - 1].(pop := true)
              && q.library == p.library && q.playbackSpeed == p.playbackSpeed
  {
    if p.stack == [] then p
    else
      var n := |p.stack| - 1;
      p.(stack := p.stack[n := p.stack[n].(pop := true)])
  }

  /** Marking the top track twice is the same as marking it once. */
  lemma PopSlowlyIdempotent(p: Player)
    ensures PopSlowly(PopSlowly(p)) == PopSlowly(p)
  {
  }

  // ---------------------------------------------------------------------------
  // Advancing one track
  // ---------------------------------------------------------------------------

  /** A time moved back by `n` whole durations. */
  function Rewound(t: real, n: nat, duration: real): real
  {
    t - (n as real) * duration
  }

  /** `r` is `t` moved back by some whole number of durations. */
  ghost predicate WholeLapsBack(r: real, t: real, duration: real)
  {
    exists n: nat :: r == Rewound(t, n, duration)
  }

  /**
   * Subtracts whole durations until the loop time is back within the
   * animation. The loop only runs when the time is past the end, so a
   * duration is only needed then.
   */
  function WrapLoopTime(t: real, inputMax: real, duration: real): (r: real)
    requires t > inputMax ==> duration > 0.0
    ensures r <= inputMax
    ensures t <= inputMax ==> r == t
    ensures t > inputMax ==> inputMax - duration < r
    ensures WholeLapsBack(r, t, duration)
    decreases if t > inputMax then ((t - inputMax) / duration).Floor + 1 else 0
  {
    if t > inputMax then
      FloorStep(t - inputMax, duration);
      var r := WrapLoopTime(t - duration, inputMax, duration);
      var n: nat :| r == Rewound(t - duration, n, duration);
      assert r == Rewound(t, n + 1, duration);
      r
    else
      assert t == Rewound(t, 0, duration);
      t
  }

  lemma FloorStep(x: real, d: real)
    requires d > 0.0 && x > 0.0
    ensures ((x - d) / d).Floor == (x / d).Floor - 1
    ensures (x / d).Floor >= 0
  {
    assert d / d == 1.0;
    assert (x - d) / d == x / d - d / d by {
      assert ((x - d) / d) * d == x - d;
      assert (x / d - d / d) * d == x - d;
    }
  }

  /**
   * Advancing a track by `dt` is defined: a looping track's animation must
   * exist, since its end time is read, and must last a positive time when
   * the loop time runs past the end, or the wrap never ends.
   */
  predicate Playable(library: map<string, Target>, t: Track, dt: real)
  {
    t.loop ==> t.name in library && library[t.name].animation.Some? &&
               (t.loopTime + dt > library[t.name].animation.value.inputMax ==>
                  library[t.name].animation.value.inputDuration > 0.0)
  }

  /**
   * One track advanced by `dt` (already scaled by the playback speed), and
   * its strength. A looping track fades in as elapsed / blend while it is
   * not popping or still within its blend time, and fades out as
   * timeLeft / blend once popping; with no blend time it is at full
   * strength or gone. A non-looping track has strength 0.
   */
  function Advance(library: map<string, Target>, t: Track, dt: real): (r: (Track, real))
    requires Playable(library, t, dt)
    ensures 0.0 <= r.1 <= 1.0
    ensures r.0.name == t.name && r.0.loop == t.loop && r.0.pop == t.pop && r.0.blendTime == t.blendTime
    ensures r.0.elapsedTime == t.elapsedTime + dt
    // time: a looping track wraps back within its animation, any other just runs on
    ensures !t.loop ==> r.0.loopTime == t.loopTime + dt && r.1 == 0.0
    ensures t.loop ==> var a := library[t.name].animation.value;
                       r.0.loopTime == WrapLoopTime(t.loopTime + dt, a.inputMax, a.inputDuration)
    // fading in (or holding) while not popping or still within the blend time
    ensures t.loop && (!t.pop || t.elapsedTime + dt < t.blendTime) ==>
              && r.0.timeLeft == t.timeLeft
              && r.1 == (if t.blendTime > 0.0 then Clamp01((t.elapsedTime + dt) / t.blendTime) else 1.0)
    // fading out once popping past the blend time, from the time left
    ensures t.loop && t.pop && t.elapsedTime + dt >= t.blendTime ==>
              && r.0.timeLeft == t.timeLeft - dt
              && r.1 == (if t.blendTime > 0.0 then Clamp01(r.0.timeLeft / t.blendTime) else 0.0)
    ensures !t.loop ==> r.0.timeLeft == t.timeLeft
  {
    var elapsed := t.elapsedTime + dt;
    var loopTime := t.loopTime + dt;
    if !t.loop then
      (t.(elapsedTime := elapsed, loopTime := loopTime), 0.0)
    else
      var a := library[t.name].animation.value;
      var wrapped := WrapLoopTime(loopTime, a.inputMax, a.inputDuration);
      if !t.pop || elapsed < t.blendTime then
        var strength := if t.blendTime > 0.0 then Clamp01(elapsed / t.blendTime) else 1.0;
        (t.(elapsedTime := elapsed, loopTime := wrapped), strength)
      else
        var left := t.timeLeft - dt;
        var strength := if t.blendTime > 0.0 then Clamp01(left / t.blendTime) else 0.0;
        (t.(elapsedTime := elapsed, loopTime := wrapped, timeLeft := left), strength)
  }

  /** A looping track's advanced loop time is its old time plus `dt`, less whole durations, within the animation. */
  lemma AdvancedLoopTimeInRange(library: map<string, Target>, t: Track, dt: real)
    requires Playable(library, t, dt) && t.loop
    ensures var a := library[t.name].animation.value;
            var r := Advance(library, t, dt).0.loopTime;
            && r <= a.inputMax
            && (t.loopTime + dt <= a.inputMax ==> r == t.loopTime + dt)
            && (t.loopTime + dt > a.inputMax ==> a.inputMax - a.inputDuration < r)
            && WholeLapsBack(r, t.loopTime + dt, a.inputDuration)
  {
  }

  /** Fading in from the push, a track with a positive blend time reaches full strength exactly when the blend time has elapsed. */
  lemma FadeInReachesFull(library: map<string, Target>, t: Track, dt: real)
    requires Playable(library, t, dt) && t.loop && !t.pop && t.blendTime > 0.0 && t.elapsedTime + dt >= 0.0
    ensures Advance(library, t, dt).1 == 1.0 <==> t.elapsedTime + dt >= t.blendTime
  {
    var elapsed := t.elapsedTime + dt;
    assert Advance(library, t, dt).1 == Clamp01(elapsed / t.blendTime);
    RatioReachesOne(elapsed, t.blendTime);
  }

  /** For a positive blend time, the fade-in ratio reaches one exactly when the elapsed time reaches the blend time. */
  lemma RatioReachesOne(elapsed: real, blend: real)
    requires blend > 0.0
    ensures Clamp01(elapsed / blend) == 1.0 <==> elapsed >= blend
  {
    var x := elapsed / blend;
    assert x * blend == elapsed;
    if elapsed >= blend {
      assert (x - 1.0) * blend == elapsed - blend;
      assert x >= 1.0;
    } else {
      assert (1.0 - x) * blend == blend - elapsed;
      assert x < 1.0;
    }
  }

  /** A track that is not popping and has no blend time plays at full strength. */
  lemma UnblendedTrackIsFull(library: map<string, Target>, t: Track, dt: real)
    requires Playable(library, t, dt) && t.loop && !t.pop && t.blendTime <= 0.0
    ensures Advance(library, t, dt).1 == 1.0
  {
  }

  /** A popping track past its blend time with no blend time left is gone. */
  lemma UnblendedPoppedTrackIsGone(library: map<string, Target>, t: Track, dt: real)
    requires Playable(library, t, dt) && t.loop && t.pop && t.blendTime <= 0.0 && t.elapsedTime + dt >= t.blendTime
    ensures Advance(library, t, dt).1 == 0.0
  {
  }

  // ---------------------------------------------------------------------------
  // Update
  // ---------------------------------------------------------------------------

  /** Every track can be advanced by the player's speed times `dt`. */
  predicate AllPlayable(p: Player, dt: real)
  {
    forall i :: 0 <= i < |p.stack| ==> Playable(p.library, p.stack[i], p.playbackSpeed * dt)
  }

  /** Every track advanced, with its strength at the same position. */
  function AdvanceAll(library: map<string, Target>, stack: seq<Track>, dt: real): (r: (seq<Track>, seq<real>))
    requires forall i :: 0 <= i < |stack| ==> Playable(library, stack[i], dt)
    ensures |r.0| == |stack| && |r.1| == |stack|
    ensures forall i :: 0 <= i < |stack| ==> (r.0[i], r.1[i]) == Advance(library, stack[i], dt)
  {
    (seq(|stack|, i requires 0 <= i < |stack| => Advance(library, stack[i], dt).0),
     seq(|stack|, i requires 0 <= i < |stack| => Advance(library, stack[i], dt).1))
  }

  /** The last position whose strength is full, or 0 when none is. */
  function FirstApplied(s: seq<real>): (k: nat)
    ensures |s| == 0 ==> k == 0
    ensures |s| > 0 ==> k < |s|
    ensures (exists i :: 0 <= i < |s| && s[i] >= 1.0) ==> s[k] >= 1.0
    ensures forall i :: k < i < |s| ==> s[i] < 1.0
  {
    if |s| == 0 then 0
    else if s[|s| - 1] >= 1.0 then |s| - 1
    else FirstApplied(s[..|s| - 1])
  }

  /** The tracks at positions `from` and later whose strength is not zero, in stack order, with their strengths. */
  function Kept(a: seq<Track>, s: seq<real>, from: nat): (r: seq<(Track, real)>)
    requires |a| == |s|
    ensures |r| <= |a|
    ensures forall k :: 0 <= k < |r| ==> r[k].1 != 0.0
  {
    if |a| == 0 then []
    else
      var n := |a| - 1;
      Kept(a[..n], s[..n], from) + (if n >= from && s[n] != 0.0 then [(a[n], s[n])] else [])
  }

  /** Kept holds exactly the pairs at positions from `from` on with non-zero strength. */
  lemma {:induction false} KeptExact(a: seq<Track>, s: seq<real>, from: nat, t: Track, w: real)
    requires |a| == |s|
    ensures (t, w) in Kept(a, s, from) <==> exists i :: from <= i < |a| && a[i] == t && s[i] == w && w != 0.0
  {
    if |a| > 0 {
      var n := |a| - 1;
      var front := Kept(a[..n], s[..n], from);
      var last := if n >= from && s[n] != 0.0 then [(a[n], s[n])] else [];
      assert Kept(a, s, from) == front + last;
      KeptExact(a[..n], s[..n], from, t, w);
      if (t, w) in front {
        var i :| from <= i < n && a[..n][i] == t && s[..n][i] == w && w != 0.0;
        assert a[i] == t && s[i] == w;
      } else if (t, w) in last {
        assert a[n] == t && s[n] == w && w != 0.0;
      }
      if (exists i :: from <= i < |a| && a[i] == t && s[i] == w && w != 0.0) {
        var i :| from <= i < |a| && a[i] == t && s[i] == w && w != 0.0;
        if i < n {
          assert a[..n][i] == t && s[..n][i] == w;
        }
      }
    }
  }

  /** The positions from `from` on whose strength is not zero, in increasing order. */
  function Positions(s: seq<real>, from: nat): (idx: seq<nat>)
    ensures forall k :: 0 <= k < |idx| ==> from <= idx[k] < |s| && s[idx[k]] != 0.0
    ensures forall k, l :: 0 <= k < l < |idx| ==> idx[k] < idx[l]
    ensures forall i :: from <= i < |s| && s[i] != 0.0 ==> i in idx
  {
    if |s| == 0 then []
    else
      var n := |s| - 1;
      var front := Positions(s[..n], from);
      assert forall i :: from <= i < n && s[i] != 0.0 ==> s[..n][i] != 0.0;
      front + (if n >= from && s[n] != 0.0 then [n] else [])
  }

  /** The k-th kept pair is the track and strength at the k-th non-zero position. */
  lemma {:induction false} KeptAt(a: seq<Track>, s: seq<real>, from: nat)
    requires |a| == |s|
    ensures |Kept(a, s, from)| == |Positions(s, from)|
    ensures forall k :: 0 <= k < |Kept(a, s, from)| ==>
              Kept(a, s, from)[k] == (a[Positions(s, from)[k]], s[Positions(s, from)[k]])
  {
    if |a| > 0 {
      var n := |a| - 1;
      KeptAt(a[..n], s[..n], from);
      var front := Kept(a[..n], s[..n], from);
      var idx := Positions(s[..n], from);
      forall k | 0 <= k < |front|
        ensures Kept(a, s, from)[k] == (a[Positions(s, from)[k]], s[Positions(s, from)[k]])
      {
        assert Kept(a, s, from)[k] == front[k];
        assert Positions(s, from)[k] == idx[k];
        assert a[..n][idx[k]] == a[idx[k]] && s[..n][idx[k]] == s[idx[k]];
      }
    }
  }

  /** Only looping tracks can have non-zero strength, so only they are kept, each with a strength in (0, 1]. */
  lemma {:induction false} KeptLoopingAndPositive(a: seq<Track>, s: seq<real>, from: nat)
    requires |a| == |s|
    requires forall i :: 0 <= i < |a| ==> 0.0 <= s[i] <= 1.0 && (s[i] != 0.0 ==> a[i].loop)
    ensures forall k :: 0 <= k < |Kept(a, s, from)| ==>
              Kept(a, s, from)[k].0.loop && 0.0 < Kept(a, s, from)[k].1 <= 1.0
  {
    if |a| > 0 {
      var n := |a| - 1;
      KeptLoopingAndPositive(a[..n], s[..n], from);
    }
  }

  function Tracks(ps: seq<(Track, real)>): (ts: seq<Track>)
    ensures |ts| == |ps| && forall k :: 0 <= k < |ps| ==> ts[k] == ps[k].0
  {
    seq(|ps|, k requires 0 <= k < |ps| => ps[k].0)
  }

  /** What the engine is asked to apply: a target, the time into its animation and a blend strength. */
  datatype Application = Application(target: string, time: real, strength: real)

  function Applications(ps: seq<(Track, real)>): (r: seq<Application>)
    ensures |r| == |ps|
    ensures forall k :: 0 <= k < |ps| ==> r[k] == Application(ps[k].0.name, ps[k].0.loopTime, ps[k].1)
  {
    seq(|ps|, k requires 0 <= k < |ps| => Application(ps[k].0.name, ps[k].0.loopTime, ps[k].1))
  }

  /** Each track advanced by the player's speed times `dt`, with its strength. */
  function Advanced(p: Player, dt: real): (r: (seq<Track>, seq<real>))
    requires AllPlayable(p, dt)
    ensures |r.0| == |p.stack| && |r.1| == |p.stack|
  {
    AdvanceAll(p.library, p.stack, p.playbackSpeed * dt)
  }

  /** The stack after an update: the advanced tracks whose strength is not zero. */
  function Survivors(p: Player, dt: real): (ts: seq<Track>)
    requires AllPlayable(p, dt)
    ensures |ts| <= |p.stack|
  {
    Tracks(Kept(Advanced(p, dt).0, Advanced(p, dt).1, 0))
  }

  /**
   * The update as written: after removing zero-strength tracks it walks
   * the shortened stack from the pre-removal index of the last full-strength
   * track, pairing the i-th surviving track with the strength computed for
   * the i-th track before removal.
   */
  function UpdateAsWritten(p: Player, dt: real): (r: (Player, seq<Application>))
    requires AllPlayable(p, dt)
    ensures r.0 == p.(stack := Survivors(p, dt))
  {
    var s := Advanced(p, dt).1;
    var survivors := Survivors(p, dt);
    var first := FirstApplied(s);
    var applied := seq(if first <= |survivors| then |survivors| - first else 0,
                       k requires 0 <= k < (if first <= |survivors| then |survivors| - first else 0) =>
                         Application(survivors[first + k].name, survivors[first + k].loopTime, s[first + k]));
    (p.(stack := survivors), applied)
  }

  /**
   * The update as evidently intended: the same surviving stack, and every
   * surviving track from the last full-strength one on applied with its
   * own strength.
   */
  function Update(p: Player, dt: real): (r: (Player, seq<Application>))
    requires AllPlayable(p, dt)
    ensures r.0 == UpdateAsWritten(p, dt).0
  {
    var (a, s) := Advanced(p, dt);
    (p.(stack := Survivors(p, dt)), Applications(Kept(a, s, FirstApplied(s))))
  }

  /** Advancing gives every track a strength in [0, 1] that is zero unless the track loops. */
  lemma AdvancedStrengths(p: Player, dt: real)
    requires AllPlayable(p, dt)
    ensures forall i :: 0 <= i < |p.stack| ==>
              0.0 <= Advanced(p, dt).1[i] <= 1.0 && (Advanced(p, dt).1[i] != 0.0 ==> Advanced(p, dt).0[i].loop)
  {
  }

  /** After an update only looping tracks remain on the stack. */
  lemma UpdateKeepsLoopingTracks(p: Player, dt: real)
    requires AllPlayable(p, dt)
    ensures forall k :: 0 <= k < |Update(p, dt).0.stack| ==> Update(p, dt).0.stack[k].loop
  {
    var (a, s) := Advanced(p, dt);
    AdvancedStrengths(p, dt);
    KeptLoopingAndPositive(a, s, 0);
  }

  /**
   * A track survives an update exactly when its advanced strength is not
   * zero: every survivor is an advanced track with non-zero strength, and
   * every such track survives.
   */
  lemma SurvivorsExact(p: Player, dt: real, t: Track)
    requires AllPlayable(p, dt)
    ensures t in Survivors(p, dt) <==>
              exists i :: 0 <= i < |p.stack| && Advanced(p, dt).0[i] == t && Advanced(p, dt).1[i] != 0.0
  {
    var (a, s) := Advanced(p, dt);
    var kept := Kept(a, s, 0);
    if t in Survivors(p, dt) {
      var k :| 0 <= k < |kept| && Tracks(kept)[k] == t;
      KeptExact(a, s, 0, t, kept[k].1);
      assert kept[k] == (t, kept[k].1);
    }
    if exists i :: 0 <= i < |p.stack| && a[i] == t && s[i] != 0.0 {
      var i :| 0 <= i < |p.stack| && a[i] == t && s[i] != 0.0;
      KeptExact(a, s, 0, t, s[i]);
      var k :| 0 <= k < |kept| && kept[k] == (t, s[i]);
      assert Tracks(kept)[k] == t;
    }
  }

  /**
   * The stack after an update is the advanced tracks with non-zero
   * strength, in their stack order: the k-th survivor is the advanced
   * track at the k-th such position.
   */
  lemma SurvivorsInOrder(p: Player, dt: real)
    requires AllPlayable(p, dt)
    ensures var idx := Positions(Advanced(p, dt).1, 0);
            && |Survivors(p, dt)| == |idx|
            && forall k :: 0 <= k < |idx| ==> Survivors(p, dt)[k] == Advanced(p, dt).0[idx[k]]
  {
    KeptAt(Advanced(p, dt).0, Advanced(p, dt).1, 0);
  }

  /**
   * Every application of the corrected update is a surviving track from
   * the last full-strength position on, applied at its loop time with its
   * own strength, which lies in (0, 1].
   */
  lemma UpdateAppliesOwnStrength(p: Player, dt: real, k: nat)
    requires AllPlayable(p, dt) && k < |Update(p, dt).1|
    ensures exists i :: FirstApplied(Advanced(p, dt).1) <= i < |p.stack| &&
              Update(p, dt).1[k] == Application(Advanced(p, dt).0[i].name, Advanced(p, dt).0[i].loopTime, Advanced(p, dt).1[i])
    ensures 0.0 < Update(p, dt).1[k].strength <= 1.0
  {
    var (a, s) := Advanced(p, dt);
    var applied := Kept(a, s, FirstApplied(s));
    AdvancedStrengths(p, dt);
    KeptLoopingAndPositive(a, s, FirstApplied(s));
    KeptExact(a, s, FirstApplied(s), applied[k].0, applied[k].1);
    assert applied[k] in applied;
  }

  /**
   * The corrected update applies every surviving track from the last
   * full-strength position on, in stack order: application k is the track
   * at the k-th position from there whose strength is not zero, at its
   * loop time and with its own strength.
   */
  lemma UpdateAppliesSurvivorsInOrder(p: Player, dt: real)
    requires AllPlayable(p, dt)
    ensures var (a, s) := Advanced(p, dt);
            var idx := Positions(s, FirstApplied(s));
            && |Update(p, dt).1| == |idx|
            && forall k :: 0 <= k < |idx| ==> Update(p, dt).1[k] == Application(a[idx[k]].name, a[idx[k]].loopTime, s[idx[k]])
  {
    var (a, s) := Advanced(p, dt);
    KeptAt(a, s, FirstApplied(s));
  }

  /**
   * Three looping tracks on one ten-second animation, advanced by one
   * second: a full-strength track, a popped one with no blend time (gone)
   * and one halfway through a two-second fade-in. The update as written
   * applies the third track with the removed track's strength 0; the
   * corrected update applies it with its own strength 0.5.
   */
  lemma StrengthsMisalignedAfterRemoval()
    ensures var p := MisalignmentExample();
            && AllPlayable(p, 1.0)
            && |UpdateAsWritten(p, 1.0).1| == 2 && |Update(p, 1.0).1| == 2
            && UpdateAsWritten(p, 1.0).1[1].strength == 0.0
            && Update(p, 1.0).1[1].strength == 0.5
            && UpdateAsWritten(p, 1.0).1[1].target == Update(p, 1.0).1[1].target
  {
    var p := MisalignmentExample();
    var a := Advanced(p, 1.0).0;
    var s := Advanced(p, 1.0).1;
    assert s[0] == 1.0 && s[1] == 0.0 && s[2] == 0.5;
    assert FirstApplied(s) == 0 by {
      assert FirstApplied(s[..2]) == 0 by {
        assert s[..2][..1] == [s[0]];
      }
    }
    assert Kept(a, s, 0) == [(a[0], 1.0), (a[2], 0.5)] by {
      assert a[..2][..1] == [a[0]] && s[..2][..1] == [s[0]];
      assert a[..2][..1][..0] == [] && s[..2][..1][..0] == [];
    }
  }

  function MisalignmentExample(): (p: Player)
    ensures |p.stack| == 3
  {
    var library := map["walk" := Target(Some(Animation(10.0, 10.0)), [])];
    Player(library,
           [Track("walk", 0.0, 0.0, 0.0, true, false, 0.0),
            Track("walk", 0.0, 0.0, 0.0, true, true, 0.0),
            Track("walk", 0.0, 0.0, 2.0, true, false, 2.0)],
           1.0)
  }
}

=== FILE: common.dfy ===
/** Small shared vocabulary: optional values, failures and integer min/max. */
module Common {

  /** A value that may be absent; stands for a null pointer or a missing map entry. */
  datatype Option<+T> = None | Some(value: T)

  /** The outcome of an operation that can throw. */
  datatype Result<+T> = Ok(value: T) | Fail(reason: string)

  function Min(a: int, b: int): int
  {
    if a <= b then a else b
  }

  function Max(a: int, b: int): int
  {
    if a <= b then b else a
  }

  /** `x` clamped to [0, 1], as std::clamp(x, 0, 1) does. */
  function Clamp01(x: real): (c: real)
    ensures 0.0 <= c <= 1.0
    ensures 0.0 <= x <= 1.0 ==> c == x
  {
    if x < 0.0 then 0.0 else if x > 1.0 then 1.0 else x
  }

  /** All elements of `s` are distinct. */
  predicate Distinct<T(==)>(s: seq<T>)
  {
    forall i, j :: 0 <= i < j < |s| ==> s[i] != s[j]
  }
}

=== FILE: engine_types.dfy ===
/**
 * Shared graphics-engine types: the JSON-like `Value` that carries glTF
 * "extras", running bounding boxes, ray-cast hits, textures and raw mesh
 * buffers.
 */
module EngineTypes {
  import opened Common

  /** glTF / OpenGL component type codes. */
  const TypeByte: int := 0x1400
  const TypeUnsignedByte: int := 0x1401
  const TypeShort: int := 0x1402
  const TypeUnsignedShort: int := 0x1403
  const TypeInt: int := 0x1404
  const TypeUnsignedInt: int := 0x1405
  const TypeFloat: int := 0x1406
  const TypeDouble: int := 0x140A

  /** Largest finite single-precision float, the "no hit yet" distance and empty-box seed. */
  const FltMax: real := 340282346638528859811704183484516925440.0

  type byte = x: int | 0 <= x < 256

  // ---------------------------------------------------------------------------
  // String order (std::string's operator<: bytewise lexicographic)
  // ---------------------------------------------------------------------------

  predicate StrLess(a: string, b: string)
    decreases |a|
  {
    |b| > 0 && (|a| == 0 || a[0] < b[0] || (a[0] == b[0] && StrLess(a[1..], b[1..])))
  }

  lemma {:induction false} StrLessIrreflexive(a: string)
    ensures !StrLess(a, a)
    decreases |a|
  {
    if |a| > 0 {
      StrLessIrreflexive(a[1..]);
    }
  }

  lemma {:induction false} StrLessTransitive(a: string, b: string, c: string)
    requires StrLess(a, b) && StrLess(b, c)
    ensures StrLess(a, c)
    decreases |a|
  {
    if |a| > 0 && a[0] == b[0] && b[0] == c[0] {
      StrLessTransitive(a[1..], b[1..], c[1..]);
    }
  }

  lemma {:induction false} StrLessTotal(a: string, b: string)
    requires a != b
    ensures StrLess(a, b) || StrLess(b, a)
    decreases |a|
  {
    if |a| > 0 && |b| > 0 && a[0] == b[0] {
      assert a == [a[0]] + a[1..] && b == [b[0]] + b[1..];
      StrLessTotal(a[1..], b[1..]);
    }
  }

  predicate StrictlyAscending(ks: seq<string>)
  {
    forall i, j :: 0 <= i < j < |ks| ==> StrLess(ks[i], ks[j])
  }

  /** Two ascending listings of the same keys are the same listing. */
  lemma {:induction false} AscendingListingUnique(xs: seq<string>, ys: seq<string>)
    requires StrictlyAscending(xs) && StrictlyAscending(ys)
    requires forall k :: k in xs <==> k in ys
    ensures xs == ys
    decreases |xs|
  {
    SameKeysSameEmptiness(xs, ys);
    if xs != [] {
      // Both heads are the least key, so they agree; recurse on the tails.
      assert xs[0] in ys;
      assert ys[0] in xs;
      if xs[0] != ys[0] {
        var i :| 0 <= i < |ys| && ys[i] == xs[0];
        var j :| 0 <= j < |xs| && xs[j] == ys[0];
        assert StrLess(ys[0], ys[i]);
        assert StrLess(xs[0], xs[j]);
        StrLessTransitive(xs[0], ys[0], xs[0]);
        StrLessIrreflexive(xs[0]);
      }
      forall k ensures k in xs[1..] <==> k in ys[1..] {
        if k in xs[1..] {
          var i :| 1 <= i < |xs| && xs[i] == k;
          assert StrLess(xs[0], k);
          StrLessIrreflexive(k);
          assert k in ys;
        }
        if k in ys[1..] {
          var i :| 1 <= i < |ys| && ys[i] == k;
          assert StrLess(ys[0], k);
          StrLessIrreflexive(k);
          assert k in xs;
        }
      }
      AscendingListingUnique(xs[1..], ys[1..]);
      assert xs == [xs[0]] + xs[1..] && ys == [ys[0]] + ys[1..];
    }
  }

  lemma SameKeysSameEmptiness(xs: seq<string>, ys: seq<string>)
    requires forall k :: k in xs <==> k in ys
    ensures xs == [] <==> ys == []
  {
    if xs != [] {
      assert xs[0] in xs;
    }
    if ys != [] {
      assert ys[0] in ys;
    }
  }

  // ---------------------------------------------------------------------------
  // Value
  // ---------------------------------------------------------------------------

  datatype ValueType = Null | Bool | Integer | Real | String | Binary | Array | Object

  /**
   * A tagged value that keeps one payload field per type, exactly as the engine
   * stores it: reading the payload of another type yields that field's default.
   */
  datatype Value = Value(
    tag: ValueType,
    boolVal: bool,
    intVal: int,
    realVal: real,
    stringVal: string,
    binaryVal: seq<byte>,
    arrayVal: seq<Value>,
    objectVal: map<string, Value>)

  /** The default-constructed value, also the shared "null" that failed lookups return. */
  const NullValue: Value := Value(Null, false, 0, 0.0, "", [], [], map[])

  function OfBool(b: bool): Value
  {
    NullValue.(tag := Bool, boolVal := b)
  }

  /** The integer constructor also stores the number as a real. */
  function OfInt(i: int): Value
  {
    NullValue.(tag := Integer, intVal := i, realVal := i as real)
  }

  function OfReal(r: real): Value
  {
    NullValue.(tag := Real, realVal := r)
  }

  function OfString(s: string): Value
  {
    NullValue.(tag := String, stringVal := s)
  }

  function OfBinary(b: seq<byte>): Value
  {
    NullValue.(tag := Binary, binaryVal := b)
  }

  function OfArray(a: seq<Value>): Value
  {
    NullValue.(tag := Array, arrayVal := a)
  }

  function OfObject(o: map<string, Value>): Value
  {
    NullValue.(tag := Object, objectVal := o)
  }

  /** Element lookup: the element when in range, the null value past the end. */
  function At(v: Value, idx: int): (r: Value)
    requires v.tag == Array && idx >= 0
    ensures idx < |v.arrayVal| ==> r == v.arrayVal[idx]
    ensures idx >= |v.arrayVal| ==> r == NullValue
  {
    if idx < |v.arrayVal| then v.arrayVal[idx] else NullValue
  }

  /** Member lookup: the mapped value when present, the null value otherwise. */
  function Get(v: Value, key: string): (r: Value)
    requires v.tag == Object
    ensures key in v.objectVal ==> r == v.objectVal[key]
    ensures key !in v.objectVal ==> r == NullValue
  {
    if key in v.objectVal then v.objectVal[key] else NullValue
  }

  function ArrayLen(v: Value): (n: nat)
    ensures v.tag != Array ==> n == 0
  {
    if v.tag != Array then 0 else |v.arrayVal|
  }

  predicate Has(v: Value, key: string)
  {
    v.tag == Object && key in v.objectVal
  }

  /** Constructing a value then reading it back gives the input, and only the matching tag is set. */
  lemma ConstructorsRoundTrip(b: bool, i: int, r: real, s: string, bin: seq<byte>,
                              a: seq<Value>, o: map<string, Value>)
    ensures NullValue.tag == Null
    ensures OfBool(b).tag == Bool && OfBool(b).boolVal == b && OfBool(b).intVal == 0
    ensures OfInt(i).tag == Integer && OfInt(i).intVal == i && OfInt(i).realVal == i as real
    ensures OfReal(r).tag == Real && OfReal(r).realVal == r && OfReal(r).intVal == 0
    ensures OfString(s).tag == String && OfString(s).stringVal == s
    ensures OfBinary(bin).tag == Binary && OfBinary(bin).binaryVal == bin
    ensures OfArray(a).tag == Array && ArrayLen(OfArray(a)) == |a|
    ensures forall k :: 0 <= k < |a| ==> At(OfArray(a), k) == a[k]
    ensures forall k :: k >= |a| ==> At(OfArray(a), k) == NullValue
    ensures OfObject(o).tag == Object
    ensures forall k :: Has(OfObject(o), k) <==> k in o
    ensures forall k :: k in o ==> Get(OfObject(o), k) == o[k]
    ensures forall k :: k !in o ==> Get(OfObject(o), k) == NullValue
  {
  }

  /** Only arrays have a length and only objects have members. */
  lemma WrongTypeReadsAreEmpty(v: Value, key: string)
    ensures v.tag != Array ==> ArrayLen(v) == 0
    ensures v.tag != Object ==> !Has(v, key)
    ensures v.tag == Object ==> (Has(v, key) <==> key in v.objectVal)
    ensures v.tag == Object && !Has(v, key) ==> Get(v, key) == NullValue
  {
  }

  /** The least key of a non-empty key set. */
  method LeastKey(s: set<string>) returns (m: string)
    requires s != {}
    ensures m in s
    ensures forall x :: x in s && x != m ==> StrLess(m, x)
  {
    m :| m in s;
    var seen := {m};
    var rest := s - {m};
    while rest != {}
      invariant rest + seen == s && m in seen && rest !! seen
      invariant forall x :: x in seen && x != m ==> StrLess(m, x)
      decreases |rest|
    {
      var x :| x in rest;
      if x != m {
        StrLessTotal(x, m);
      }
      if StrLess(x, m) {
        forall y | y in seen && y != x ensures StrLess(x, y) {
          if y != m {
            StrLessTransitive(x, m, y);
          }
        }
        m := x;
      }
      seen := seen + {x};
      rest := rest - {x};
    }
  }

  /** The member names of an object in ascending order; empty for any other type. */
  method Keys(v: Value) returns (keys: seq<string>)
    ensures v.tag != Object ==> keys == []
    ensures v.tag == Object ==> forall k :: k in keys <==> k in v.objectVal
    ensures StrictlyAscending(keys)
  {
    keys := [];
    if v.tag != Object {
      return;
    }
    var rest := v.objectVal.Keys;
    while rest != {}
      invariant forall k :: k in v.objectVal <==> k in keys || k in rest
      invariant forall k :: k in keys ==> k !in rest
      invariant StrictlyAscending(keys)
      invariant forall i, r :: 0 <= i < |keys| && r in rest ==> StrLess(keys[i], r)
      decreases |rest|
    {
      var m := LeastKey(rest);
      keys := keys + [m];
      rest := rest - {m};
    }
  }

  // ---------------------------------------------------------------------------
  // Running bounds
  // ---------------------------------------------------------------------------

  datatype Vec2 = Vec2(x: real, y: real)
  datatype Vec3 = Vec3(x: real, y: real, z: real)

  /** A rotation quaternion, components named as Eigen's (w, x, y, z) constructor takes them. */
  datatype Quat = Quat(w: real, x: real, y: real, z: real)

  datatype Bounds2 = Bounds2(lo: Vec2, hi: Vec2)
  datatype Bounds3 = Bounds3(lo: Vec3, hi: Vec3)

  function MinR(a: real, b: real): real { if b < a then b else a }
  function MaxR(a: real, b: real): real { if a < b then b else a }

  predicate Contains2(b: Bounds2, p: Vec2)
  {
    b.lo.x <= p.x <= b.hi.x && b.lo.y <= p.y <= b.hi.y
  }

  predicate Contains3(b: Bounds3, p: Vec3)
  {
    b.lo.x <= p.x <= b.hi.x && b.lo.y <= p.y <= b.hi.y && b.lo.z <= p.z <= b.hi.z
  }

  /** `b` grown, componentwise, just enough to enclose `p`. */
  function Update2(b: Bounds2, p: Vec2): (r: Bounds2)
    ensures Contains2(r, p)
    ensures r.lo.x <= b.lo.x && r.lo.y <= b.lo.y && b.hi.x <= r.hi.x && b.hi.y <= r.hi.y
    ensures (r.lo.x == b.lo.x || r.lo.x == p.x) && (r.hi.x == b.hi.x || r.hi.x == p.x)
    ensures (r.lo.y == b.lo.y || r.lo.y == p.y) && (r.hi.y == b.hi.y || r.hi.y == p.y)
  {
    Bounds2(Vec2(MinR(b.lo.x, p.x), MinR(b.lo.y, p.y)), Vec2(MaxR(b.hi.x, p.x), MaxR(b.hi.y, p.y)))
  }

  /** `b` grown, componentwise, just enough to enclose `p`. */
  function Update3(b: Bounds3, p: Vec3): (r: Bounds3)
    ensures Contains3(r, p)
    ensures r.lo.x <= b.lo.x && r.lo.y <= b.lo.y && r.lo.z <= b.lo.z
    ensures b.hi.x <= r.hi.x && b.hi.y <= r.hi.y && b.hi.z <= r.hi.z
    ensures (r.lo.x == b.lo.x || r.lo.x == p.x) && (r.hi.x == b.hi.x || r.hi.x == p.x)
    ensures (r.lo.y == b.lo.y || r.lo.y == p.y) && (r.hi.y == b.hi.y || r.hi.y == p.y)
    ensures (r.lo.z == b.lo.z || r.lo.z == p.z) && (r.hi.z == b.hi.z || r.hi.z == p.z)
  {
    Bounds3(Vec3(MinR(b.lo.x, p.x), MinR(b.lo.y, p.y), MinR(b.lo.z, p.z)),
            Vec3(MaxR(b.hi.x, p.x), MaxR(b.hi.y, p.y), MaxR(b.hi.z, p.z)))
  }

  /** The box after updating with every point in turn. */
  function UpdateAll3(b: Bounds3, ps: seq<Vec3>): Bounds3
    decreases |ps|
  {
    if ps == [] then b else UpdateAll3(Update3(b, ps[0]), ps[1..])
  }

  /** Points enclosed before an update stay enclosed, and so do all later-added points. */
  lemma {:induction false} UpdateAllEncloses(b: Bounds3, ps: seq<Vec3>, q: Vec3)
    requires Contains3(b, q) || q in ps
    ensures Contains3(UpdateAll3(b, ps), q)
    decreases |ps|
  {
    if ps != [] {
      var b' := Update3(b, ps[0]);
      if q != ps[0] && !Contains3(b, q) {
        assert q in ps[1..];
      }
      UpdateAllEncloses(b', ps[1..], q);
    }
  }

  /** The empty box: a min above and a max below every finite point. */
  const EmptyBounds3: Bounds3 := Bounds3(Vec3(FltMax, FltMax, FltMax), Vec3(-FltMax, -FltMax, -FltMax))

  /** Updating the empty box with one point gives the degenerate box at that point. */
  lemma UpdateEmpty(p: Vec3)
    requires -FltMax <= p.x <= FltMax && -FltMax <= p.y <= FltMax && -FltMax <= p.z <= FltMax
    ensures Update3(EmptyBounds3, p) == Bounds3(p, p)
  {
  }

  // ---------------------------------------------------------------------------
  // Small records
  // ---------------------------------------------------------------------------

  /** Node handles are identities; `None` stands for a null pointer. */
  type NodeId = nat

  datatype RayCastHit = RayCastHit(node: Option<NodeId>, distance: real)

  const NoHit: RayCastHit := RayCastHit(None, FltMax)

  /** A hit converts to true exactly when it names a node. */
  predicate IsHit(h: RayCastHit)
  {
    h.node.Some?
  }

  type ImageId = nat

  datatype Texture = Texture(image: Option<ImageId>, name: string)

  /** A texture is usable exactly when it refers to an image. */
  predicate IsValid(t: Texture)
  {
    t.image.Some?
  }

  /** A mesh vertex stream: raw bytes plus the layout that interprets them. */
  datatype Buffer = Buffer(data: seq<byte>, count: nat, stride: int, componentSize: int, componentType: int)
}

=== FILE: environment.dfy ===
/**
 * The library-asset side of an environment: reading the exporter's records
 * from a scene's extras, loading every referenced library asset once, placing
 * an imported copy of each referenced node, and deciding each material slot's
 * override.
 */
module Environment {
  import opened Common
  import opened EngineTypes
  import Exporter

  /** Asset ids are stored as 32-bit unsigned integers; a signed id converts modulo 2^32. */
  const UIntModulus: int := 0x1_0000_0000

  function AsULong(i: int): (r: nat)
    ensures r < UIntModulus
    ensures 0 <= i < UIntModulus ==> r == i
  {
    i % UIntModulus
  }

  // ---------------------------------------------------------------------------
  // Library data in a container's extras
  // ---------------------------------------------------------------------------

  /** A node container: a node or a scene carry extras; anything else does not. */
  datatype Container = NodeContainer(extra: Value) | SceneContainer(extra: Value) | OtherContainer

  /** What the engine asserts before reading library data out of extras. */
  predicate HasOrbitData(extra: Value)
  {
    Has(extra, "project_orbit_data") && Get(extra, "project_orbit_data").tag == Object
  }

  /** extra["project_orbit_data"]["library_objects"] of a node or a scene; other containers throw. */
  function GetLibraryData(c: Container): (r: Result<Value>)
    requires c.NodeContainer? || c.SceneContainer? ==> HasOrbitData(c.extra)
    ensures r.Ok? <==> !c.OtherContainer?
    ensures r.Ok? ==> r.value == Get(Get(c.extra, "project_orbit_data"), "library_objects")
  {
    match c
    case NodeContainer(extra) => Ok(Get(Get(extra, "project_orbit_data"), "library_objects"))
    case SceneContainer(extra) => Ok(Get(Get(extra, "project_orbit_data"), "library_objects"))
    case OtherContainer => Fail("not a node or a scene")
  }

  // ---------------------------------------------------------------------------
  // Library assets and their name dictionaries
  // ---------------------------------------------------------------------------

  datatype MaterialRef = MaterialRef(id: nat, name: string)
  datatype LibMesh = LibMesh(materials: seq<MaterialRef>)
  datatype LibNode = LibNode(id: nat, name: string, mesh: Option<LibMesh>, children: seq<LibNode>)

  /** A loaded library asset: its scenes' root nodes and two lookup tables. */
  datatype LibraryAsset = LibraryAsset(
    scenes: seq<seq<LibNode>>,
    nameToNode: map<string, LibNode>,
    nameToMaterial: map<string, MaterialRef>)

  const EmptyAsset: LibraryAsset := LibraryAsset([], map[], map[])

  /** A node followed by its children's subtrees, in order. */
  function PreOrder(n: LibNode): (r: seq<LibNode>)
    ensures |r| > 0 && r[0] == n
    decreases n, |n.children| + 1
  {
    [n] + PreOrderFrom(n, 0)
  }

  function PreOrderFrom(n: LibNode, k: nat): seq<LibNode>
    requires k <= |n.children|
    decreases n, |n.children| - k
  {
    if k == |n.children| then [] else PreOrder(n.children[k]) + PreOrderFrom(n, k + 1)
  }

  function RootsPreOrder(roots: seq<LibNode>): seq<LibNode>
  {
    if roots == [] then [] else PreOrder(roots[0]) + RootsPreOrder(roots[1..])
  }

  /** Every node of every scene, scene by scene, each scene's roots in order, each tree in pre-order. */
  function ScenesPreOrder(scenes: seq<seq<LibNode>>): seq<LibNode>
  {
    if scenes == [] then [] else RootsPreOrder(scenes[0]) + ScenesPreOrder(scenes[1..])
  }

  /** The engine asserts that every material it registers has a name. */
  predicate MaterialsNamed(ns: seq<LibNode>)
  {
    forall i :: 0 <= i < |ns| ==> ns[i].mesh.Some? ==>
      forall j :: 0 <= j < |ns[i].mesh.value.materials| ==> ns[i].mesh.value.materials[j].name != ""
  }

  function RegisterMaterials(d: map<string, MaterialRef>, mats: seq<MaterialRef>): (r: map<string, MaterialRef>)
    ensures forall k :: k in r <==> k in d || exists j :: 0 <= j < |mats| && mats[j].name == k
    ensures forall k :: k in r ==> (k in d && r[k] == d[k]) || r[k].name == k
  {
    if mats == [] then d
    else
      var r := RegisterMaterials(d, mats[..|mats| - 1])[mats[|mats| - 1].name := mats[|mats| - 1]];
      assert forall j :: 0 <= j < |mats| - 1 ==> mats[..|mats| - 1][j] == mats[j];
      r
  }

  /** The two tables after registering one visited node. */
  function Register(a: LibraryAsset, n: LibNode): LibraryAsset
  {
    a.(nameToNode := a.nameToNode[n.name := n],
       nameToMaterial := if n.mesh.Some? then RegisterMaterials(a.nameToMaterial, n.mesh.value.materials)
                         else a.nameToMaterial)
  }

  /** The two tables after visiting the nodes in order, later nodes overwriting earlier entries. */
  function RegisterAll(a: LibraryAsset, ns: seq<LibNode>): (r: LibraryAsset)
    ensures r.scenes == a.scenes
  {
    if ns == [] then a else Register(RegisterAll(a, ns[..|ns| - 1]), ns[|ns| - 1])
  }

  /** Exactly the visited names (and the names already present) have a node entry. */
  lemma {:induction false} RegisterAllNodeKeys(a: LibraryAsset, ns: seq<LibNode>)
    ensures forall k :: k in RegisterAll(a, ns).nameToNode <==>
              k in a.nameToNode || exists i :: 0 <= i < |ns| && ns[i].name == k
  {
    if ns != [] {
      var prefix := ns[..|ns| - 1];
      RegisterAllNodeKeys(a, prefix);
      assert forall i :: 0 <= i < |prefix| ==> prefix[i] == ns[i];
    }
  }

  /** A name's entry is the last visited node of that name. */
  lemma {:induction false} RegisterAllLastWins(a: LibraryAsset, ns: seq<LibNode>, i: int)
    requires 0 <= i < |ns|
    requires forall j :: i < j < |ns| ==> ns[j].name != ns[i].name
    ensures ns[i].name in RegisterAll(a, ns).nameToNode
    ensures RegisterAll(a, ns).nameToNode[ns[i].name] == ns[i]
  {
    if i < |ns| - 1 {
      var prefix := ns[..|ns| - 1];
      assert forall j :: 0 <= j < |prefix| ==> prefix[j] == ns[j];
      RegisterAllLastWins(a, prefix, i);
    }
  }

  /** New material entries are keyed by the material's own name. */
  lemma {:induction false} RegisterAllMaterialNames(a: LibraryAsset, ns: seq<LibNode>)
    ensures forall k :: k in RegisterAll(a, ns).nameToMaterial && k !in a.nameToMaterial ==>
              RegisterAll(a, ns).nameToMaterial[k].name == k
  {
    if ns != [] {
      RegisterAllMaterialNames(a, ns[..|ns| - 1]);
    }
  }

  /** Every material of every visited mesh has an entry. */
  lemma {:induction false} RegisterAllMaterialsPresent(a: LibraryAsset, ns: seq<LibNode>, i: int, j: int)
    requires 0 <= i < |ns| && ns[i].mesh.Some? && 0 <= j < |ns[i].mesh.value.materials|
    ensures ns[i].mesh.value.materials[j].name in RegisterAll(a, ns).nameToMaterial
  {
    var prefix := ns[..|ns| - 1];
    if i < |ns| - 1 {
      assert prefix[i] == ns[i];
      RegisterAllMaterialsPresent(a, prefix, i, j);
    } else {
      var mats := ns[i].mesh.value.materials;
      assert mats[j].name in RegisterMaterials(RegisterAll(a, prefix).nameToMaterial, mats);
    }
    RegisterKeepsMaterials(RegisterAll(a, prefix), ns[|ns| - 1]);
  }

  lemma RegisterKeepsMaterials(a: LibraryAsset, n: LibNode)
    ensures forall k :: k in a.nameToMaterial ==> k in Register(a, n).nameToMaterial
  {
  }

  /** Rebuilds both tables from the asset's scenes, visiting nodes in pre-order. */
  function BuildDictionaries(scenes: seq<seq<LibNode>>): (r: LibraryAsset)
    requires MaterialsNamed(ScenesPreOrder(scenes))
    ensures r.scenes == scenes
  {
    RegisterAll(LibraryAsset(scenes, map[], map[]), ScenesPreOrder(scenes))
  }

  /**
   * Node names map to the last node of that name in pre-order; every visited
   * material is registered under its own (non-empty) name.
   */
  lemma {:induction false} DictionariesLastWins(scenes: seq<seq<LibNode>>, i: int)
    requires MaterialsNamed(ScenesPreOrder(scenes))
    requires 0 <= i < |ScenesPreOrder(scenes)|
    requires forall j :: i < j < |ScenesPreOrder(scenes)| ==> ScenesPreOrder(scenes)[j].name != ScenesPreOrder(scenes)[i].name
    ensures ScenesPreOrder(scenes)[i].name in BuildDictionaries(scenes).nameToNode
    ensures BuildDictionaries(scenes).nameToNode[ScenesPreOrder(scenes)[i].name] == ScenesPreOrder(scenes)[i]
    ensures forall k :: k in BuildDictionaries(scenes).nameToMaterial ==> BuildDictionaries(scenes).nameToMaterial[k].name == k
    ensures forall k :: k in BuildDictionaries(scenes).nameToNode <==>
              exists j :: 0 <= j < |ScenesPreOrder(scenes)| && ScenesPreOrder(scenes)[j].name == k
  {
    var a := LibraryAsset(scenes, map[], map[]);
    var ns := ScenesPreOrder(scenes);
    RegisterAllLastWins(a, ns, i);
    RegisterAllMaterialNames(a, ns);
    RegisterAllNodeKeys(a, ns);
  }

  // ---------------------------------------------------------------------------
  // Contexts and loading
  // ---------------------------------------------------------------------------

  /** A file handle the loader can hand back for reuse; `None` stands for null. */
  type FileId = nat

  /** What the engine's model loader is asked to do. */
  datatype LoadParameters = LoadParameters(
    path: string, preloaded: Option<FileId>, allAnimations: bool, allVariants: bool, variantFilter: seq<string>)

  /** What the model loader produces: the scenes, and the file handle it kept (if any). */
  datatype LoadedModel = LoadedModel(scenes: seq<seq<LibNode>>, loadedFile: Option<FileId>)

  /** Per-engine state: a switch, the load options, and the assets by id. */
  datatype Context = Context(
    enabled: bool, loadAnimations: bool, loadAllVariants: bool, variantFilter: seq<string>,
    assets: map<nat, LibraryAsset>)

  datatype Engine = Rasterizer | Pathtracer

  /** The environment's library state: one context per engine and the path-to-file cache. */
  datatype LibraryState = LibraryState(rasterizer: Context, pathtracer: Context,
                                       loadedFiles: map<string, Option<FileId>>)

  function ContextOf(s: LibraryState, e: Engine): Context
  {
    if e == Rasterizer then s.rasterizer else s.pathtracer
  }

  function WithContext(s: LibraryState, e: Engine, c: Context): LibraryState
  {
    if e == Rasterizer then s.(rasterizer := c) else s.(pathtracer := c)
  }

  /** root + "\database\" + the id left-padded with '0' to eight digits + "\asset.glb". */
  function AssetPath(root: string, id: nat): string
  {
    root + "\\database\\" + Exporter.PadId(id) + "\\asset.glb"
  }

  /** The loader is trusted to yield named materials, as the engine asserts. */
  ghost predicate LoaderWellBehaved(loader: LoadParameters -> LoadedModel)
  {
    forall lp :: MaterialsNamed(ScenesPreOrder(loader(lp).scenes))
  }

  /** The parameters a load of `id` uses: the rasterizer context's options, whichever context asked. */
  function ParamsFor(s: LibraryState, root: string, id: nat): LoadParameters
  {
    var path := AssetPath(root, id);
    LoadParameters(path, if path in s.loadedFiles then s.loadedFiles[path] else None,
                   s.rasterizer.loadAnimations, s.rasterizer.loadAllVariants, s.rasterizer.variantFilter)
  }

  /**
   * Loads one library asset. The requesting context receives an (empty) entry;
   * the loaded model and its dictionaries go into the rasterizer context's entry.
   */
  function LoadLibraryAsset(s: LibraryState, e: Engine, id: nat, root: string,
                            loader: LoadParameters -> LoadedModel): (r: LibraryState)
    requires LoaderWellBehaved(loader)
    ensures !ContextOf(s, e).enabled || id in ContextOf(s, e).assets ==> r == s
    ensures ContextOf(r, e).enabled == ContextOf(s, e).enabled
    ensures id in ContextOf(s, e).assets ==> id in ContextOf(r, e).assets
    ensures ContextOf(s, e).enabled ==> id in ContextOf(r, e).assets
    ensures ContextOf(s, e).enabled && id !in ContextOf(s, e).assets ==>
              && id in r.rasterizer.assets
              && r.rasterizer.assets[id] == BuildDictionaries(loader(ParamsFor(s, root, id)).scenes)
    ensures forall p :: p in s.loadedFiles ==> p in r.loadedFiles && r.loadedFiles[p] == s.loadedFiles[p]
    ensures forall p :: p in r.loadedFiles ==> p in s.loadedFiles || p == AssetPath(root, id)
    ensures forall k :: k in ContextOf(s, e).assets ==> k in ContextOf(r, e).assets
  {
    var c := ContextOf(s, e);
    if !c.enabled || id in c.assets then s
    else
      var lp := ParamsFor(s, root, id);
      var s1 := WithContext(s, e, c.(assets := c.assets[id := EmptyAsset]));
      var model := loader(lp);
      var asset := BuildDictionaries(model.scenes);
      var s2 := s1.(rasterizer := s1.rasterizer.(assets := s1.rasterizer.assets[id := asset]));
      if lp.path in s2.loadedFiles then s2
      else s2.(loadedFiles := s2.loadedFiles[lp.path := model.loadedFile])
  }

  /** A path that is already cached is handed to the loader as its preloaded file. */
  lemma ReusesCachedFile(s: LibraryState, root: string, id: nat)
    requires AssetPath(root, id) in s.loadedFiles
    ensures ParamsFor(s, root, id).preloaded == s.loadedFiles[AssetPath(root, id)]
  {
  }

  /** The pathtracer's entry stays empty: its load lands in the rasterizer context. */
  lemma PathtracerEntryIsEmpty(s: LibraryState, id: nat, root: string, loader: LoadParameters -> LoadedModel)
    requires LoaderWellBehaved(loader)
    requires s.pathtracer.enabled && id !in s.pathtracer.assets
    ensures LoadLibraryAsset(s, Pathtracer, id, root, loader).pathtracer.assets[id] == EmptyAsset
  {
  }

  // ---------------------------------------------------------------------------
  // Collecting ids
  // ---------------------------------------------------------------------------

  /** The shape the id collection asserts: each record is an object whose "mesh" is an object, override slots are objects. */
  predicate RecordIdsReadable(rec: Value)
  {
    && rec.tag == Object
    && Get(rec, "mesh").tag == Object
    && (Has(rec, "library_materials_override") ==>
          forall j :: 0 <= j < ArrayLen(Get(rec, "library_materials_override")) ==>
            Get(rec, "library_materials_override").arrayVal[j].tag == Object)
  }

  predicate RecordsIdsReadable(objs: Value)
  {
    forall i :: 0 <= i < ArrayLen(objs) ==> RecordIdsReadable(objs.arrayVal[i])
  }

  function OverrideIds(rec: Value): set<nat>
    requires RecordIdsReadable(rec)
  {
    if !Has(rec, "library_materials_override") then {}
    else
      var m := Get(rec, "library_materials_override");
      set j | 0 <= j < ArrayLen(m) :: AsULong(Get(m.arrayVal[j], "asset_id").intVal)
  }

  /** The asset ids one record refers to: its mesh's, and each override slot's. */
  function RecordIds(rec: Value): set<nat>
    requires RecordIdsReadable(rec)
  {
    {AsULong(Get(Get(rec, "mesh"), "asset_id").intVal)} + OverrideIds(rec)
  }

  /** The union of a list of id sets, taken one after another. */
  function UnionOf(ss: seq<set<nat>>): set<nat>
  {
    if ss == [] then {} else UnionOf(ss[..|ss| - 1]) + ss[|ss| - 1]
  }

  lemma {:induction false} UnionOfExact(ss: seq<set<nat>>, id: nat)
    ensures id in UnionOf(ss) <==> exists i :: 0 <= i < |ss| && id in ss[i]
  {
    if ss != [] {
      var k := |ss| - 1;
      UnionOfExact(ss[..k], id);
      if exists i :: 0 <= i < |ss| && id in ss[i] {
        var i :| 0 <= i < |ss| && id in ss[i];
        if i < k {
          assert ss[..k][i] == ss[i];
        }
      }
      if exists i :: 0 <= i < k && id in ss[..k][i] {
        var i :| 0 <= i < k && id in ss[..k][i];
        assert ss[i] == ss[..k][i];
      }
    }
  }

  /** The ids of the first n records, gathered record after record. */
  function CollectIds(objs: Value, n: nat): set<nat>
    requires RecordsIdsReadable(objs) && n <= ArrayLen(objs)
  {
    UnionOf(seq(n, i requires 0 <= i < n => RecordIds(objs.arrayVal[i])))
  }

  /** The gathered ids are exactly those some record among the first n refers to. */
  lemma CollectIdsExact(objs: Value, n: nat, id: nat)
    requires RecordsIdsReadable(objs) && n <= ArrayLen(objs)
    ensures id in CollectIds(objs, n) <==> exists i :: 0 <= i < n && id in RecordIds(objs.arrayVal[i])
  {
    var ss := seq(n, i requires 0 <= i < n => RecordIds(objs.arrayVal[i]));
    UnionOfExact(ss, id);
    assert forall i :: 0 <= i < n ==> ss[i] == RecordIds(objs.arrayVal[i]);
  }

  /** The least element of a non-empty id set. */
  method LeastId(s: set<nat>) returns (m: nat)
    requires s != {}
    ensures m in s && forall x :: x in s ==> m <= x
  {
    m :| m in s;
    var rest := s - {m};
    while rest != {}
      invariant rest <= s && m in s
      invariant forall x :: x in s && x !in rest ==> m <= x
      decreases |rest|
    {
      var x :| x in rest;
      if x < m {
        m := x;
      }
      rest := rest - {x};
    }
  }

  /** An id set listed in ascending order, as iterating a std::set does. */
  method Ascending(s: set<nat>) returns (r: seq<nat>)
    ensures forall x :: x in r <==> x in s
    ensures forall i, j :: 0 <= i < j < |r| ==> r[i] < r[j]
  {
    r := [];
    var rest := s;
    while rest != {}
      invariant forall x :: x in s <==> x in r || x in rest
      invariant forall x :: x in r ==> x !in rest
      invariant forall i, j :: 0 <= i < j < |r| ==> r[i] < r[j]
      invariant forall i, x :: 0 <= i < |r| && x in rest ==> r[i] < x
      decreases |rest|
    {
      var m := LeastId(rest);
      r := r + [m];
      rest := rest - {m};
    }
  }

  /**
   * Loads every asset the container's records refer to, once each, in
   * ascending id order.
   */
  method LoadLibraryAssets(s: LibraryState, c: Container, e: Engine, root: string,
                           loader: LoadParameters -> LoadedModel)
    returns (r: Result<LibraryState>, order: seq<nat>)
    requires LoaderWellBehaved(loader)
    requires c.NodeContainer? || c.SceneContainer? ==> HasOrbitData(c.extra)
    requires c.NodeContainer? || c.SceneContainer? ==> RecordsIdsReadable(GetLibraryData(c).value)
    ensures r.Ok? <==> !c.OtherContainer?
    ensures r.Ok? ==> forall i, j :: 0 <= i < j < |order| ==> order[i] < order[j]
    ensures r.Ok? ==> forall id :: id in order <==>
              id in CollectIds(GetLibraryData(c).value, ArrayLen(GetLibraryData(c).value))
    ensures r.Ok? && ContextOf(s, e).enabled ==> forall id :: id in order ==> id in ContextOf(r.value, e).assets
    ensures r.Ok? ==> forall k :: k in ContextOf(s, e).assets ==> k in ContextOf(r.value, e).assets
  {
    var data := GetLibraryData(c);
    if data.Fail? {
      return Fail(data.reason), [];
    }
    var objs := data.value;
    var ids := CollectIds(objs, ArrayLen(objs));
    order := Ascending(ids);
    var st := s;
    var i := 0;
    while i < |order|
      invariant 0 <= i <= |order|
      invariant ContextOf(st, e).enabled == ContextOf(s, e).enabled
      invariant ContextOf(s, e).enabled ==> forall k :: 0 <= k < i ==> order[k] in ContextOf(st, e).assets
      invariant forall k :: k in ContextOf(s, e).assets ==> k in ContextOf(st, e).assets
    {
      var next := LoadLibraryAsset(st, e, order[i], root, loader);
      assert forall k :: k in ContextOf(st, e).assets ==> k in ContextOf(next, e).assets;
      st := next;
      i := i + 1;
    }
    r := Ok(st);
  }

  // ---------------------------------------------------------------------------
  // Placing library objects
  // ---------------------------------------------------------------------------

  /** The shape placing a record asserts, on top of the id reads. */
  predicate RecordPlaceable(rec: Value)
  {
    && RecordIdsReadable(rec)
    && Get(rec, "location").tag == Array
    && Get(rec, "rotation").tag == Array
    && Get(rec, "scale").tag == Array
  }

  /** The transform and references read out of one record. */
  datatype Placement = Placement(name: string, assetId: int, nodeName: string,
                                 position: Vec3, rotation: Quat, scale: Vec3)

  function Component(a: Value, i: nat): real
    requires a.tag == Array
  {
    At(a, i).realVal
  }

  /** Position and scale as (x, y, z); rotation as the quaternion (w, x, y, z) from elements 0..3. */
  function ReadPlacement(rec: Value): Placement
    requires RecordPlaceable(rec)
  {
    var mesh := Get(rec, "mesh");
    var p := Get(rec, "location");
    var r := Get(rec, "rotation");
    var s := Get(rec, "scale");
    Placement(Get(rec, "name").stringVal, Get(mesh, "asset_id").intVal, Get(mesh, "node_name").stringVal,
              Vec3(Component(p, 0), Component(p, 1), Component(p, 2)),
              Quat(Component(r, 0), Component(r, 1), Component(r, 2), Component(r, 3)),
              Vec3(Component(s, 0), Component(s, 1), Component(s, 2)))
  }

  /**
   * A record written by the exporter reads back with the object's name, the
   * referenced node and asset id, and the transform in glTF axes: the rotation
   * [w, x, z, -y] becomes the quaternion (w, x, z, -y).
   */
  lemma ExportedRecordReadsBack(o: Exporter.SceneObject, v: Value)
    requires o.overrideLibrary.Some?
    requires Exporter.Record(o) == Ok(v)
    ensures RecordPlaceable(v)
    ensures ReadPlacement(v).name == o.name
    ensures ReadPlacement(v).nodeName == o.overrideLibrary.value.reference.value.name
    ensures Exporter.LibraryAssetId(o.overrideLibrary.value.reference.value.libraryPath) == Ok(ReadPlacement(v).assetId)
    ensures ReadPlacement(v).rotation == Quat(o.rotation.w, o.rotation.x, o.rotation.z, -o.rotation.y)
    ensures ReadPlacement(v).position == Vec3(o.translation.x, o.translation.z, -o.translation.y)
    ensures ReadPlacement(v).scale == Vec3(o.scale.x, o.scale.z, o.scale.y)
  {
    var ref := o.overrideLibrary.value.reference.value;
    Exporter.RecordExtendsFields(o, v);
    ExportedRecordIdsReadable(o, v);
    PlacementOfExported(v, o, ref.name, Exporter.LibraryAssetId(ref.libraryPath).value);
  }

  /** A record holding an object's exported fields reads back the object's name and transform. */
  lemma PlacementOfExported(v: Value, o: Exporter.SceneObject, nodeName: string, id: int)
    requires RecordIdsReadable(v)
    requires Get(v, "name") == OfString(o.name)
    requires Get(v, "mesh") == OfObject(map["node_name" := OfString(nodeName), "asset_id" := OfInt(id)])
    requires Get(v, "location") == Exporter.RealArray(Exporter.LocationToGltf(o.translation))
    requires Get(v, "rotation") == Exporter.RealArray(Exporter.RotationToGltf(o.rotation))
    requires Get(v, "scale") == Exporter.RealArray(Exporter.ScaleToGltf(o.scale))
    ensures RecordPlaceable(v)
    ensures ReadPlacement(v) == Placement(o.name, id, nodeName,
                                          Vec3(o.translation.x, o.translation.z, -o.translation.y),
                                          Quat(o.rotation.w, o.rotation.x, o.rotation.z, -o.rotation.y),
                                          Vec3(o.scale.x, o.scale.z, o.scale.y))
  {
    PlacementOfFields(v, o.name, nodeName, id, Exporter.LocationToGltf(o.translation),
                      Exporter.RotationToGltf(o.rotation), Exporter.ScaleToGltf(o.scale));
  }

  /** The asset ids of an exported record can be read: its mesh and every override slot are objects. */
  lemma ExportedRecordIdsReadable(o: Exporter.SceneObject, v: Value)
    requires o.overrideLibrary.Some?
    requires Exporter.Record(o) == Ok(v)
    ensures RecordIdsReadable(v)
  {
    Exporter.RecordExtendsFields(o, v);
    if Has(v, "library_materials_override") {
      Exporter.OverrideSlotsAreObjects(o);
    }
  }

  /** The placement read from a record whose fields hold the given name, mesh reference and arrays. */
  lemma PlacementOfFields(v: Value, name: string, nodeName: string, id: int,
                          loc: seq<real>, rot: seq<real>, sc: seq<real>)
    requires RecordIdsReadable(v)
    requires |loc| == 3 && |rot| == 4 && |sc| == 3
    requires Get(v, "name") == OfString(name)
    requires Get(v, "mesh") == OfObject(map["node_name" := OfString(nodeName), "asset_id" := OfInt(id)])
    requires Get(v, "location") == Exporter.RealArray(loc)
    requires Get(v, "rotation") == Exporter.RealArray(rot)
    requires Get(v, "scale") == Exporter.RealArray(sc)
    ensures RecordPlaceable(v)
    ensures ReadPlacement(v) == Placement(name, id, nodeName, Vec3(loc[0], loc[1], loc[2]),
                                          Quat(rot[0], rot[1], rot[2], rot[3]), Vec3(sc[0], sc[1], sc[2]))
  {
    Exporter.RealArrayReads(loc);
    Exporter.RealArrayReads(rot);
    Exporter.RealArrayReads(sc);
  }

  /** Whether slot j takes a material from an override asset: names differ or asset ids differ. */
  predicate NeedsReplacement(meshAssetId: int, slot: Value)
    requires slot.tag == Object
  {
    Get(slot, "original_name").stringVal != Get(slot, "replacement_name").stringVal
    || meshAssetId != Get(slot, "asset_id").intVal
  }

  /**
   * The material for slot j: the override asset's material of the replacement
   * name when a replacement is needed, otherwise the imported mesh's own slot j.
   * The engine does not check its lookups: a missing replacement name
   * dereferences the end of the material table, and a slot past the mesh's
   * materials is read out of range. The model reports both as failures.
   */
  function ResolveSlot(ctx: Context, meshAssetId: int, slot: Value, own: seq<MaterialRef>, j: nat)
    : (r: Result<MaterialRef>)
    requires slot.tag == Object
    ensures r.Ok? && NeedsReplacement(meshAssetId, slot) ==>
              var id := AsULong(Get(slot, "asset_id").intVal);
              var name := Get(slot, "replacement_name").stringVal;
              id in ctx.assets && name in ctx.assets[id].nameToMaterial && r.value == ctx.assets[id].nameToMaterial[name]
    ensures NeedsReplacement(meshAssetId, slot) ==>
              (r.Ok? <==> AsULong(Get(slot, "asset_id").intVal) in ctx.assets &&
                          Get(slot, "replacement_name").stringVal in ctx.assets[AsULong(Get(slot, "asset_id").intVal)].nameToMaterial)
    ensures r.Ok? && !NeedsReplacement(meshAssetId, slot) ==> j < |own| && r.value == own[j]
    ensures !NeedsReplacement(meshAssetId, slot) ==> (r.Ok? <==> j < |own|)
  {
    if NeedsReplacement(meshAssetId, slot) then
      var id := AsULong(Get(slot, "asset_id").intVal);
      var name := Get(slot, "replacement_name").stringVal;
      if id !in ctx.assets || name !in ctx.assets[id].nameToMaterial then Fail("replacement material not found")
      else Ok(ctx.assets[id].nameToMaterial[name])
    else if j < |own| then Ok(own[j])
    else Fail("material slot out of range")
  }

  /** Every asset's material table maps names to materials of that name, as dictionaries built from scenes do. */
  predicate LibraryNamesConsistent(ctx: Context)
  {
    forall id, k :: id in ctx.assets && k in ctx.assets[id].nameToMaterial ==> ctx.assets[id].nameToMaterial[k].name == k
  }

  /** With dictionaries built from scenes, a replacement material carries the replacement name. */
  lemma ReplacementHasRequestedName(ctx: Context, meshAssetId: int, slot: Value, own: seq<MaterialRef>, j: nat)
    requires slot.tag == Object && LibraryNamesConsistent(ctx)
    requires NeedsReplacement(meshAssetId, slot)
    requires ResolveSlot(ctx, meshAssetId, slot, own, j).Ok?
    ensures ResolveSlot(ctx, meshAssetId, slot, own, j).value.name == Get(slot, "replacement_name").stringVal
  {
  }

  /** An exported slot whose replacement is the original material keeps the imported mesh's own material. */
  lemma UnchangedSlotKeepsOwnMaterial(ctx: Context, meshAssetId: int, name: string, own: seq<MaterialRef>, j: nat)
    requires j < |own|
    ensures ResolveSlot(ctx, meshAssetId,
                        OfObject(map["original_name" := OfString(name), "replacement_name" := OfString(name),
                                     "asset_id" := OfInt(meshAssetId)]), own, j) == Ok(own[j])
  {
  }

  /** One imported library object: the placed copy of the node, and its per-slot materials if overridden. */
  datatype ImportedObject = ImportedObject(name: string, source: LibNode, placement: Placement,
                                           materials: Option<seq<MaterialRef>>)

  function ResolveSlots(ctx: Context, meshAssetId: int, slots: seq<Value>, own: seq<MaterialRef>)
    : (r: Result<seq<MaterialRef>>)
    requires forall j :: 0 <= j < |slots| ==> slots[j].tag == Object
    ensures r.Ok? ==> |r.value| == |slots|
    ensures r.Ok? ==> forall j :: 0 <= j < |slots| ==> ResolveSlot(ctx, meshAssetId, slots[j], own, j) == Ok(r.value[j])
  {
    if exists j :: 0 <= j < |slots| && ResolveSlot(ctx, meshAssetId, slots[j], own, j).Fail? then
      Fail("material override failed")
    else Ok(seq(|slots|, j requires 0 <= j < |slots| => ResolveSlot(ctx, meshAssetId, slots[j], own, j).value))
  }

  /**
   * Imports the node a record names from its asset, places it, and resolves
   * its material overrides. For a missing asset or node the engine inserts an
   * empty entry and imports a null node, and an overridden node without a
   * mesh fails its assert; the model reports these as failures.
   */
  function AddLibraryAsset(ctx: Context, rec: Value): (r: Result<ImportedObject>)
    requires RecordPlaceable(rec)
    ensures r.Ok? ==> r.value.placement == ReadPlacement(rec) && r.value.name == ReadPlacement(rec).name
    ensures r.Ok? ==> var p := ReadPlacement(rec);
              AsULong(p.assetId) in ctx.assets && p.nodeName in ctx.assets[AsULong(p.assetId)].nameToNode
              && r.value.source == ctx.assets[AsULong(p.assetId)].nameToNode[p.nodeName]
    ensures r.Ok? ==> (r.value.materials.Some? <==> Has(rec, "library_materials_override"))
  {
    var p := ReadPlacement(rec);
    var id := AsULong(p.assetId);
    if id !in ctx.assets || p.nodeName !in ctx.assets[id].nameToNode then Fail("library node not found")
    else
      var node := ctx.assets[id].nameToNode[p.nodeName];
      if !Has(rec, "library_materials_override") then Ok(ImportedObject(p.name, node, p, None))
      else if node.mesh.None? then Fail("overridden node has no mesh")
      else
        var m := Get(rec, "library_materials_override");
        var slots := if m.tag == Array then m.arrayVal else [];
        var mats := ResolveSlots(ctx, p.assetId, slots, node.mesh.value.materials);
        if mats.Fail? then Fail(mats.reason) else Ok(ImportedObject(p.name, node, p, Some(mats.value)))
  }

  predicate RecordsPlaceable(objs: Value)
  {
    forall i :: 0 <= i < ArrayLen(objs) ==> RecordPlaceable(objs.arrayVal[i])
  }

  /** Imports every record of the container, in record order. */
  function AddLibraryAssets(ctx: Context, c: Container): (r: Result<seq<ImportedObject>>)
    requires c.NodeContainer? || c.SceneContainer? ==> HasOrbitData(c.extra)
    requires c.NodeContainer? || c.SceneContainer? ==> RecordsPlaceable(GetLibraryData(c).value)
    ensures r.Ok? ==> GetLibraryData(c).Ok? && |r.value| == ArrayLen(GetLibraryData(c).value)
    ensures r.Ok? ==> GetLibraryData(c).Ok? && forall i :: 0 <= i < |r.value| ==>
              AddLibraryAsset(ctx, GetLibraryData(c).value.arrayVal[i]) == Ok(r.value[i])
  {
    var data := GetLibraryData(c);
    if data.Fail? then Fail(data.reason)
    else
      var objs := data.value;
      if !AllAdded(ctx, objs) then Fail("library object could not be added")
      else Ok(ImportAll(ctx, objs))
  }

  /** Every record of the array imports without an error. */
  predicate AllAdded(ctx: Context, objs: Value)
    requires RecordsPlaceable(objs)
  {
    forall i :: 0 <= i < ArrayLen(objs) ==> AddLibraryAsset(ctx, objs.arrayVal[i]).Ok?
  }

  /** The imported records, in record order. */
  function ImportAll(ctx: Context, objs: Value): (r: seq<ImportedObject>)
    requires RecordsPlaceable(objs) && AllAdded(ctx, objs)
    ensures |r| == ArrayLen(objs)
    ensures forall i :: 0 <= i < |r| ==> AddLibraryAsset(ctx, objs.arrayVal[i]) == Ok(r[i])
  {
    seq(ArrayLen(objs), i requires 0 <= i < ArrayLen(objs) => AddLibraryAsset(ctx, objs.arrayVal[i]).value)
  }

  /** The engine's asset path and the exporter's library path carry the same padded id, which parses back. */
  lemma AssetPathCarriesId(root: string, blendRoot: string, id: nat)
    requires !exists k :: Exporter.OccursAt(blendRoot, Exporter.DatabaseDir, k)
    ensures AssetPath(root, id) == root + "\\database\\" + Exporter.PadId(id) + "\\asset.glb"
    ensures Exporter.GetAssetId(blendRoot + "database" + "/" + Exporter.PadId(id) + "/" + "asset.blend") == Ok(id)
  {
    Exporter.GetAssetIdRecoversPaddedId(blendRoot, '/', '/', id);
    assert blendRoot + "database" + "/" + Exporter.PadId(id) + "/" + "asset.blend"
        == blendRoot + Exporter.DatabaseDir + ['/'] + Exporter.PadId(id) + ['/'] + Exporter.AssetBlend;
  }
}

=== FILE: exporter.dfy ===
/**
 * The Blender scene exporter: splits the scene into objects exported as glTF
 * geometry and library-override objects, and describes each library object as a
 * record (name, transform in glTF axes, referenced library node and asset id,
 * material overrides) stored in the scene's `project_orbit_data` property.
 */
module Exporter {
  import opened Common
  import opened EngineTypes

  // ---------------------------------------------------------------------------
  // Python string helpers
  // ---------------------------------------------------------------------------

  predicate OccursAt(s: string, p: string, i: int)
  {
    0 <= i && i + |p| <= |s| && s[i..i + |p|] == p
  }

  /** First occurrence of `p` at or after `i`, or -1. */
  function FindFrom(s: string, p: string, i: nat): (r: int)
    ensures r == -1 || (i <= r && OccursAt(s, p, r))
    ensures r == -1 ==> forall k :: i <= k ==> !OccursAt(s, p, k)
    ensures r != -1 ==> forall k :: i <= k < r ==> !OccursAt(s, p, k)
    decreases |s| - i
  {
    if i + |p| > |s| then -1
    else if s[i..i + |p|] == p then i
    else FindFrom(s, p, i + 1)
  }

  /** Python's `str.find`: the first occurrence, or -1. */
  function Find(s: string, p: string): int
  {
    FindFrom(s, p, 0)
  }

  /** Last occurrence of `p` starting at or before `i`, or -1. */
  function RFindFrom(s: string, p: string, i: int): (r: int)
    ensures r == -1 || (0 <= r <= i && OccursAt(s, p, r))
    ensures r == -1 ==> forall k :: 0 <= k <= i ==> !OccursAt(s, p, k)
    ensures r != -1 ==> forall k :: r < k <= i ==> !OccursAt(s, p, k)
    decreases i + 1
  {
    if i < 0 then -1
    else if OccursAt(s, p, i) then i
    else RFindFrom(s, p, i - 1)
  }

  /** Python's `str.rfind`: the last occurrence, or -1. */
  function RFind(s: string, p: string): int
  {
    RFindFrom(s, p, |s| - |p|)
  }

  /** A Python slice bound: negative counts from the end, then clamped to [0, len]. */
  function SliceBound(i: int, len: nat): (r: nat)
    ensures r <= len
  {
    if i < 0 then (if i + len < 0 then 0 else i + len)
    else if i > len then len else i
  }

  /** Python's `s[i:j]`. */
  function Slice(s: string, i: int, j: int): (r: string)
    ensures SliceBound(i, |s|) + |r| <= |s| && r == s[SliceBound(i, |s|)..SliceBound(i, |s|) + |r|]
  {
    var a := SliceBound(i, |s|);
    var b := SliceBound(j, |s|);
    if a <= b then s[a..b] else ""
  }

  predicate IsDigit(c: char)
  {
    '0' <= c <= '9'
  }

  predicate AllDigits(s: string)
  {
    forall i :: 0 <= i < |s| ==> IsDigit(s[i])
  }

  /** Value of a string of decimal digits, most significant first. */
  function DigitsValue(s: string): nat
    requires AllDigits(s)
    decreases |s|
  {
    if s == [] then 0 else DigitsValue(s[..|s| - 1]) * 10 + (s[|s| - 1] as int - '0' as int)
  }

  /** The characters Python's `str.isspace` accepts, which `int()` strips from both ends. */
  predicate IsSpace(c: char)
  {
    || '\t' <= c <= '\r' || '\U{1C}' <= c <= ' ' || c == '\U{85}' || c == '\U{A0}' || c == '\U{1680}'
    || '\U{2000}' <= c <= '\U{200A}' || c == '\U{2028}' || c == '\U{2029}' || c == '\U{202F}' || c == '\U{205F}'
    || c == '\U{3000}'
  }

  /** `s` without its leading whitespace. */
  function TrimStart(s: string): (r: string)
    ensures |r| <= |s|
  {
    if |s| > 0 && IsSpace(s[0]) then TrimStart(s[1..]) else s
  }

  /** `s` without its trailing whitespace. */
  function TrimEnd(s: string): (r: string)
    ensures |r| <= |s|
  {
    if |s| > 0 && IsSpace(s[|s| - 1]) then TrimEnd(s[..|s| - 1]) else s
  }

  /** Python's `s.strip()`. */
  function Strip(s: string): string
  {
    TrimEnd(TrimStart(s))
  }

  /** TrimStart removes a prefix of whitespace and stops at the first other character. */
  lemma {:induction false} TrimStartDropsSpaces(s: string)
    ensures var r := TrimStart(s);
            && r == s[|s| - |r|..]
            && (forall i :: 0 <= i < |s| - |r| ==> IsSpace(s[i]))
            && (|r| > 0 ==> !IsSpace(r[0]))
  {
    if |s| > 0 && IsSpace(s[0]) {
      TrimStartDropsSpaces(s[1..]);
    }
  }

  /** TrimEnd removes a suffix of whitespace and stops at the last other character. */
  lemma {:induction false} TrimEndDropsSpaces(s: string)
    ensures var r := TrimEnd(s);
            && r == s[..|r|]
            && (forall i :: |r| <= i < |s| ==> IsSpace(s[i]))
            && (|r| > 0 ==> !IsSpace(r[|r| - 1]))
  {
    if |s| > 0 && IsSpace(s[|s| - 1]) {
      TrimEndDropsSpaces(s[..|s| - 1]);
    }
  }

  /** Text that neither starts nor ends with whitespace is its own strip. */
  lemma StripUnspaced(t: string)
    requires |t| > 0 && !IsSpace(t[0]) && !IsSpace(t[|t| - 1])
    ensures Strip(t) == t
  {
    assert TrimStart(t) == t;
  }

  /**
   * Decimal digits in groups separated by single underscores: it starts
   * and ends with a digit and every underscore is followed by a digit.
   */
  predicate DigitGroups(s: string)
    decreases |s|
  {
    && |s| > 0 && IsDigit(s[0])
    && (|s| == 1 || if s[1] == '_' then DigitGroups(s[2..]) else DigitGroups(s[1..]))
  }

  /** The digits of digit groups with the underscores left out. */
  function Ungrouped(s: string): (d: string)
    requires DigitGroups(s)
    ensures |d| > 0 && AllDigits(d) && |d| <= |s|
    decreases |s|
  {
    [s[0]] + (if |s| == 1 then [] else if s[1] == '_' then Ungrouped(s[2..]) else Ungrouped(s[1..]))
  }

  /** A non-empty run of plain digits is a single group and loses nothing when ungrouped. */
  lemma {:induction false} PlainDigitsGroup(s: string)
    requires |s| > 0 && AllDigits(s)
    ensures DigitGroups(s) && Ungrouped(s) == s
    decreases |s|
  {
    if |s| > 1 {
      assert AllDigits(s[1..]);
      PlainDigitsGroup(s[1..]);
    }
  }

  predicate IsSign(c: char)
  {
    c == '-' || c == '+'
  }

  /** The text after an optional sign. */
  function Unsigned(t: string): (u: string)
    ensures |t| > 0 && IsSign(t[0]) ==> u == t[1..]
    ensures |t| == 0 || !IsSign(t[0]) ==> u == t
  {
    if |t| > 0 && IsSign(t[0]) then t[1..] else t
  }

  /** `int()` of already stripped text: an optional sign, then digit groups. */
  function ParseStripped(t: string): (r: Result<int>)
    ensures r.Ok? <==> DigitGroups(Unsigned(t))
  {
    var body := Unsigned(t);
    if !DigitGroups(body) then Fail("invalid literal for int()")
    else
      var magnitude: int := DigitsValue(Ungrouped(body));
      Ok(if t[0] == '-' then -magnitude else magnitude)
  }

  /**
   * Python's `int(s)` in base 10: surrounding whitespace is stripped, an
   * optional sign is followed by digit groups, and the value is the
   * digits read most significant first.
   */
  function ParseInt(s: string): (r: Result<int>)
    ensures r.Ok? <==> DigitGroups(Unsigned(Strip(s)))
  {
    ParseStripped(Strip(s))
  }

  /** A plain run of digits parses to its value, and with a sign in front to its signed value. */
  lemma DigitsParse(s: string)
    requires |s| > 0 && AllDigits(s)
    ensures ParseInt(s) == Ok(DigitsValue(s))
    ensures ParseInt("-" + s) == Ok(-(DigitsValue(s) as int))
    ensures ParseInt("+" + s) == Ok(DigitsValue(s))
  {
    PlainDigitsGroup(s);
    var minus, plus := "-" + s, "+" + s;
    SignedDigitsUnspaced(s, s);
    SignedDigitsRead(s, s);
    SignedDigitsUnspaced(minus, s);
    SignedDigitsRead(minus, s);
    SignedDigitsUnspaced(plus, s);
    SignedDigitsRead(plus, s);
  }

  /** Optionally signed plain digits are their own strip. */
  lemma SignedDigitsUnspaced(t: string, s: string)
    requires |s| > 0 && AllDigits(s)
    requires t == s || t == "-" + s || t == "+" + s
    ensures Strip(t) == t
  {
    assert t[|t| - 1] == s[|s| - 1];
    StripUnspaced(t);
  }

  /** Optionally signed plain digits read as the digits' value, negated after a minus sign. */
  lemma SignedDigitsRead(t: string, s: string)
    requires |s| > 0 && DigitGroups(s) && Ungrouped(s) == s
    requires t == s || t == "-" + s || t == "+" + s
    ensures ParseStripped(t) == Ok(if t[0] == '-' then -(DigitsValue(s) as int) else DigitsValue(s))
  {
    if t == s {
      assert !IsSign(t[0]);
      assert Unsigned(t) == s;
    } else {
      assert t[1..] == s;
      assert Unsigned(t) == s;
    }
  }

  /** Whitespace in front of the text does not change what it parses to. */
  lemma LeadingSpaceIgnored(c: char, s: string)
    requires IsSpace(c)
    ensures ParseInt([c] + s) == ParseInt(s)
  {
    assert ([c] + s)[1..] == s;
    assert Strip([c] + s) == Strip(s);
  }

  /** Whitespace after the text does not change what it parses to. */
  lemma TrailingSpaceIgnored(s: string, c: char)
    requires IsSpace(c)
    ensures ParseInt(s + [c]) == ParseInt(s)
  {
    TrimStartThenEnd(s, c);
    assert Strip(s + [c]) == Strip(s);
  }

  lemma {:induction false} TrimStartThenEnd(s: string, c: char)
    requires IsSpace(c)
    ensures TrimEnd(TrimStart(s + [c])) == TrimEnd(TrimStart(s))
  {
    if |s| == 0 {
      assert TrimStart([c]) == TrimStart([]);
    } else if IsSpace(s[0]) {
      assert (s + [c])[1..] == s[1..] + [c];
      TrimStartThenEnd(s[1..], c);
    } else {
      assert TrimStart(s + [c]) == s + [c];
      assert (s + [c])[..|s|] == s;
    }
  }

  /** Concrete reading: surrounding whitespace is dropped. */
  lemma ParseIntStripsSpaces()
    ensures ParseInt(" 42\n") == Ok(42)
  {
    assert TrimStart(" 42\n") == "42\n" by { assert " 42\n"[1..] == "42\n"; }
    assert TrimEnd("42\n") == "42" by { assert "42\n"[..2] == "42"; }
    FortyTwo();
  }

  lemma FortyTwo()
    ensures ParseStripped("42") == Ok(42)
  {
    assert "42"[1..] == "2" && "42"[..1] == "4";
    assert DigitGroups("42");
    assert Ungrouped("42") == "42";
    assert DigitsValue("4") == 4;
  }

  /** Concrete reading: an underscore separates digit groups and is not a digit itself. */
  lemma ParseIntJoinsGroups()
    ensures ParseInt("1_0") == Ok(10)
  {
    assert "1_0"[0] == '1' && "1_0"[2] == '0';
    StripUnspaced("1_0");
    OneUnderscoreZero();
  }

  lemma OneUnderscoreZero()
    ensures ParseStripped("1_0") == Ok(10)
  {
    assert Unsigned("1_0") == "1_0";
    assert "1_0"[2..] == "0";
    assert DigitGroups("0");
    assert DigitGroups("1_0");
    assert Ungrouped("0") == "0";
    assert Ungrouped("1_0") == "10";
    assert "10"[..1] == "1";
    assert DigitsValue("1") == 1;
    assert DigitsValue("10") == 10;
  }

  /** Concrete reading: a minus sign negates, and leading zeros are allowed. */
  lemma ParseIntSignedZeros()
    ensures ParseInt("-07") == Ok(-7)
  {
    assert Strip("-07") == "-07";
    assert "-07"[1..] == "07" && "07"[1..] == "7" && "07"[..1] == "0";
    assert DigitGroups("07");
    assert Ungrouped("07") == "07";
    assert DigitsValue("0") == 0;
  }

  /** Concrete rejections: doubled, leading or trailing underscores, no digits, and a space after the sign. */
  lemma ParseIntRejects()
    ensures ParseInt("1__0").Fail? && ParseInt("_1").Fail? && ParseInt("1_").Fail?
    ensures ParseInt("").Fail? && ParseInt(" ").Fail? && ParseInt("- 1").Fail? && ParseInt("+").Fail?
  {
    assert Strip("1__0") == "1__0";
    assert Strip("_1") == "_1";
    assert Strip("1_") == "1_";
    assert Strip(" ") == "" by { assert TrimStart(" ") == ""; }
    assert Strip("- 1") == "- 1";
    assert Strip("+") == "+";
  }

  // ---------------------------------------------------------------------------
  // Zero-padded ids
  // ---------------------------------------------------------------------------

  function Pow10(n: nat): (p: nat)
    ensures p >= 1
  {
    if n == 0 then 1 else 10 * Pow10(n - 1)
  }

  /** The last `w` decimal digits of `n`, most significant first. */
  function FixedDigits(n: nat, w: nat): (s: string)
    ensures |s| == w && AllDigits(s)
  {
    if w == 0 then "" else FixedDigits(n / 10, w - 1) + [('0' as int + n % 10) as char]
  }

  /** Number of decimal digits `n` needs (1 for 0). */
  function DigitCount(n: nat): (d: nat)
    ensures d >= 1 && n < Pow10(d)
  {
    if n < 10 then 1 else 1 + DigitCount(n / 10)
  }

  /** `n` printed in decimal and left-padded with '0' to at least eight characters. */
  function PadId(n: nat): (s: string)
    ensures |s| >= 8 && AllDigits(s)
  {
    FixedDigits(n, Max(8, DigitCount(n)))
  }

  /** Reading back `w` fixed digits of a number below 10^w gives the number. */
  lemma {:induction false} FixedDigitsValue(n: nat, w: nat)
    requires n < Pow10(w)
    ensures DigitsValue(FixedDigits(n, w)) == n
  {
    if w > 0 {
      var s := FixedDigits(n, w);
      assert s[..|s| - 1] == FixedDigits(n / 10, w - 1);
      FixedDigitsValue(n / 10, w - 1);
    }
  }

  lemma PowMonotone(a: nat, b: nat)
    requires a <= b
    ensures Pow10(a) <= Pow10(b)
    decreases b
  {
    if a < b {
      PowMonotone(a, b - 1);
    }
  }

  /** The padded id parses back to the id. */
  lemma PadIdParses(n: nat)
    ensures ParseInt(PadId(n)) == Ok(n)
  {
    var w := Max(8, DigitCount(n));
    PowMonotone(DigitCount(n), w);
    FixedDigitsValue(n, w);
    DigitsParse(PadId(n));
  }

  // ---------------------------------------------------------------------------
  // get_asset_id
  // ---------------------------------------------------------------------------

  const DatabaseDir: string := "database"
  const AssetBlend: string := "asset.blend"

  /**
   * The asset id encoded in a library path: the text after the first
   * "database", cut before the last "asset.blend", with one separator character
   * dropped at each end, parsed as an integer. What is parsed is always a
   * piece of the path, and one that lies after the first "database" when
   * there is one.
   */
  function GetAssetId(path: string): (r: Result<int>)
    ensures var (i, n) := IdPiece(path);
            && r == ParseInt(path[i..i + n])
            && (Find(path, DatabaseDir) != -1 ==> Find(path, DatabaseDir) + |DatabaseDir| <= i)
  {
    var index := Find(path, DatabaseDir) + |DatabaseDir|;
    var afterDb := Slice(path, index, |path|);
    var cut := RFind(afterDb, AssetBlend);
    var idText := Slice(Slice(afterDb, 0, cut), 1, -1);
    IdPieceIsSlices(path);
    ParseInt(idText)
  }

  /**
   * Where the text get_asset_id hands to `int()` lies in the path, as a
   * start and a length: after the first "database", cut before the last
   * "asset.blend", less one character at each end.
   */
  function IdPiece(path: string): (p: (nat, nat))
    ensures p.0 + p.1 <= |path|
    ensures Find(path, DatabaseDir) != -1 ==> Find(path, DatabaseDir) + |DatabaseDir| <= p.0
  {
    var index := Find(path, DatabaseDir) + |DatabaseDir|;
    var afterDb := Slice(path, index, |path|);
    var cut := RFind(afterDb, AssetBlend);
    var front := Slice(afterDb, 0, cut);
    var idText := Slice(front, 1, -1);
    (SliceBound(index, |path|) + SliceBound(1, |front|), |idText|)
  }

  /** The piece is exactly Python's `asset_id[1:-1]` of `lib_path[index:][:rfind]`. */
  lemma IdPieceIsSlices(path: string)
    ensures var (i, n) := IdPiece(path);
            var afterDb := Slice(path, Find(path, DatabaseDir) + |DatabaseDir|, |path|);
            path[i..i + n] == Slice(Slice(afterDb, 0, RFind(afterDb, AssetBlend)), 1, -1)
  {
    var index := Find(path, DatabaseDir) + |DatabaseDir|;
    var afterDb := Slice(path, index, |path|);
    SlicesArePiece(path, index, RFind(afterDb, AssetBlend));
  }

  /** Three nested Python slices, as one piece of the path. */
  lemma SlicesArePiece(path: string, index: int, cut: int)
    ensures var afterDb := Slice(path, index, |path|);
            var front := Slice(afterDb, 0, cut);
            var i := SliceBound(index, |path|) + SliceBound(1, |front|);
            var n := |Slice(front, 1, -1)|;
            i + n <= |path| && path[i..i + n] == Slice(front, 1, -1)
  {
    var afterDb := Slice(path, index, |path|);
    var front := Slice(afterDb, 0, cut);
    var idText := Slice(front, 1, -1);
    var a1 := SliceBound(index, |path|);
    var a3 := SliceBound(1, |front|);
    assert front == afterDb[0..|front|];
    PieceOfPiece(afterDb, 0, |front|, a3, |idText|);
    PieceOfPiece(path, a1, |afterDb|, a3, |idText|);
  }

  /** A piece of a piece is a piece of the whole. */
  lemma PieceOfPiece(s: string, a: nat, m: nat, i: nat, n: nat)
    requires a + m <= |s| && i + n <= m
    ensures s[a..a + m][i..i + n] == s[a + i..a + i + n]
  {
    var u, v := s[a..a + m][i..i + n], s[a + i..a + i + n];
    assert |u| == |v| && forall k :: 0 <= k < |u| ==> u[k] == v[k];
  }

  /** "database" has no proper border (its first letter occurs nowhere else), so no occurrence can straddle. */
  lemma NoStraddle(root: string, rest: string, i: int)
    requires !exists k :: OccursAt(root, DatabaseDir, k)
    requires 0 <= i < |root|
    ensures !OccursAt(root + DatabaseDir + rest, DatabaseDir, i)
  {
    var s := root + DatabaseDir + rest;
    if i + 8 <= |root| {
      assert !OccursAt(root, DatabaseDir, i);
      assert s[i..i + 8] == root[i..i + 8];
    } else {
      StraddleMisses(s, root, rest, i);
    }
  }

  lemma StraddleMisses(s: string, root: string, rest: string, i: int)
    requires s == root + DatabaseDir + rest
    requires 0 <= i < |root| < i + 8
    ensures !OccursAt(s, DatabaseDir, i)
  {
    var j := |root| - i;
    assert s[|root|] == 'd';
    assert DatabaseDir[j] != 'd';
    if i + 8 <= |s| {
      assert s[i..i + 8][j] == s[|root|];
    }
  }

  /**
   * Any library path of the form <root>database<sep><padded id><sep>asset.blend,
   * with no "database" inside <root>, yields the id.
   */
  lemma GetAssetIdRecoversPaddedId(root: string, sep1: char, sep2: char, id: nat)
    requires !exists k :: OccursAt(root, DatabaseDir, k)
    ensures GetAssetId(root + DatabaseDir + [sep1] + PadId(id) + [sep2] + AssetBlend) == Ok(id)
  {
    var tail := [sep1] + PadId(id) + [sep2] + AssetBlend;
    var path := root + DatabaseDir + tail;
    assert path == root + DatabaseDir + [sep1] + PadId(id) + [sep2] + AssetBlend;
    DatabaseFound(root, tail);
    TailParses(sep1, sep2, id);
  }

  /** With no "database" inside the root, the first one found is the one after it, followed by the tail. */
  lemma DatabaseFound(root: string, tail: string)
    requires !exists k :: OccursAt(root, DatabaseDir, k)
    ensures Find(root + DatabaseDir + tail, DatabaseDir) == |root|
    ensures Slice(root + DatabaseDir + tail, |root| + |DatabaseDir|, |root + DatabaseDir + tail|) == tail
  {
    var path := root + DatabaseDir + tail;
    forall k | 0 <= k < |root| ensures !OccursAt(path, DatabaseDir, k) {
      NoStraddle(root, tail, k);
    }
    assert path[|root|..|root| + 8] == DatabaseDir;
    FindIs(path, DatabaseDir, |root|);
    assert path[|root| + 8..|path|] == tail;
  }

  /** The part after "database" yields the id: cut at the last "asset.blend", drop both separators, parse. */
  lemma TailParses(sep1: char, sep2: char, id: nat)
    ensures var tail := [sep1] + PadId(id) + [sep2] + AssetBlend;
            ParseInt(Slice(Slice(tail, 0, RFind(tail, AssetBlend)), 1, -1)) == Ok(id)
  {
    var tail := [sep1] + PadId(id) + [sep2] + AssetBlend;
    var last := |tail| - |AssetBlend|;
    assert tail[last..] == AssetBlend;
    assert OccursAt(tail, AssetBlend, last);
    RFindIs(tail, AssetBlend, last);
    assert Slice(tail, 0, last) == [sep1] + PadId(id) + [sep2];
    assert Slice([sep1] + PadId(id) + [sep2], 1, -1) == PadId(id);
    PadIdParses(id);
  }

  lemma FindIs(s: string, p: string, r: nat)
    requires OccursAt(s, p, r)
    requires forall k :: 0 <= k < r ==> !OccursAt(s, p, k)
    ensures Find(s, p) == r
  {
  }

  lemma RFindIs(s: string, p: string, r: nat)
    requires OccursAt(s, p, r) && r == |s| - |p|
    ensures RFind(s, p) == r
  {
  }

  /** Id 6 is written as "00000006", the directory name the library database uses. */
  lemma PadSix()
    ensures PadId(6) == "00000006"
  {
    assert DigitCount(6) == 1;
    assert FixedDigits(6, 8) == FixedDigits(0, 7) + ['6'];
    assert FixedDigits(0, 7) == "0000000" by {
      assert FixedDigits(0, 1) == "0";
      assert FixedDigits(0, 2) == "00";
      assert FixedDigits(0, 3) == "000";
      assert FixedDigits(0, 4) == "0000";
      assert FixedDigits(0, 5) == "00000";
      assert FixedDigits(0, 6) == "000000";
    }
  }

  // ---------------------------------------------------------------------------
  // Axis conversion (Blender Z-up to glTF Y-up)
  // ---------------------------------------------------------------------------

  /** Location (x, y, z) written as [x, z, -y]. */
  function LocationToGltf(v: Vec3): (r: seq<real>)
    ensures |r| == 3
  {
    [v.x, v.z, -v.y]
  }

  /** Rotation (w, x, y, z) written as [w, x, z, -y]. */
  function RotationToGltf(q: Quat): (r: seq<real>)
    ensures |r| == 4
  {
    [q.w, q.x, q.z, -q.y]
  }

  /** Scale (x, y, z) written as [x, z, y]: axes swap, no sign change. */
  function ScaleToGltf(v: Vec3): (r: seq<real>)
    ensures |r| == 3
    ensures r[..2] == LocationToGltf(v)[..2] && r[2] == -LocationToGltf(v)[2]
  {
    [v.x, v.z, v.y]
  }

  /** The inverse map, glTF to Blender. */
  function LocationFromGltf(a: seq<real>): Vec3
    requires |a| == 3
  {
    Vec3(a[0], -a[2], a[1])
  }

  lemma LocationRoundTrip(v: Vec3)
    ensures LocationFromGltf(LocationToGltf(v)) == v
  {
  }

  /** Scale conversion is its own inverse. */
  lemma ScaleInvolutive(v: Vec3)
    ensures ScaleToGltf(Vec3(ScaleToGltf(v)[0], ScaleToGltf(v)[1], ScaleToGltf(v)[2])) == [v.x, v.y, v.z]
  {
  }

  /** The rotation's vector part goes through exactly the location's change of basis; w is kept. */
  lemma RotationUsesLocationBasis(q: Quat)
    ensures RotationToGltf(q)[0] == q.w
    ensures RotationToGltf(q)[1..] == LocationToGltf(Vec3(q.x, q.y, q.z))
  {
  }

  // ---------------------------------------------------------------------------
  // Scene objects and records
  // ---------------------------------------------------------------------------

  /** A material in a slot, with the path of the library it comes from (None when local). */
  datatype Material = Material(name: string, libraryPath: Option<string>)

  /** The library object an override refers to. */
  datatype Reference = Reference(name: string, libraryPath: Option<string>, materialSlots: seq<Option<Material>>)

  /** A library override; its reference can be missing on a broken override. */
  datatype Override = Override(reference: Option<Reference>)

  /** An object's data block (its mesh, say); `overridden` when the data carries its own library override. */
  datatype ObjectData = ObjectData(overridden: bool)

  /** A scene object; `data` is None for objects without a data block, such as empties. */
  datatype SceneObject = SceneObject(
    name: string,
    objType: string,
    overrideLibrary: Option<Override>,
    data: Option<ObjectData>,
    translation: Vec3,
    rotation: Quat,
    scale: Vec3,
    materialSlots: seq<Option<Material>>)

  /** Objects exported as glTF geometry: those without a library override. */
  function ExportSelection(objs: seq<SceneObject>): (r: seq<SceneObject>)
    ensures forall o :: o in r <==> o in objs && o.overrideLibrary.None?
  {
    if objs == [] then []
    else (if objs[0].overrideLibrary.None? then [objs[0]] else []) + ExportSelection(objs[1..])
  }

  /** Objects described by records: those with a library override. */
  function LibraryObjects(objs: seq<SceneObject>): (r: seq<SceneObject>)
    ensures forall o :: o in r <==> o in objs && o.overrideLibrary.Some?
  {
    if objs == [] then []
    else (if objs[0].overrideLibrary.Some? then [objs[0]] else []) + LibraryObjects(objs[1..])
  }

  /** Every scene object lands in exactly one of the two lists, as often as it occurs. */
  lemma {:induction false} PartitionIsExact(objs: seq<SceneObject>)
    ensures multiset(ExportSelection(objs)) + multiset(LibraryObjects(objs)) == multiset(objs)
    ensures forall o :: !(o in ExportSelection(objs) && o in LibraryObjects(objs))
  {
    if objs != [] {
      PartitionIsExact(objs[1..]);
      assert objs == [objs[0]] + objs[1..];
    }
  }

  /**
   * The library objects keep scene order: those of a concatenation are those
   * of its first part followed by those of its second. With the one-object
   * case this fixes the list completely.
   */
  lemma {:induction false} LibraryObjectsAppend(a: seq<SceneObject>, b: seq<SceneObject>)
    ensures LibraryObjects(a + b) == LibraryObjects(a) + LibraryObjects(b)
  {
    if a != [] {
      assert (a + b)[0] == a[0] && (a + b)[1..] == a[1..] + b;
      LibraryObjectsAppend(a[1..], b);
    } else {
      assert a + b == b;
    }
  }

  /** A single object is listed exactly when it has a library override. */
  lemma LibraryObjectsSingle(o: SceneObject)
    ensures LibraryObjects([o]) == if o.overrideLibrary.Some? then [o] else []
  {
    assert [o][1..] == [];
  }

  /** The selection restored after the export keeps scene order in the same way. */
  lemma {:induction false} ExportSelectionAppend(a: seq<SceneObject>, b: seq<SceneObject>)
    ensures ExportSelection(a + b) == ExportSelection(a) + ExportSelection(b)
  {
    if a != [] {
      assert (a + b)[0] == a[0] && (a + b)[1..] == a[1..] + b;
      ExportSelectionAppend(a[1..], b);
    } else {
      assert a + b == b;
    }
  }

  /** get_asset_id applied to a library; a missing library raises. */
  function LibraryAssetId(libraryPath: Option<string>): (r: Result<int>)
    ensures libraryPath.None? ==> r.Fail?
    ensures libraryPath.Some? ==> var (i, n) := IdPiece(libraryPath.value); r == ParseInt(libraryPath.value[i..i + n])
  {
    if libraryPath.None? then Fail("library is None") else GetAssetId(libraryPath.value)
  }

  /** One override slot: original name, replacement name and the replacement's asset id. */
  function OverrideSlot(original: Option<Material>, replacement: Option<Material>): (r: Result<Value>)
    ensures r.Ok? ==> original.Some? && replacement.Some?
  {
    if original.None? || replacement.None? then Fail("material slot is empty")
    else
      var id := LibraryAssetId(replacement.value.libraryPath);
      if id.Fail? then Fail(id.reason)
      else Ok(OfObject(map["original_name" := OfString(original.value.name),
                           "replacement_name" := OfString(replacement.value.name),
                           "asset_id" := OfInt(id.value)]))
  }

  /** One override slot per reference slot, paired with the object's own slot of the same index. */
  function OverrideSlots(ref: Reference, own: seq<Option<Material>>): (r: Result<seq<Value>>)
    ensures r.Ok? <==> (|own| >= |ref.materialSlots| &&
                        forall k :: 0 <= k < |ref.materialSlots| ==> OverrideSlot(ref.materialSlots[k], own[k]).Ok?)
    ensures r.Ok? ==> |r.value| == |ref.materialSlots|
    ensures r.Ok? ==> forall k :: 0 <= k < |ref.materialSlots| ==>
              OverrideSlot(ref.materialSlots[k], own[k]) == Ok(r.value[k])
  {
    var n := |ref.materialSlots|;
    if |own| < n then Fail("index out of range")
    else if exists k :: 0 <= k < n && OverrideSlot(ref.materialSlots[k], own[k]).Fail? then
      Fail("material slot cannot be described")
    else Ok(seq(n, k requires 0 <= k < n => OverrideSlot(ref.materialSlots[k], own[k]).value))
  }

  /** The record keys every library object gets. */
  const RecordKeys: set<string> := {"name", "type", "location", "rotation", "scale", "mesh"}

  function RealArray(a: seq<real>): Value
  {
    OfArray(seq(|a|, i requires 0 <= i < |a| => OfReal(a[i])))
  }

  /** The six fields every record has. */
  function RecordFields(o: SceneObject, ref: Reference, assetId: int): (m: map<string, Value>)
    ensures m.Keys == RecordKeys
  {
    map[
      "name" := OfString(o.name),
      "type" := OfString(o.objType),
      "location" := RealArray(LocationToGltf(o.translation)),
      "rotation" := RealArray(RotationToGltf(o.rotation)),
      "scale" := RealArray(ScaleToGltf(o.scale)),
      "mesh" := OfObject(map["node_name" := OfString(ref.name), "asset_id" := OfInt(assetId)])]
  }

  /**
   * The record for one library object. It fails, as the exporter raises,
   * on an override without reference, on an asset id that cannot be read,
   * on an object without a data block, and on a material slot that cannot
   * be described, checked in that order.
   */
  function Record(o: SceneObject): (r: Result<Value>)
    requires o.overrideLibrary.Some?
    ensures r.Ok? ==> r.value.tag == Object
    ensures r.Ok? ==> (r.value.objectVal.Keys == RecordKeys
                       || r.value.objectVal.Keys == RecordKeys + {"library_materials_override"})
    ensures r.Ok? ==> o.data.Some? && ("library_materials_override" in r.value.objectVal <==> o.data.value.overridden)
    ensures r.Ok? ==> o.overrideLibrary.value.reference.Some?
  {
    OverrideKeyIsNew();
    var ov := o.overrideLibrary.value;
    if ov.reference.None? then Fail("faulty object: override without reference")
    else
      var ref := ov.reference.value;
      var id := LibraryAssetId(ref.libraryPath);
      if id.Fail? then Fail(id.reason)
      else
        var base := RecordFields(o, ref, id.value);
        if o.data.None? then Fail("object without data")
        else if !o.data.value.overridden then Ok(OfObject(base))
        else
          var slots := OverrideSlots(ref, o.materialSlots);
          if slots.Fail? then Fail(slots.reason)
          else Ok(OfObject(base["library_materials_override" := OfArray(slots.value)]))
  }

  /** A successful record holds the six fields, built from the object, its reference and the reference's asset id. */
  lemma RecordExtendsFields(o: SceneObject, v: Value)
    requires o.overrideLibrary.Some? && Record(o) == Ok(v)
    ensures v.tag == Object
    ensures LibraryAssetId(o.overrideLibrary.value.reference.value.libraryPath).Ok?
    ensures Get(v, "name") == OfString(o.name)
    ensures Get(v, "type") == OfString(o.objType)
    ensures Get(v, "mesh") == OfObject(map["node_name" := OfString(o.overrideLibrary.value.reference.value.name),
                                           "asset_id" := OfInt(LibraryAssetId(o.overrideLibrary.value.reference.value.libraryPath).value)])
    ensures Get(v, "location") == RealArray(LocationToGltf(o.translation))
    ensures Get(v, "rotation") == RealArray(RotationToGltf(o.rotation))
    ensures Get(v, "scale") == RealArray(ScaleToGltf(o.scale))
  {
    var ref := o.overrideLibrary.value.reference.value;
    var id := LibraryAssetId(ref.libraryPath);
    var base := RecordFields(o, ref, id.value);
    if o.data.value.overridden {
      var slots := OverrideSlots(ref, o.materialSlots);
      assert v.objectVal == base["library_materials_override" := OfArray(slots.value)];
      OverrideKeepsFields(base, OfArray(slots.value));
    } else {
      assert v.objectVal == base;
    }
    assert forall k :: k in RecordKeys ==> k in v.objectVal && v.objectVal[k] == base[k];
    FieldsRead(o, ref, id.value);
  }

  /** The six fields of a record, each as the exporter writes it. */
  lemma FieldsRead(o: SceneObject, ref: Reference, assetId: int)
    ensures var m := RecordFields(o, ref, assetId);
            && m["name"] == OfString(o.name) && m["type"] == OfString(o.objType)
            && m["location"] == RealArray(LocationToGltf(o.translation))
            && m["rotation"] == RealArray(RotationToGltf(o.rotation))
            && m["scale"] == RealArray(ScaleToGltf(o.scale))
            && m["mesh"] == OfObject(map["node_name" := OfString(ref.name), "asset_id" := OfInt(assetId)])
  {
  }

  /** The override list's key is none of the six field keys. */
  lemma OverrideKeyIsNew()
    ensures "library_materials_override" !in RecordKeys
  {
    assert |"library_materials_override"| == 26;
  }

  /** Adding the override list leaves the six fields untouched. */
  lemma OverrideKeepsFields(base: map<string, Value>, slots: Value)
    requires base.Keys == RecordKeys
    ensures forall k :: k in RecordKeys ==> base["library_materials_override" := slots][k] == base[k]
  {
    OverrideKeyIsNew();
  }

  /** Every override slot a successful record holds is an object. */
  lemma OverrideSlotsAreObjects(o: SceneObject)
    requires o.overrideLibrary.Some? && Record(o).Ok?
    requires "library_materials_override" in Record(o).value.objectVal
    ensures Record(o).value.objectVal["library_materials_override"].tag == Array
    ensures forall j :: 0 <= j < |Record(o).value.objectVal["library_materials_override"].arrayVal| ==>
              Record(o).value.objectVal["library_materials_override"].arrayVal[j].tag == Object
  {
    var ref := o.overrideLibrary.value.reference.value;
    var slots := OverrideSlots(ref, o.materialSlots);
    assert Record(o).value.objectVal["library_materials_override"] == OfArray(slots.value);
    forall j | 0 <= j < |slots.value| ensures slots.value[j].tag == Object {
      assert OverrideSlot(ref.materialSlots[j], o.materialSlots[j]) == Ok(slots.value[j]);
    }
  }

  lemma RealArrayReads(a: seq<real>)
    ensures RealArray(a).tag == Array && |RealArray(a).arrayVal| == |a|
    ensures forall i :: 0 <= i < |a| ==> At(RealArray(a), i).realVal == a[i]
  {
  }

  /** All the values when every result succeeds; otherwise the first failure, in order. */
  function Collect<T>(rs: seq<Result<T>>): (r: Result<seq<T>>)
    ensures r.Ok? <==> forall i :: 0 <= i < |rs| ==> rs[i].Ok?
    ensures r.Ok? ==> |r.value| == |rs| && forall i :: 0 <= i < |rs| ==> rs[i] == Ok(r.value[i])
  {
    if rs == [] then Ok([])
    else if rs[0].Fail? then Fail(rs[0].reason)
    else
      var tail := Collect(rs[1..]);
      assert forall i :: 1 <= i < |rs| ==> rs[i] == rs[1..][i - 1];
      if tail.Fail? then Fail(tail.reason) else Ok([rs[0].value] + tail.value)
  }

  /** Result `i` is the first failure, and it fails with `reason`. */
  predicate FailsFirstAt<T>(rs: seq<Result<T>>, i: nat, reason: string)
  {
    i < |rs| && rs[i] == Fail(reason) && forall j :: 0 <= j < i ==> rs[j].Ok?
  }

  /** A failed collection reports the first failing result. */
  lemma {:induction false} CollectFailsAtFirst<T>(rs: seq<Result<T>>)
    requires Collect(rs).Fail?
    ensures exists i: nat :: FailsFirstAt(rs, i, Collect(rs).reason)
  {
    if rs[0].Ok? {
      CollectFailsAtFirst(rs[1..]);
      var k: nat :| FailsFirstAt(rs[1..], k, Collect(rs[1..]).reason);
      assert forall j :: 1 <= j <= k ==> rs[j] == rs[1..][j - 1];
      assert FailsFirstAt(rs, k + 1, Collect(rs).reason);
    } else {
      assert FailsFirstAt(rs, 0, Collect(rs).reason);
    }
  }

  /** The record of each library object, in scene order. */
  function RecordResults(objs: seq<SceneObject>): (rs: seq<Result<Value>>)
    requires forall o :: o in objs ==> o.overrideLibrary.Some?
    ensures |rs| == |objs| && forall i :: 0 <= i < |objs| ==> rs[i] == Record(objs[i])
  {
    seq(|objs|, i requires 0 <= i < |objs| => Record(objs[i]))
  }

  /** Records of all library objects, in scene order; the first failure aborts. */
  function Records(objs: seq<SceneObject>): (r: Result<seq<Value>>)
    requires forall o :: o in objs ==> o.overrideLibrary.Some?
    ensures r.Ok? <==> forall i :: 0 <= i < |objs| ==> Record(objs[i]).Ok?
    ensures r.Ok? ==> |r.value| == |objs|
    ensures r.Ok? ==> forall i :: 0 <= i < |objs| ==> Record(objs[i]) == Ok(r.value[i])
  {
    Collect(RecordResults(objs))
  }

  /** Object `i` is the first whose record fails, and it fails with `reason`. */
  predicate FirstFailureAt(objs: seq<SceneObject>, i: nat, reason: string)
    requires forall o :: o in objs ==> o.overrideLibrary.Some?
  {
    i < |objs| && Record(objs[i]) == Fail(reason) && forall j :: 0 <= j < i ==> Record(objs[j]).Ok?
  }

  /** A failed export reports the failure of the first library object whose record fails. */
  lemma RecordsFailsAtFirst(objs: seq<SceneObject>)
    requires forall o :: o in objs ==> o.overrideLibrary.Some?
    requires Records(objs).Fail?
    ensures exists i: nat :: FirstFailureAt(objs, i, Records(objs).reason)
  {
    var rs := RecordResults(objs);
    CollectFailsAtFirst(rs);
    var k: nat :| FailsFirstAt(rs, k, Collect(rs).reason);
    assert FirstFailureAt(objs, k, Records(objs).reason);
  }

  /**
   * What the export leaves behind: the error that aborted it (None when it
   * completed), the objects handed to the glTF writer, the scene property
   * `project_orbit_data` (None while unset) and the selected object names.
   */
  datatype ExportOutcome = ExportOutcome(failure: Option<string>, exported: seq<SceneObject>,
                                         sceneData: Option<Value>, selection: set<string>)

  function Names(objs: seq<SceneObject>): (r: set<string>)
    ensures forall n :: n in r <==> exists i :: 0 <= i < |objs| && objs[i].name == n
  {
    if objs == [] then {} else {objs[0].name} + Names(objs[1..])
  }

  /**
   * The export operator, with the glTF writer itself left out. The
   * selection is switched to the export selection before the records are
   * built, so an export that aborts leaves that selection behind and the
   * scene property as it was; a completed one sets the property and
   * restores the earlier selection.
   */
  function Export(objs: seq<SceneObject>, selected: set<string>, previousData: Option<Value>): (r: ExportOutcome)
    ensures r.failure.None? <==> Records(LibraryObjects(objs)).Ok?
    ensures r.failure.Some? ==> r.failure.value == Records(LibraryObjects(objs)).reason
    ensures r.failure.Some? ==> r.exported == [] && r.sceneData == previousData && r.selection == Names(ExportSelection(objs))
    ensures r.failure.None? ==> r.exported == ExportSelection(objs)
    ensures r.failure.None? ==> r.sceneData.Some? && r.sceneData.value.tag == Object &&
                                r.sceneData.value.objectVal.Keys == {"library_objects"}
    ensures r.failure.None? ==> r.sceneData.value.objectVal["library_objects"] == OfArray(Records(LibraryObjects(objs)).value)
    ensures r.failure.None? ==> r.selection == selected
  {
    var lib := LibraryObjects(objs);
    var recs := Records(lib);
    if recs.Fail? then ExportOutcome(Some(recs.reason), [], previousData, Names(ExportSelection(objs)))
    else ExportOutcome(None, ExportSelection(objs), Some(OfObject(map["library_objects" := OfArray(recs.value)])), selected)
  }

  /**
   * The export succeeds exactly when every library object has a record,
   * and the scene property then lists those records, one per library
   * object in scene order.
   */
  lemma ExportRecordsEveryLibraryObject(objs: seq<SceneObject>, selected: set<string>, previousData: Option<Value>)
    ensures var lib := LibraryObjects(objs);
            && (forall i :: 0 <= i < |lib| ==> lib[i] in objs && lib[i].overrideLibrary.Some?)
            && (Export(objs, selected, previousData).failure.None? <==> forall i :: 0 <= i < |lib| ==> Record(lib[i]).Ok?)
            && (Export(objs, selected, previousData).failure.None? ==>
                  var entries := Export(objs, selected, previousData).sceneData.value.objectVal["library_objects"];
                  && entries.tag == Array && |entries.arrayVal| == |lib|
                  && forall i :: 0 <= i < |lib| ==> Record(lib[i]) == Ok(entries.arrayVal[i]))
  {
    var lib := LibraryObjects(objs);
    assert forall i :: 0 <= i < |lib| ==> lib[i] in lib;
  }
}

=== FILE: gltf_loader.dfy ===
/**
 * The glTF loader's own decisions around the parser: default-filling
 * converters for transforms and colours, buffer-access arithmetic, the
 * extension readers with their defaults, validation of required
 * extensions, and the load sequence itself.
 */
module GltfLoader {
  import opened Common
  import opened EngineTypes
  import opened GltfModel

  // ---------------------------------------------------------------------------
  // Converters from parsed number lists
  // ---------------------------------------------------------------------------

  datatype Color = Color(r: real, g: real, b: real, a: real)

  function ColorToVector(c: Color): seq<real>
  {
    [c.r, c.g, c.b, c.a]
  }

  /** Empty means opaque black, three numbers are RGB with alpha 1, four are RGBA. */
  function VectorToColor(v: seq<real>): (c: Color)
    requires |v| == 0 || |v| == 3 || |v| == 4
    ensures |v| == 4 ==> ColorToVector(c) == v
    ensures |v| == 3 ==> ColorToVector(c) == v + [1.0]
    ensures |v| == 0 ==> ColorToVector(c) == [0.0, 0.0, 0.0, 1.0]
  {
    if |v| == 0 then Color(0.0, 0.0, 0.0, 1.0)
    else if |v| == 3 then Color(v[0], v[1], v[2], 1.0)
    else Color(v[0], v[1], v[2], v[3])
  }

  /** Reading back a colour's four components gives the colour; a missing alpha is the same as alpha 1. */
  lemma ColorRoundTrip(c: Color, rgb: seq<real>)
    requires |rgb| == 3
    ensures VectorToColor(ColorToVector(c)) == c
    ensures VectorToColor(rgb) == VectorToColor(rgb + [1.0])
    ensures VectorToColor([]) == VectorToColor([0.0, 0.0, 0.0, 1.0])
  {
  }

  function Vec3ToVector(v: Vec3): seq<real>
  {
    [v.x, v.y, v.z]
  }

  /** Empty means no translation; three numbers are copied. */
  function VectorToTranslation(v: seq<real>): (t: Vec3)
    requires |v| == 0 || |v| == 3
    ensures |v| == 3 ==> Vec3ToVector(t) == v
    ensures |v| == 0 ==> Vec3ToVector(t) == [0.0, 0.0, 0.0]
  {
    if |v| == 0 then Vec3(0.0, 0.0, 0.0) else Vec3(v[0], v[1], v[2])
  }

  /** Empty means unit scale; three numbers are copied. */
  function VectorToScale(v: seq<real>): (s: Vec3)
    requires |v| == 0 || |v| == 3
    ensures |v| == 3 ==> Vec3ToVector(s) == v
    ensures |v| == 0 ==> Vec3ToVector(s) == [1.0, 1.0, 1.0]
  {
    if |v| == 0 then Vec3(1.0, 1.0, 1.0) else Vec3(v[0], v[1], v[2])
  }

  /** A missing translation or scale is the same as the explicit neutral one. */
  lemma TransformDefaultsAreNeutral(v: Vec3)
    ensures VectorToTranslation([]) == VectorToTranslation([0.0, 0.0, 0.0])
    ensures VectorToScale([]) == VectorToScale([1.0, 1.0, 1.0])
    ensures VectorToTranslation(Vec3ToVector(v)) == v && VectorToScale(Vec3ToVector(v)) == v
  {
  }

  /** glTF stores a rotation as (x, y, z, w) with w the scalar part (section 3.5.2 of the glTF 2.0 specification). */
  function RotationToVector(q: Quat): seq<real>
  {
    [q.x, q.y, q.z, q.w]
  }

  /** Four numbers are read as XYZW; any other length gives the identity rotation. */
  function VectorToRotation(v: seq<real>): (q: Quat)
    ensures |v| != 4 ==> q == Quat(1.0, 0.0, 0.0, 0.0)
  {
    if |v| == 4 then Quat(v[3], v[0], v[1], v[2]) else Quat(1.0, 0.0, 0.0, 0.0)
  }

  /** The XYZW reading and writing are inverse in both directions. */
  lemma RotationRoundTrip(q: Quat, v: seq<real>)
    requires |v| == 4
    ensures VectorToRotation(RotationToVector(q)) == q
    ensures RotationToVector(VectorToRotation(v)) == v
  {
  }

  // ---------------------------------------------------------------------------
  // Buffer access
  // ---------------------------------------------------------------------------

  /** `size_t` arithmetic wraps modulo 2^64. */
  const SizeModulus: int := 0x1_0000_0000_0000_0000

  function SizeT(x: int): (r: nat)
    ensures r < SizeModulus
    ensures 0 <= x < SizeModulus ==> r == x
  {
    x % SizeModulus
  }

  /** Accessor element types (section 3.6.2.2 of the glTF 2.0 specification), with the parser's numeric codes. */
  const TypeVec2: int := 2
  const TypeVec3: int := 3
  const TypeVec4: int := 4
  const TypeMat2: int := 32 + 2
  const TypeMat3: int := 32 + 3
  const TypeMat4: int := 32 + 4
  const TypeScalar: int := 64 + 1
  const TypeVector: int := 64 + 4
  const TypeMatrix: int := 64 + 16

  /** Components per element, or -1 for an unknown type. */
  function ComponentsInType(t: int): int
  {
    if t == TypeScalar then 1
    else if t == TypeVec2 then 2
    else if t == TypeVec3 then 3
    else if t == TypeVec4 then 4
    else if t == TypeMat2 then 4
    else if t == TypeMat3 then 9
    else if t == TypeMat4 then 16
    else -1
  }

  /** Bytes per component, or -1 for an unknown component type. */
  function ComponentSizeInBytes(ct: int): int
  {
    if ct == 5120 || ct == 5121 then 1
    else if ct == 5122 || ct == 5123 then 2
    else if ct == 5124 || ct == 5125 || ct == 5126 then 4
    else if ct == 5130 then 8
    else -1
  }

  datatype BufferView = BufferView(byteOffset: nat, byteLength: nat, byteStride: nat)
  datatype Access = Access(byteOffset: nat, byteLength: nat, byteStride: nat)

  predicate SizeValues(offset: nat, bv: BufferView)
  {
    offset < SizeModulus && bv.byteOffset < SizeModulus && bv.byteLength < SizeModulus && bv.byteStride < SizeModulus
  }

  /**
   * Where an accessor's data starts and how far it reaches: the view's own
   * stride unless that is zero, which means tightly packed elements (section
   * 3.6.2.4 of the glTF 2.0 specification); offsets add up and the length
   * shrinks by the accessor's offset, all in `size_t`.
   */
  function BufferAccess(elementType: int, componentType: int, offset: nat, bv: BufferView): (a: Access)
    requires SizeValues(offset, bv)
    ensures bv.byteStride != 0 ==> a.byteStride == bv.byteStride
    ensures bv.byteStride == 0 && ComponentsInType(elementType) > 0 && ComponentSizeInBytes(componentType) > 0 ==>
              a.byteStride == ComponentsInType(elementType) * ComponentSizeInBytes(componentType)
    ensures bv.byteOffset + offset < SizeModulus ==> a.byteOffset == bv.byteOffset + offset
    ensures offset <= bv.byteLength ==> a.byteLength == bv.byteLength - offset
  {
    var stride := if bv.byteStride == 0
                  then SizeT(ComponentsInType(elementType) * ComponentSizeInBytes(componentType))
                  else bv.byteStride;
    Access(SizeT(bv.byteOffset + offset), SizeT(bv.byteLength - offset), stride)
  }

  /**
   * Without wrap-around the accessed range ends exactly where the view ends;
   * an accessor offset past the view's length wraps the length around to a
   * huge value instead of failing.
   */
  lemma AccessEndsWithView(elementType: int, componentType: int, offset: nat, bv: BufferView)
    requires SizeValues(offset, bv)
    ensures var a := BufferAccess(elementType, componentType, offset, bv);
            offset <= bv.byteLength && bv.byteOffset + offset < SizeModulus ==>
              a.byteOffset + a.byteLength == bv.byteOffset + bv.byteLength
    ensures var a := BufferAccess(elementType, componentType, offset, bv);
            offset > bv.byteLength ==> a.byteLength == SizeModulus - (offset - bv.byteLength)
  {
  }

  // ---------------------------------------------------------------------------
  // Reading numbers out of extension values
  // ---------------------------------------------------------------------------

  /** C++ `int(x)`: truncation toward zero. */
  function TruncateToInt(r: real): int
  {
    if r >= 0.0 then r.Floor else -((-r).Floor)
  }

  predicate IsNumber(v: Value)
  {
    v.tag == Integer || v.tag == Real
  }

  /** The parser's number reading: integers are widened, anything else yields its real payload. */
  function NumberAsDouble(v: Value): real
  {
    if v.tag == Integer then v.intVal as real else v.realVal
  }

  /** The parser's integer reading: reals are truncated, anything else yields its integer payload. */
  function NumberAsInt(v: Value): int
  {
    if v.tag == Real then TruncateToInt(v.realVal) else v.intVal
  }

  /** `key` is absent or holds a number. */
  predicate NumberField(ext: Value, key: string)
    requires ext.tag == Object
  {
    Has(ext, key) ==> IsNumber(Get(ext, key))
  }

  /** `key` is absent or holds an array of `n` numbers. */
  predicate NumbersField(ext: Value, key: string, n: nat)
    requires ext.tag == Object
  {
    Has(ext, key) ==>
      Get(ext, key).tag == Array && ArrayLen(Get(ext, key)) == n &&
      forall i :: 0 <= i < n ==> IsNumber(At(Get(ext, key), i))
  }

  function NumberOr(ext: Value, key: string, default: real): real
    requires ext.tag == Object
  {
    if Has(ext, key) then NumberAsDouble(Get(ext, key)) else default
  }

  // ---------------------------------------------------------------------------
  // Extension readers
  // ---------------------------------------------------------------------------

  const TransmissionName: string := "KHR_materials_transmission"
  const IorName: string := "KHR_materials_ior"
  const VolumeName: string := "KHR_materials_volume"
  const EmissiveStrengthName: string := "KHR_materials_emissive_strength"
  const LightsPunctualName: string := "KHR_lights_punctual"
  const TextureTransformName: string := "KHR_texture_transform"
  const VariantsName: string := "KHR_materials_variants"

  /** The parser's texture reference; a default one has no texture (-1) and texture coordinate set 0. */
  datatype TextureInfo = TextureInfo(index: int, texCoord: int)

  const NoTexture: TextureInfo := TextureInfo(-1, 0)

  /** A texture reference object: absent fields keep the parser's defaults. */
  function ValueToTextureInfo(v: Value): (t: TextureInfo)
    requires v.tag == Object
    ensures !Has(v, "index") ==> t.index == NoTexture.index
    ensures !Has(v, "texCoord") ==> t.texCoord == NoTexture.texCoord
  {
    TextureInfo(if Has(v, "index") then NumberAsInt(Get(v, "index")) else -1,
                if Has(v, "texCoord") then NumberAsInt(Get(v, "texCoord")) else 0)
  }

  /** What an extension reader reports: whether the extension was present, and the destination afterwards. */
  datatype Read<T> = Read(found: bool, dest: T)

  datatype Transmission = Transmission(transmissionFactor: real, transmissionTexture: TextureInfo)

  predicate TransmissionWellFormed(extensions: map<string, Value>)
  {
    TransmissionName in extensions ==>
      var e := extensions[TransmissionName];
      e.tag == Object && NumberField(e, "transmissionFactor") &&
      (Has(e, "transmissionTexture") ==> Get(e, "transmissionTexture").tag == Object)
  }

  function LoadTransmission(extensions: map<string, Value>, dest: Transmission): (r: Read<Transmission>)
    requires TransmissionWellFormed(extensions)
    ensures r.found <==> TransmissionName in extensions
    ensures !r.found ==> r.dest == dest
    ensures r.found ==> var e := extensions[TransmissionName];
              && (Has(e, "transmissionFactor") ==> r.dest.transmissionFactor == NumberAsDouble(Get(e, "transmissionFactor")))
              && (!Has(e, "transmissionFactor") ==> r.dest.transmissionFactor == 0.0)
    ensures r.found ==> var e := extensions[TransmissionName];
              && (Has(e, "transmissionTexture") ==>
                    r.dest.transmissionTexture == ValueToTextureInfo(Get(e, "transmissionTexture")))
              && (!Has(e, "transmissionTexture") ==> r.dest.transmissionTexture == NoTexture)
  {
    if TransmissionName !in extensions then Read(false, dest)
    else
      var e := extensions[TransmissionName];
      Read(true, Transmission(NumberOr(e, "transmissionFactor", 0.0),
                              if Has(e, "transmissionTexture") then ValueToTextureInfo(Get(e, "transmissionTexture"))
                              else NoTexture))
  }

  datatype Ior = Ior(ior: real)

  predicate IorWellFormed(extensions: map<string, Value>)
  {
    IorName in extensions ==> extensions[IorName].tag == Object && NumberField(extensions[IorName], "ior")
  }

  function LoadIor(extensions: map<string, Value>, dest: Ior): (r: Read<Ior>)
    requires IorWellFormed(extensions)
    ensures r.found <==> IorName in extensions
    ensures !r.found ==> r.dest == dest
    ensures r.found ==> var e := extensions[IorName];
              && (Has(e, "ior") ==> r.dest.ior == NumberAsDouble(Get(e, "ior")))
              && (!Has(e, "ior") ==> r.dest.ior == 1.5)
  {
    if IorName !in extensions then Read(false, dest)
    else Read(true, Ior(NumberOr(extensions[IorName], "ior", 1.5)))
  }

  /** A distance that may be infinite. */
  datatype Distance = Finite(value: real) | Infinite

  datatype Volume = Volume(thicknessFactor: real, thicknessTexture: TextureInfo,
                           attenuationDistance: Distance, attenuationColor: seq<real>)

  predicate VolumeWellFormed(extensions: map<string, Value>)
  {
    VolumeName in extensions ==>
      var e := extensions[VolumeName];
      e.tag == Object && NumberField(e, "thicknessFactor") && NumberField(e, "attenuationDistance") &&
      NumbersField(e, "attenuationColor", 3) &&
      (Has(e, "thicknessTexture") ==> Get(e, "thicknessTexture").tag == Object)
  }

  function LoadVolume(extensions: map<string, Value>, dest: Volume): (r: Read<Volume>)
    requires VolumeWellFormed(extensions)
    ensures r.found <==> VolumeName in extensions
    ensures !r.found ==> r.dest == dest
    ensures r.found ==> |r.dest.attenuationColor| == 3
    ensures r.found ==> var e := extensions[VolumeName];
              && (Has(e, "thicknessFactor") ==> r.dest.thicknessFactor == NumberAsDouble(Get(e, "thicknessFactor")))
              && (!Has(e, "thicknessFactor") ==> r.dest.thicknessFactor == 0.0)
    ensures r.found ==> var e := extensions[VolumeName];
              && (Has(e, "thicknessTexture") ==> r.dest.thicknessTexture == ValueToTextureInfo(Get(e, "thicknessTexture")))
              && (!Has(e, "thicknessTexture") ==> r.dest.thicknessTexture == NoTexture)
    ensures r.found ==> var e := extensions[VolumeName];
              && (Has(e, "attenuationDistance") ==>
                    r.dest.attenuationDistance == Finite(NumberAsDouble(Get(e, "attenuationDistance"))))
              && (!Has(e, "attenuationDistance") ==> r.dest.attenuationDistance == Infinite)
    ensures r.found ==> var e := extensions[VolumeName];
              && (Has(e, "attenuationColor") ==>
                    forall k :: 0 <= k < 3 ==> r.dest.attenuationColor[k] == NumberAsDouble(At(Get(e, "attenuationColor"), k)))
              && (!Has(e, "attenuationColor") ==> r.dest.attenuationColor == [1.0, 1.0, 1.0])
  {
    if VolumeName !in extensions then Read(false, dest)
    else
      var e := extensions[VolumeName];
      var color := if Has(e, "attenuationColor") then
                     var c := Get(e, "attenuationColor");
                     [NumberAsDouble(At(c, 0)), NumberAsDouble(At(c, 1)), NumberAsDouble(At(c, 2))]
                   else [1.0, 1.0, 1.0];
      Read(true, Volume(NumberOr(e, "thicknessFactor", 0.0),
                        if Has(e, "thicknessTexture") then ValueToTextureInfo(Get(e, "thicknessTexture")) else NoTexture,
                        if Has(e, "attenuationDistance") then Finite(NumberAsDouble(Get(e, "attenuationDistance"))) else Infinite,
                        color))
  }

  datatype EmissiveStrength = EmissiveStrength(emissiveStrength: real)

  predicate EmissiveStrengthWellFormed(extensions: map<string, Value>)
  {
    EmissiveStrengthName in extensions ==>
      extensions[EmissiveStrengthName].tag == Object && NumberField(extensions[EmissiveStrengthName], "emissiveStrength")
  }

  function LoadEmissiveStrength(extensions: map<string, Value>, dest: EmissiveStrength): (r: Read<EmissiveStrength>)
    requires EmissiveStrengthWellFormed(extensions)
    ensures r.found <==> EmissiveStrengthName in extensions
    ensures !r.found ==> r.dest == dest
    ensures r.found ==> var e := extensions[EmissiveStrengthName];
              && (Has(e, "emissiveStrength") ==> r.dest.emissiveStrength == NumberAsDouble(Get(e, "emissiveStrength")))
              && (!Has(e, "emissiveStrength") ==> r.dest.emissiveStrength == 1.0)
  {
    if EmissiveStrengthName !in extensions then Read(false, dest)
    else Read(true, EmissiveStrength(NumberOr(extensions[EmissiveStrengthName], "emissiveStrength", 1.0)))
  }

  datatype LightRef = LightRef(light: int)

  predicate LightsPunctualWellFormed(extensions: map<string, Value>)
  {
    LightsPunctualName in extensions ==>
      extensions[LightsPunctualName].tag == Object && NumberField(extensions[LightsPunctualName], "light")
  }

  function LoadLightsPunctual(extensions: map<string, Value>, dest: LightRef): (r: Read<LightRef>)
    requires LightsPunctualWellFormed(extensions)
    ensures r.found <==> LightsPunctualName in extensions
    ensures !r.found ==> r.dest == dest
    ensures r.found ==> var e := extensions[LightsPunctualName];
              && (Has(e, "light") ==> r.dest.light == NumberAsInt(Get(e, "light")))
              && (!Has(e, "light") ==> r.dest.light == -1)
  {
    if LightsPunctualName !in extensions then Read(false, dest)
    else
      var e := extensions[LightsPunctualName];
      Read(true, LightRef(if Has(e, "light") then NumberAsInt(Get(e, "light")) else -1))
  }

  datatype TextureTransform = TextureTransform(offset: Vec2, rotation: real, scale: Vec2, texCoord: int)

  predicate TextureTransformWellFormed(extensions: map<string, Value>)
  {
    TextureTransformName in extensions ==>
      var e := extensions[TextureTransformName];
      e.tag == Object && NumbersField(e, "offset", 2) && NumberField(e, "rotation") &&
      NumbersField(e, "scale", 2) && NumberField(e, "texCoord")
  }

  function PairOr(e: Value, key: string, default: Vec2): Vec2
    requires e.tag == Object && NumbersField(e, key, 2)
  {
    if Has(e, key) then Vec2(NumberAsDouble(At(Get(e, key), 0)), NumberAsDouble(At(Get(e, key), 1)))
    else default
  }

  /**
   * The same reader serves plain, normal and occlusion texture references:
   * offset (0, 0), rotation 0, scale (1, 1) and texture coordinate set -1
   * unless the extension gives them.
   */
  function LoadTextureTransform(extensions: map<string, Value>, dest: TextureTransform): (r: Read<TextureTransform>)
    requires TextureTransformWellFormed(extensions)
    ensures r.found <==> TextureTransformName in extensions
    ensures !r.found ==> r.dest == dest
    ensures r.found ==> var e := extensions[TextureTransformName];
              && (Has(e, "offset") ==> r.dest.offset == Vec2(NumberAsDouble(At(Get(e, "offset"), 0)), NumberAsDouble(At(Get(e, "offset"), 1))))
              && (!Has(e, "offset") ==> r.dest.offset == Vec2(0.0, 0.0))
    ensures r.found ==> var e := extensions[TextureTransformName];
              && (Has(e, "rotation") ==> r.dest.rotation == NumberAsDouble(Get(e, "rotation")))
              && (!Has(e, "rotation") ==> r.dest.rotation == 0.0)
    ensures r.found ==> var e := extensions[TextureTransformName];
              && (Has(e, "scale") ==> r.dest.scale == Vec2(NumberAsDouble(At(Get(e, "scale"), 0)), NumberAsDouble(At(Get(e, "scale"), 1))))
              && (!Has(e, "scale") ==> r.dest.scale == Vec2(1.0, 1.0))
    ensures r.found ==> var e := extensions[TextureTransformName];
              && (Has(e, "texCoord") ==> r.dest.texCoord == NumberAsInt(Get(e, "texCoord")))
              && (!Has(e, "texCoord") ==> r.dest.texCoord == -1)
  {
    if TextureTransformName !in extensions then Read(false, dest)
    else
      var e := extensions[TextureTransformName];
      Read(true, TextureTransform(PairOr(e, "offset", Vec2(0.0, 0.0)), NumberOr(e, "rotation", 0.0),
                                  PairOr(e, "scale", Vec2(1.0, 1.0)),
                                  if Has(e, "texCoord") then NumberAsInt(Get(e, "texCoord")) else -1))
  }

  /** An empty extension object yields every documented default. */
  lemma EmptyExtensionsGiveDefaults(t: Transmission, i: Ior, v: Volume, s: EmissiveStrength, l: LightRef,
                                    x: TextureTransform)
    ensures var empty := OfObject(map[]);
            && LoadTransmission(map[TransmissionName := empty], t) == Read(true, Transmission(0.0, NoTexture))
            && LoadIor(map[IorName := empty], i) == Read(true, Ior(1.5))
            && LoadVolume(map[VolumeName := empty], v) == Read(true, Volume(0.0, NoTexture, Infinite, [1.0, 1.0, 1.0]))
            && LoadEmissiveStrength(map[EmissiveStrengthName := empty], s) == Read(true, EmissiveStrength(1.0))
            && LoadLightsPunctual(map[LightsPunctualName := empty], l) == Read(true, LightRef(-1))
            && LoadTextureTransform(map[TextureTransformName := empty], x) ==
                 Read(true, TextureTransform(Vec2(0.0, 0.0), 0.0, Vec2(1.0, 1.0), -1))
  {
  }

  /** When the extension is present every field is rewritten: nothing of the previous destination survives. */
  lemma FoundOverwritesEverything(extensions: map<string, Value>, t1: Transmission, t2: Transmission,
                                  v1: Volume, v2: Volume, x1: TextureTransform, x2: TextureTransform)
    requires TransmissionWellFormed(extensions) && VolumeWellFormed(extensions) && TextureTransformWellFormed(extensions)
    ensures LoadTransmission(extensions, t1).found ==> LoadTransmission(extensions, t1) == LoadTransmission(extensions, t2)
    ensures LoadVolume(extensions, v1).found ==> LoadVolume(extensions, v1) == LoadVolume(extensions, v2)
    ensures LoadTextureTransform(extensions, x1).found ==>
              LoadTextureTransform(extensions, x1) == LoadTextureTransform(extensions, x2)
  {
  }

  /** Extension `name` with `key` set to `v`, its other fields kept; an absent or non-object extension starts empty. */
  function SetField(extensions: map<string, Value>, name: string, key: string, v: Value): (e: Value)
    ensures e.tag == Object && Has(e, key) && Get(e, key) == v
    ensures name in extensions && extensions[name].tag == Object ==>
              forall k :: k in extensions[name].objectVal && k != key ==> Has(e, k) && Get(e, k) == extensions[name].objectVal[k]
  {
    var fields := if name in extensions && extensions[name].tag == Object then extensions[name].objectVal else map[];
    OfObject(fields[key := v])
  }

  /**
   * A number given under a field's key is what the reader stores, whatever
   * the destination held and whatever other fields the extension has.
   */
  lemma GivenFieldsWin(extensions: map<string, Value>, t: Transmission, i: Ior, s: EmissiveStrength, l: LightRef, n: Value)
    requires IsNumber(n)
    ensures var ext := extensions[TransmissionName := SetField(extensions, TransmissionName, "transmissionFactor", n)];
            TransmissionWellFormed(ext) ==> LoadTransmission(ext, t).dest.transmissionFactor == NumberAsDouble(n)
    ensures var ext := extensions[IorName := SetField(extensions, IorName, "ior", n)];
            IorWellFormed(ext) ==> LoadIor(ext, i) == Read(true, Ior(NumberAsDouble(n)))
    ensures var ext := extensions[EmissiveStrengthName := SetField(extensions, EmissiveStrengthName, "emissiveStrength", n)];
            EmissiveStrengthWellFormed(ext) ==> LoadEmissiveStrength(ext, s) == Read(true, EmissiveStrength(NumberAsDouble(n)))
    ensures var ext := extensions[LightsPunctualName := SetField(extensions, LightsPunctualName, "light", n)];
            LightsPunctualWellFormed(ext) ==> LoadLightsPunctual(ext, l) == Read(true, LightRef(NumberAsInt(n)))
  {
  }

  predicate VariantsWellFormed(extensions: map<string, Value>)
  {
    VariantsName in extensions ==>
      var e := extensions[VariantsName];
      e.tag == Object &&
      (Has(e, "variants") ==>
         Get(e, "variants").tag == Array &&
         forall i :: 0 <= i < ArrayLen(Get(e, "variants")) ==> Get(e, "variants").arrayVal[i].tag == Object)
  }

  /** The document's variant names, in file order; absent "variants" clears the list. */
  function LoadVariantNames(extensions: map<string, Value>, dest: seq<string>): (r: Read<seq<string>>)
    requires VariantsWellFormed(extensions)
    ensures r.found <==> VariantsName in extensions
    ensures !r.found ==> r.dest == dest
    ensures r.found ==> |r.dest| == (if Has(extensions[VariantsName], "variants") then ArrayLen(Get(extensions[VariantsName], "variants")) else 0)
    ensures r.found && Has(extensions[VariantsName], "variants") ==>
              forall i :: 0 <= i < |r.dest| ==>
                r.dest[i] == Get(Get(extensions[VariantsName], "variants").arrayVal[i], "name").stringVal
  {
    if VariantsName !in extensions then Read(false, dest)
    else
      var e := extensions[VariantsName];
      if !Has(e, "variants") then Read(true, [])
      else
        var vs := Get(e, "variants");
        Read(true, seq(|vs.arrayVal|, i requires 0 <= i < |vs.arrayVal| => Get(vs.arrayVal[i], "name").stringVal))
  }

  /** One primitive mapping: the material to use for the listed variant indices. */
  datatype Mapping = Mapping(material: int, variants: seq<int>)

  predicate MappingsWellFormed(extensions: map<string, Value>)
  {
    VariantsName in extensions ==>
      var e := extensions[VariantsName];
      e.tag == Object &&
      (Has(e, "mappings") ==>
         Get(e, "mappings").tag == Array &&
         forall i :: 0 <= i < ArrayLen(Get(e, "mappings")) ==>
           Get(e, "mappings").arrayVal[i].tag == Object &&
           Get(Get(e, "mappings").arrayVal[i], "variants").tag == Array)
  }

  function ReadMapping(m: Value): Mapping
    requires m.tag == Object && Get(m, "variants").tag == Array
  {
    var vs := Get(m, "variants").arrayVal;
    Mapping(Get(m, "material").intVal, seq(|vs|, j requires 0 <= j < |vs| => vs[j].intVal))
  }

  /** A primitive's variant mappings, in file order; absent "mappings" clears the list. */
  function LoadMappings(extensions: map<string, Value>, dest: seq<Mapping>): (r: Read<seq<Mapping>>)
    requires MappingsWellFormed(extensions)
    ensures r.found <==> VariantsName in extensions
    ensures !r.found ==> r.dest == dest
    ensures r.found ==> |r.dest| == (if Has(extensions[VariantsName], "mappings") then ArrayLen(Get(extensions[VariantsName], "mappings")) else 0)
    ensures r.found && Has(extensions[VariantsName], "mappings") ==>
              forall i :: 0 <= i < |r.dest| ==>
                |r.dest[i].variants| == ArrayLen(Get(Get(extensions[VariantsName], "mappings").arrayVal[i], "variants"))
    ensures r.found && Has(extensions[VariantsName], "mappings") ==>
              forall i :: 0 <= i < |r.dest| ==>
                r.dest[i].material == Get(Get(extensions[VariantsName], "mappings").arrayVal[i], "material").intVal
    ensures r.found && Has(extensions[VariantsName], "mappings") ==>
              forall i, j :: 0 <= i < |r.dest| && 0 <= j < |r.dest[i].variants| ==>
                j < ArrayLen(Get(Get(extensions[VariantsName], "mappings").arrayVal[i], "variants")) &&
                r.dest[i].variants[j] == Get(Get(extensions[VariantsName], "mappings").arrayVal[i], "variants").arrayVal[j].intVal
  {
    if VariantsName !in extensions then Read(false, dest)
    else
      var e := extensions[VariantsName];
      if !Has(e, "mappings") then Read(true, [])
      else
        var ms := Get(e, "mappings").arrayVal;
        Read(true, seq(|ms|, i requires 0 <= i < |ms| => ReadMapping(ms[i])))
  }

  // ---------------------------------------------------------------------------
  // Extension validation
  // ---------------------------------------------------------------------------

  /** The extensions the loader understands. */
  const SupportedExtensions: set<string> := {TransmissionName, EmissiveStrengthName, VariantsName}

  function UsedWarning(name: string): string
  {
    "Extension " + name + " is used by the model but it's not supported by qigltf library"
  }

  function RequiredWarning(name: string): string
  {
    "Extension " + name + " is required by the model but it's not supported by qigltf library"
  }

  const RequiredFailure: string := "The model failed to load because some required extensions are unsupported"

  function UnsupportedWarnings(names: seq<string>, warning: string -> string): seq<string>
  {
    if names == [] then []
    else
      var k := |names| - 1;
      UnsupportedWarnings(names[..k], warning) + (if names[k] in SupportedExtensions then [] else [warning(names[k])])
  }

  /** Set when some name in the list is not supported. */
  function AnyUnsupported(names: seq<string>): bool
  {
    if names == [] then false
    else AnyUnsupported(names[..|names| - 1]) || names[|names| - 1] !in SupportedExtensions
  }

  datatype Validation = Validation(ok: bool, warnings: seq<string>)

  /** Warns about every unsupported used and required extension; fails iff a required one is unsupported. */
  function ValidateExtensions(used: seq<string>, required: seq<string>): (v: Validation)
    ensures v.ok <==> forall i :: 0 <= i < |required| ==> required[i] in SupportedExtensions
    ensures !v.ok ==> |v.warnings| > 0 && v.warnings[|v.warnings| - 1] == RequiredFailure
  {
    AnyUnsupportedExact(required);
    var ws := UnsupportedWarnings(used, UsedWarning) + UnsupportedWarnings(required, RequiredWarning);
    if AnyUnsupported(required) then Validation(false, ws + [RequiredFailure]) else Validation(true, ws)
  }

  lemma {:induction false} AnyUnsupportedExact(names: seq<string>)
    ensures AnyUnsupported(names) <==> exists i :: 0 <= i < |names| && names[i] !in SupportedExtensions
  {
    if names != [] {
      var k := |names| - 1;
      AnyUnsupportedExact(names[..k]);
      assert forall i :: 0 <= i < k ==> names[..k][i] == names[i];
    }
  }

  /**
   * Each unsupported name gets its warning, there are no more warnings
   * than listed names, and there are warnings exactly when some name is
   * unsupported.
   */
  lemma {:induction false} WarningsExact(names: seq<string>, warning: string -> string, x: string)
    ensures x in names && x !in SupportedExtensions ==> warning(x) in UnsupportedWarnings(names, warning)
    ensures |UnsupportedWarnings(names, warning)| <= |names|
    ensures AnyUnsupported(names) <==> |UnsupportedWarnings(names, warning)| > 0
  {
    if names != [] {
      var k := |names| - 1;
      WarningsExact(names[..k], warning, x);
      if x in names && x !in SupportedExtensions && x != names[k] {
        var i :| 0 <= i < |names| && names[i] == x;
        assert names[..k][i] == x;
      }
    }
  }

  /** Merely used extensions only warn: the verdict does not depend on them. */
  lemma UsedExtensionsOnlyWarn(used1: seq<string>, used2: seq<string>, required: seq<string>)
    ensures ValidateExtensions(used1, required).ok == ValidateExtensions(used2, required).ok
  {
  }

  // ---------------------------------------------------------------------------
  // Loading a file
  // ---------------------------------------------------------------------------

  /** The text after the last '.', or "" when there is none. */
  function FileExtension(path: string): (e: string)
    ensures |e| <= |path|
    ensures '.' !in e
    ensures '.' in path ==> |e| < |path| && path[|path| - |e| - 1] == '.' && path[|path| - |e|..] == e
    ensures '.' !in path ==> e == ""
  {
    if path == [] then ""
    else if path[|path| - 1] == '.' then ""
    else
      var rest := FileExtension(path[..|path| - 1]);
      if '.' in path[..|path| - 1] then rest + [path[|path| - 1]] else ""
  }

  /** A loaded model: the document plus the bookkeeping derived from it. */
  datatype Model = Model(filePath: string, document: Document, hierarchy: Hierarchy,
                         linearTextures: set<int>, skins: SkinMaps)

  /**
   * The parser's outcome for this file: the reader for binary (".glb") or
   * ASCII glTF, whichever the extension selects; an empty extension reads
   * nothing.
   */
  function Parsed(path: string, binary: Option<Document>, ascii: Option<Document>): Option<Document>
  {
    var ext := FileExtension(path);
    if ext == "" then None
    else if ext == "glb" then binary
    else ascii
  }

  function Derive(path: string, d: Document, height: seq<nat>): Model
    requires Ranked(d, height)
  {
    Model(path, d, NodeHierarchy(d, height), LinearTextures(d.materials), SkinMapsOf(d.skins))
  }

  /**
   * The load sequence as written: a parse failure yields nothing; otherwise
   * the bookkeeping is derived and the validation runs, but its verdict is
   * dropped and the model is returned regardless.
   */
  function LoadModelAsWritten(path: string, binary: Option<Document>, ascii: Option<Document>, height: seq<nat>): (r: Option<Model>)
    requires Parsed(path, binary, ascii).Some? ==> Ranked(Parsed(path, binary, ascii).value, height)
    ensures r.Some? <==> Parsed(path, binary, ascii).Some?
  {
    var parsed := Parsed(path, binary, ascii);
    if parsed.None? then None
    else
      var d := parsed.value;
      var _ := ValidateExtensions(d.extensionsUsed, d.extensionsRequired);
      Some(Derive(path, d, height))
  }

  /**
   * The load sequence with the validation verdict honoured: a model that
   * requires an unsupported extension is refused, as the failure message
   * the validation prints announces.
   */
  function LoadModel(path: string, binary: Option<Document>, ascii: Option<Document>, height: seq<nat>): (r: Option<Model>)
    requires Parsed(path, binary, ascii).Some? ==> Ranked(Parsed(path, binary, ascii).value, height)
    ensures r.Some? <==>
              Parsed(path, binary, ascii).Some? &&
              forall i :: 0 <= i < |Parsed(path, binary, ascii).value.extensionsRequired| ==>
                Parsed(path, binary, ascii).value.extensionsRequired[i] in SupportedExtensions
    ensures r.Some? ==> r == LoadModelAsWritten(path, binary, ascii, height)
  {
    var parsed := Parsed(path, binary, ascii);
    if parsed.None? then None
    else
      var d := parsed.value;
      if !ValidateExtensions(d.extensionsUsed, d.extensionsRequired).ok then None
      else Some(Derive(path, d, height))
  }

  /** A ".glb" file whose document requires KHR_materials_ior, which the loader does not support. */
  const IorOnlyDocument: Document := Document([], [], [], [], [IorName], [IorName])

  /** As written, that document loads; with the verdict honoured it is refused. */
  lemma UnsupportedRequiredExtensionStillLoads()
    ensures LoadModelAsWritten("ship.glb", Some(IorOnlyDocument), None, []).Some?
    ensures !ValidateExtensions(IorOnlyDocument.extensionsUsed, IorOnlyDocument.extensionsRequired).ok
    ensures LoadModel("ship.glb", Some(IorOnlyDocument), None, []).None?
  {
    assert FileExtension("ship.glb") == "glb" by {
      assert FileExtension("ship.gl") == "gl" by {
        assert FileExtension("ship.g") == "g" by {
          assert FileExtension("ship.") == "";
          assert '.' in "ship.";
        }
      }
    }
    assert IorName !in SupportedExtensions;
    assert IorOnlyDocument.extensionsRequired[0] !in SupportedExtensions;
  }
}

=== FILE: gltf_model.dfy ===
/**
 * The bookkeeping the glTF loader derives from a parsed document after it
 * has been read: which scene and parent each node has, which skin each
 * joint belongs to, which skins hang below each skeleton node, and which
 * textures hold linear (non-colour) data.
 */
module GltfModel {
  import opened Common

  datatype Node = Node(children: seq<int>)
  datatype Skin = Skin(skeleton: int, joints: seq<int>)

  /** Texture indices a material refers to; -1 stands for "no texture". */
  datatype Material = Material(baseColorTexture: int, metallicRoughnessTexture: int,
                               normalTexture: int, occlusionTexture: int, emissiveTexture: int)

  /** The parts of a parsed glTF document the loader reads; each scene is its list of root nodes. */
  datatype Document = Document(scenes: seq<seq<int>>, nodes: seq<Node>, skins: seq<Skin>,
                               materials: seq<Material>,
                               extensionsUsed: seq<string>, extensionsRequired: seq<string>)

  /**
   * Node indices are in range and `height` witnesses that the node graph has
   * no cycle: every child sits strictly lower than its parent. Section 3.5.1
   * of the glTF 2.0 specification demands that the hierarchy be disjoint
   * strict trees; the loader recurses without a guard and relies on it.
   */
  predicate Ranked(d: Document, height: seq<nat>)
  {
    && |height| == |d.nodes|
    && (forall s, j :: 0 <= s < |d.scenes| && 0 <= j < |d.scenes[s]| ==> 0 <= d.scenes[s][j] < |d.nodes|)
    && (forall n, k :: 0 <= n < |d.nodes| && 0 <= k < |d.nodes[n].children| ==>
          0 <= d.nodes[n].children[k] < |d.nodes| && height[d.nodes[n].children[k]] < height[n])
  }

  // ---------------------------------------------------------------------------
  // Reachability, the reference the hierarchy maps are checked against
  // ---------------------------------------------------------------------------

  /** `n` is `r` or lies below it. */
  predicate InSubtree(d: Document, height: seq<nat>, r: int, n: int)
    requires Ranked(d, height) && 0 <= r < |d.nodes|
    decreases height[r]
  {
    r == n ||
    exists k :: 0 <= k < |d.nodes[r].children| && InSubtree(d, height, d.nodes[r].children[k], n)
  }

  /** `n` lies below one of the roots of scene `s`. */
  predicate InScene(d: Document, height: seq<nat>, s: int, n: int)
    requires Ranked(d, height)
  {
    0 <= s < |d.scenes| &&
    exists j :: 0 <= j < |d.scenes[s]| && InSubtree(d, height, d.scenes[s][j], n)
  }

  predicate Reachable(d: Document, height: seq<nat>, n: int)
    requires Ranked(d, height)
  {
    exists s :: 0 <= s < |d.scenes| && InScene(d, height, s, n)
  }

  predicate IsSceneRoot(d: Document, n: int)
  {
    exists s, j :: 0 <= s < |d.scenes| && 0 <= j < |d.scenes[s]| && d.scenes[s][j] == n
  }

  predicate IsChildOf(d: Document, n: int, p: int)
  {
    0 <= p < |d.nodes| && exists k :: 0 <= k < |d.nodes[p].children| && d.nodes[p].children[k] == n
  }

  /** -1 is a correct parent for a scene root; otherwise the parent must list `n` as a child. */
  predicate ParentSound(d: Document, n: int, p: int)
  {
    (p == -1 && IsSceneRoot(d, n)) || IsChildOf(d, n, p)
  }

  lemma {:induction false} SubtreeStep(d: Document, height: seq<nat>, r: int, n: int, k: int)
    requires Ranked(d, height) && 0 <= r < |d.nodes| && 0 <= n < |d.nodes|
    requires 0 <= k < |d.nodes[n].children|
    requires InSubtree(d, height, r, n)
    ensures InSubtree(d, height, r, d.nodes[n].children[k])
    decreases height[r]
  {
    var c := d.nodes[n].children[k];
    assert InSubtree(d, height, c, c);
    if r == n {
      assert InSubtree(d, height, d.nodes[r].children[k], c);
    } else {
      var k' :| 0 <= k' < |d.nodes[r].children| && InSubtree(d, height, d.nodes[r].children[k'], n);
      SubtreeStep(d, height, d.nodes[r].children[k'], n, k);
    }
  }

  // ---------------------------------------------------------------------------
  // Node hierarchy
  // ---------------------------------------------------------------------------

  datatype Hierarchy = Hierarchy(toScene: map<int, int>, toParent: map<int, int>)

  /**
   * Records `parent` for `n`, then for each child in order records the scene
   * and descends. The loader reads the child's scene back from the entry it
   * wrote for `n`, which always holds the scene of the root being walked;
   * that scene is passed along here.
   */
  function Visit(d: Document, height: seq<nat>, n: int, parent: int, scene: int, m: Hierarchy): Hierarchy
    requires Ranked(d, height) && 0 <= n < |d.nodes|
    decreases height[n], |d.nodes[n].children| + 1
  {
    VisitChildren(d, height, n, 0, scene, m.(toParent := m.toParent[n := parent]))
  }

  function VisitChildren(d: Document, height: seq<nat>, n: int, k: nat, scene: int, m: Hierarchy): Hierarchy
    requires Ranked(d, height) && 0 <= n < |d.nodes| && k <= |d.nodes[n].children|
    decreases height[n], |d.nodes[n].children| - k
  {
    if k == |d.nodes[n].children| then m
    else
      var c := d.nodes[n].children[k];
      VisitChildren(d, height, n, k + 1, scene, Visit(d, height, c, n, scene, m.(toScene := m.toScene[c := scene])))
  }

  /** Walks root j onwards of scene s, then every later scene. */
  function VisitRoots(d: Document, height: seq<nat>, s: nat, j: nat, m: Hierarchy): Hierarchy
    requires Ranked(d, height) && s <= |d.scenes| && (s < |d.scenes| ==> j <= |d.scenes[s]|)
    decreases |d.scenes| - s, if s < |d.scenes| then |d.scenes[s]| - j else 0
  {
    if s == |d.scenes| then m
    else if j == |d.scenes[s]| then VisitRoots(d, height, s + 1, 0, m)
    else
      var r := d.scenes[s][j];
      VisitRoots(d, height, s, j + 1, Visit(d, height, r, -1, s, m.(toScene := m.toScene[r := s])))
  }

  /** Both maps start empty; scene roots are visited scene by scene, in list order. */
  function NodeHierarchy(d: Document, height: seq<nat>): (h: Hierarchy)
    requires Ranked(d, height)
    ensures Sound(d, height, h)
  {
    VisitRootsSound(d, height, 0, 0, Hierarchy(map[], map[]));
    VisitRoots(d, height, 0, 0, Hierarchy(map[], map[]))
  }

  /** Every recorded parent and scene is a correct one. */
  predicate Sound(d: Document, height: seq<nat>, m: Hierarchy)
    requires Ranked(d, height)
  {
    && (forall n :: n in m.toParent ==> ParentSound(d, n, m.toParent[n]) && Reachable(d, height, n))
    && (forall n :: n in m.toScene ==> InScene(d, height, m.toScene[n], n))
  }

  lemma {:induction false} VisitSound(d: Document, height: seq<nat>, n: int, parent: int, scene: int, m: Hierarchy)
    requires Ranked(d, height) && 0 <= n < |d.nodes|
    requires Sound(d, height, m) && ParentSound(d, n, parent) && InScene(d, height, scene, n)
    ensures Sound(d, height, Visit(d, height, n, parent, scene, m))
    decreases height[n], |d.nodes[n].children| + 1
  {
    assert Reachable(d, height, n);
    VisitChildrenSound(d, height, n, 0, scene, m.(toParent := m.toParent[n := parent]));
  }

  lemma {:induction false} VisitChildrenSound(d: Document, height: seq<nat>, n: int, k: nat, scene: int, m: Hierarchy)
    requires Ranked(d, height) && 0 <= n < |d.nodes| && k <= |d.nodes[n].children|
    requires Sound(d, height, m) && InScene(d, height, scene, n)
    ensures Sound(d, height, VisitChildren(d, height, n, k, scene, m))
    decreases height[n], |d.nodes[n].children| - k
  {
    if k < |d.nodes[n].children| {
      var c := d.nodes[n].children[k];
      var j :| 0 <= j < |d.scenes[scene]| && InSubtree(d, height, d.scenes[scene][j], n);
      SubtreeStep(d, height, d.scenes[scene][j], n, k);
      assert InScene(d, height, scene, c);
      var m1 := m.(toScene := m.toScene[c := scene]);
      assert IsChildOf(d, c, n);
      VisitSound(d, height, c, n, scene, m1);
      VisitChildrenSound(d, height, n, k + 1, scene, Visit(d, height, c, n, scene, m1));
    }
  }

  lemma {:induction false} VisitRootsSound(d: Document, height: seq<nat>, s: nat, j: nat, m: Hierarchy)
    requires Ranked(d, height) && s <= |d.scenes| && (s < |d.scenes| ==> j <= |d.scenes[s]|)
    requires Sound(d, height, m)
    ensures Sound(d, height, VisitRoots(d, height, s, j, m))
    decreases |d.scenes| - s, if s < |d.scenes| then |d.scenes[s]| - j else 0
  {
    if s == |d.scenes| {
    } else if j == |d.scenes[s]| {
      VisitRootsSound(d, height, s + 1, 0, m);
    } else {
      var r := d.scenes[s][j];
      assert InSubtree(d, height, d.scenes[s][j], r);
      assert InScene(d, height, s, r);
      assert IsSceneRoot(d, r);
      var m1 := m.(toScene := m.toScene[r := s]);
      VisitSound(d, height, r, -1, s, m1);
      VisitRootsSound(d, height, s, j + 1, Visit(d, height, r, -1, s, m1));
    }
  }

  /** Entries are only ever added, and the visited node gets a parent. */
  lemma {:induction false} VisitGrows(d: Document, height: seq<nat>, n: int, parent: int, scene: int, m: Hierarchy)
    requires Ranked(d, height) && 0 <= n < |d.nodes|
    ensures m.toParent.Keys <= Visit(d, height, n, parent, scene, m).toParent.Keys
    ensures m.toScene.Keys <= Visit(d, height, n, parent, scene, m).toScene.Keys
    ensures n in Visit(d, height, n, parent, scene, m).toParent
    decreases height[n], |d.nodes[n].children| + 1
  {
    VisitChildrenGrows(d, height, n, 0, scene, m.(toParent := m.toParent[n := parent]));
  }

  lemma {:induction false} VisitChildrenGrows(d: Document, height: seq<nat>, n: int, k: nat, scene: int, m: Hierarchy)
    requires Ranked(d, height) && 0 <= n < |d.nodes| && k <= |d.nodes[n].children|
    ensures m.toParent.Keys <= VisitChildren(d, height, n, k, scene, m).toParent.Keys
    ensures m.toScene.Keys <= VisitChildren(d, height, n, k, scene, m).toScene.Keys
    decreases height[n], |d.nodes[n].children| - k
  {
    if k < |d.nodes[n].children| {
      var c := d.nodes[n].children[k];
      var m1 := m.(toScene := m.toScene[c := scene]);
      VisitGrows(d, height, c, n, scene, m1);
      VisitChildrenGrows(d, height, n, k + 1, scene, Visit(d, height, c, n, scene, m1));
    }
  }

  lemma {:induction false} VisitRootsGrows(d: Document, height: seq<nat>, s: nat, j: nat, m: Hierarchy)
    requires Ranked(d, height) && s <= |d.scenes| && (s < |d.scenes| ==> j <= |d.scenes[s]|)
    ensures m.toParent.Keys <= VisitRoots(d, height, s, j, m).toParent.Keys
    ensures m.toScene.Keys <= VisitRoots(d, height, s, j, m).toScene.Keys
    decreases |d.scenes| - s, if s < |d.scenes| then |d.scenes[s]| - j else 0
  {
    if s == |d.scenes| {
    } else if j == |d.scenes[s]| {
      VisitRootsGrows(d, height, s + 1, 0, m);
    } else {
      var r := d.scenes[s][j];
      var m1 := m.(toScene := m.toScene[r := s]);
      VisitGrows(d, height, r, -1, s, m1);
      VisitRootsGrows(d, height, s, j + 1, Visit(d, height, r, -1, s, m1));
    }
  }

  /** Every node below `n` gets a parent, and every node strictly below it a scene. */
  lemma {:induction false} VisitCovers(d: Document, height: seq<nat>, n: int, parent: int, scene: int, m: Hierarchy, x: int)
    requires Ranked(d, height) && 0 <= n < |d.nodes|
    requires InSubtree(d, height, n, x)
    ensures x in Visit(d, height, n, parent, scene, m).toParent
    ensures x != n ==> x in Visit(d, height, n, parent, scene, m).toScene
    decreases height[n], |d.nodes[n].children| + 1
  {
    if x == n {
      VisitGrows(d, height, n, parent, scene, m);
    } else {
      VisitChildrenCovers(d, height, n, 0, scene, m.(toParent := m.toParent[n := parent]), x);
    }
  }

  lemma {:induction false} VisitChildrenCovers(d: Document, height: seq<nat>, n: int, k: nat, scene: int, m: Hierarchy, x: int)
    requires Ranked(d, height) && 0 <= n < |d.nodes| && k <= |d.nodes[n].children|
    requires exists i :: k <= i < |d.nodes[n].children| && InSubtree(d, height, d.nodes[n].children[i], x)
    ensures x in VisitChildren(d, height, n, k, scene, m).toParent
    ensures x in VisitChildren(d, height, n, k, scene, m).toScene
    decreases height[n], |d.nodes[n].children| - k
  {
    var c := d.nodes[n].children[k];
    var m1 := m.(toScene := m.toScene[c := scene]);
    var m2 := Visit(d, height, c, n, scene, m1);
    if InSubtree(d, height, c, x) {
      VisitCovers(d, height, c, n, scene, m1, x);
      VisitGrows(d, height, c, n, scene, m1);
      VisitChildrenGrows(d, height, n, k + 1, scene, m2);
    } else {
      VisitChildrenCovers(d, height, n, k + 1, scene, m2, x);
    }
  }

  lemma {:induction false} VisitRootsCovers(d: Document, height: seq<nat>, s: nat, j: nat, m: Hierarchy, x: int, s': int)
    requires Ranked(d, height) && s <= |d.scenes| && (s < |d.scenes| ==> j <= |d.scenes[s]|)
    requires InScene(d, height, s', x) && s' > s
    ensures x in VisitRoots(d, height, s, j, m).toParent
    ensures x in VisitRoots(d, height, s, j, m).toScene
    decreases |d.scenes| - s, if s < |d.scenes| then |d.scenes[s]| - j else 0
  {
    if j == |d.scenes[s]| {
      if s' == s + 1 {
        var i :| 0 <= i < |d.scenes[s']| && InSubtree(d, height, d.scenes[s'][i], x);
        VisitRootsCoversFrom(d, height, s + 1, 0, m, x, i);
      } else {
        VisitRootsCovers(d, height, s + 1, 0, m, x, s');
      }
    } else {
      var r := d.scenes[s][j];
      var m1 := m.(toScene := m.toScene[r := s]);
      VisitRootsCovers(d, height, s, j + 1, Visit(d, height, r, -1, s, m1), x, s');
    }
  }

  /** A node below root i >= j of scene s is covered by the walk starting at root j of scene s. */
  lemma {:induction false} VisitRootsCoversFrom(d: Document, height: seq<nat>, s: nat, j: nat, m: Hierarchy, x: int, i: int)
    requires Ranked(d, height) && s < |d.scenes| && j <= i < |d.scenes[s]|
    requires InSubtree(d, height, d.scenes[s][i], x)
    ensures x in VisitRoots(d, height, s, j, m).toParent
    ensures x in VisitRoots(d, height, s, j, m).toScene
    decreases |d.scenes[s]| - j
  {
    var r := d.scenes[s][j];
    var m1 := m.(toScene := m.toScene[r := s]);
    var m2 := Visit(d, height, r, -1, s, m1);
    if i == j {
      VisitCovers(d, height, r, -1, s, m1, x);
      VisitGrows(d, height, r, -1, s, m1);
      VisitRootsGrows(d, height, s, j + 1, m2);
    } else {
      VisitRootsCoversFrom(d, height, s, j + 1, m2, x, i);
    }
  }

  /**
   * Both maps hold exactly the nodes reachable from some scene root; each
   * recorded parent is -1 for a scene root or a node that lists the node as
   * a child, and each recorded scene has the node below one of its roots.
   */
  lemma NodeHierarchyExact(d: Document, height: seq<nat>, n: int)
    requires Ranked(d, height)
    ensures n in NodeHierarchy(d, height).toParent <==> Reachable(d, height, n)
    ensures n in NodeHierarchy(d, height).toScene <==> Reachable(d, height, n)
    ensures n in NodeHierarchy(d, height).toParent ==> ParentSound(d, n, NodeHierarchy(d, height).toParent[n])
    ensures n in NodeHierarchy(d, height).toScene ==> InScene(d, height, NodeHierarchy(d, height).toScene[n], n)
  {
    var m0 := Hierarchy(map[], map[]);
    VisitRootsSound(d, height, 0, 0, m0);
    var h := NodeHierarchy(d, height);
    if n in h.toScene {
      assert InScene(d, height, h.toScene[n], n);
    }
    if Reachable(d, height, n) {
      var s :| 0 <= s < |d.scenes| && InScene(d, height, s, n);
      var i :| 0 <= i < |d.scenes[s]| && InSubtree(d, height, d.scenes[s][i], n);
      if s == 0 {
        VisitRootsCoversFrom(d, height, 0, 0, m0, n, i);
      } else {
        VisitRootsCovers(d, height, 0, 0, m0, n, s);
      }
    }
  }

  /** Parent and scene of a node, and whether it is a root; the node must have been recorded. */
  datatype RootQuery = RootQuery(isRoot: bool, parent: int, scene: int)

  function IsRoot(m: Hierarchy, n: int): (q: RootQuery)
    requires n in m.toScene && n in m.toParent
    ensures q.isRoot <==> q.parent == -1
    ensures q.parent == -1 || q.parent == m.toParent[n]
  {
    if m.toParent[n] >= 0 then RootQuery(false, m.toParent[n], m.toScene[n])
    else RootQuery(true, -1, m.toScene[n])
  }

  /** In a document where no scene root is also some node's child, a reachable node is reported as a root exactly when it is a scene root; otherwise its parent lists it. */
  lemma IsRootMatchesDocument(d: Document, height: seq<nat>, n: int)
    requires Ranked(d, height) && Reachable(d, height, n)
    requires forall p :: IsSceneRoot(d, n) ==> !IsChildOf(d, n, p)
    ensures n in NodeHierarchy(d, height).toScene && n in NodeHierarchy(d, height).toParent
    ensures IsRoot(NodeHierarchy(d, height), n).isRoot <==> IsSceneRoot(d, n)
    ensures !IsRoot(NodeHierarchy(d, height), n).isRoot ==> IsChildOf(d, n, IsRoot(NodeHierarchy(d, height), n).parent)
    ensures InScene(d, height, IsRoot(NodeHierarchy(d, height), n).scene, n)
  {
    NodeHierarchyExact(d, height, n);
  }

  // ---------------------------------------------------------------------------
  // Skin maps
  // ---------------------------------------------------------------------------

  datatype SkinMaps = SkinMaps(jointToSkin: map<int, int>, jointToPosition: map<int, int>,
                               skeletonToSkins: map<int, seq<int>>)

  /** Records skin `i` and position k for joints[k], in order, so a later position overwrites. */
  function AddJoints(m: SkinMaps, i: int, joints: seq<int>): (r: SkinMaps)
    ensures r.skeletonToSkins == m.skeletonToSkins
    ensures m.jointToSkin.Keys == m.jointToPosition.Keys ==> r.jointToSkin.Keys == r.jointToPosition.Keys
    ensures forall j :: j in r.jointToSkin ==> r.jointToSkin[j] == i || (j in m.jointToSkin && r.jointToSkin[j] == m.jointToSkin[j])
  {
    if joints == [] then m
    else
      var k := |joints| - 1;
      var p := AddJoints(m, i, joints[..k]);
      p.(jointToSkin := p.jointToSkin[joints[k] := i], jointToPosition := p.jointToPosition[joints[k] := k])
  }

  /** Appends skin `i` to the list of skeleton `t`, when `t` is a node. */
  function AddSkeleton(m: SkinMaps, i: int, t: int): SkinMaps
  {
    if t < 0 then m
    else m.(skeletonToSkins := m.skeletonToSkins[t := (if t in m.skeletonToSkins then m.skeletonToSkins[t] else []) + [i]])
  }

  /** Skins are processed in order: a non-negative skeleton gets the skin appended, then the joints are recorded. */
  function SkinMapsOf(skins: seq<Skin>): (r: SkinMaps)
    ensures r.jointToSkin.Keys == r.jointToPosition.Keys
    ensures forall j :: j in r.jointToSkin ==> 0 <= r.jointToSkin[j] < |skins|
    ensures forall t :: t in r.skeletonToSkins ==> t >= 0 && r.skeletonToSkins[t] != []
  {
    if skins == [] then SkinMaps(map[], map[], map[])
    else
      var i := |skins| - 1;
      AddJoints(AddSkeleton(SkinMapsOf(skins[..i]), i, skins[i].skeleton), i, skins[i].joints)
  }

  /** Joint `j` appears as skins[i].joints[k] and at no later (skin, position) pair. */
  predicate LastOccurrence(skins: seq<Skin>, j: int, i: int, k: int)
  {
    && 0 <= i < |skins| && 0 <= k < |skins[i].joints| && skins[i].joints[k] == j
    && (forall k' :: k < k' < |skins[i].joints| ==> skins[i].joints[k'] != j)
    && (forall i', k' :: i < i' < |skins| && 0 <= k' < |skins[i'].joints| ==> skins[i'].joints[k'] != j)
  }

  predicate IsJointIn(skins: seq<Skin>, j: int)
  {
    exists i, k :: 0 <= i < |skins| && 0 <= k < |skins[i].joints| && skins[i].joints[k] == j
  }

  lemma {:induction false} AddJointsEffect(m: SkinMaps, i: int, joints: seq<int>, j: int)
    ensures AddJoints(m, i, joints).skeletonToSkins == m.skeletonToSkins
    ensures j in joints ==> j in AddJoints(m, i, joints).jointToSkin && j in AddJoints(m, i, joints).jointToPosition
    ensures j in joints ==> AddJoints(m, i, joints).jointToSkin[j] == i
    ensures j in joints ==> var k := AddJoints(m, i, joints).jointToPosition[j];
                            0 <= k < |joints| && joints[k] == j && forall k' :: k < k' < |joints| ==> joints[k'] != j
    ensures j !in joints ==> (j in AddJoints(m, i, joints).jointToSkin <==> j in m.jointToSkin)
    ensures j !in joints ==> (j in AddJoints(m, i, joints).jointToPosition <==> j in m.jointToPosition)
    ensures j !in joints && j in m.jointToSkin ==> AddJoints(m, i, joints).jointToSkin[j] == m.jointToSkin[j]
    ensures j !in joints && j in m.jointToPosition ==> AddJoints(m, i, joints).jointToPosition[j] == m.jointToPosition[j]
  {
    if joints != [] {
      var k := |joints| - 1;
      AddJointsEffect(m, i, joints[..k], j);
      if joints[k] != j && j in joints {
        var q :| 0 <= q < |joints| && joints[q] == j;
        assert joints[..k][q] == j;
      }
      if j !in joints {
        assert j !in joints[..k];
      }
    }
  }

  /**
   * A node is recorded as a joint iff some skin lists it; it is then mapped
   * to its last (skin, position) occurrence, since later writes overwrite.
   */
  lemma {:induction false} JointMapsExact(skins: seq<Skin>, j: int)
    ensures j in SkinMapsOf(skins).jointToSkin <==> IsJointIn(skins, j)
    ensures j in SkinMapsOf(skins).jointToPosition <==> IsJointIn(skins, j)
    ensures IsJointIn(skins, j) ==>
              LastOccurrence(skins, j, SkinMapsOf(skins).jointToSkin[j], SkinMapsOf(skins).jointToPosition[j])
  {
    if skins != [] {
      var i := |skins| - 1;
      var pre := skins[..i];
      JointMapsExact(pre, j);
      var m := SkinMapsOf(pre);
      var m1 := AddSkeleton(m, i, skins[i].skeleton);
      assert m1.jointToSkin == m.jointToSkin && m1.jointToPosition == m.jointToPosition;
      AddJointsEffect(m1, i, skins[i].joints, j);
      assert SkinMapsOf(skins) == AddJoints(m1, i, skins[i].joints);
      if j in skins[i].joints {
        JointInLastSkin(skins, skins[i].joints, j, SkinMapsOf(skins).jointToPosition[j]);
      } else {
        JointNotInLastSkin(skins, j);
      }
    }
  }

  /** The last position of a joint within the last skin is its last occurrence in the whole list. */
  lemma JointInLastSkin(skins: seq<Skin>, last: seq<int>, j: int, k: int)
    requires skins != [] && last == skins[|skins| - 1].joints
    requires 0 <= k < |last| && last[k] == j && forall k' :: k < k' < |last| ==> last[k'] != j
    ensures IsJointIn(skins, j) && LastOccurrence(skins, j, |skins| - 1, k)
  {
  }

  /** A node the last skin does not list is a joint, and last occurs, exactly as in the skins before it. */
  lemma JointNotInLastSkin(skins: seq<Skin>, j: int)
    requires skins != [] && j !in skins[|skins| - 1].joints
    ensures IsJointIn(skins, j) <==> IsJointIn(skins[..|skins| - 1], j)
    ensures forall a, b :: LastOccurrence(skins[..|skins| - 1], j, a, b) ==> LastOccurrence(skins, j, a, b)
  {
    var i := |skins| - 1;
    var pre := skins[..i];
    if IsJointIn(skins, j) {
      var a, b :| 0 <= a < |skins| && 0 <= b < |skins[a].joints| && skins[a].joints[b] == j;
      assert skins[a].joints[b] in skins[a].joints;
      assert pre[a].joints[b] == j;
    }
    if IsJointIn(pre, j) {
      var a, b :| 0 <= a < |pre| && 0 <= b < |pre[a].joints| && pre[a].joints[b] == j;
      assert skins[a].joints[b] == j;
    }
    forall a, b | LastOccurrence(pre, j, a, b) ensures LastOccurrence(skins, j, a, b) {
      forall i', k' | a < i' < |skins| && 0 <= k' < |skins[i'].joints|
        ensures skins[i'].joints[k'] != j
      {
        if i' < i {
          assert skins[i'] == pre[i'];
        } else {
          assert skins[i'].joints[k'] in skins[i].joints;
        }
      }
      assert skins[a] == pre[a];
    }
  }

  /** The skins whose skeleton is `s`, in ascending order. */
  predicate ListsSkinsOf(skins: seq<Skin>, s: int, l: seq<int>)
  {
    && (forall a, b :: 0 <= a < b < |l| ==> l[a] < l[b])
    && (forall i :: i in l ==> 0 <= i < |skins| && skins[i].skeleton == s)
    && (forall i :: 0 <= i < |skins| && skins[i].skeleton == s ==> i in l)
  }

  /**
   * A node is recorded as a skeleton iff it is non-negative and some skin
   * names it; its list holds exactly those skins, each once, in skin order.
   */
  lemma {:induction false} SkeletonMapExact(skins: seq<Skin>, s: int)
    ensures s in SkinMapsOf(skins).skeletonToSkins <==>
            s >= 0 && exists i :: 0 <= i < |skins| && skins[i].skeleton == s
    ensures s in SkinMapsOf(skins).skeletonToSkins ==>
              ListsSkinsOf(skins, s, SkinMapsOf(skins).skeletonToSkins[s])
  {
    if skins != [] {
      var i := |skins| - 1;
      var pre := skins[..i];
      SkeletonMapExact(pre, s);
      var m := SkinMapsOf(pre);
      var m1 := AddSkeleton(m, i, skins[i].skeleton);
      AddJointsEffect(m1, i, skins[i].joints, 0);
      assert SkinMapsOf(skins).skeletonToSkins == m1.skeletonToSkins;
      SkeletonStep(skins, s, m);
    }
  }

  /** Adding the last skin extends the prefix's skeleton lists correctly. */
  lemma SkeletonStep(skins: seq<Skin>, s: int, m: SkinMaps)
    requires skins != []
    requires var pre := skins[..|skins| - 1];
             (s in m.skeletonToSkins <==> s >= 0 && exists i :: 0 <= i < |pre| && pre[i].skeleton == s) &&
             (s in m.skeletonToSkins ==> ListsSkinsOf(pre, s, m.skeletonToSkins[s]))
    ensures var m1 := AddSkeleton(m, |skins| - 1, skins[|skins| - 1].skeleton);
            (s in m1.skeletonToSkins <==> s >= 0 && exists i :: 0 <= i < |skins| && skins[i].skeleton == s) &&
            (s in m1.skeletonToSkins ==> ListsSkinsOf(skins, s, m1.skeletonToSkins[s]))
  {
    var i := |skins| - 1;
    var pre := skins[..i];
    var t := skins[i].skeleton;
    var m1 := AddSkeleton(m, i, t);
    SkeletonStepKeys(skins, s, m);
    if s in m1.skeletonToSkins {
      if t == s {
        var l := if s in m.skeletonToSkins then m.skeletonToSkins[s] else [];
        assert m1.skeletonToSkins[s] == l + [i];
        assert ListsSkinsOf(pre, s, l);
        ListsSkinsAppend(skins, s, l);
      } else {
        assert m1.skeletonToSkins[s] == m.skeletonToSkins[s];
        ListsSkinsSkip(skins, s, m.skeletonToSkins[s]);
      }
    }
  }

  lemma SkeletonStepKeys(skins: seq<Skin>, s: int, m: SkinMaps)
    requires skins != []
    requires var pre := skins[..|skins| - 1];
             s in m.skeletonToSkins <==> s >= 0 && exists i :: 0 <= i < |pre| && pre[i].skeleton == s
    ensures s in AddSkeleton(m, |skins| - 1, skins[|skins| - 1].skeleton).skeletonToSkins <==>
            s >= 0 && exists i :: 0 <= i < |skins| && skins[i].skeleton == s
  {
    var i := |skins| - 1;
    var pre := skins[..i];
    if exists q :: 0 <= q < |skins| && skins[q].skeleton == s {
      var q :| 0 <= q < |skins| && skins[q].skeleton == s;
      if q < i {
        assert pre[q].skeleton == s;
      }
    }
    if exists q :: 0 <= q < |pre| && pre[q].skeleton == s {
      var q :| 0 <= q < |pre| && pre[q].skeleton == s;
      assert skins[q].skeleton == s;
    }
  }

  /** The list for `s` with the last skin appended, when that skin names `s`. */
  lemma ListsSkinsAppend(skins: seq<Skin>, s: int, l: seq<int>)
    requires skins != [] && skins[|skins| - 1].skeleton == s
    requires ListsSkinsOf(skins[..|skins| - 1], s, l)
    ensures ListsSkinsOf(skins, s, l + [|skins| - 1])
  {
    var i := |skins| - 1;
    var pre := skins[..i];
    var l' := l + [i];
    forall x | x in l ensures x < i && skins[x].skeleton == s {
      assert pre[x] == skins[x];
    }
    forall a, b | 0 <= a < b < |l'| ensures l'[a] < l'[b] {
      assert l'[a] == l[a];
      assert l[a] in l;
      if b < |l| {
        assert l'[b] == l[b];
      }
    }
    forall q | 0 <= q < |skins| && skins[q].skeleton == s ensures q in l' {
      if q < i {
        assert pre[q] == skins[q];
        assert q in l;
      }
    }
  }

  /** The list for `s` is unchanged by a last skin that does not name `s`. */
  lemma ListsSkinsSkip(skins: seq<Skin>, s: int, l: seq<int>)
    requires skins != [] && skins[|skins| - 1].skeleton != s
    requires ListsSkinsOf(skins[..|skins| - 1], s, l)
    ensures ListsSkinsOf(skins, s, l)
  {
    var i := |skins| - 1;
    var pre := skins[..i];
    forall x | x in l ensures x < i && skins[x].skeleton == s {
      assert pre[x] == skins[x];
    }
    forall q | 0 <= q < |skins| && skins[q].skeleton == s ensures q in l {
      assert pre[q] == skins[q];
    }
  }

  /** Skin and position of a joint node, when both maps know it. */
  function IsJoint(m: SkinMaps, n: int): (r: Option<(int, int)>)
    ensures r.Some? <==> n in m.jointToSkin && n in m.jointToPosition
    ensures r.Some? ==> r.value == (m.jointToSkin[n], m.jointToPosition[n])
  {
    if n in m.jointToSkin && n in m.jointToPosition then Some((m.jointToSkin[n], m.jointToPosition[n])) else None
  }

  /** The skins attached below a skeleton node, when it is one. */
  function IsSkeleton(m: SkinMaps, n: int): (r: Option<seq<int>>)
    ensures r.Some? <==> n in m.skeletonToSkins
    ensures r.Some? ==> r.value == m.skeletonToSkins[n]
  {
    if n in m.skeletonToSkins then Some(m.skeletonToSkins[n]) else None
  }

  // ---------------------------------------------------------------------------
  // Linear-space textures
  // ---------------------------------------------------------------------------

  /** Metallic-roughness, normal and occlusion textures of every material, inserted material by material. */
  function LinearTextures(materials: seq<Material>): (r: set<int>)
    ensures forall i :: 0 <= i < |materials| ==>
              materials[i].metallicRoughnessTexture in r && materials[i].normalTexture in r && materials[i].occlusionTexture in r
  {
    if materials == [] then {}
    else
      var m := materials[|materials| - 1];
      LinearTextures(materials[..|materials| - 1]) + {m.metallicRoughnessTexture, m.normalTexture, m.occlusionTexture}
  }

  predicate HoldsLinearData(materials: seq<Material>, t: int)
  {
    exists i :: 0 <= i < |materials| &&
      (materials[i].metallicRoughnessTexture == t || materials[i].normalTexture == t || materials[i].occlusionTexture == t)
  }

  /**
   * A texture index is in linear space iff some material uses it for
   * metallic-roughness, normal or occlusion data; base colour and emissive
   * use do not count. A material without one of those textures contributes
   * the index -1.
   */
  lemma {:induction false} LinearTexturesExact(materials: seq<Material>, t: int)
    ensures t in LinearTextures(materials) <==> HoldsLinearData(materials, t)
  {
    if materials != [] {
      var k := |materials| - 1;
      var pre := materials[..k];
      LinearTexturesExact(pre, t);
      if HoldsLinearData(pre, t) {
        var i :| 0 <= i < |pre| &&
          (pre[i].metallicRoughnessTexture == t || pre[i].normalTexture == t || pre[i].occlusionTexture == t);
        assert materials[i] == pre[i];
      }
      assert forall q :: 0 <= q < k ==> pre[q] == materials[q];
    }
  }

  /**
   * The query the scene manager makes for each texture it adds, against
   * the set built from the model's materials: true exactly when the texture
   * holds metallic-roughness, normal or occlusion data.
   */
  function IsInLinearSpace(materials: seq<Material>, linear: set<int>, t: int): (b: bool)
    requires linear == LinearTextures(materials)
    ensures b <==> HoldsLinearData(materials, t)
  {
    LinearTexturesExact(materials, t);
    t in linear
  }
}

=== FILE: image_memory.dfy ===
/**
 * The in-memory image loader handed to Cycles: it opens an encoded image
 * held in memory through OpenImageIO, reports the image's size and the
 * pixel storage type Cycles should allocate, and fills that storage,
 * keeping at most four channels per pixel, converting JPEG CMYK to RGBA
 * and associating alpha when asked to.
 *
 * OpenImageIO itself is not modelled: what opening the image yields (its
 * header, or nothing) and the decoded pixels are parameters. Pixel values
 * are reals in the normalised range the storage types encode.
 */
module ImageMemory {
  import opened Common

  /** The element types an image header can name: unsigned and signed integers of 8 to 64 bits, and 16-, 32- and 64-bit floats. */
  datatype BaseType = U8 | I8 | U16 | I16 | U32 | I32 | U64 | I64 | F16 | F32 | F64

  predicate IsFloatingPoint(t: BaseType)
  {
    t == F16 || t == F32 || t == F64
  }

  /** What OpenImageIO reports about an opened image. */
  datatype ImageSpec = ImageSpec(
    width: nat,
    height: nat,
    depth: nat,
    nchannels: nat,
    format: BaseType,
    channelFormats: seq<BaseType>,
    alphaChannel: int,
    formatName: string,
    targaAlphaType: Option<int>,
    colorSpace: string)

  /** The storage types Cycles allocates; the NanoVDB kinds and the count sentinel are not produced here. */
  datatype ImageDataType =
    | Float4 | Byte4 | Half | Float | Byte | UShort4 | UShort | Half4
    | NanovdbFloat | NanovdbFloat3 | NanovdbFpn | NanovdbFp16 | NumTypes

  datatype Loader = Loader(name: string, data: seq<bv8>, mimeType: string, compressAsSrgb: bool)

  datatype MetaData = MetaData(
    width: nat,
    height: nat,
    depth: nat,
    channels: nat,
    dataType: ImageDataType,
    compressAsSrgb: bool,
    fileFormat: string,
    fileHint: string)

  /** The main format or some channel's format is floating point. */
  predicate AnyFloat(spec: ImageSpec)
  {
    IsFloatingPoint(spec.format) || exists c :: 0 <= c < |spec.channelFormats| && IsFloatingPoint(spec.channelFormats[c])
  }

  /**
   * The storage type: half when the main format is half, else float when
   * any format is floating point, else 16-bit unsigned when the main
   * format is, else bytes; the four-channel variant when there is more
   * than one channel.
   */
  function PixelType(spec: ImageSpec): (t: ImageDataType)
    ensures t in {Half, Half4} <==> spec.format == F16
    ensures t in {Float, Float4} <==> spec.format != F16 && AnyFloat(spec)
    ensures t in {UShort, UShort4} <==> !AnyFloat(spec) && spec.format == U16
    ensures t in {Byte, Byte4} <==> !AnyFloat(spec) && spec.format != U16
    ensures t in {Half4, Float4, UShort4, Byte4} <==> spec.nchannels > 1
  {
    var isFloat := AnyFloat(spec);
    var isHalf := spec.format == F16;
    var four := spec.nchannels > 1;
    if isHalf then (if four then Half4 else Half)
    else if isFloat then (if four then Float4 else Float)
    else if spec.format == U16 then (if four then UShort4 else UShort)
    else (if four then Byte4 else Byte)
  }

  /** The channel-format scan: true exactly when some listed format is floating point. */
  method ScanChannelFormats(formats: seq<BaseType>) returns (isFloat: bool)
    ensures isFloat <==> exists c :: 0 <= c < |formats| && IsFloatingPoint(formats[c])
  {
    isFloat := false;
    var c := 0;
    while c < |formats|
      invariant 0 <= c <= |formats|
      invariant isFloat <==> exists c' :: 0 <= c' < c && IsFloatingPoint(formats[c'])
    {
      if IsFloatingPoint(formats[c]) {
        isFloat := true;
      }
      c := c + 1;
    }
  }

  /**
   * The image's metadata, or None when OpenImageIO cannot open it. The
   * sRGB flag is the one the loader was made with, whatever the file says.
   */
  function LoadMetadata(l: Loader, header: Option<ImageSpec>): (r: Option<MetaData>)
    ensures header.None? <==> r.None?
    ensures header.Some? ==>
              var spec := header.value;
              && r.value.width == spec.width && r.value.height == spec.height && r.value.depth == spec.depth
              && r.value.channels == spec.nchannels && r.value.dataType == PixelType(spec)
              && r.value.compressAsSrgb == l.compressAsSrgb && r.value.fileHint == spec.colorSpace
              && r.value.fileFormat == spec.formatName
  {
    if header.None? then None
    else
      var spec := header.value;
      Some(MetaData(spec.width, spec.height, spec.depth, spec.nchannels, PixelType(spec), l.compressAsSrgb,
                    spec.formatName, spec.colorSpace))
  }

  /** Half-float images are never widened to full floats, and any floating-point channel keeps a float type. */
  lemma FloatDataStaysFloat(l: Loader, spec: ImageSpec)
    requires AnyFloat(spec)
    ensures LoadMetadata(l, Some(spec)).value.dataType in {Half, Half4, Float, Float4}
  {
  }

  /**
   * Whether alpha gets associated: only when asked and the image has an
   * alpha channel, and then for DDS and PSD always, for Targa unless its
   * alpha type says it is already premultiplied (4), and otherwise never.
   */
  function DoAssociateAlpha(requested: bool, spec: ImageSpec): (r: bool)
    ensures r <==> requested && spec.alphaChannel != -1 &&
                   (spec.formatName == "dds" || spec.formatName == "psd" ||
                    (spec.formatName == "targa" && spec.targaAlphaType != Some(4)))
  {
    if requested && spec.alphaChannel != -1 then
      var targa := if spec.formatName == "targa" then
                     (if spec.targaAlphaType.Some? then spec.targaAlphaType.value else -1) != 4
                   else false;
      var dds := if spec.formatName == "dds" then true else targa;
      if spec.formatName == "psd" then true else dds
    else false
  }

  // ---------------------------------------------------------------------------
  // Pixels
  // ---------------------------------------------------------------------------

  type Pixel = seq<real>

  function Flatten(rows: seq<seq<Pixel>>): (ps: seq<Pixel>)
    ensures rows != [] ==> |rows[0]| <= |ps| && ps[..|rows[0]|] == rows[0]
  {
    if rows == [] then [] else rows[0] + Flatten(rows[1..])
  }

  function Reverse(xs: seq<seq<Pixel>>): (r: seq<seq<Pixel>>)
    ensures |r| == |xs| && forall i :: 0 <= i < |xs| ==> r[i] == xs[|xs| - 1 - i]
  {
    seq(|xs|, i requires 0 <= i < |xs| => xs[|xs| - 1 - i])
  }

  /**
   * The pixels as stored after reading: a flat image (depth at most 1) is
   * read bottom row first, so storage starts with the file's last row;
   * a volume is read in file order.
   */
  function Read(fileRows: seq<seq<Pixel>>, depth: int): (ps: seq<Pixel>)
    ensures depth <= 1 && fileRows != [] ==>
              |fileRows[|fileRows| - 1]| <= |ps| && ps[..|fileRows[|fileRows| - 1]|] == fileRows[|fileRows| - 1]
    ensures depth > 1 ==> ps == Flatten(fileRows)
  {
    if depth <= 1 then Flatten(Reverse(fileRows)) else Flatten(fileRows)
  }

  /** Reading flips a flat image upside down: flipping the file's rows first gives them back in file order. */
  lemma ReadFlipsFlatImages(fileRows: seq<seq<Pixel>>)
    ensures Read(Reverse(fileRows), 1) == Flatten(fileRows)
  {
    assert Reverse(Reverse(fileRows)) == fileRows;
  }

  /** With more than four channels, each of the first `count` pixels keeps its first four channels in order. */
  function Compact(ps: seq<Pixel>, count: nat, components: nat): (r: seq<Pixel>)
    requires count <= |ps|
    requires forall i :: 0 <= i < |ps| ==> |ps[i]| == components
    ensures components <= 4 ==> r == ps
    ensures components > 4 ==> |r| == count && forall i :: 0 <= i < count ==> r[i] == ps[i][..4]
  {
    if components > 4 then seq(count, i requires 0 <= i < count => ps[i][..4]) else ps
  }

  /** One CMYK pixel as RGBA: each colour is (1 - ink) * (1 - black), and alpha is one. */
  function CmykToRgba(p: Pixel): (q: Pixel)
    requires |p| == 4
    ensures |q| == 4 && q[3] == 1.0
    ensures forall c :: 0 <= c < 3 ==> q[c] == (1.0 - p[c]) * (1.0 - p[3])
  {
    [(1.0 - p[0]) * (1.0 - p[3]), (1.0 - p[1]) * (1.0 - p[3]), (1.0 - p[2]) * (1.0 - p[3]), 1.0]
  }

  /** The CMYK conversion applies to four-component JPEG images only, over the first `count` pixels. */
  function Cmyk(ps: seq<Pixel>, count: nat, formatName: string, components: nat): (r: seq<Pixel>)
    requires formatName == "jpeg" && components == 4 ==> count <= |ps| && forall i :: 0 <= i < |ps| ==> |ps[i]| == 4
    ensures |r| == |ps|
    ensures !(formatName == "jpeg" && components == 4) ==> r == ps
    ensures formatName == "jpeg" && components == 4 ==>
              (forall i :: 0 <= i < count ==> r[i] == CmykToRgba(ps[i])) &&
              (forall i :: count <= i < |ps| ==> r[i] == ps[i])
  {
    if formatName == "jpeg" && components == 4 then
      seq(|ps|, i requires 0 <= i < |ps| => if i < count then CmykToRgba(ps[i]) else ps[i])
    else ps
  }

  /** Colour multiplied by alpha, alpha kept. */
  function Associate(p: Pixel): (q: Pixel)
    requires |p| == 4
    ensures |q| == 4 && q[3] == p[3]
    ensures forall c :: 0 <= c < 3 ==> q[c] == p[c] * p[3]
  {
    [p[0] * p[3], p[1] * p[3], p[2] * p[3], p[3]]
  }

  /** Alpha association over the first `count` pixels of a four-channel image, when enabled. */
  function AssociateAll(ps: seq<Pixel>, count: nat, components: nat, enabled: bool): (r: seq<Pixel>)
    requires components == 4 && enabled ==> count <= |ps| && forall i :: 0 <= i < |ps| ==> |ps[i]| == 4
    ensures |r| == |ps|
    ensures !(components == 4 && enabled) ==> r == ps
    ensures components == 4 && enabled ==>
              (forall i :: 0 <= i < count ==> r[i] == Associate(ps[i])) &&
              (forall i :: count <= i < |ps| ==> r[i] == ps[i])
  {
    if components == 4 && enabled then
      seq(|ps|, i requires 0 <= i < |ps| => if i < count then Associate(ps[i]) else ps[i])
    else ps
  }

  /** A pixel whose alpha is one is unchanged by association. */
  lemma OpaqueAssociationIsIdentity(p: Pixel)
    requires |p| == 4 && p[3] == 1.0
    ensures Associate(p) == p
  {
    assert forall c :: 0 <= c < 4 ==> Associate(p)[c] == p[c];
  }

  /**
   * A converted CMYK image is opaque, so associating alpha afterwards
   * changes none of the converted pixels.
   */
  lemma CmykThenAssociateIsCmyk(ps: seq<Pixel>, count: nat)
    requires count <= |ps| && forall i :: 0 <= i < |ps| ==> |ps[i]| == 4
    ensures var c := Cmyk(ps, count, "jpeg", 4);
            (forall i :: 0 <= i < |c| ==> |c[i]| == 4) &&
            AssociateAll(c, count, 4, true) == c
  {
    var c := Cmyk(ps, count, "jpeg", 4);
    forall i | 0 <= i < count
      ensures Associate(c[i]) == c[i]
    {
      OpaqueAssociationIsIdentity(c[i]);
    }
    assert AssociateAll(c, count, 4, true) == c;
  }

  /** Storage types that load pixels; the NanoVDB kinds and the sentinel load nothing. */
  predicate LoadsPixels(t: ImageDataType)
  {
    t in {Byte, Byte4, UShort, UShort4, Half, Half4, Float, Float4}
  }

  // ---------------------------------------------------------------------------
  // The temporary buffer for images with more than four channels
  // ---------------------------------------------------------------------------

  /** The pixels `read_image` writes: the whole image, every slice of a volume. */
  function ImagePixels(m: MetaData): (n: nat)
    ensures m.depth <= 1 ==> n == m.width * m.height
    ensures m.depth > 1 ==> n == m.width * m.height * m.depth
  {
    m.width * m.height * Max(m.depth, 1)
  }

  /**
   * The pixels the temporary buffer holds as written: an image with more
   * than four channels gets width * height of them, whatever its depth.
   */
  function TmpPixelsAsWritten(m: MetaData): (n: nat)
    ensures m.channels > 4 ==> n == m.width * m.height
    ensures m.channels <= 4 ==> n == 0
  {
    if m.channels > 4 then m.width * m.height else 0
  }

  /**
   * A volume with more than four channels is read whole into a buffer
   * that holds one slice: every slice after the first is written past
   * its end.
   */
  lemma VolumeOverrunsTmpPixels(m: MetaData)
    requires m.channels > 4 && m.depth > 1 && m.width > 0 && m.height > 0
    ensures TmpPixelsAsWritten(m) < ImagePixels(m)
    ensures ImagePixels(m) - TmpPixelsAsWritten(m) == m.width * m.height * (m.depth - 1)
  {
    var plane := m.width * m.height;
    assert plane > 0 by { MulPositive(m.width, m.height); }
    assert plane * m.depth == plane + plane * (m.depth - 1);
    assert plane * (m.depth - 1) > 0 by { MulPositive(plane, m.depth - 1); }
  }

  lemma MulPositive(a: nat, b: nat)
    requires a > 0 && b > 0
    ensures a * b > 0
  {
  }

  /** A single five-channel voxel column of depth 2: the buffer holds one pixel and the read writes two. */
  lemma TwoSliceVolumeOverruns()
    ensures var m := MetaData(1, 1, 2, 5, Float4, false, "openexr", "");
            TmpPixelsAsWritten(m) == 1 && ImagePixels(m) == 2
  {
  }

  /**
   * The temporary buffer as evidently intended: sized by the whole image,
   * so it holds every pixel `read_image` writes. The model of loading
   * below assumes this sizing and so admits volumes of any channel count.
   */
  function TmpPixels(m: MetaData): (n: nat)
    ensures m.channels > 4 ==> ImagePixels(m) <= n
    ensures m.channels > 4 && m.depth <= 1 ==> n == TmpPixelsAsWritten(m)
    ensures m.channels <= 4 ==> n == 0
  {
    if m.channels > 4 then ImagePixels(m) else 0
  }

  /**
   * Filling the storage: None when the image cannot be opened. A storage
   * type that loads nothing leaves `storage` as it was but still reports
   * success. Otherwise the decoded rows are read (flat images bottom row
   * first), reduced to four channels, CMYK-converted for JPEG and
   * alpha-associated as `DoAssociateAlpha` decides. Compaction and
   * association cover width * height pixels, the CMYK conversion
   * width * height * depth.
   */
  function LoadPixels(m: MetaData, header: Option<ImageSpec>, fileRows: seq<seq<Pixel>>, storage: seq<Pixel>,
                      associateAlpha: bool): (r: Option<seq<Pixel>>)
    requires forall y :: 0 <= y < |fileRows| ==> forall x :: 0 <= x < |fileRows[y]| ==> |fileRows[y][x]| == m.channels
    requires LoadsPixels(m.dataType) ==>
               m.width * m.height <= |Read(fileRows, m.depth)| && m.width * m.height * m.depth <= |Read(fileRows, m.depth)|
    ensures header.None? <==> r.None?
    ensures header.Some? && !LoadsPixels(m.dataType) ==> r == Some(storage)
  {
    if header.None? then None
    else if !LoadsPixels(m.dataType) then Some(storage)
    else
      var spec := header.value;
      var plane := m.width * m.height;
      var pixels := plane * m.depth;
      var read := Read(fileRows, m.depth);
      ReadWidths(fileRows, m.depth, m.channels);
      var compact := Compact(read, plane, m.channels);
      var converted := Cmyk(compact, pixels, spec.formatName, m.channels);
      Some(AssociateAll(converted, plane, m.channels, DoAssociateAlpha(associateAlpha, spec)))
  }

  /** With fewer than four channels no conversion applies: the storage holds the pixels as read. */
  lemma NarrowImagesLoadAsRead(m: MetaData, spec: ImageSpec, fileRows: seq<seq<Pixel>>, storage: seq<Pixel>,
                               associateAlpha: bool)
    requires forall y :: 0 <= y < |fileRows| ==> forall x :: 0 <= x < |fileRows[y]| ==> |fileRows[y][x]| == m.channels
    requires LoadsPixels(m.dataType) && m.channels < 4
    requires m.width * m.height <= |Read(fileRows, m.depth)| && m.width * m.height * m.depth <= |Read(fileRows, m.depth)|
    ensures LoadPixels(m, Some(spec), fileRows, storage, associateAlpha) == Some(Read(fileRows, m.depth))
  {
  }

  /**
   * With more than four channels, at any depth, the storage holds the
   * first width * height pixels read, each cut to its first four channels.
   */
  lemma WideImagesLoadCompacted(m: MetaData, spec: ImageSpec, fileRows: seq<seq<Pixel>>, storage: seq<Pixel>,
                                associateAlpha: bool)
    requires forall y :: 0 <= y < |fileRows| ==> forall x :: 0 <= x < |fileRows[y]| ==> |fileRows[y][x]| == m.channels
    requires LoadsPixels(m.dataType) && m.channels > 4
    requires m.width * m.height <= |Read(fileRows, m.depth)| && m.width * m.height * m.depth <= |Read(fileRows, m.depth)|
    ensures var r := LoadPixels(m, Some(spec), fileRows, storage, associateAlpha);
            && r.Some? && |r.value| == m.width * m.height
            && forall i :: 0 <= i < m.width * m.height ==>
                 |Read(fileRows, m.depth)[i]| == m.channels && r.value[i] == Read(fileRows, m.depth)[i][..4]
  {
    ReadWidths(fileRows, m.depth, m.channels);
  }

  /**
   * A four-channel JPEG is taken as CMYK: every pixel the conversion
   * covers is stored as its RGBA conversion, opaque, whether or not alpha
   * association was asked for.
   */
  lemma CmykJpegLoadsOpaque(m: MetaData, spec: ImageSpec, fileRows: seq<seq<Pixel>>, storage: seq<Pixel>,
                            associateAlpha: bool, i: nat)
    requires forall y :: 0 <= y < |fileRows| ==> forall x :: 0 <= x < |fileRows[y]| ==> |fileRows[y][x]| == m.channels
    requires LoadsPixels(m.dataType) && m.channels == 4 && spec.formatName == "jpeg"
    requires m.width * m.height <= |Read(fileRows, m.depth)| && m.width * m.height * m.depth <= |Read(fileRows, m.depth)|
    requires i < m.width * m.height * m.depth
    ensures var r := LoadPixels(m, Some(spec), fileRows, storage, associateAlpha);
            ReadPixelHasFourChannels(fileRows, m.depth, i) &&
            r.Some? && i < |r.value| && r.value[i] == CmykToRgba(Read(fileRows, m.depth)[i]) && r.value[i][3] == 1.0
  {
    ReadWidths(fileRows, m.depth, m.channels);
    var c := CmykToRgba(Read(fileRows, m.depth)[i]);
    OpaqueAssociationIsIdentity(c);
  }

  /** Pixel `i` of the read image exists and has four channels, so it can be converted. */
  predicate ReadPixelHasFourChannels(fileRows: seq<seq<Pixel>>, depth: nat, i: nat)
  {
    i < |Read(fileRows, depth)| && |Read(fileRows, depth)[i]| == 4
  }

  /** Reading rows of `n`-channel pixels, in either order, gives `n`-channel pixels. */
  lemma ReadWidths(fileRows: seq<seq<Pixel>>, depth: int, n: nat)
    requires forall y :: 0 <= y < |fileRows| ==> forall x :: 0 <= x < |fileRows[y]| ==> |fileRows[y][x]| == n
    ensures forall i :: 0 <= i < |Read(fileRows, depth)| ==> |Read(fileRows, depth)[i]| == n
  {
    if depth <= 1 {
      FlattenWidths(Reverse(fileRows), n);
    } else {
      FlattenWidths(fileRows, n);
    }
  }

  /** Flattening rows of `n`-channel pixels gives `n`-channel pixels. */
  lemma {:induction false} FlattenWidths(rows: seq<seq<Pixel>>, n: nat)
    requires forall y :: 0 <= y < |rows| ==> forall x :: 0 <= x < |rows[y]| ==> |rows[y][x]| == n
    ensures forall i :: 0 <= i < |Flatten(rows)| ==> |Flatten(rows)[i]| == n
  {
    if rows != [] {
      FlattenWidths(rows[1..], n);
      assert forall i :: 0 <= i < |Flatten(rows)| ==>
               Flatten(rows)[i] == if i < |rows[0]| then rows[0][i] else Flatten(rows[1..])[i - |rows[0]|];
    }
  }

  /** The loader is never equal to another, not even to itself: Cycles never shares its images. */
  function Equals(l: Loader, other: Loader): (r: bool)
    ensures !r
  {
    false
  }
}

=== FILE: interior.dfy ===
/**
 * The interior builder: turns a blueprint's list of axis-aligned volumes into a
 * sparse occupancy grid, and then into a scene tree of one level per floor, one
 * cell object per occupied cell, and, when meshes are requested, a floor and a
 * wall on every side that faces an unoccupied neighbour.
 */
module Interior {
  import opened Common

  /** Cell size in world units (x, y) and the height of one floor (z). */
  const CellWidth: real := 1.0
  const CellDepth: real := 1.0
  const CellHeight: real := 2.5

  /** A blueprint volume as written: each axis's two ends may come in either order. */
  datatype Volume = Volume(xStart: int, xEnd: int, yStart: int, yEnd: int, zStart: int, zEnd: int)

  /** A half-open integer box [xs, xe) x [ys, ye) x [zs, ze). */
  datatype Box = Box(xs: int, xe: int, ys: int, ye: int, zs: int, ze: int)

  datatype Cell = Cell(x: int, y: int, z: int)

  predicate InBox(c: Cell, b: Box)
  {
    b.xs <= c.x < b.xe && b.ys <= c.y < b.ye && b.zs <= c.z < b.ze
  }

  /** Both ends of an axis, lower one first. */
  predicate OrderedPair(lo: int, hi: int, a: int, b: int)
  {
    lo <= hi && ((lo == a && hi == b) || (lo == b && hi == a))
  }

  /** The volume with each axis's ends put in ascending order. */
  function Normalize(v: Volume): (b: Box)
    ensures OrderedPair(b.xs, b.xe, v.xStart, v.xEnd)
    ensures OrderedPair(b.ys, b.ye, v.yStart, v.yEnd)
    ensures OrderedPair(b.zs, b.ze, v.zStart, v.zEnd)
  {
    Box(Min(v.xStart, v.xEnd), Max(v.xStart, v.xEnd),
        Min(v.yStart, v.yEnd), Max(v.yStart, v.yEnd),
        Min(v.zStart, v.zEnd), Max(v.zStart, v.zEnd))
  }

  /** The volume with the two ends of every axis exchanged. */
  function Flip(v: Volume): Volume
  {
    Volume(v.xEnd, v.xStart, v.yEnd, v.yStart, v.zEnd, v.zStart)
  }

  /** The order in which a volume's corners are written does not matter. */
  lemma NormalizeIgnoresCornerOrder(v: Volume)
    ensures Normalize(Flip(v)) == Normalize(v)
  {
  }

  /** The cells a normalised box covers. */
  function Rasterize(b: Box): (s: set<Cell>)
    ensures forall c :: c in s <==> InBox(c, b)
  {
    set x, y, z | b.xs <= x < b.xe && b.ys <= y < b.ye && b.zs <= z < b.ze :: Cell(x, y, z)
  }

  /** Reference definition: a cell is occupied when some normalised volume covers it. */
  predicate Covered(vs: seq<Volume>, c: Cell)
  {
    exists i :: 0 <= i < |vs| && InBox(c, Normalize(vs[i]))
  }

  /** The occupancy grid, filled volume after volume. */
  function Occupancy(vs: seq<Volume>): (grid: set<Cell>)
    ensures forall c :: c in grid <==> Covered(vs, c)
  {
    if vs == [] then {}
    else
      var prefix := vs[..|vs| - 1];
      var grid := Occupancy(prefix) + Rasterize(Normalize(vs[|vs| - 1]));
      assert forall c :: Covered(prefix, c) ==> Covered(vs, c) by {
        forall c | Covered(prefix, c) ensures Covered(vs, c) {
          var i :| 0 <= i < |prefix| && InBox(c, Normalize(prefix[i]));
          assert vs[i] == prefix[i];
        }
      }
      assert forall c :: Covered(vs, c) ==> c in grid by {
        forall c | Covered(vs, c) ensures c in grid {
          var i :| 0 <= i < |vs| && InBox(c, Normalize(vs[i]));
          if i < |vs| - 1 {
            assert prefix[i] == vs[i];
          }
        }
      }
      grid
  }

  /**
   * Reference definition of the blueprint's bounds: the smallest box that
   * contains the origin corner (every bound starts at 0) and every normalised
   * volume, ends included.
   */
  predicate IsBounds(vs: seq<Volume>, b: Box)
  {
    && b.xs <= 0 <= b.xe && b.ys <= 0 <= b.ye && b.zs <= 0 <= b.ze
    && (forall i :: 0 <= i < |vs| ==> Encloses(b, Normalize(vs[i])))
    && (b.xs == 0 || exists i :: 0 <= i < |vs| && b.xs == Normalize(vs[i]).xs)
    && (b.xe == 0 || exists i :: 0 <= i < |vs| && b.xe == Normalize(vs[i]).xe)
    && (b.ys == 0 || exists i :: 0 <= i < |vs| && b.ys == Normalize(vs[i]).ys)
    && (b.ye == 0 || exists i :: 0 <= i < |vs| && b.ye == Normalize(vs[i]).ye)
    && (b.zs == 0 || exists i :: 0 <= i < |vs| && b.zs == Normalize(vs[i]).zs)
    && (b.ze == 0 || exists i :: 0 <= i < |vs| && b.ze == Normalize(vs[i]).ze)
  }

  predicate Encloses(outer: Box, inner: Box)
  {
    outer.xs <= inner.xs && inner.xe <= outer.xe
    && outer.ys <= inner.ys && inner.ye <= outer.ye
    && outer.zs <= inner.zs && inner.ze <= outer.ze
  }

  /** Extends a box by another one, axis by axis. */
  function Grow(acc: Box, b: Box): Box
  {
    Box(Min(acc.xs, b.xs), Max(acc.xe, b.xe), Min(acc.ys, b.ys),
        Max(acc.ye, b.ye), Min(acc.zs, b.zs), Max(acc.ze, b.ze))
  }

  /** The running bounds, seeded with zeros and grown volume after volume. */
  function Bounds(vs: seq<Volume>): (b: Box)
    ensures IsBounds(vs, b)
  {
    if vs == [] then Box(0, 0, 0, 0, 0, 0)
    else
      var acc := Bounds(vs[..|vs| - 1]);
      GrowKeepsBounds(vs, acc);
      Grow(acc, Normalize(vs[|vs| - 1]))
  }

  /** Growing the bounds of all but the last volume by the last one gives the bounds of all. */
  lemma GrowKeepsBounds(vs: seq<Volume>, acc: Box)
    requires vs != [] && IsBounds(vs[..|vs| - 1], acc)
    ensures IsBounds(vs, Grow(acc, Normalize(vs[|vs| - 1])))
  {
    var prefix := vs[..|vs| - 1];
    assert forall i :: 0 <= i < |prefix| ==> vs[i] == prefix[i];
    assert vs[|vs| - 1] == vs[|vs| - 1];
  }

  /** Bounds are determined by the set of volumes alone. */
  lemma BoundsUnique(vs: seq<Volume>, ws: seq<Volume>, b: Box, d: Box)
    requires forall v :: v in vs <==> v in ws
    requires IsBounds(vs, b) && IsBounds(ws, d)
    ensures b == d
  {
    BoundsEnclose(vs, ws, b, d);
    BoundsEnclose(ws, vs, d, b);
  }

  /**
   * Bounds of one list enclose bounds of a list with the same volumes: each
   * bound of the latter is 0 or some volume's, and the former encloses both.
   */
  lemma BoundsEnclose(vs: seq<Volume>, ws: seq<Volume>, b: Box, d: Box)
    requires forall v :: v in vs <==> v in ws
    requires IsBounds(vs, b) && IsBounds(ws, d)
    ensures Encloses(b, d)
  {
    forall j | 0 <= j < |ws| ensures Encloses(b, Normalize(ws[j])) {
      assert ws[j] in vs;
      var i :| 0 <= i < |vs| && vs[i] == ws[j];
    }
    if d.xs != 0 { var j :| 0 <= j < |ws| && d.xs == Normalize(ws[j]).xs; }
    if d.xe != 0 { var j :| 0 <= j < |ws| && d.xe == Normalize(ws[j]).xe; }
    if d.ys != 0 { var j :| 0 <= j < |ws| && d.ys == Normalize(ws[j]).ys; }
    if d.ye != 0 { var j :| 0 <= j < |ws| && d.ye == Normalize(ws[j]).ye; }
    if d.zs != 0 { var j :| 0 <= j < |ws| && d.zs == Normalize(ws[j]).zs; }
    if d.ze != 0 { var j :| 0 <= j < |ws| && d.ze == Normalize(ws[j]).ze; }
  }

  /** Every occupied cell lies inside the bounds. */
  lemma OccupiedWithinBounds(vs: seq<Volume>, c: Cell)
    requires c in Occupancy(vs)
    ensures InBox(c, Bounds(vs))
  {
    var i :| 0 <= i < |vs| && InBox(c, Normalize(vs[i]));
    assert Encloses(Bounds(vs), Normalize(vs[i]));
  }

  /**
   * Neither grid nor bounds depends on the order of the volumes, nor on a
   * volume being listed twice: only the set of volumes matters.
   */
  lemma {:induction false} OrderIndependent(vs: seq<Volume>, ws: seq<Volume>)
    requires forall v :: v in vs <==> v in ws
    ensures Occupancy(vs) == Occupancy(ws)
    ensures Bounds(vs) == Bounds(ws)
  {
    SameOccupancy(vs, ws);
    BoundsUnique(vs, ws, Bounds(vs), Bounds(ws));
  }

  lemma SameOccupancy(vs: seq<Volume>, ws: seq<Volume>)
    requires forall v :: v in vs <==> v in ws
    ensures Occupancy(vs) == Occupancy(ws)
  {
    forall c ensures c in Occupancy(vs) <==> c in Occupancy(ws) {
      CoveredBySame(vs, ws, c);
      CoveredBySame(ws, vs, c);
    }
  }

  /** A cell one list covers is covered by any list holding the same volumes. */
  lemma CoveredBySame(vs: seq<Volume>, ws: seq<Volume>, c: Cell)
    requires forall v :: v in vs <==> v in ws
    ensures Covered(vs, c) ==> Covered(ws, c)
  {
    if Covered(vs, c) {
      var i :| 0 <= i < |vs| && InBox(c, Normalize(vs[i]));
      assert vs[i] in ws;
      var j :| 0 <= j < |ws| && ws[j] == vs[i];
    }
  }

  /** A volume that is empty on some axis occupies nothing. */
  lemma {:induction false} FlatVolumeAddsNothing(vs: seq<Volume>, v: Volume)
    requires v.xStart == v.xEnd || v.yStart == v.yEnd || v.zStart == v.zEnd
    ensures Occupancy(vs + [v]) == Occupancy(vs)
  {
    var ws := vs + [v];
    forall c | c in Occupancy(ws) ensures c in Occupancy(vs) {
      var i :| 0 <= i < |ws| && InBox(c, Normalize(ws[i]));
      assert i < |vs|;
      assert ws[i] == vs[i];
    }
    forall c | c in Occupancy(vs) ensures c in Occupancy(ws) {
      var i :| 0 <= i < |vs| && InBox(c, Normalize(vs[i]));
      assert ws[i] == vs[i];
    }
  }

  // ---------------------------------------------------------------------------
  // The scene tree built from the grid
  // ---------------------------------------------------------------------------

  /** The four wall instances a cell may carry, named after the builder's objects. */
  datatype Wall = WallRight | WallLeft | WallUp | WallDown

  /** The neighbour whose absence puts the given wall on a cell. */
  function Neighbour(c: Cell, w: Wall): Cell
  {
    match w
    case WallRight => Cell(c.x - 1, c.y, c.z)
    case WallLeft => Cell(c.x + 1, c.y, c.z)
    case WallUp => Cell(c.x, c.y + 1, c.z)
    case WallDown => Cell(c.x, c.y - 1, c.z)
  }

  /** A cell object: its grid coordinates, its location, and the meshes under it. */
  datatype CellNode = CellNode(cellX: int, cellY: int, locX: real, locY: real,
                               hasFloor: bool, walls: seq<Wall>)

  /** A level object: one per floor number, holding that floor's cells. */
  datatype LevelNode = LevelNode(floorNumber: int, locZ: real, cells: seq<CellNode>)

  /** The root object and its three recorded cell dimensions. */
  datatype InteriorRoot = InteriorRoot(cellWidth: real, cellDepth: real, cellHeight: real,
                                       levels: seq<LevelNode>)

  /** The walls of one occupied cell, in the order the builder creates them. */
  function Walls(grid: set<Cell>, c: Cell, addMeshes: bool): (ws: seq<Wall>)
    ensures forall w :: w in ws <==> addMeshes && Neighbour(c, w) !in grid
    ensures Distinct(ws)
  {
    if !addMeshes then []
    else
      (if Cell(c.x - 1, c.y, c.z) !in grid then [WallRight] else [])
      + (if Cell(c.x + 1, c.y, c.z) !in grid then [WallLeft] else [])
      + (if Cell(c.x, c.y + 1, c.z) !in grid then [WallUp] else [])
      + (if Cell(c.x, c.y - 1, c.z) !in grid then [WallDown] else [])
  }

  function MakeCell(grid: set<Cell>, c: Cell, addMeshes: bool): CellNode
  {
    CellNode(c.x, c.y, c.x as real * CellWidth, c.y as real * CellDepth,
             addMeshes, Walls(grid, c, addMeshes))
  }

  /** (x, y) order of cell objects inside a level: x-major, then y. */
  predicate Before(a: CellNode, b: CellNode)
  {
    a.cellX < b.cellX || (a.cellX == b.cellX && a.cellY < b.cellY)
  }

  predicate StrictlyOrdered(cs: seq<CellNode>)
  {
    forall i, j :: 0 <= i < j < |cs| ==> Before(cs[i], cs[j])
  }

  /** The cell list has an object at grid column (x, y). */
  predicate HasCellAt(cs: seq<CellNode>, x: int, y: int)
  {
    exists i :: 0 <= i < |cs| && cs[i].cellX == x && cs[i].cellY == y
  }

  lemma HasCellAtConcat(a: seq<CellNode>, b: seq<CellNode>, x: int, y: int)
    ensures HasCellAt(a + b, x, y) <==> HasCellAt(a, x, y) || HasCellAt(b, x, y)
  {
    if HasCellAt(a + b, x, y) {
      var i :| 0 <= i < |a + b| && (a + b)[i].cellX == x && (a + b)[i].cellY == y;
      if i >= |a| {
        assert b[i - |a|] == (a + b)[i];
      }
    }
    if HasCellAt(a, x, y) {
      var i :| 0 <= i < |a| && a[i].cellX == x && a[i].cellY == y;
      assert (a + b)[i] == a[i];
    }
    if HasCellAt(b, x, y) {
      var i :| 0 <= i < |b| && b[i].cellX == x && b[i].cellY == y;
      assert (a + b)[|a| + i] == b[i];
    }
  }

  /** Cells of column x at floor z for y in [y, ye), ascending y. */
  function Column(grid: set<Cell>, z: int, x: int, y: int, ye: int, addMeshes: bool): (cs: seq<CellNode>)
    ensures forall i :: 0 <= i < |cs| ==> cs[i].cellX == x && y <= cs[i].cellY < ye
    ensures forall i :: 0 <= i < |cs| ==> cs[i] == MakeCell(grid, Cell(x, cs[i].cellY, z), addMeshes)
    decreases ye - y
  {
    if y >= ye then []
    else
      var head := if Cell(x, y, z) in grid then [MakeCell(grid, Cell(x, y, z), addMeshes)] else [];
      head + Column(grid, z, x, y + 1, ye, addMeshes)
  }

  /** A column lists its cells in ascending y. */
  lemma {:induction false} ColumnOrdered(grid: set<Cell>, z: int, x: int, y: int, ye: int, addMeshes: bool)
    ensures StrictlyOrdered(Column(grid, z, x, y, ye, addMeshes))
    decreases ye - y
  {
    if y < ye {
      ColumnOrdered(grid, z, x, y + 1, ye, addMeshes);
    }
  }

  /** A column has an object exactly at the occupied cells of its range. */
  lemma {:induction false} ColumnContents(grid: set<Cell>, z: int, x: int, y: int, ye: int, addMeshes: bool, v: int)
    ensures HasCellAt(Column(grid, z, x, y, ye, addMeshes), x, v) <==> y <= v < ye && Cell(x, v, z) in grid
    decreases ye - y
  {
    var cs := Column(grid, z, x, y, ye, addMeshes);
    if y < ye {
      var head := if Cell(x, y, z) in grid then [MakeCell(grid, Cell(x, y, z), addMeshes)] else [];
      var tail := Column(grid, z, x, y + 1, ye, addMeshes);
      assert cs == head + tail;
      HasCellAtConcat(head, tail, x, v);
      ColumnContents(grid, z, x, y + 1, ye, addMeshes, v);
      if HasCellAt(head, x, v) {
        var i :| 0 <= i < |head| && head[i].cellX == x && head[i].cellY == v;
      }
      if v == y && Cell(x, y, z) in grid {
        assert head[0].cellX == x && head[0].cellY == y;
      }
    }
  }

  /** Cells of floor z for x in [x, xe), y in [ys, ye): x-major, then y. */
  function LevelCells(grid: set<Cell>, z: int, x: int, xe: int, ys: int, ye: int, addMeshes: bool)
    : (cs: seq<CellNode>)
    ensures forall i :: 0 <= i < |cs| ==> x <= cs[i].cellX < xe && ys <= cs[i].cellY < ye
    ensures forall i :: 0 <= i < |cs| ==> cs[i] == MakeCell(grid, Cell(cs[i].cellX, cs[i].cellY, z), addMeshes)
    decreases xe - x
  {
    if x >= xe then []
    else
      var col := Column(grid, z, x, ys, ye, addMeshes);
      var rest := LevelCells(grid, z, x + 1, xe, ys, ye, addMeshes);
      assert forall i :: 0 <= i < |col| ==> (col + rest)[i] == col[i];
      assert forall i :: |col| <= i < |col + rest| ==> (col + rest)[i] == rest[i - |col|];
      col + rest
  }

  /** A level lists its cells x-major, then by y, with no column twice. */
  lemma {:induction false} LevelCellsOrdered(grid: set<Cell>, z: int, x: int, xe: int, ys: int, ye: int, addMeshes: bool)
    ensures StrictlyOrdered(LevelCells(grid, z, x, xe, ys, ye, addMeshes))
    decreases xe - x
  {
    if x < xe {
      var col := Column(grid, z, x, ys, ye, addMeshes);
      var rest := LevelCells(grid, z, x + 1, xe, ys, ye, addMeshes);
      ColumnOrdered(grid, z, x, ys, ye, addMeshes);
      LevelCellsOrdered(grid, z, x + 1, xe, ys, ye, addMeshes);
      var cs := col + rest;
      forall i, j | 0 <= i < j < |cs| ensures Before(cs[i], cs[j]) {
        if j < |col| {
          assert cs[i] == col[i] && cs[j] == col[j];
        } else if i >= |col| {
          assert cs[i] == rest[i - |col|] && cs[j] == rest[j - |col|];
        } else {
          assert cs[i] == col[i] && cs[j] == rest[j - |col|];
        }
      }
    }
  }

  /** A level has an object exactly at the occupied cells of its rectangle. */
  lemma {:induction false} LevelCellsContents(grid: set<Cell>, z: int, x: int, xe: int, ys: int, ye: int,
                                              addMeshes: bool, u: int, v: int)
    ensures HasCellAt(LevelCells(grid, z, x, xe, ys, ye, addMeshes), u, v) <==>
              (x <= u < xe && ys <= v < ye && Cell(u, v, z) in grid)
    decreases xe - x
  {
    if x < xe {
      var col := Column(grid, z, x, ys, ye, addMeshes);
      var rest := LevelCells(grid, z, x + 1, xe, ys, ye, addMeshes);
      HasCellAtConcat(col, rest, u, v);
      LevelCellsContents(grid, z, x + 1, xe, ys, ye, addMeshes, u, v);
      if HasCellAt(col, u, v) {
        var i :| 0 <= i < |col| && col[i].cellX == u && col[i].cellY == v;
      }
      if u == x {
        ColumnContents(grid, z, x, ys, ye, addMeshes, v);
      }
    } else {
      var cs := LevelCells(grid, z, x, xe, ys, ye, addMeshes);
      assert cs == [];
      assert !HasCellAt(cs, u, v);
    }
  }

  /** One level object per floor number in [zs, ze), ascending. */
  function BuildLevels(grid: set<Cell>, b: Box, addMeshes: bool): (ls: seq<LevelNode>)
    ensures |ls| == if b.zs <= b.ze then b.ze - b.zs else 0
    ensures forall k :: 0 <= k < |ls| ==> ls[k].floorNumber == b.zs + k
    ensures forall k :: 0 <= k < |ls| ==> ls[k].locZ == (b.zs + k) as real * CellHeight
    ensures forall k :: 0 <= k < |ls| ==> ls[k].cells == LevelCells(grid, b.zs + k, b.xs, b.xe, b.ys, b.ye, addMeshes)
  {
    var n := if b.zs <= b.ze then b.ze - b.zs else 0;
    seq(n, k requires 0 <= k < n =>
      LevelNode(b.zs + k, (b.zs + k) as real * CellHeight, LevelCells(grid, b.zs + k, b.xs, b.xe, b.ys, b.ye, addMeshes)))
  }

  /**
   * The whole construction: grid, bounds, then the object tree, with cells
   * one unit wide and deep and 2.5 high, and one level per floor of the
   * bounds, bottom up.
   */
  function Construct(vs: seq<Volume>, addMeshes: bool): (r: InteriorRoot)
    ensures r.cellWidth == 1.0 && r.cellDepth == 1.0 && r.cellHeight == 2.5
    ensures |r.levels| == Bounds(vs).ze - Bounds(vs).zs
    ensures forall k :: 0 <= k < |r.levels| ==> r.levels[k].floorNumber == Bounds(vs).zs + k
  {
    var grid := Occupancy(vs);
    InteriorRoot(CellWidth, CellDepth, CellHeight, BuildLevels(grid, Bounds(vs), addMeshes))
  }

  /**
   * The construction has one level per floor between the bounds, and a floor's
   * level holds exactly one cell object per occupied cell of that floor.
   */
  lemma {:induction false} LevelMatchesGrid(grid: set<Cell>, b: Box, addMeshes: bool, k: int, u: int, v: int)
    requires 0 <= k < |BuildLevels(grid, b, addMeshes)|
    ensures HasCellAt(BuildLevels(grid, b, addMeshes)[k].cells, u, v) <==>
              InBox(Cell(u, v, b.zs + k), b) && Cell(u, v, b.zs + k) in grid
    ensures StrictlyOrdered(BuildLevels(grid, b, addMeshes)[k].cells)
  {
    var z := b.zs + k;
    LevelCellsOrdered(grid, z, b.xs, b.xe, b.ys, b.ye, addMeshes);
    LevelCellsContents(grid, z, b.xs, b.xe, b.ys, b.ye, addMeshes, u, v);
  }

  lemma ConstructMatchesGrid(vs: seq<Volume>, addMeshes: bool, k: int, u: int, v: int)
    ensures 0 <= k < |Construct(vs, addMeshes).levels| ==>
              Construct(vs, addMeshes).levels[k].floorNumber == Bounds(vs).zs + k
    ensures 0 <= k < |Construct(vs, addMeshes).levels| ==>
              (HasCellAt(Construct(vs, addMeshes).levels[k].cells, u, v) <==>
               Cell(u, v, Bounds(vs).zs + k) in Occupancy(vs))
    ensures 0 <= k < |Construct(vs, addMeshes).levels| ==> StrictlyOrdered(Construct(vs, addMeshes).levels[k].cells)
  {
    ConstructedLevel(vs, addMeshes, Construct(vs, addMeshes).levels, Occupancy(vs), Bounds(vs), k, u, v);
  }

  lemma ConstructedLevel(vs: seq<Volume>, addMeshes: bool, levels: seq<LevelNode>, grid: set<Cell>, b: Box,
                         k: int, u: int, v: int)
    requires levels == Construct(vs, addMeshes).levels && grid == Occupancy(vs) && b == Bounds(vs)
    ensures 0 <= k < |levels| ==> levels[k].floorNumber == b.zs + k
    ensures 0 <= k < |levels| ==> (HasCellAt(levels[k].cells, u, v) <==> Cell(u, v, b.zs + k) in grid)
    ensures 0 <= k < |levels| ==> StrictlyOrdered(levels[k].cells)
  {
    OccupiedInBox(vs, Cell(u, v, b.zs + k));
    LevelOfFloor(levels, grid, b, addMeshes, k, u, v);
  }

  lemma OccupiedInBox(vs: seq<Volume>, c: Cell)
    ensures c in Occupancy(vs) ==> InBox(c, Bounds(vs))
  {
    if c in Occupancy(vs) {
      OccupiedWithinBounds(vs, c);
    }
  }

  /** Level `k` of the levels built from a grid lists the grid's occupied cells of floor zs + k, in order. */
  lemma LevelOfFloor(levels: seq<LevelNode>, grid: set<Cell>, b: Box, addMeshes: bool, k: int, u: int, v: int)
    requires levels == BuildLevels(grid, b, addMeshes)
    requires Cell(u, v, b.zs + k) in grid ==> InBox(Cell(u, v, b.zs + k), b)
    ensures 0 <= k < |levels| ==> levels[k].floorNumber == b.zs + k
    ensures 0 <= k < |levels| ==> (HasCellAt(levels[k].cells, u, v) <==> Cell(u, v, b.zs + k) in grid)
    ensures 0 <= k < |levels| ==> StrictlyOrdered(levels[k].cells)
  {
    if 0 <= k < |levels| {
      LevelMatchesGrid(grid, b, addMeshes, k, u, v);
    }
  }

  /** Every occupied cell has a level: floor numbers cover the grid's z range. */
  lemma {:induction false} EveryOccupiedCellHasALevel(vs: seq<Volume>, addMeshes: bool, c: Cell)
    requires c in Occupancy(vs)
    ensures 0 <= c.z - Bounds(vs).zs < |Construct(vs, addMeshes).levels|
    ensures HasCellAt(Construct(vs, addMeshes).levels[c.z - Bounds(vs).zs].cells, c.x, c.y)
  {
    OccupiedWithinBounds(vs, c);
    LevelOfCell(Construct(vs, addMeshes).levels, Occupancy(vs), Bounds(vs), addMeshes, c);
  }

  /** An occupied cell inside the box is listed on the level of its floor. */
  lemma LevelOfCell(levels: seq<LevelNode>, grid: set<Cell>, b: Box, addMeshes: bool, c: Cell)
    requires levels == BuildLevels(grid, b, addMeshes)
    requires c in grid && InBox(c, b)
    ensures 0 <= c.z - b.zs < |levels|
    ensures HasCellAt(levels[c.z - b.zs].cells, c.x, c.y)
  {
    LevelMatchesGrid(grid, b, addMeshes, c.z - b.zs, c.x, c.y);
  }

  /** A strictly ordered cell list never holds two objects for the same column. */
  lemma OrderedMeansNoDuplicates(cs: seq<CellNode>, i: int, j: int)
    requires StrictlyOrdered(cs)
    requires 0 <= i < |cs| && 0 <= j < |cs| && i != j
    ensures cs[i].cellX != cs[j].cellX || cs[i].cellY != cs[j].cellY
  {
    if i < j { assert Before(cs[i], cs[j]); } else { assert Before(cs[j], cs[i]); }
  }

  /** The two-cell example: one wall on the far side of each cell, none between them. */
  lemma TwoCellExample()
    ensures Occupancy([Volume(0, 2, 0, 1, 0, 1)]) == {Cell(0, 0, 0), Cell(1, 0, 0)}
    ensures Bounds([Volume(0, 2, 0, 1, 0, 1)]) == Box(0, 2, 0, 1, 0, 1)
    ensures Walls({Cell(0, 0, 0), Cell(1, 0, 0)}, Cell(0, 0, 0), true) == [WallRight, WallUp, WallDown]
    ensures Walls({Cell(0, 0, 0), Cell(1, 0, 0)}, Cell(1, 0, 0), true) == [WallLeft, WallUp, WallDown]
  {
    TwoCellGrid();
    TwoCellWalls();
  }

  lemma TwoCellGrid()
    ensures Occupancy([Volume(0, 2, 0, 1, 0, 1)]) == {Cell(0, 0, 0), Cell(1, 0, 0)}
  {
    var vs := [Volume(0, 2, 0, 1, 0, 1)];
    assert Normalize(vs[0]) == Box(0, 2, 0, 1, 0, 1);
    forall c ensures c in Occupancy(vs) <==> c in {Cell(0, 0, 0), Cell(1, 0, 0)} {
      assert Covered(vs, c) <==> InBox(c, Box(0, 2, 0, 1, 0, 1));
    }
  }

  lemma TwoCellWalls()
    ensures Walls({Cell(0, 0, 0), Cell(1, 0, 0)}, Cell(0, 0, 0), true) == [WallRight, WallUp, WallDown]
    ensures Walls({Cell(0, 0, 0), Cell(1, 0, 0)}, Cell(1, 0, 0), true) == [WallLeft, WallUp, WallDown]
  {
    var g := {Cell(0, 0, 0), Cell(1, 0, 0)};
    assert Cell(-1, 0, 0) !in g && Cell(2, 0, 0) !in g;
    assert Cell(0, 1, 0) !in g && Cell(0, -1, 0) !in g && Cell(1, 1, 0) !in g && Cell(1, -1, 0) !in g;
  }

  // ---------------------------------------------------------------------------
  // Operator state: blueprint path, current root, and deletion
  // ---------------------------------------------------------------------------

  /** A generic scene object with an identity and children. */
  datatype SceneObject = SceneObject(id: int, children: seq<SceneObject>)

  /** The module-level state shared by the builder's operators. */
  datatype BuilderState = BuilderState(blueprintPath: string, root: Option<SceneObject>)

  /** Construction is offered only once a blueprint file has been chosen. */
  predicate CanConstruct(s: BuilderState)
  {
    s.blueprintPath != ""
  }

  /** Deletion is offered only while a constructed root exists. */
  predicate CanDelete(s: BuilderState)
  {
    s.root.Some?
  }

  /** All object ids in a subtree. */
  function SubtreeIds(o: SceneObject): multiset<int>
    decreases o, |o.children| + 1
  {
    multiset{o.id} + ChildrenIds(o, 0)
  }

  function ChildrenIds(o: SceneObject, k: nat): multiset<int>
    requires k <= |o.children|
    decreases o, |o.children| - k
  {
    if k == |o.children| then multiset{} else SubtreeIds(o.children[k]) + ChildrenIds(o, k + 1)
  }

  /** Ids in the order objects are removed: all children's subtrees first, in order, then the object. */
  function RemovalOrder(o: SceneObject): (r: seq<int>)
    ensures |r| > 0 && r[|r| - 1] == o.id
    decreases o, |o.children| + 1
  {
    RemoveChildren(o, 0) + [o.id]
  }

  function RemoveChildren(o: SceneObject, k: nat): seq<int>
    requires k <= |o.children|
    decreases o, |o.children| - k
  {
    if k == |o.children| then [] else RemovalOrder(o.children[k]) + RemoveChildren(o, k + 1)
  }

  /** Every id of the subtree is removed, exactly as often as it occurs in the subtree. */
  lemma {:induction false} RemovalIds(o: SceneObject)
    ensures multiset(RemovalOrder(o)) == SubtreeIds(o)
    decreases o, |o.children| + 1
  {
    ChildrenRemovalIds(o, 0);
  }

  /** The children's removals from child k on remove exactly those children's subtrees. */
  lemma {:induction false} ChildrenRemovalIds(o: SceneObject, k: nat)
    requires k <= |o.children|
    ensures multiset(RemoveChildren(o, k)) == ChildrenIds(o, k)
    decreases o, |o.children| - k
  {
    if k < |o.children| {
      RemovalIds(o.children[k]);
      ChildrenRemovalIds(o, k + 1);
    }
  }

  /** The delete operator: removes the whole tree, children before parents, and forgets the root. */
  function Delete(s: BuilderState): (r: (BuilderState, seq<int>))
    ensures r.0.root.None? && r.0.blueprintPath == s.blueprintPath
    ensures s.root.None? ==> r.1 == []
    ensures s.root.Some? ==> multiset(r.1) == SubtreeIds(s.root.value)
    ensures s.root.Some? ==> r.1[|r.1| - 1] == s.root.value.id
  {
    if s.root.Some? then
      RemovalIds(s.root.value);
      (BuilderState(s.blueprintPath, None), RemovalOrder(s.root.value))
    else (BuilderState(s.blueprintPath, None), [])
  }

  /** Where child k's removal run starts inside RemoveChildren(o, j). */
  function ChildOffset(o: SceneObject, j: nat, k: nat): nat
    requires j <= k < |o.children|
    decreases k - j
  {
    if j == k then 0 else |RemovalOrder(o.children[j])| + ChildOffset(o, j + 1, k)
  }

  lemma {:induction false} ChildRunInside(o: SceneObject, j: nat, k: nat)
    requires j <= k < |o.children|
    ensures ChildOffset(o, j, k) + |RemovalOrder(o.children[k])| <= |RemoveChildren(o, j)|
    ensures RemoveChildren(o, j)[ChildOffset(o, j, k)..ChildOffset(o, j, k) + |RemovalOrder(o.children[k])|]
              == RemovalOrder(o.children[k])
    decreases k - j
  {
    var r := RemovalOrder(o.children[k]);
    var whole := RemoveChildren(o, j);
    var off := ChildOffset(o, j, k);
    if j == k {
      var t := RemoveChildren(o, k + 1);
      assert whole == r + t;
      assert off == 0;
      RunAt([], r + t, r, 0);
    } else {
      ChildRunInside(o, j + 1, k);
      var a := RemovalOrder(o.children[j]);
      var t := RemoveChildren(o, j + 1);
      var p := ChildOffset(o, j + 1, k);
      assert whole == a + t;
      assert off == |a| + p;
      RunAt(a, t, r, p);
    }
  }

  /** A run found at offset p of t sits at offset |a| + p of a + t. */
  lemma RunAt(a: seq<int>, t: seq<int>, r: seq<int>, p: nat)
    requires p + |r| <= |t| && t[p..p + |r|] == r
    ensures |a| + p + |r| <= |a + t| && (a + t)[|a| + p..|a| + p + |r|] == r
  {
    SliceAfterPrefix(a, t, p, p + |r|);
  }

  /**
   * Children go before their parent: child k's whole subtree is removed as one
   * contiguous run that ends before the parent's own removal.
   */
  lemma {:induction false} ChildRemovedBeforeParent(o: SceneObject, k: nat)
    requires k < |o.children|
    ensures ChildOffset(o, 0, k) + |RemovalOrder(o.children[k])| < |RemovalOrder(o)|
    ensures RemovalOrder(o)[ChildOffset(o, 0, k)..ChildOffset(o, 0, k) + |RemovalOrder(o.children[k])|]
              == RemovalOrder(o.children[k])
  {
    ChildRunInside(o, 0, k);
    var p := ChildOffset(o, 0, k);
    var r := RemovalOrder(o.children[k]);
    var cs := RemoveChildren(o, 0);
    assert RemovalOrder(o) == cs + [o.id];
    SliceBeforeSuffix(cs, [o.id], p, p + |r|);
  }

  lemma SliceAfterPrefix(a: seq<int>, t: seq<int>, i: int, j: int)
    requires 0 <= i <= j <= |t|
    ensures (a + t)[|a| + i..|a| + j] == t[i..j]
  {
  }

  lemma SliceBeforeSuffix(t: seq<int>, b: seq<int>, i: int, j: int)
    requires 0 <= i <= j <= |t|
    ensures (t + b)[i..j] == t[i..j]
  {
  }

  // ---------------------------------------------------------------------------
  // The object tree the construct operator links into the scene
  // ---------------------------------------------------------------------------

  /** The mesh instances under a cell object: its floor, then its walls. */
  function MeshCount(c: CellNode): nat
  {
    (if c.hasFloor then 1 else 0) + |c.walls|
  }

  /** A cell object with id `id`, its mesh instances numbered after it. */
  function CellObject(c: CellNode, id: int): (o: SceneObject)
    ensures o.id == id && |o.children| == MeshCount(c)
    ensures forall k :: 0 <= k < |o.children| ==> o.children[k] == SceneObject(id + 1 + k, [])
  {
    SceneObject(id, seq(MeshCount(c), k requires 0 <= k < MeshCount(c) => SceneObject(id + 1 + k, [])))
  }

  /** The cell objects of one level, numbered from `id` in creation order. */
  function CellObjects(cs: seq<CellNode>, id: int): (os: seq<SceneObject>)
    ensures |os| == |cs|
    ensures forall k :: 0 <= k < |cs| ==>
              && |os[k].children| == MeshCount(cs[k])
              && forall m :: 0 <= m < |os[k].children| ==> os[k].children[m].children == []
  {
    if cs == [] then []
    else
      var rest := CellObjects(cs[1..], id + 1 + MeshCount(cs[0]));
      assert forall k :: 1 <= k < |cs| ==> cs[k] == cs[1..][k - 1];
      [CellObject(cs[0], id)] + rest
  }

  /** The number of objects a level's cells make: each cell and its meshes. */
  function CellsSize(cs: seq<CellNode>): nat
  {
    if cs == [] then 0 else 1 + MeshCount(cs[0]) + CellsSize(cs[1..])
  }

  /** The level objects, each followed by its cells, numbered from `id` in creation order. */
  function LevelObjects(ls: seq<LevelNode>, id: int): (os: seq<SceneObject>)
    ensures |os| == |ls|
    ensures forall i :: 0 <= i < |ls| ==> os[i].children == CellObjects(ls[i].cells, os[i].id + 1)
  {
    if ls == [] then []
    else
      var rest := LevelObjects(ls[1..], id + 1 + CellsSize(ls[0].cells));
      assert forall i :: 1 <= i < |ls| ==> ls[i] == ls[1..][i - 1];
      [SceneObject(id, CellObjects(ls[0].cells, id + 1))] + rest
  }

  /**
   * The tree built under the new root: one level object per level, one
   * cell object per cell of that level, and one mesh instance per floor
   * and wall of that cell.
   */
  function RootObject(r: InteriorRoot, id: int): (o: SceneObject)
    ensures o.id == id && |o.children| == |r.levels|
    ensures forall i :: 0 <= i < |r.levels| ==> |o.children[i].children| == |r.levels[i].cells|
    ensures forall i, j :: 0 <= i < |r.levels| && 0 <= j < |r.levels[i].cells| ==>
              |o.children[i].children[j].children| == MeshCount(r.levels[i].cells[j])
  {
    SceneObject(id, LevelObjects(r.levels, id + 1))
  }

  /**
   * The construct operator: builds the interior, links the tree of new
   * objects under a new root numbered `rootId`, and makes that root the
   * current one.
   */
  function ConstructOperator(s: BuilderState, vs: seq<Volume>, addMeshes: bool, rootId: int)
    : (r: (BuilderState, InteriorRoot))
    requires CanConstruct(s)
    ensures r.0.root == Some(RootObject(r.1, rootId)) && r.0.blueprintPath == s.blueprintPath
    ensures CanDelete(r.0)
    ensures r.1 == Construct(vs, addMeshes)
    ensures r.1.cellWidth == 1.0 && r.1.cellDepth == 1.0 && r.1.cellHeight == 2.5
  {
    var interior := Construct(vs, addMeshes);
    (BuilderState(s.blueprintPath, Some(RootObject(interior, rootId))), interior)
  }

  /** Deleting after construction removes every object the construction created, the root last. */
  lemma DeleteRemovesConstruction(s: BuilderState, vs: seq<Volume>, addMeshes: bool, rootId: int)
    requires CanConstruct(s)
    ensures var (built, interior) := ConstructOperator(s, vs, addMeshes, rootId);
            var removed := Delete(built).1;
            && multiset(removed) == SubtreeIds(RootObject(interior, rootId))
            && removed[|removed| - 1] == rootId
            && Delete(built).0.root.None?
  {
  }
}

=== FILE: lib_list.dfy ===
/**
 * The build helper that sorts third-party DLLs into debug and optimised
 * folders: it finds every file with a given extension under a directory
 * tree, decides per DLL name which folder(s) it belongs in, and can write
 * a list of names in two layouts (one line, and one name per line).
 *
 * The file system is not modelled: the directory walk is given as its
 * listing (each directory's path with the names of the files in it, in
 * walk order), and copies are returned as (source, destination folder)
 * pairs.
 */
module LibList {
  import opened Common

  // ---------------------------------------------------------------------------
  // Finding files
  // ---------------------------------------------------------------------------

  /** One step of a directory walk: a directory's path and the names of the files directly in it. */
  datatype WalkEntry = WalkEntry(root: string, files: seq<string>)

  /** The path separator used when joining and splitting paths (the helper runs on Windows). */
  const Sep: char := '\\'

  function Join(root: string, name: string): string
  {
    root + [Sep] + name
  }

  predicate EndsWith(s: string, suffix: string)
  {
    |suffix| <= |s| && s[|s| - |suffix|..] == suffix
  }

  /** The joined paths of the files in one directory whose names end with `ext`, in listing order. */
  function Matching(root: string, files: seq<string>, ext: string): (r: seq<string>)
    ensures forall p :: p in r <==> exists f :: f in files && EndsWith(f, ext) && p == Join(root, f)
  {
    if files == [] then []
    else
      var n := |files| - 1;
      var rest := Matching(root, files[..n], ext);
      assert forall f :: f in files <==> f in files[..n] || f == files[n];
      rest + (if EndsWith(files[n], ext) then [Join(root, files[n])] else [])
  }

  /** Every file under the walk whose name ends with `ext`, as a joined path, in walk order. */
  function FindFiles(walk: seq<WalkEntry>, ext: string): (r: seq<string>)
    ensures forall k :: 0 <= k < |r| ==> EndsWith(r[k], ext)
  {
    if walk == [] then []
    else
      var n := |walk| - 1;
      var here := Matching(walk[n].root, walk[n].files, ext);
      assert forall k :: 0 <= k < |here| ==> EndsWith(here[k], ext) by {
        forall k | 0 <= k < |here| ensures EndsWith(here[k], ext) {
          assert here[k] in here;
          var f :| f in walk[n].files && EndsWith(f, ext) && here[k] == Join(walk[n].root, f);
          JoinKeepsEnding(walk[n].root, f, ext);
        }
      }
      FindFiles(walk[..n], ext) + here
  }

  /** A joined path ends with whatever its file name ends with. */
  lemma JoinKeepsEnding(root: string, f: string, ext: string)
    requires EndsWith(f, ext)
    ensures EndsWith(Join(root, f), ext)
  {
    var p := Join(root, f);
    assert p[|p| - |f|..] == f;
    assert p[|p| - |ext|..] == f[|f| - |ext|..];
  }

  /** `p` is the joined path of a file in directory `e` whose name ends with `ext`. */
  predicate InDir(e: WalkEntry, ext: string, p: string)
  {
    exists f :: f in e.files && EndsWith(f, ext) && p == Join(e.root, f)
  }

  /** A path is found exactly when some directory of the walk holds a file with that name ending with `ext`. */
  lemma FindFilesExact(walk: seq<WalkEntry>, ext: string, p: string)
    ensures p in FindFiles(walk, ext) <==>
              exists i, f :: 0 <= i < |walk| && f in walk[i].files && EndsWith(f, ext) && p == Join(walk[i].root, f)
  {
    FindFilesByDir(walk, ext, p);
    if exists i, f :: 0 <= i < |walk| && f in walk[i].files && EndsWith(f, ext) && p == Join(walk[i].root, f) {
      var i, f :| 0 <= i < |walk| && f in walk[i].files && EndsWith(f, ext) && p == Join(walk[i].root, f);
      assert InDir(walk[i], ext, p);
    }
  }

  /** The same, one directory at a time. */
  lemma {:induction false} FindFilesByDir(walk: seq<WalkEntry>, ext: string, p: string)
    ensures p in FindFiles(walk, ext) <==> exists i :: 0 <= i < |walk| && InDir(walk[i], ext, p)
  {
    if walk != [] {
      var n := |walk| - 1;
      FindFilesByDir(walk[..n], ext, p);
      var found, here := FindFiles(walk[..n], ext), Matching(walk[n].root, walk[n].files, ext);
      assert FindFiles(walk, ext) == found + here;
      assert p in found + here <==> p in found || p in here;
      assert p in here <==> InDir(walk[n], ext, p);
      if exists i :: 0 <= i < |walk| && InDir(walk[i], ext, p) {
        var i :| 0 <= i < |walk| && InDir(walk[i], ext, p);
        if i < n {
          assert walk[..n][i] == walk[i];
        }
      }
      if exists i :: 0 <= i < n && InDir(walk[..n][i], ext, p) {
        var i :| 0 <= i < n && InDir(walk[..n][i], ext, p);
        assert walk[i] == walk[..n][i];
      }
    }
  }

  // ---------------------------------------------------------------------------
  // Writing a list
  // ---------------------------------------------------------------------------

  /** Each item followed by the terminator `t`. */
  function Terminated(items: seq<string>, t: char): (s: string)
    ensures |s| == |items| + TotalLength(items)
  {
    if items == [] then [] else items[0] + [t] + Terminated(items[1..], t)
  }

  /** The number of characters of all items together. */
  function TotalLength(items: seq<string>): nat
  {
    if items == [] then 0 else |items[0]| + TotalLength(items[1..])
  }

  const OneLineHeader: string := "ONE LINE:\n"
  const ReadableHeader: string := "\n\nREADABLE:\n"

  /** The file written for a list: the items separated by ';' on one line, then one item per line. */
  function SaveListToFile(items: seq<string>): (f: string)
    ensures |f| == |OneLineHeader| + |ReadableHeader| + 2 * (|items| + TotalLength(items))
  {
    OneLineHeader + Terminated(items, ';') + ReadableHeader + Terminated(items, '\n')
  }

  /** The position of the first `t` in `s`, or |s| when there is none. */
  function IndexOf(s: string, t: char): (i: nat)
    ensures i <= |s| && (i < |s| ==> s[i] == t) && t !in s[..i]
  {
    if s == [] then 0 else if s[0] == t then 0 else 1 + IndexOf(s[1..], t)
  }

  /** The pieces of `s` ended by `t`; text after the last `t` is a last piece when not empty. */
  function Split(s: string, t: char): seq<string>
    decreases |s|
  {
    if s == [] then []
    else
      var i := IndexOf(s, t);
      if i == |s| then [s] else [s[..i]] + Split(s[i + 1..], t)
  }

  lemma SplitStep(x: string, t: char, rest: string)
    requires t !in x
    ensures Split(x + [t] + rest, t) == [x] + Split(rest, t)
  {
    var s := x + [t] + rest;
    IndexOfPrefix(x, t, rest);
    assert s[..|x|] == x && s[|x| + 1..] == rest;
  }

  lemma {:induction false} IndexOfPrefix(x: string, t: char, rest: string)
    requires t !in x
    ensures IndexOf(x + [t] + rest, t) == |x|
  {
    if x != [] {
      assert (x + [t] + rest)[1..] == x[1..] + [t] + rest;
      IndexOfPrefix(x[1..], t, rest);
    }
  }

  predicate NoChar(items: seq<string>, t: char)
  {
    forall k :: 0 <= k < |items| ==> t !in items[k]
  }

  /** Splitting the terminated items gives the items back, when no item contains the terminator. */
  lemma {:induction false} SplitTerminated(items: seq<string>, t: char, rest: string)
    requires NoChar(items, t)
    ensures Split(Terminated(items, t) + rest, t) == items + Split(rest, t)
  {
    if items == [] {
      assert Terminated(items, t) + rest == rest;
    } else {
      var more := Terminated(items[1..], t) + rest;
      assert t !in items[0];
      assert NoChar(items[1..], t) by {
        forall k | 0 <= k < |items[1..]| ensures t !in items[1..][k] {
          assert items[1..][k] == items[k + 1];
        }
      }
      calc {
        Split(Terminated(items, t) + rest, t);
      ==  { assert Terminated(items, t) + rest == items[0] + [t] + more; }
        Split(items[0] + [t] + more, t);
      ==  { SplitStep(items[0], t, more); }
        [items[0]] + Split(more, t);
      ==  { SplitTerminated(items[1..], t, rest); }
        [items[0]] + (items[1..] + Split(rest, t));
      ==  { assert items == [items[0]] + items[1..]; }
        items + Split(rest, t);
      }
    }
  }

  /** What a reader recovers from a saved file: the ';'-separated second line, and the lines after the READABLE header. */
  function ReadOneLine(content: string): seq<string>
  {
    var lines := Split(content, '\n');
    if |lines| > 1 then Split(lines[1], ';') else []
  }

  function ReadReadable(content: string): seq<string>
  {
    var lines := Split(content, '\n');
    if |lines| >= 4 then lines[4..] else []
  }

  /**
   * Both layouts read back as the saved list, provided no item contains a
   * line break or a ';'.
   */
  lemma SaveListRoundTrip(items: seq<string>)
    requires NoChar(items, '\n') && NoChar(items, ';')
    ensures ReadReadable(SaveListToFile(items)) == items
    ensures ReadOneLine(SaveListToFile(items)) == items
  {
    var one := Terminated(items, ';');
    SavedLines(items);
    assert Split(one, ';') == items by {
      SplitTerminated(items, ';', []);
      assert one + [] == one;
    }
  }

  /** The lines of a saved file: the header, the one-line layout, a blank line, the second header, then the items. */
  lemma SavedLines(items: seq<string>)
    requires NoChar(items, '\n') && NoChar(items, ';')
    ensures Split(SaveListToFile(items), '\n') == ["ONE LINE:", Terminated(items, ';'), [], "READABLE:"] + items
  {
    var one := Terminated(items, ';');
    var tail := Terminated(items, '\n');
    TerminatedAvoids(items, ';', '\n');
    FileShape(one, tail);
    SplitHeaders(one, tail);
    SplitTerminated(items, '\n', []);
    assert tail + [] == tail;
  }

  /** Cutting the file at its first four line breaks gives the two headers, the one-line layout and a blank line. */
  lemma SplitHeaders(one: string, tail: string)
    requires '\n' !in one
    ensures Split("ONE LINE:" + ['\n'] + (one + ['\n'] + ([] + ['\n'] + ("READABLE:" + ['\n'] + tail))), '\n')
            == ["ONE LINE:", one, [], "READABLE:"] + Split(tail, '\n')
  {
    var a := "READABLE:" + ['\n'] + tail;
    var b := [] + ['\n'] + a;
    var c := one + ['\n'] + b;
    assert '\n' !in "ONE LINE:" && '\n' !in "READABLE:";
    calc {
      Split("ONE LINE:" + ['\n'] + c, '\n');
    ==  { SplitStep("ONE LINE:", '\n', c); }
      ["ONE LINE:"] + Split(c, '\n');
    ==  { SplitStep(one, '\n', b); }
      ["ONE LINE:"] + ([one] + Split(b, '\n'));
    ==  { SplitStep([], '\n', a); }
      ["ONE LINE:"] + ([one] + ([[]] + Split(a, '\n')));
    ==  { SplitStep("READABLE:", '\n', tail); }
      ["ONE LINE:"] + ([one] + ([[]] + (["READABLE:"] + Split(tail, '\n'))));
    ==
      ["ONE LINE:", one, [], "READABLE:"] + Split(tail, '\n');
    }
  }

  /** The file around its two item blocks, cut at each of its first four line breaks. */
  lemma FileShape(one: string, tail: string)
    ensures OneLineHeader + one + ReadableHeader + tail
            == "ONE LINE:" + ['\n'] + (one + ['\n'] + ([] + ['\n'] + ("READABLE:" + ['\n'] + tail)))
  {
    assert OneLineHeader == "ONE LINE:" + ['\n'];
    assert ReadableHeader == ['\n'] + ['\n'] + "READABLE:" + ['\n'];
  }

  /** Terminating with `t` adds no character `c` other than `t`. */
  lemma {:induction false} TerminatedAvoids(items: seq<string>, t: char, c: char)
    requires NoChar(items, c) && c != t
    ensures c !in Terminated(items, t)
  {
    if items != [] {
      TerminatedAvoids(items[1..], t, c);
      assert Terminated(items, t) == items[0] + [t] + Terminated(items[1..], t);
    }
  }

  // ---------------------------------------------------------------------------
  // Removing duplicates
  // ---------------------------------------------------------------------------

  /** The same items without repeats; the order is not specified (it goes through a set). */
  method RemoveDuplicates(items: seq<string>) returns (r: seq<string>)
    ensures forall x :: x in r <==> x in items
    ensures Distinct(r)
  {
    r := [];
    var k := 0;
    while k < |items|
      invariant 0 <= k <= |items|
      invariant forall x :: x in r <==> x in items[..k]
      invariant Distinct(r)
    {
      if items[k] !in r {
        r := r + [items[k]];
      }
      assert items[..k + 1] == items[..k] + [items[k]];
      k := k + 1;
    }
    assert items[..k] == items;
  }

  // ---------------------------------------------------------------------------
  // Sorting DLLs
  // ---------------------------------------------------------------------------

  const DebugDllNames: seq<string> := [
    "Iex_d.dll", "IlmThread_d.dll", "MaterialXCore_d.dll", "MaterialXFormat_d.dll", "MaterialXGenGlsl_d.dll",
    "MaterialXGenMdl_d.dll", "MaterialXGenOsl_d.dll", "MaterialXGenShader_d.dll", "MaterialXRenderGlsl_d.dll",
    "MaterialXRenderHw_d.dll", "MaterialXRenderOsl_d.dll", "MaterialXRender_d.dll", "OpenEXRCore_d.dll",
    "OpenEXRUtil_d.dll", "OpenEXR_d.dll", "OpenImageIO_Util_d.dll", "OpenImageIO_d.dll", "imath_d.dll",
    "libgmpxx_d.dll", "openvdb_d.dll", "pyshellext_d.dll", "python310_d.dll", "python3_d.dll",
    "shaderc_shared_d.dll", "sqlite3_d.dll", "tbb_debug.dll", "tbbmalloc_debug.dll", "tbbmalloc_proxy_debug.dll",
    "usd_ms_d.dll", "sycl6d.dll", "OpenColorIO_d_2_2.dll", "openvdb.dll", "boost_thread-vc142-mt-gyd-x64-1_80.dll",
    "tbb.dll", "epoxy-0.dll", "SDL2.dll"]

  const OptimizedDllNames: seq<string> := [
    "epoxy-0.dll", "SDL2.dll", "OpenColorIO_2_2.dll", "openvdb.dll", "imath.dll",
    "boost_thread-vc142-mt-x64-1_80.dll", "OpenImageIO_Util.dll", "OpenImageIO.dll", "tbb.dll", "OpenEXRCore.dll",
    "OpenEXRUtil.dll", "OpenEXR.dll", "Iex.dll", "IlmThread.dll"]

  /** Exact, case-sensitive membership in the debug list. */
  function IsDebugDll(name: string): (r: bool)
    ensures r <==> exists k :: 0 <= k < |DebugDllNames| && DebugDllNames[k] == name
  {
    name in DebugDllNames
  }

  /** Exact, case-sensitive membership in the optimised list. */
  function IsOptimizedDll(name: string): (r: bool)
    ensures r <==> exists k :: 0 <= k < |OptimizedDllNames| && OptimizedDllNames[k] == name
  {
    name in OptimizedDllNames
  }

  /** Four DLLs are on both lists. */
  lemma DualListedDlls()
    ensures IsDebugDll("epoxy-0.dll") && IsOptimizedDll("epoxy-0.dll")
    ensures IsDebugDll("SDL2.dll") && IsOptimizedDll("SDL2.dll")
    ensures IsDebugDll("openvdb.dll") && IsOptimizedDll("openvdb.dll")
    ensures IsDebugDll("tbb.dll") && IsOptimizedDll("tbb.dll")
  {
    assert DebugDllNames[31] == "openvdb.dll" && DebugDllNames[33] == "tbb.dll";
    assert DebugDllNames[34] == "epoxy-0.dll" && DebugDllNames[35] == "SDL2.dll";
    assert OptimizedDllNames[0] == "epoxy-0.dll" && OptimizedDllNames[1] == "SDL2.dll";
    assert OptimizedDllNames[3] == "openvdb.dll" && OptimizedDllNames[8] == "tbb.dll";
  }

  /** The name after the last path separator ('\' or '/'), or the whole path when there is none. */
  function Basename(path: string): (b: string)
    ensures |b| <= |path| && b == path[|path| - |b|..]
    ensures '\\' !in b && '/' !in b
    ensures |b| < |path| ==> path[|path| - |b| - 1] == '\\' || path[|path| - |b| - 1] == '/'
  {
    if path == [] then []
    else if path[|path| - 1] == '\\' || path[|path| - 1] == '/' then []
    else Basename(path[..|path| - 1]) + [path[|path| - 1]]
  }

  datatype Folder = DebugFolder | OptimizedFolder

  /** A library to copy and the folder it is copied to. */
  type DllCopy = (string, Folder)

  /** The copies made for one DLL: to the debug folder if its name is on the debug list, then to the optimised one if on that list. */
  function CopiesFor(path: string): (cs: seq<DllCopy>)
    ensures (path, DebugFolder) in cs <==> IsDebugDll(Basename(path))
    ensures (path, OptimizedFolder) in cs <==> IsOptimizedDll(Basename(path))
    ensures forall c :: c in cs ==> c.0 == path
    ensures |cs| <= 2
  {
    var name := Basename(path);
    Copies(path, IsDebugDll(name), IsOptimizedDll(name))
  }

  /** The copies for a path given which lists its name is on. */
  function Copies(path: string, debug: bool, optimized: bool): (cs: seq<DllCopy>)
    ensures (path, DebugFolder) in cs <==> debug
    ensures (path, OptimizedFolder) in cs <==> optimized
    ensures forall c :: c in cs ==> c.0 == path
    ensures |cs| <= 2
  {
    (if debug then [(path, DebugFolder)] else []) + (if optimized then [(path, OptimizedFolder)] else [])
  }

  /** The copies made for every DLL found, in the order found. */
  function CopyDlls(dlls: seq<string>): (r: seq<DllCopy>)
    ensures |r| <= 2 * |dlls|
    ensures forall c :: c in r ==> c.0 in dlls
  {
    if dlls == [] then []
    else
      var here, rest := CopiesFor(dlls[0]), CopyDlls(dlls[1..]);
      here + rest
  }

  /** A found DLL is copied to a folder exactly when its name is on that folder's list. */
  lemma {:induction false} CopyDllsExact(dlls: seq<string>, path: string, f: Folder)
    requires path in dlls
    ensures (path, f) in CopyDlls(dlls) <==>
              (if f == DebugFolder then IsDebugDll(Basename(path)) else IsOptimizedDll(Basename(path)))
  {
    if dlls[0] == path {
      if (path, f) in CopyDlls(dlls[1..]) {
        CopyDllsFrom(dlls[1..], path, f);
      }
    } else {
      CopyDllsExact(dlls[1..], path, f);
    }
  }

  /** Every copy is of one of the DLLs found. */
  lemma {:induction false} CopyDllsFrom(dlls: seq<string>, path: string, f: Folder)
    requires (path, f) in CopyDlls(dlls)
    ensures path in dlls
    ensures f == DebugFolder ==> IsDebugDll(Basename(path))
    ensures f == OptimizedFolder ==> IsOptimizedDll(Basename(path))
  {
    if (path, f) !in CopiesFor(dlls[0]) {
      CopyDllsFrom(dlls[1..], path, f);
    }
  }

  /** A DLL on both lists goes to both folders. */
  lemma TbbCopiedToBoth(root: string)
    ensures var p := Join(root, "tbb.dll");
            (p, DebugFolder) in CopyDlls([p]) && (p, OptimizedFolder) in CopyDlls([p])
  {
    var p := Join(root, "tbb.dll");
    BasenameOfJoin(root, "tbb.dll");
    DualListedDlls();
    CopyDllsExact([p], p, DebugFolder);
    CopyDllsExact([p], p, OptimizedFolder);
  }

  /** Joining a name without separators and taking the base name gives the name back. */
  lemma {:induction false} BasenameOfJoin(root: string, name: string)
    requires '\\' !in name && '/' !in name
    ensures Basename(Join(root, name)) == name
    decreases |name|
  {
    if name != [] {
      var n := |name| - 1;
      assert Join(root, name)[..|Join(root, name)| - 1] == Join(root, name[..n]);
      BasenameOfJoin(root, name[..n]);
      assert name == name[..n] + [name[n]];
    }
  }
}

=== FILE: mesh_shader.dfy ===
/**
 * The mesh shader programs: the key that tells programs apart, the vertex
 * inputs they declare, the coverage kernel baked into them, the texture
 * samples a material flag word switches on, and the uniform uploads.
 */
module MeshShader {
  import opened Common

  // ---------------------------------------------------------------------------
  // Material flag bits
  // ---------------------------------------------------------------------------

  const AlbedoBit: nat := 0x01
  const NormalBit: nat := 0x02
  const MetallicRoughnessBit: nat := 0x04
  const EmissiveBit: nat := 0x08
  const TransmissionBit: nat := 0x10
  const OcclusionBit: nat := 0x20

  /** Whether the bitwise and of `word` with the power of two `bit` is non-zero. */
  predicate HasFlag(word: nat, bit: nat)
    requires bit > 0
  {
    (word / bit) % 2 == 1
  }

  /** The texture switches a program is built for. */
  datatype MaterialFlags = MaterialFlags(albedo: bool, normal: bool, metallicRoughness: bool, emissive: bool,
                                         transmission: bool, occlusion: bool)

  function BitIf(b: bool, bit: nat): nat
  {
    if b then bit else 0
  }

  /** The flag word: the bitwise or of the bits of the switched-on textures. */
  function Word(f: MaterialFlags): (w: nat)
    ensures w < 0x40
  {
    BitIf(f.albedo, AlbedoBit) + BitIf(f.normal, NormalBit) + BitIf(f.metallicRoughness, MetallicRoughnessBit) +
    BitIf(f.emissive, EmissiveBit) + BitIf(f.transmission, TransmissionBit) + BitIf(f.occlusion, OcclusionBit)
  }

  /**
   * The bits are the distinct powers of two 2^0 .. 2^5, so testing a bit of
   * the word reads back exactly its own switch, and different switch
   * settings give different words.
   */
  lemma FlagBitsIndependent(f: MaterialFlags, g: MaterialFlags)
    ensures HasFlag(Word(f), AlbedoBit) <==> f.albedo
    ensures HasFlag(Word(f), NormalBit) <==> f.normal
    ensures HasFlag(Word(f), MetallicRoughnessBit) <==> f.metallicRoughness
    ensures HasFlag(Word(f), EmissiveBit) <==> f.emissive
    ensures HasFlag(Word(f), TransmissionBit) <==> f.transmission
    ensures HasFlag(Word(f), OcclusionBit) <==> f.occlusion
    ensures Word(f) == Word(g) ==> f == g
  {
    LowBitsReadBack(f);
    HighBitsReadBack(f);
    LowBitsReadBack(g);
    HighBitsReadBack(g);
  }

  lemma LowBitsReadBack(f: MaterialFlags)
    ensures HasFlag(Word(f), AlbedoBit) <==> f.albedo
    ensures HasFlag(Word(f), NormalBit) <==> f.normal
    ensures HasFlag(Word(f), MetallicRoughnessBit) <==> f.metallicRoughness
  {
  }

  lemma HighBitsReadBack(f: MaterialFlags)
    ensures HasFlag(Word(f), EmissiveBit) <==> f.emissive
    ensures HasFlag(Word(f), TransmissionBit) <==> f.transmission
    ensures HasFlag(Word(f), OcclusionBit) <==> f.occlusion
  {
  }

  // ---------------------------------------------------------------------------
  // Program parameters and their order
  // ---------------------------------------------------------------------------

  datatype Parameters = Parameters(materialFlags: nat, morphTargetCount: nat, coverageKernelDim: nat)

  /** The order programs are cached under: flags, then morph-target count, then kernel size. */
  predicate Less(a: Parameters, b: Parameters)
  {
    || a.materialFlags < b.materialFlags
    || (a.materialFlags == b.materialFlags && a.morphTargetCount < b.morphTargetCount)
    || (a.materialFlags == b.materialFlags && a.morphTargetCount == b.morphTargetCount &&
        a.coverageKernelDim < b.coverageKernelDim)
  }

  /**
   * A strict total order: irreflexive, transitive, and two parameter sets
   * are incomparable exactly when all fields agree, so the cache keeps one
   * program per distinct parameter set.
   */
  lemma LessIsStrictTotalOrder(a: Parameters, b: Parameters, c: Parameters)
    ensures !Less(a, a)
    ensures Less(a, b) && Less(b, c) ==> Less(a, c)
    ensures Less(a, b) ==> !Less(b, a)
    ensures !Less(a, b) && !Less(b, a) <==> a == b
  {
  }

  // ---------------------------------------------------------------------------
  // Vertex inputs
  // ---------------------------------------------------------------------------

  datatype Attribute =
    | Position | Uv | Normal | Tangent | BoneIds | Weights
    | PositionDiff(target: nat) | NormalDiff(target: nat) | TangentDiff(target: nat)

  /** One `layout (location = n) in vecK name;` declaration. */
  datatype Input = Input(location: nat, attribute: Attribute, components: nat)

  /** The three difference inputs of every morph target, target i at start + 3i, +1, +2. */
  function MorphTargetInputs(start: nat, count: nat): (ins: seq<Input>)
    ensures |ins| == 3 * count
  {
    if count == 0 then []
    else
      var i := count - 1;
      MorphTargetInputs(start, i) +
      [Input(start + 3 * i, PositionDiff(i), 3), Input(start + 3 * i + 1, NormalDiff(i), 3),
       Input(start + 3 * i + 2, TangentDiff(i), 3)]
  }

  /**
   * The morph-target inputs occupy the contiguous locations start .. start+3n-1
   * in order, entry k belonging to target k / 3, position, normal and
   * tangent difference by k % 3.
   */
  lemma {:induction false} MorphTargetLayout(start: nat, count: nat)
    ensures forall k :: 0 <= k < 3 * count ==>
              MorphTargetInputs(start, count)[k].location == start + k &&
              MorphTargetInputs(start, count)[k].components == 3 &&
              MorphTargetInputs(start, count)[k].attribute ==
                (if k % 3 == 0 then PositionDiff(k / 3) else if k % 3 == 1 then NormalDiff(k / 3) else TangentDiff(k / 3))
  {
    if count > 0 {
      var i := count - 1;
      MorphTargetLayout(start, i);
      var ins := MorphTargetInputs(start, count);
      var prev := MorphTargetInputs(start, i);
      forall k | 0 <= k < |ins|
        ensures ins[k].location == start + k && ins[k].components == 3 &&
                ins[k].attribute == (if k % 3 == 0 then PositionDiff(k / 3)
                                     else if k % 3 == 1 then NormalDiff(k / 3) else TangentDiff(k / 3))
      {
        var tail := [Input(start + 3 * i, PositionDiff(i), 3), Input(start + 3 * i + 1, NormalDiff(i), 3),
                     Input(start + 3 * i + 2, TangentDiff(i), 3)];
        assert ins == prev + tail;
        if k < 3 * i {
          assert ins[k] == prev[k];
        } else {
          assert ins[k] == tail[k - 3 * i];
          assert k == 3 * i || k == 3 * i + 1 || k == 3 * i + 2;
          assert k / 3 == i;
        }
      }
    }
  }

  /** Locations of the base vertex inputs, then the first morph-target location. */
  function BaseInputs(skinned: bool): seq<Input>
  {
    [Input(0, Position, 3), Input(1, Uv, 2), Input(2, Normal, 3), Input(3, Tangent, 4)] +
    (if skinned then [Input(4, BoneIds, 4), Input(5, Weights, 4)] else [])
  }

  function MorphTargetStart(skinned: bool): nat
  {
    if skinned then 6 else 4
  }

  /** The inputs the static (start 4) or skinned (start 6) vertex shader declares. */
  function VertexInputs(skinned: bool, morphTargetCount: nat): (ins: seq<Input>)
  {
    BaseInputs(skinned) + MorphTargetInputs(MorphTargetStart(skinned), morphTargetCount)
  }

  /** Every vertex shader declares locations 0, 1, 2, ... in order, so no two inputs share one. */
  lemma VertexInputsContiguous(skinned: bool, morphTargetCount: nat)
    ensures var ins := VertexInputs(skinned, morphTargetCount);
            |ins| == |BaseInputs(skinned)| + 3 * morphTargetCount &&
            forall k :: 0 <= k < |ins| ==> ins[k].location == k
  {
    var start := MorphTargetStart(skinned);
    MorphTargetLayout(start, morphTargetCount);
    var base := BaseInputs(skinned);
    var morph := MorphTargetInputs(start, morphTargetCount);
    assert |base| == start;
    var ins := VertexInputs(skinned, morphTargetCount);
    forall k | 0 <= k < |ins| ensures ins[k].location == k {
      if k < |base| {
        assert ins[k] == base[k];
        assert base[0].location == 0 && base[1].location == 1 && base[2].location == 2 && base[3].location == 3;
        assert skinned ==> base[4].location == 4 && base[5].location == 5;
        assert k == 0 || k == 1 || k == 2 || k == 3 || k == 4 || k == 5;
      } else {
        assert ins[k] == morph[k - |base|];
        assert morph[k - |base|].location == start + (k - |base|);
      }
    }
  }

  // ---------------------------------------------------------------------------
  // Coverage kernel
  // ---------------------------------------------------------------------------

  /** The cells (x, y) switched on one after another for a kernel of the given dimension. */
  function CoverageOrder(dim: nat): seq<(nat, nat)>
  {
    if dim == 2 then [(0, 0), (1, 1), (0, 1), (1, 0)]
    else if dim == 4 then
      [(1, 1), (2, 2), (0, 3), (3, 0), (0, 1), (3, 2), (2, 3), (1, 0),
       (1, 2), (2, 1), (1, 3), (3, 1), (3, 3), (0, 0), (0, 2), (2, 0)]
    else []
  }

  /** Row-major index of the k-th switched cell. */
  function CellIndex(dim: nat, k: nat): nat
    requires k < |CoverageOrder(dim)|
  {
    CoverageOrder(dim)[k].0 + CoverageOrder(dim)[k].1 * dim
  }

  predicate SupportedDim(dim: nat)
  {
    dim == 2 || dim == 4
  }

  /** Every cell of the tile is switched on exactly once. */
  lemma CoverageOrderIsPermutation(dim: nat)
    requires SupportedDim(dim)
    ensures |CoverageOrder(dim)| == dim * dim
    ensures forall k :: 0 <= k < dim * dim ==> CellIndex(dim, k) < dim * dim
    ensures forall a, b :: 0 <= a < b < dim * dim ==> CellIndex(dim, a) != CellIndex(dim, b)
  {
  }

  /** Tile `level`: the first `level` cells of the order switched on. */
  function Tile(dim: nat, level: nat): (t: seq<bool>)
    requires SupportedDim(dim) && level <= dim * dim
    ensures |t| == dim * dim
  {
    CoverageOrderIsPermutation(dim);
    if level == 0 then seq(dim * dim, _ => false)
    else Tile(dim, level - 1)[CellIndex(dim, level - 1) := true]
  }

  /** Tiles laid out one after another. */
  function Flatten(ts: seq<seq<bool>>): seq<bool>
  {
    if ts == [] then [] else Flatten(ts[..|ts| - 1]) + ts[|ts| - 1]
  }

  /** Tiles 0 .. levels-1. */
  function TileList(dim: nat, levels: nat): (ts: seq<seq<bool>>)
    requires SupportedDim(dim) && levels <= dim * dim + 1
    ensures |ts| == levels
    ensures forall l :: 0 <= l < levels ==> ts[l] == Tile(dim, l)
  {
    seq(levels, l requires 0 <= l < levels => Tile(dim, l))
  }

  /** The kernel array baked into the shader; dimensions other than 2 and 4 throw. */
  function CoverageKernel(dim: nat): (r: Result<seq<bool>>)
    ensures r.Ok? <==> SupportedDim(dim)
    ensures r.Ok? ==> |r.value| == (dim * dim + 1) * (dim * dim)
  {
    if SupportedDim(dim) then
      var ts := TileList(dim, dim * dim + 1);
      FlattenLength(ts, dim * dim);
      Ok(Flatten(ts))
    else Fail("unsupported coverage kernel dimension")
  }

  lemma {:induction false} FlattenLength(ts: seq<seq<bool>>, t: nat)
    requires forall l :: 0 <= l < |ts| ==> |ts[l]| == t
    ensures |Flatten(ts)| == |ts| * t
  {
    if ts != [] {
      var n := |ts| - 1;
      FlattenLength(ts[..n], t);
      assert Flatten(ts) == Flatten(ts[..n]) + ts[n];
      assert |ts[n]| == t;
      assert |ts| * t == n * t + t;
    }
  }

  lemma {:induction false} FlattenLookup(ts: seq<seq<bool>>, t: nat, level: nat, c: nat)
    requires forall l :: 0 <= l < |ts| ==> |ts[l]| == t
    requires level < |ts| && c < t
    ensures c + level * t < |Flatten(ts)|
    ensures Flatten(ts)[c + level * t] == ts[level][c]
  {
    var n := |ts| - 1;
    var prefix := ts[..n];
    FlattenLength(ts, t);
    FlattenLength(prefix, t);
    IndexInPrefix(level, |ts|, c, t);
    if level < n {
      FlattenLookup(prefix, t, level, c);
      assert ts[level] == prefix[level];
    } else {
      assert c + level * t == |Flatten(prefix)| + c;
    }
  }

  lemma IndexInPrefix(level: nat, levels: nat, c: nat, t: nat)
    requires level < levels && c < t
    ensures c + level * t < levels * t
  {
    assert (level + 1) * t <= levels * t;
  }

  /** Number of covered cells. */
  function Covered(t: seq<bool>): nat
  {
    if t == [] then 0 else Covered(t[..|t| - 1]) + (if t[|t| - 1] then 1 else 0)
  }

  lemma {:induction false} CoveredSetOne(t: seq<bool>, i: nat)
    requires i < |t| && !t[i]
    ensures Covered(t[i := true]) == Covered(t) + 1
  {
    var n := |t| - 1;
    if i < n {
      CoveredSetOne(t[..n], i);
      assert t[i := true][..n] == t[..n][i := true];
    } else {
      assert t[i := true][..n] == t[..n];
    }
  }

  lemma {:induction false} NothingCovered(n: nat)
    ensures Covered(seq(n, _ => false)) == 0
  {
    if n > 0 {
      NothingCovered(n - 1);
      assert seq(n, _ => false)[..n - 1] == seq(n - 1, _ => false);
    }
  }

  lemma {:induction false} TileCells(dim: nat, level: nat)
    requires SupportedDim(dim) && level <= dim * dim
    ensures forall c :: 0 <= c < dim * dim ==>
              (Tile(dim, level)[c] <==> exists k :: 0 <= k < level && CellIndex(dim, k) == c)
  {
    CoverageOrderIsPermutation(dim);
    if level > 0 {
      TileCells(dim, level - 1);
    }
  }

  /**
   * Tile 0 covers nothing, tile k covers exactly k cells, each tile covers
   * every cell the previous one did, and the last tile covers everything.
   */
  lemma TilesNested(dim: nat, level: nat)
    requires SupportedDim(dim) && level <= dim * dim
    ensures Covered(Tile(dim, level)) == level
    ensures level > 0 ==> forall c :: 0 <= c < dim * dim && Tile(dim, level - 1)[c] ==> Tile(dim, level)[c]
    ensures level == dim * dim ==> forall c :: 0 <= c < dim * dim ==> Tile(dim, level)[c]
  {
    TileCount(dim, level);
    if level == dim * dim {
      FullTile(dim);
    }
  }

  lemma {:induction false} TileCount(dim: nat, level: nat)
    requires SupportedDim(dim) && level <= dim * dim
    ensures Covered(Tile(dim, level)) == level
  {
    CoverageOrderIsPermutation(dim);
    if level == 0 {
      NothingCovered(dim * dim);
    } else {
      TileCount(dim, level - 1);
      TileCells(dim, level - 1);
      var c := CellIndex(dim, level - 1);
      assert !Tile(dim, level - 1)[c];
      CoveredSetOne(Tile(dim, level - 1), c);
    }
  }

  lemma FullTile(dim: nat)
    requires SupportedDim(dim)
    ensures forall c :: 0 <= c < dim * dim ==> Tile(dim, dim * dim)[c]
  {
    TileCells(dim, dim * dim);
    forall c | 0 <= c < dim * dim ensures Tile(dim, dim * dim)[c] {
      AllCellsListed(dim, c);
    }
  }

  lemma AllCellsListed(dim: nat, c: nat)
    requires SupportedDim(dim) && c < dim * dim
    ensures exists k :: 0 <= k < dim * dim && CellIndex(dim, k) == c
  {
    if dim == 2 {
      var inv := [0, 3, 2, 1];
      assert CellIndex(dim, inv[c]) == c;
    } else {
      var inv := [13, 7, 15, 3, 4, 0, 9, 11, 14, 8, 1, 5, 2, 10, 6, 12];
      assert CellIndex(dim, inv[c]) == c;
    }
  }

  /** Entry `c` of tile `level`, in a kernel of tiles of `t` cells each, is cell `c` of `tile`. */
  predicate ReadsTile(kernel: seq<bool>, t: nat, level: nat, c: nat, tile: seq<bool>)
  {
    c < |tile| && c + level * t < |kernel| && kernel[c + level * t] == tile[c]
  }

  /** The shader's lookup of cell c at a coverage level reads that level's tile. */
  lemma KernelLookup(dim: nat, level: nat, c: nat)
    requires SupportedDim(dim) && level <= dim * dim && c < dim * dim
    ensures CoverageKernel(dim).Ok? && ReadsTile(CoverageKernel(dim).value, dim * dim, level, c, Tile(dim, level))
  {
    var t := dim * dim;
    var ts := TileList(dim, t + 1);
    assert CoverageKernel(dim) == Ok(Flatten(ts));
    FlattenLookup(ts, t, level, c);
    assert ts[level] == Tile(dim, level);
  }

  // ---------------------------------------------------------------------------
  // Uniforms and texture samples
  // ---------------------------------------------------------------------------

  /** Uniforms declared before the optional morph weights. */
  function LeadingUniforms(): seq<(string, nat)>
  {
    [("MVP", 1), ("MV", 1), ("VP", 1), ("P", 1), ("V", 1), ("M", 1), ("M_InverseTranspose", 1),
     ("MV_InverseTranspose", 1)]
  }

  /** Material uniforms declared after them. */
  function MaterialUniforms(): seq<(string, nat)>
  {
    [("albedoColor", 1), ("albedoTexture", 1), ("metallicFactor", 1), ("roughnessFactor", 1),
     ("metallicRoughnessTexture", 1), ("normalScale", 1), ("normalTexture", 1), ("emissiveFactor", 1),
     ("emissiveTexture", 1), ("emissiveStrength", 1), ("transmissionFactor", 1), ("transmissionTexture", 1)]
  }

  /** The uniforms (name, array length) both vertex and fragment shaders declare. */
  function Uniforms(p: Parameters): seq<(string, nat)>
  {
    LeadingUniforms() +
    (if p.morphTargetCount > 0 then [("morphTargetWeights", p.morphTargetCount)] else []) +
    MaterialUniforms()
  }

  /** The morph weight array is declared, with one entry per target, exactly when there are targets. */
  lemma MorphWeightsDeclared(p: Parameters)
    ensures (exists k :: 0 <= k < |Uniforms(p)| && Uniforms(p)[k].0 == "morphTargetWeights") <==>
            p.morphTargetCount > 0
    ensures forall k :: 0 <= k < |Uniforms(p)| && Uniforms(p)[k].0 == "morphTargetWeights" ==>
              Uniforms(p)[k].1 == p.morphTargetCount
  {
    var us := Uniforms(p);
    var lead := LeadingUniforms();
    var mid := if p.morphTargetCount > 0 then [("morphTargetWeights", p.morphTargetCount)] else [];
    var tail := MaterialUniforms();
    assert forall k :: 0 <= k < |lead| ==> lead[k].0 != "morphTargetWeights";
    assert forall k :: 0 <= k < |tail| ==> tail[k].0 != "morphTargetWeights";
    if p.morphTargetCount > 0 {
      assert us[|lead|].0 == "morphTargetWeights";
    }
    forall k | 0 <= k < |us|
      ensures us[k].0 == "morphTargetWeights" ==> p.morphTargetCount > 0 && us[k].1 == p.morphTargetCount
    {
      if k < |lead| {
        assert us[k] == lead[k];
      } else if k < |lead| + |mid| {
        assert us[k] == mid[k - |lead|];
      } else {
        assert us[k] == tail[k - |lead| - |mid|];
      }
    }
  }

  datatype Sampler = AlbedoSample | MetallicRoughnessSample | TransmissionSample | NormalSample | EmissiveSample

  function SamplerBit(s: Sampler): (bit: nat)
    ensures bit > 0
  {
    match s
    case AlbedoSample => AlbedoBit
    case MetallicRoughnessSample => MetallicRoughnessBit
    case TransmissionSample => TransmissionBit
    case NormalSample => NormalBit
    case EmissiveSample => EmissiveBit
  }

  /** `ss` followed by the read `s` when `b` holds. */
  function AppendIf(ss: seq<Sampler>, b: bool, s: Sampler): (r: seq<Sampler>)
    requires s !in ss
    ensures forall x :: x in r <==> x in ss || (b && x == s)
    ensures Distinct(ss) ==> Distinct(r)
  {
    if b then ss + [s] else ss
  }

  /** The texture reads the fragment shader performs, in the order its main function performs them. */
  function FragmentSamples(flags: nat): (ss: seq<Sampler>)
    ensures forall s :: s in ss <==> HasFlag(flags, SamplerBit(s))
    ensures Distinct(ss)
  {
    var albedo := AppendIf([], HasFlag(flags, AlbedoBit), AlbedoSample);
    var metallic := AppendIf(albedo, HasFlag(flags, MetallicRoughnessBit), MetallicRoughnessSample);
    var transmission := AppendIf(metallic, HasFlag(flags, TransmissionBit), TransmissionSample);
    var normal := AppendIf(transmission, HasFlag(flags, NormalBit), NormalSample);
    AppendIf(normal, HasFlag(flags, EmissiveBit), EmissiveSample)
  }

  /** The occlusion bit changes nothing the fragment shader does. */
  lemma OcclusionBitIgnored(f: MaterialFlags)
    ensures FragmentSamples(Word(f.(occlusion := true))) == FragmentSamples(Word(f.(occlusion := false)))
  {
    FlagBitsIndependent(f.(occlusion := true), f);
    FlagBitsIndependent(f.(occlusion := false), f);
  }

  // ---------------------------------------------------------------------------
  // Uploads
  // ---------------------------------------------------------------------------

  /** The weights uploaded for a draw: the given ones when the count matches, otherwise zeros. */
  function MorphWeightsUpload(p: Parameters, weights: seq<real>): (up: seq<real>)
    ensures |up| == p.morphTargetCount
    ensures |weights| == p.morphTargetCount ==> up == weights
    ensures |weights| != p.morphTargetCount ==> forall k :: 0 <= k < |up| ==> up[k] == 0.0
  {
    if |weights| == p.morphTargetCount then weights else seq(p.morphTargetCount, _ => 0.0)
  }

  /** Bone matrices a skinned program declares room for. */
  const MaxBones: nat := 50

  datatype BoneUpload = BoneUpload(count: nat, transforms: seq<seq<real>>)

  /** The bone uniforms set before a skinned draw; callers must stay within the declared array. */
  function SetBones(bones: seq<seq<real>>): (u: BoneUpload)
    requires |bones| <= MaxBones
    ensures u.count == |u.transforms| <= MaxBones
    ensures u.transforms == bones
  {
    BoneUpload(|bones|, bones)
  }
}

=== FILE: mesh_tools.dfy ===
/**
 * Strided, element-wise operations on vertex-attribute buffers: adding or
 * subtracting two buffers into a third, and creating a buffer shaped like
 * another (copied, zeroed or left as fresh storage).
 *
 * Memory is modelled at the granularity of one float component: a buffer's
 * data is a sequence of reals and its stride counts components. Element j
 * of a buffer with `n` components per element is the n components starting
 * at j * stride.
 */
module MeshTools {
  datatype Op = Add | Sub
  datatype Init = Zero | Copy | NoInit

  datatype VecBuffer = VecBuffer(data: seq<real>, count: nat, stride: nat, componentSize: int, componentType: int)

  /** Vector types the operations are instantiated for: 2, 3 or 4 components. */
  predicate SupportedWidth(n: nat)
  {
    n == 2 || n == 3 || n == 4
  }

  function Offset(stride: nat, j: nat): nat
  {
    j * stride
  }

  /** Every element of the buffer lies inside its data. */
  predicate Readable(b: VecBuffer, n: nat)
  {
    forall j :: 0 <= j < b.count ==> Offset(b.stride, j) + n <= |b.data|
  }

  function Element(b: VecBuffer, j: nat, n: nat): (e: seq<real>)
    requires Readable(b, n) && j < b.count
    ensures |e| == n
  {
    b.data[Offset(b.stride, j)..Offset(b.stride, j) + n]
  }

  /** Component-wise sum or difference. */
  function Combine(op: Op, x: seq<real>, y: seq<real>): (r: seq<real>)
    requires |x| == |y|
    ensures |r| == |x|
    ensures forall c :: 0 <= c < |x| ==> r[c] == (if op == Add then x[c] + y[c] else x[c] - y[c])
  {
    seq(|x|, c requires 0 <= c < |x| => if op == Add then x[c] + y[c] else x[c] - y[c])
  }

  /** Subtracting what was added restores the original vector. */
  lemma SubUndoesAdd(x: seq<real>, y: seq<real>)
    requires |x| == |y|
    ensures Combine(Sub, Combine(Add, x, y), y) == x
  {
  }

  /** Position `i` lies in the span of one of the first `k` elements. */
  predicate InSpan(stride: nat, n: nat, k: nat, i: int)
  {
    exists j :: 0 <= j < k && Offset(stride, j) <= i < Offset(stride, j) + n
  }

  /** Writing `v` at `at`: those components change and nothing else does. */
  function Write(data: seq<real>, at: nat, v: seq<real>): (r: seq<real>)
    requires at + |v| <= |data|
    ensures |r| == |data|
    ensures r[at..at + |v|] == v
    ensures forall i :: 0 <= i < |data| && !(at <= i < at + |v|) ==> r[i] == data[i]
  {
    data[..at] + v + data[at + |v|..]
  }

  /** With a stride of at least `n`, the spans of distinct elements do not overlap. */
  lemma SpansDisjoint(stride: nat, n: nat, j: nat, k: nat)
    requires n <= stride && j < k
    ensures Offset(stride, j) + n <= Offset(stride, k)
  {
    assert Offset(stride, k) - Offset(stride, j) == (k - j) * stride;
    MulAtLeast(k - j, stride);
  }

  lemma MulAtLeast(a: nat, b: nat)
    requires a >= 1
    ensures a * b >= b
  {
  }

  /**
   * The copy loop shared by both operations: element j of `values` is
   * written at j * stride, in order. Components outside every element's
   * span keep their value, and when elements do not overlap each one
   * holds what was written to it.
   */
  method WriteElements(data: seq<real>, stride: nat, n: nat, values: seq<seq<real>>) returns (r: seq<real>)
    requires forall j :: 0 <= j < |values| ==> |values[j]| == n && Offset(stride, j) + n <= |data|
    ensures |r| == |data|
    ensures forall i :: 0 <= i < |data| && !InSpan(stride, n, |values|, i) ==> r[i] == data[i]
    ensures n <= stride ==> forall j :: 0 <= j < |values| ==> r[Offset(stride, j)..Offset(stride, j) + n] == values[j]
  {
    r := data;
    var k := 0;
    while k < |values|
      invariant 0 <= k <= |values| && |r| == |data|
      invariant forall i :: 0 <= i < |data| && !InSpan(stride, n, k, i) ==> r[i] == data[i]
      invariant n <= stride ==> forall j :: 0 <= j < k ==> r[Offset(stride, j)..Offset(stride, j) + n] == values[j]
    {
      var before := r;
      r := Write(r, Offset(stride, k), values[k]);
      forall i | 0 <= i < |data| && !InSpan(stride, n, k + 1, i)
        ensures r[i] == data[i]
      {
        assert !(Offset(stride, k) <= i < Offset(stride, k) + n);
        assert !InSpan(stride, n, k, i);
      }
      if n <= stride {
        forall j | 0 <= j < k + 1
          ensures r[Offset(stride, j)..Offset(stride, j) + n] == values[j]
        {
          if j < k {
            SpansDisjoint(stride, n, j, k);
            assert before[Offset(stride, j)..Offset(stride, j) + n] == values[j];
            forall c | 0 <= c < n
              ensures r[Offset(stride, j) + c] == values[j][c]
            {
              assert before[Offset(stride, j) + c] == values[j][c];
            }
          }
        }
      }
      k := k + 1;
    }
  }

  /**
   * out[j] := b1[j] + b2[j] (or -) for every element, component-wise with
   * `n` components. Both inputs and the output must agree on count and
   * component size; strides may differ.
   */
  method BufferOperation(b1: VecBuffer, b2: VecBuffer, op: Op, out: VecBuffer, n: nat) returns (r: VecBuffer)
    requires SupportedWidth(n)
    requires b1.count == b2.count && b1.componentSize == b2.componentSize
    requires b1.count == out.count && b1.componentSize == out.componentSize
    requires Readable(b1, n) && Readable(b2, n) && Readable(out, n)
    ensures r == out.(data := r.data) && |r.data| == |out.data|
    ensures forall i :: 0 <= i < |out.data| && !InSpan(out.stride, n, out.count, i) ==> r.data[i] == out.data[i]
    ensures n <= out.stride ==>
              (Readable(r, n) &&
               forall j :: 0 <= j < out.count ==> Element(r, j, n) == Combine(op, Element(b1, j, n), Element(b2, j, n)))
  {
    var values := seq(out.count, j requires 0 <= j < out.count => Combine(op, Element(b1, j, n), Element(b2, j, n)));
    var data := WriteElements(out.data, out.stride, n, values);
    r := out.(data := data);
  }

  /** Fresh storage for `count * stride` components, zero-filled as a newly resized byte vector is. */
  function Storage(count: nat, stride: nat): (s: seq<real>)
    ensures |s| == count * stride
    ensures forall i :: 0 <= i < |s| ==> s[i] == 0.0
  {
    seq(count * stride, _ => 0.0)
  }

  /** Fresh storage holds every element of a buffer whose stride covers an element. */
  lemma StorageFits(count: nat, stride: nat, n: nat, j: nat)
    requires n <= stride && j < count
    ensures Offset(stride, j) + n <= count * stride
  {
    SpansDisjoint(stride, n, j, count);
    assert Offset(stride, count) == count * stride;
  }

  /**
   * A buffer shaped like `src` over fresh storage: with Copy each element is
   * src's element, with Zero each element is the zero vector, and with
   * NoInit the storage is left as allocated.
   */
  method BufferInitialization(src: VecBuffer, init: Init, n: nat) returns (r: VecBuffer)
    requires SupportedWidth(n)
    requires init != NoInit && src.count > 0 ==> n <= src.stride
    requires init == Copy ==> Readable(src, n)
    ensures r.count == src.count && r.stride == src.stride && r.componentSize == src.componentSize &&
            r.componentType == src.componentType
    ensures |r.data| == src.count * src.stride
    ensures init == NoInit ==> r.data == Storage(src.count, src.stride)
    ensures init != NoInit ==>
              (Readable(r, n) && forall j :: 0 <= j < r.count ==>
                 Element(r, j, n) == (if init == Copy then Element(src, j, n) else seq(n, _ => 0.0)))
    ensures forall i :: 0 <= i < |r.data| && !InSpan(src.stride, n, src.count, i) ==> r.data[i] == 0.0
  {
    var storage := Storage(src.count, src.stride);
    if init == NoInit {
      r := VecBuffer(storage, src.count, src.stride, src.componentSize, src.componentType);
      return;
    }
    forall j | 0 <= j < src.count
      ensures Offset(src.stride, j) + n <= |storage|
    {
      StorageFits(src.count, src.stride, n, j);
    }
    var values := if init == Copy then seq(src.count, j requires 0 <= j < src.count => Element(src, j, n))
                  else seq(src.count, _ => seq(n, _ => 0.0));
    var data := WriteElements(storage, src.stride, n, values);
    r := VecBuffer(data, src.count, src.stride, src.componentSize, src.componentType);
  }
}

=== FILE: navigation_mesh.dfy ===
/**
 * The navigation mesh's own bookkeeping around the Recast/Detour build:
 * the area-to-flag table applied to the built polygons, the triangle soup
 * gathered from a node tree as build input, resetting it, and the
 * per-polygon geometry extracted from a built tile for drawing.
 *
 * The Recast/Detour build itself is not modelled; a built tile is given
 * as data.
 */
module NavigationMesh {
  import opened Common
  import opened EngineTypes

  // ---------------------------------------------------------------------------
  // Areas and flags
  // ---------------------------------------------------------------------------

  const AreaGround: bv8 := 0
  const AreaWater: bv8 := 1
  const AreaRoad: bv8 := 2
  const AreaDoor: bv8 := 3
  const AreaGrass: bv8 := 4
  const AreaJump: bv8 := 5
  /** The area Recast gives every walkable polygon. */
  const WalkableArea: bv8 := 63

  const FlagWalk: bv16 := 0x01
  const FlagSwim: bv16 := 0x02
  const FlagDoor: bv16 := 0x04
  const FlagJump: bv16 := 0x08
  const FlagDisabled: bv16 := 0x10

  /**
   * One polygon's area and flags after the build: Recast's walkable area
   * becomes ground; ground, grass and road can be walked, water swum,
   * doors walked through; any other area keeps the flags it had.
   */
  function PolyAreaFlags(area: bv8, flags: bv16): (r: (bv8, bv16))
    ensures r.0 == (if area == WalkableArea then AreaGround else area)
    ensures r.0 == AreaGround || r.0 == AreaGrass || r.0 == AreaRoad ==> r.1 == FlagWalk
    ensures r.0 == AreaWater ==> r.1 == FlagSwim
    ensures r.0 == AreaDoor ==> r.1 & FlagWalk != 0 && r.1 & FlagDoor != 0 && r.1 & !(FlagWalk | FlagDoor) == 0
    ensures r.0 !in {AreaGround, AreaGrass, AreaRoad, AreaWater, AreaDoor} ==> r.1 == flags
  {
    var a := if area == WalkableArea then AreaGround else area;
    var f := if a == AreaGround || a == AreaGrass || a == AreaRoad then FlagWalk
             else if a == AreaWater then FlagSwim
             else if a == AreaDoor then FlagWalk | FlagDoor
             else flags;
    (a, f)
  }

  /** The table applied to every polygon of the built mesh, position by position. */
  function PolyFlags(areas: seq<bv8>, flags: seq<bv16>): (r: (seq<bv8>, seq<bv16>))
    requires |areas| == |flags|
    ensures |r.0| == |areas| && |r.1| == |areas|
    ensures forall i :: 0 <= i < |areas| ==> (r.0[i], r.1[i]) == PolyAreaFlags(areas[i], flags[i])
  {
    (seq(|areas|, i requires 0 <= i < |areas| => PolyAreaFlags(areas[i], flags[i]).0),
     seq(|areas|, i requires 0 <= i < |areas| => PolyAreaFlags(areas[i], flags[i]).1))
  }

  /** Applying the table to its own output changes nothing: no result is the walkable area, and flags follow areas. */
  lemma PolyFlagsIdempotent(areas: seq<bv8>, flags: seq<bv16>)
    requires |areas| == |flags|
    ensures PolyFlags(PolyFlags(areas, flags).0, PolyFlags(areas, flags).1) == PolyFlags(areas, flags)
  {
    var (a, f) := PolyFlags(areas, flags);
    var (a2, f2) := PolyFlags(a, f);
    forall i | 0 <= i < |areas|
      ensures a2[i] == a[i] && f2[i] == f[i]
    {
      assert (a2[i], f2[i]) == PolyAreaFlags(a[i], f[i]);
    }
    assert a2 == a && f2 == f;
  }

  // ---------------------------------------------------------------------------
  // Build input: triangles gathered from a node tree
  // ---------------------------------------------------------------------------

  datatype Row = Row(a: real, b: real, c: real, d: real)

  /**
   * The first three rows of a 4x4 transform. Local node transforms are
   * affine (their last row is 0 0 0 1), so these rows are all that a
   * point's image and a product's first three rows depend on.
   */
  datatype Affine = Affine(r0: Row, r1: Row, r2: Row)

  function Dot(r: Row, v: Vec3): real
  {
    r.a * v.x + r.b * v.y + r.c * v.z + r.d
  }

  /** The image of a point: the first three components of m times (v, 1). */
  function Apply(m: Affine, v: Vec3): Vec3
  {
    Vec3(Dot(m.r0, v), Dot(m.r1, v), Dot(m.r2, v))
  }

  function RowTimes(r: Row, l: Affine): Row
  {
    Row(r.a * l.r0.a + r.b * l.r1.a + r.c * l.r2.a,
        r.a * l.r0.b + r.b * l.r1.b + r.c * l.r2.b,
        r.a * l.r0.c + r.b * l.r1.c + r.c * l.r2.c,
        r.a * l.r0.d + r.b * l.r1.d + r.c * l.r2.d + r.d)
  }

  /** The product m * l for an affine l. */
  function Compose(m: Affine, l: Affine): Affine
  {
    Affine(RowTimes(m.r0, l), RowTimes(m.r1, l), RowTimes(m.r2, l))
  }

  function Add(u: Vec3, v: Vec3): Vec3
  {
    Vec3(u.x + v.x, u.y + v.y, u.z + v.z)
  }

  /** A triangle as the mesh stores it: a corner and the two edges leaving it. */
  datatype Triangle = Triangle(v0: Vec3, e1: Vec3, e2: Vec3)

  datatype MeshData = MeshData(skinned: bool, triangles: seq<Triangle>)

  datatype GeomNode = GeomNode(mesh: Option<MeshData>, local: Affine, children: seq<GeomNode>)

  /** The build input: vertex coordinates, three floats per vertex; triangle corner indices; their bounds. */
  datatype Geometry = Geometry(vertices: seq<real>, triangles: seq<int>, bounds: Bounds3)

  /** What deinitialize leaves: no vertices, no triangles, the empty box. */
  const EmptyGeometry: Geometry := Geometry([], [], EmptyBounds3)

  /** Every triangle's three corners in world space, in order. */
  function Corners(world: Affine, tris: seq<Triangle>): (ps: seq<Vec3>)
    ensures |ps| == 3 * |tris|
    ensures forall i :: 0 <= i < |tris| ==>
              ps[3 * i] == Apply(world, tris[i].v0) &&
              ps[3 * i + 1] == Apply(world, Add(tris[i].v0, tris[i].e1)) &&
              ps[3 * i + 2] == Apply(world, Add(tris[i].v0, tris[i].e2))
  {
    if tris == [] then []
    else
      var n := |tris| - 1;
      var t := tris[n];
      Corners(world, tris[..n]) + [Apply(world, t.v0), Apply(world, Add(t.v0, t.e1)), Apply(world, Add(t.v0, t.e2))]
  }

  /** Points flattened to their coordinates, three floats each. */
  function Floats(ps: seq<Vec3>): (fs: seq<real>)
    ensures |fs| == 3 * |ps|
    ensures forall j :: 0 <= j < |ps| ==> fs[3 * j] == ps[j].x && fs[3 * j + 1] == ps[j].y && fs[3 * j + 2] == ps[j].z
  {
    seq(3 * |ps|, k requires 0 <= k < 3 * |ps| =>
      if k % 3 == 0 then ps[k / 3].x else if k % 3 == 1 then ps[k / 3].y else ps[k / 3].z)
  }

  /**
   * One node's own mesh added under its world transform. Skinned meshes
   * are skipped. Each triangle adds its three corners and three indices
   * counting on from the current index list, and every corner grows the
   * bounds.
   */
  function AddMesh(g: Geometry, world: Affine, mesh: Option<MeshData>): (r: Geometry)
    ensures mesh.None? || mesh.value.skinned ==> r == g
    ensures mesh.Some? && !mesh.value.skinned ==>
              var ps := Corners(world, mesh.value.triangles);
              && r.vertices == g.vertices + Floats(ps)
              && |r.triangles| == |g.triangles| + |ps| && r.triangles[..|g.triangles|] == g.triangles
              && (forall m :: |g.triangles| <= m < |r.triangles| ==> r.triangles[m] == m)
              && r.bounds == UpdateAll3(g.bounds, ps)
  {
    if mesh.None? || mesh.value.skinned then g
    else
      var ps := Corners(world, mesh.value.triangles);
      var offset := |g.triangles|;
      Geometry(g.vertices + Floats(ps),
               g.triangles + seq(|ps|, k requires 0 <= k < |ps| => offset + k),
               UpdateAll3(g.bounds, ps))
  }

  /** A node's mesh, then each child in order under the node's world transform times the child's local one. */
  function AddNodeGeometry(g: Geometry, world: Affine, n: GeomNode): Geometry
    decreases n, |n.children| + 1
  {
    AddChildren(AddMesh(g, world, n.mesh), world, n, 0)
  }

  function AddChildren(g: Geometry, world: Affine, n: GeomNode, i: nat): Geometry
    requires i <= |n.children|
    decreases n, |n.children| - i
  {
    if i == |n.children| then g
    else
      var c := n.children[i];
      AddChildren(AddNodeGeometry(g, Compose(world, c.local), c), world, n, i + 1)
  }

  /** Vertices and indices agree: three floats per index, and index k is k. */
  predicate WellFormed(g: Geometry)
  {
    |g.vertices| == 3 * |g.triangles| && forall k :: 0 <= k < |g.triangles| ==> g.triangles[k] == k
  }

  /** Adding one mesh keeps the index list 0, 1, ..., n - 1 over n vertices, and keeps everything enclosed. */
  lemma AddMeshKeeps(g: Geometry, world: Affine, mesh: Option<MeshData>, q: Vec3)
    requires WellFormed(g)
    ensures WellFormed(AddMesh(g, world, mesh))
    ensures Contains3(g.bounds, q) ==> Contains3(AddMesh(g, world, mesh).bounds, q)
  {
    if mesh.Some? && !mesh.value.skinned && Contains3(g.bounds, q) {
      UpdateAllEncloses(g.bounds, Corners(world, mesh.value.triangles), q);
    }
  }

  /** Every corner a mesh adds lies inside the bounds afterwards. */
  lemma AddMeshEncloses(g: Geometry, world: Affine, mesh: MeshData, k: nat)
    requires !mesh.skinned && k < 3 * |mesh.triangles|
    ensures Contains3(AddMesh(g, world, Some(mesh)).bounds, Corners(world, mesh.triangles)[k])
  {
    var ps := Corners(world, mesh.triangles);
    UpdateAllEncloses(g.bounds, ps, ps[k]);
  }

  /**
   * Gathering a whole node tree keeps the geometry well formed (so from
   * the empty geometry the indices are 0, 1, ..., n - 1 over 3n floats),
   * and the bounds only grow.
   */
  lemma {:induction false} AddNodeGeometryKeeps(g: Geometry, world: Affine, n: GeomNode, q: Vec3)
    requires WellFormed(g)
    ensures WellFormed(AddNodeGeometry(g, world, n))
    ensures Contains3(g.bounds, q) ==> Contains3(AddNodeGeometry(g, world, n).bounds, q)
    decreases n, |n.children| + 1
  {
    AddMeshKeeps(g, world, n.mesh, q);
    AddChildrenKeeps(AddMesh(g, world, n.mesh), world, n, 0, q);
  }

  lemma {:induction false} AddChildrenKeeps(g: Geometry, world: Affine, n: GeomNode, i: nat, q: Vec3)
    requires WellFormed(g) && i <= |n.children|
    ensures WellFormed(AddChildren(g, world, n, i))
    ensures Contains3(g.bounds, q) ==> Contains3(AddChildren(g, world, n, i).bounds, q)
    decreases n, |n.children| - i
  {
    if i < |n.children| {
      var c := n.children[i];
      AddNodeGeometryKeeps(g, Compose(world, c.local), c, q);
      AddChildrenKeeps(AddNodeGeometry(g, Compose(world, c.local), c), world, n, i + 1, q);
    }
  }

  /** The Recast and Detour objects the mesh owns; `None` is a null pointer. */
  datatype Handles = Handles(query: Option<nat>, solid: Option<nat>, chf: Option<nat>, cset: Option<nat>,
                             mesh: Option<nat>, dmesh: Option<nat>, navMesh: Option<nat>)

  /** Every object freed and nulled, both lists cleared and the bounds reset to the empty box. */
  function Deinitialize(h: Handles, g: Geometry): (r: (Handles, Geometry))
    ensures r.0.query.None? && r.0.solid.None? && r.0.chf.None? && r.0.cset.None?
    ensures r.0.mesh.None? && r.0.dmesh.None? && r.0.navMesh.None?
    ensures r.1.vertices == [] && r.1.triangles == [] && r.1.bounds == EmptyBounds3
  {
    (Handles(None, None, None, None, None, None, None), EmptyGeometry)
  }

  /** After deinitialize the geometry is well formed and its box encloses no point, and a second call changes nothing. */
  lemma DeinitializeResets(h: Handles, g: Geometry, q: Vec3)
    ensures WellFormed(Deinitialize(h, g).1)
    ensures !Contains3(Deinitialize(h, g).1.bounds, q)
    ensures Deinitialize(Deinitialize(h, g).0, Deinitialize(h, g).1) == Deinitialize(h, g)
  {
  }

  // ---------------------------------------------------------------------------
  // Drawing geometry of one polygon of a built tile
  // ---------------------------------------------------------------------------

  /** A polygon: its vertex indices into the tile's vertices, how many it uses, and whether it is an off-mesh link. */
  datatype Poly = Poly(offMesh: bool, verts: seq<nat>, vertCount: nat)

  /** A polygon's detail mesh: where its extra vertices and its triangles start, and how many triangles. */
  datatype PolyDetail = PolyDetail(vertBase: nat, triBase: nat, triCount: nat)

  /**
   * A built tile: polygons with their detail meshes, vertex coordinates
   * (three floats each), detail vertex coordinates, and detail triangles
   * (four bytes each: three corners and edge flags).
   */
  datatype Tile = Tile(polys: seq<Poly>, detailMeshes: seq<PolyDetail>, verts: seq<real>, detailVerts: seq<real>,
                       detailTris: seq<nat>)

  function VertexAt(coords: seq<real>, i: nat): Vec3
    requires 3 * i + 3 <= |coords|
  {
    Vec3(coords[3 * i], coords[3 * i + 1], coords[3 * i + 2])
  }

  /**
   * A corner index below the polygon's vertex count picks one of the
   * polygon's vertices; a larger one picks detail vertex
   * vertBase + t - vertCount.
   */
  predicate CornerInRange(tile: Tile, p: Poly, pd: PolyDetail, t: nat)
  {
    if t < p.vertCount then t < |p.verts| && 3 * p.verts[t] + 3 <= |tile.verts|
    else 3 * (pd.vertBase + t - p.vertCount) + 3 <= |tile.detailVerts|
  }

  function Corner(tile: Tile, p: Poly, pd: PolyDetail, t: nat): (v: Vec3)
    requires CornerInRange(tile, p, pd, t)
    ensures t < p.vertCount ==> v == VertexAt(tile.verts, p.verts[t])
    ensures t >= p.vertCount ==> v == VertexAt(tile.detailVerts, pd.vertBase + t - p.vertCount)
  {
    if t < p.vertCount then VertexAt(tile.verts, p.verts[t])
    else VertexAt(tile.detailVerts, pd.vertBase + t - p.vertCount)
  }

  /** The corner index of corner k of detail triangle j. */
  function CornerIndex(tile: Tile, pd: PolyDetail, j: nat, k: nat): nat
    requires k < 3 && 4 * (pd.triBase + j) + 3 < |tile.detailTris|
  {
    tile.detailTris[4 * (pd.triBase + j) + k]
  }

  /** Everything the extraction reads about polygon `i` lies inside the tile (Detour builds tiles so). */
  predicate PolyReadable(tile: Tile, i: nat)
  {
    && i < |tile.polys| && i < |tile.detailMeshes|
    && var p := tile.polys[i];
       var pd := tile.detailMeshes[i];
       && 4 * (pd.triBase + pd.triCount) <= |tile.detailTris|
       && forall j, k :: 0 <= j < pd.triCount && 0 <= k < 3 ==>
            CornerInRange(tile, p, pd, CornerIndex(tile, pd, j, k))
  }

  /** The corners of polygon `i`'s detail triangles, three per triangle, in order. */
  function PolyVertices(tile: Tile, i: nat): (vs: seq<Vec3>)
    requires PolyReadable(tile, i)
    ensures |vs| == 3 * tile.detailMeshes[i].triCount
    ensures forall j, k :: 0 <= j < tile.detailMeshes[i].triCount && 0 <= k < 3 ==>
              vs[3 * j + k] == Corner(tile, tile.polys[i], tile.detailMeshes[i],
                                      CornerIndex(tile, tile.detailMeshes[i], j, k))
  {
    var p := tile.polys[i];
    var pd := tile.detailMeshes[i];
    var vs := seq(3 * pd.triCount, m requires 0 <= m < 3 * pd.triCount =>
                DivMod3(m, pd.triCount);
                Corner(tile, p, pd, CornerIndex(tile, pd, m / 3, m % 3)));
    forall j, k | 0 <= j < pd.triCount && 0 <= k < 3
      ensures vs[3 * j + k] == Corner(tile, p, pd, CornerIndex(tile, pd, j, k))
    {
      DivMod3(3 * j + k, pd.triCount);
      assert (3 * j + k) / 3 == j && (3 * j + k) % 3 == k;
    }
    vs
  }

  lemma DivMod3(m: nat, n: nat)
    requires m < 3 * n
    ensures m / 3 < n && m % 3 < 3 && m == 3 * (m / 3) + m % 3
  {
  }

  /** What one polygon is drawn from: 16-bit indices, positions, uvs, normals, tangents and bounds. */
  datatype PolyGeometry = PolyGeometry(indices: seq<UShort>, vertices: seq<Vec3>, uvs: seq<Vec2>, normals: seq<Vec3>,
                                       tangents: seq<Vec3>, bounds: Bounds3)

  /** An unsigned 16-bit value. */
  type UShort = x: int | 0 <= x < 0x1_0000

  /** The 16-bit counter after `k` increments from 0: it wraps at 65536. */
  function Counter(k: nat): (c: UShort)
    ensures k < 0x1_0000 ==> c == k
    ensures c <= k
  {
    k % 0x1_0000
  }

  /** Per-vertex attributes shared by both versions: uv (x, z), normal +y, tangent +x, and the bounds of all vertices. */
  function Attributes(vs: seq<Vec3>, indices: seq<UShort>): (r: PolyGeometry)
    ensures r.indices == indices && r.vertices == vs
    ensures |r.uvs| == |vs| && |r.normals| == |vs| && |r.tangents| == |vs|
    ensures forall k :: 0 <= k < |vs| ==>
              r.uvs[k] == Vec2(vs[k].x, vs[k].z) && r.normals[k] == Vec3(0.0, 1.0, 0.0) &&
              r.tangents[k] == Vec3(1.0, 0.0, 0.0)
    ensures r.bounds == UpdateAll3(EmptyBounds3, vs)
  {
    PolyGeometry(indices, vs,
                 seq(|vs|, k requires 0 <= k < |vs| => Vec2(vs[k].x, vs[k].z)),
                 seq(|vs|, _ => Vec3(0.0, 1.0, 0.0)),
                 seq(|vs|, _ => Vec3(1.0, 0.0, 0.0)),
                 UpdateAll3(EmptyBounds3, vs))
  }

  /** Nothing to draw: every list empty and the empty box. */
  const NoGeometry: PolyGeometry := PolyGeometry([], [], [], [], [], EmptyBounds3)

  /**
   * Polygon `i`'s drawing geometry as written: an off-mesh link yields
   * nothing; otherwise every emitted vertex pushes three consecutive
   * values of the 16-bit index counter.
   */
  function GetTileGeometryAsWritten(tile: Tile, i: nat): (r: PolyGeometry)
    requires PolyReadable(tile, i)
    ensures tile.polys[i].offMesh ==> r == NoGeometry
    ensures !tile.polys[i].offMesh ==>
              r.vertices == PolyVertices(tile, i) && |r.indices| == 3 * |r.vertices|
  {
    if tile.polys[i].offMesh then NoGeometry
    else
      var vs := PolyVertices(tile, i);
      Attributes(vs, seq(3 * |vs|, k requires 0 <= k => Counter(k)))
  }

  /**
   * Polygon `i`'s drawing geometry as evidently intended: one index per
   * emitted vertex, so each detail triangle is drawn from its own three
   * vertices.
   */
  function GetTileGeometry(tile: Tile, i: nat): (r: PolyGeometry)
    requires PolyReadable(tile, i)
    ensures tile.polys[i].offMesh ==> r == NoGeometry
    ensures !tile.polys[i].offMesh ==> r.vertices == PolyVertices(tile, i) && |r.indices| == |r.vertices|
    ensures forall k :: 0 <= k < |r.indices| ==> r.indices[k] < |r.vertices|
  {
    if tile.polys[i].offMesh then NoGeometry
    else
      var vs := PolyVertices(tile, i);
      Attributes(vs, seq(|vs|, k requires 0 <= k => Counter(k)))
  }

  /**
   * With fewer than 65536 vertices, each index of the corrected geometry
   * names its own vertex, so detail triangle j is drawn from vertices
   * 3j, 3j + 1 and 3j + 2 — its own three corners.
   */
  lemma GetTileGeometryDrawsDetailTriangles(tile: Tile, i: nat, j: nat, k: nat)
    requires PolyReadable(tile, i) && !tile.polys[i].offMesh
    requires 3 * tile.detailMeshes[i].triCount < 0x1_0000
    requires j < tile.detailMeshes[i].triCount && k < 3
    ensures var r := GetTileGeometry(tile, i);
            r.vertices[r.indices[3 * j + k]] ==
              Corner(tile, tile.polys[i], tile.detailMeshes[i], CornerIndex(tile, tile.detailMeshes[i], j, k))
  {
    var r := GetTileGeometry(tile, i);
    assert r.indices[3 * j + k] == 3 * j + k;
  }

  /**
   * As written, any polygon with a detail triangle (and fewer than 65536
   * emitted vertices) gets an index past its last vertex: the index right
   * after the vertex count names no vertex.
   */
  lemma TileIndicesOverrunVertices(tile: Tile, i: nat)
    requires PolyReadable(tile, i) && !tile.polys[i].offMesh
    requires 0 < tile.detailMeshes[i].triCount && 3 * tile.detailMeshes[i].triCount < 0x1_0000
    ensures var r := GetTileGeometryAsWritten(tile, i);
            |r.vertices| < |r.indices| && r.indices[|r.vertices|] == |r.vertices|
  {
    var r := GetTileGeometryAsWritten(tile, i);
    var n := |r.vertices|;
    assert r.indices[n] == Counter(n);
  }
}

=== FILE: pathtracer.dfy ===
/**
 * The path-tracing engine's bookkeeping around the interactive Cycles
 * session: a nesting counter that keeps the session suspended while the
 * scene is being changed, a queue of offline render jobs run one at a
 * time in submission order, and the node and mesh records it creates.
 *
 * The Cycles calls themselves are not modelled; a session records the
 * sequence of suspend (true) and resume (false) requests it received.
 */
module Pathtracer {
  import opened Common
  import opened EngineTypes
  import SceneGraph
  import RasterizerMesh

  // ---------------------------------------------------------------------------
  // Nested updates
  // ---------------------------------------------------------------------------

  datatype Session = Session(counter: int, suspended: bool, requests: seq<bool>)

  const Idle: Session := Session(0, false, [])

  /** Entering an update suspends the session only when no update is in progress. */
  function BeginUpdate(s: Session): (r: Session)
    ensures r.counter == s.counter + 1
    ensures s.counter == 0 ==> r.suspended && r.requests == s.requests + [true]
    ensures s.counter != 0 ==> r.suspended == s.suspended && r.requests == s.requests
  {
    if s.counter == 0 then Session(1, true, s.requests + [true])
    else s.(counter := s.counter + 1)
  }

  /**
   * Leaving an update resumes the session only when the last update ends.
   * The counter must not go below zero, so an update must be in progress.
   */
  function EndUpdate(s: Session): (r: Session)
    requires s.counter >= 1
    ensures r.counter == s.counter - 1 && r.counter >= 0
    ensures s.counter == 1 ==> !r.suspended && r.requests == s.requests + [false]
    ensures s.counter != 1 ==> r.suspended == s.suspended && r.requests == s.requests
  {
    var c := s.counter - 1;
    if c == 0 then Session(0, false, s.requests + [false])
    else s.(counter := c)
  }

  /** The session is suspended exactly while some update is in progress. */
  predicate Balanced(s: Session)
  {
    s.counter >= 0 && (s.suspended <==> s.counter > 0)
  }

  lemma IdleIsBalanced()
    ensures Balanced(Idle) && Idle.requests == []
  {
  }

  /** Both halves of an update keep the session suspended exactly while the counter is positive. */
  lemma UpdatesKeepBalance(s: Session)
    requires Balanced(s)
    ensures Balanced(BeginUpdate(s))
    ensures s.counter >= 1 ==> Balanced(EndUpdate(s))
  {
  }

  /** `depth` guards nested inside one another, each released in reverse order. */
  function Nested(s: Session, depth: nat): (r: Session)
    requires s.counter >= 0
    ensures r.counter == s.counter
    decreases depth
  {
    if depth == 0 then s else EndUpdate(Nested(BeginUpdate(s), depth - 1))
  }

  /**
   * However deeply guards nest, the counter and the suspension state are
   * restored afterwards, and only the outermost guard of an idle session
   * asks for a suspend and a resume; inner guards ask for nothing.
   */
  lemma {:induction false} NestedRestores(s: Session, depth: nat)
    requires Balanced(s)
    decreases depth
    ensures Nested(s, depth).counter == s.counter && Nested(s, depth).suspended == s.suspended
    ensures Nested(s, depth).requests == s.requests + (if depth > 0 && s.counter == 0 then [true, false] else [])
  {
    if depth > 0 {
      var b := BeginUpdate(s);
      UpdatesKeepBalance(s);
      NestedRestores(b, depth - 1);
      assert Nested(b, depth - 1).requests == b.requests;
    }
  }

  /** One guarded call: an update entered and left around work that does not touch the counter. */
  function Guarded(s: Session): (r: Session)
    requires s.counter >= 0
    ensures Balanced(s) ==> r.counter == s.counter && r.suspended == s.suspended
    ensures Balanced(s) ==> r.requests == s.requests + (if s.counter == 0 then [true, false] else [])
  {
    EndUpdate(BeginUpdate(s))
  }

  // ---------------------------------------------------------------------------
  // Offline render jobs
  // ---------------------------------------------------------------------------

  type JobId = nat

  datatype Jobs = Jobs(queue: seq<JobId>, running: bool)

  /** Submitting a job appends it at the back. */
  function RenderOffline(j: Jobs, job: JobId): (r: Jobs)
    ensures r.queue == j.queue + [job] && r.running == j.running
  {
    j.(queue := j.queue + [job])
  }

  /**
   * A frame starts the job at the front when one is waiting and none is
   * running, and reports which job it started.
   */
  function Update(j: Jobs): (r: (Jobs, Option<JobId>))
    ensures j.running || j.queue == [] ==> r == (j, None)
    ensures !j.running && j.queue != [] ==>
              r.1 == Some(j.queue[0]) && r.0.running && [j.queue[0]] + r.0.queue == j.queue
  {
    if |j.queue| > 0 && !j.running then (Jobs(j.queue[1..], true), Some(j.queue[0]))
    else (j, None)
  }

  /** The worker thread marks the engine idle when its job is done. */
  function Finish(j: Jobs): (r: Jobs)
    ensures r.queue == j.queue && !r.running
  {
    j.(running := false)
  }

  /** The jobs an idle engine starts, frame after frame, letting each finish before the next frame. */
  function Drain(q: seq<JobId>): seq<JobId>
    decreases |q|
  {
    match Update(Jobs(q, false))
    case (j, Some(job)) => [job] + Drain(Finish(j).queue)
    case (_, None) => []
  }

  /** Jobs start in exactly the order they were submitted. */
  lemma {:induction false} JobsRunInSubmissionOrder(q: seq<JobId>)
    ensures Drain(q) == q
  {
    if q != [] {
      JobsRunInSubmissionOrder(q[1..]);
    }
  }

  /** While a job runs, frames start nothing, whatever is submitted meanwhile. */
  lemma OneJobAtATime(j: Jobs, submitted: seq<JobId>)
    requires j.running
    ensures Update(j.(queue := j.queue + submitted)).1.None?
  {
  }

  // ---------------------------------------------------------------------------
  // Nodes and meshes
  // ---------------------------------------------------------------------------

  /**
   * A new node appended to its container's list. The path tracer does not
   * support skinning: whatever skin is passed, the node has none.
   */
  function CreateNode(g: SceneGraph.Graph, name: string, belongsTo: SceneGraph.Container, p: Vec3, s: Vec3, r: Quat,
                      mesh: Option<nat>, skin: Option<nat>): (res: (SceneGraph.Graph, nat))
    requires SceneGraph.ContainerExists(g, belongsTo)
    ensures SceneGraph.Appended(g, res.0, res.1, belongsTo)
    ensures res.0.nodes[res.1] == SceneGraph.Node(name, belongsTo, [], p, s, r, mesh, None)
  {
    SceneGraph.CreateNode(g, name, belongsTo, p, s, r, mesh, None)
  }

  /** The skin argument makes no difference, and creating a node keeps the graph consistent. */
  lemma CreateNodeIgnoresSkin(g: SceneGraph.Graph, name: string, belongsTo: SceneGraph.Container, p: Vec3, s: Vec3,
                              r: Quat, mesh: Option<nat>, skin1: Option<nat>, skin2: Option<nat>)
    requires SceneGraph.ContainerExists(g, belongsTo) && SceneGraph.Consistent(g)
    ensures CreateNode(g, name, belongsTo, p, s, r, mesh, skin1) == CreateNode(g, name, belongsTo, p, s, r, mesh, skin2)
    ensures SceneGraph.Consistent(CreateNode(g, name, belongsTo, p, s, r, mesh, skin1).0)
  {
    SceneGraph.CreateNodeKeepsConsistent(g, name, belongsTo, p, s, r, mesh, None);
  }

  /** The buffers of one submesh as handed to Cycles, with its material. */
  datatype Primitive = Primitive(material: nat, position: Buffer, normal: Buffer, uv: Buffer, tangent: Buffer,
                                 index: Buffer)

  datatype PathtracerMesh = PathtracerMesh(name: string, materials: seq<nat>, submeshBounds: seq<Bounds3>,
                                           skinned: bool, morphTargetCount: nat, primitives: seq<Primitive>)

  /**
   * Skinning is not supported: no joint or weight buffers may be given.
   * Every material's submesh reads the buffers at its index, so each
   * buffer list covers every material.
   */
  predicate CreateMeshInputsValid(materials: seq<nat>, src: RasterizerMesh.Sources)
  {
    && |src.joints| == 0 && |src.weights| == 0
    && |materials| <= |src.positions| && |materials| <= |src.normals| && |materials| <= |src.tangents|
    && |materials| <= |src.uvs| && |materials| <= |src.indices|
  }

  /**
   * A new mesh: one primitive per material, made of the buffers at the
   * material's index, never skinned and without morph targets.
   */
  function CreateMesh(name: string, materials: seq<nat>, src: RasterizerMesh.Sources, submeshBounds: seq<Bounds3>)
    : (m: PathtracerMesh)
    requires CreateMeshInputsValid(materials, src)
    ensures m.name == name && m.materials == materials && m.submeshBounds == submeshBounds
    ensures !m.skinned && m.morphTargetCount == 0
    ensures |m.primitives| == |materials|
    ensures forall i :: 0 <= i < |materials| ==>
              m.primitives[i] == Primitive(materials[i], src.positions[i], src.normals[i], src.uvs[i], src.tangents[i],
                                           src.indices[i])
  {
    var primitives := seq(|materials|, i requires 0 <= i < |materials| =>
                            Primitive(materials[i], src.positions[i], src.normals[i], src.uvs[i], src.tangents[i],
                                      src.indices[i]));
    PathtracerMesh(name, materials, submeshBounds, false, 0, primitives)
  }

  /** Morph targets and buffers past the last material are not looked at. */
  lemma CreateMeshIgnoresMorphTargets(name: string, materials: seq<nat>, src: RasterizerMesh.Sources,
                                      morphTargets: seq<RasterizerMesh.MorphBuffers<Buffer>>, more: seq<Buffer>,
                                      submeshBounds: seq<Bounds3>)
    requires CreateMeshInputsValid(materials, src)
    ensures var other := src.(positions := src.positions + more, morphTargets := morphTargets);
            && CreateMeshInputsValid(materials, other)
            && CreateMesh(name, materials, src, submeshBounds) == CreateMesh(name, materials, other, submeshBounds)
  {
    var other := src.(positions := src.positions + more, morphTargets := morphTargets);
    assert forall i :: 0 <= i < |materials| ==> other.positions[i] == src.positions[i];
    assert CreateMesh(name, materials, src, submeshBounds).primitives
        == CreateMesh(name, materials, other, submeshBounds).primitives;
  }
}

=== FILE: rasterizer_engine.dfy ===
/**
 * The rasterizer engine's bookkeeping around drawing: which shader program
 * a material and mesh select and how programs are cached, the off-screen
 * buffer sizes for a super-sampling factor, the render-job queue, and the
 * skin and mesh records it creates.
 */
module RasterizerEngine {
  import opened Common
  import opened EngineTypes
  import MeshShader
  import RasterizerMesh

  // ---------------------------------------------------------------------------
  // Program selection
  // ---------------------------------------------------------------------------

  /** The textures of a material that program selection looks at. */
  datatype MaterialTextures = MaterialTextures(albedo: Texture, metallicRoughness: Texture, normal: Texture,
                                               emissive: Texture, occlusion: Texture, transmission: Texture)

  /**
   * The parameters a program is built for: one flag bit per valid albedo,
   * metallic-roughness, normal and emissive texture (the occlusion switch
   * is commented out and transmission is never switched on), the mesh's
   * morph-target count and the current super-sampling factor as kernel size.
   */
  function ProgramParameters(m: MaterialTextures, morphTargetCount: nat, ssUpscaleFactor: nat): (p: MeshShader.Parameters)
    ensures p.morphTargetCount == morphTargetCount && p.coverageKernelDim == ssUpscaleFactor
    ensures MeshShader.HasFlag(p.materialFlags, MeshShader.AlbedoBit) <==> IsValid(m.albedo)
    ensures MeshShader.HasFlag(p.materialFlags, MeshShader.MetallicRoughnessBit) <==> IsValid(m.metallicRoughness)
    ensures MeshShader.HasFlag(p.materialFlags, MeshShader.NormalBit) <==> IsValid(m.normal)
    ensures MeshShader.HasFlag(p.materialFlags, MeshShader.EmissiveBit) <==> IsValid(m.emissive)
    ensures !MeshShader.HasFlag(p.materialFlags, MeshShader.OcclusionBit)
    ensures !MeshShader.HasFlag(p.materialFlags, MeshShader.TransmissionBit)
  {
    var f := MeshShader.MaterialFlags(IsValid(m.albedo), IsValid(m.normal), IsValid(m.metallicRoughness),
                                      IsValid(m.emissive), false, false);
    MeshShader.FlagBitsIndependent(f, f);
    MeshShader.Parameters(MeshShader.Word(f), morphTargetCount, ssUpscaleFactor)
  }

  /** The texture a fragment-shader read uses, if the material selection can switch it on at all. */
  predicate SampleWanted(m: MaterialTextures, s: MeshShader.Sampler)
  {
    match s
    case AlbedoSample => IsValid(m.albedo)
    case MetallicRoughnessSample => IsValid(m.metallicRoughness)
    case NormalSample => IsValid(m.normal)
    case EmissiveSample => IsValid(m.emissive)
    case TransmissionSample => false
  }

  /**
   * The program selected for a material samples exactly the material's
   * valid albedo, metallic-roughness, normal and emissive textures, and
   * never a transmission texture.
   */
  lemma SamplesValidTextures(m: MaterialTextures, morphTargetCount: nat, ssUpscaleFactor: nat, s: MeshShader.Sampler)
    ensures s in MeshShader.FragmentSamples(ProgramParameters(m, morphTargetCount, ssUpscaleFactor).materialFlags)
            <==> SampleWanted(m, s)
  {
  }

  /** A shader program: the parameters it was built for and whether it is the skinned variant. */
  datatype Program = Program(params: MeshShader.Parameters, skinned: bool)

  /** The two program caches, each mapping parameters to a position in the list of programs created so far. */
  datatype Caches = Caches(staticPrograms: map<MeshShader.Parameters, nat>,
                           skinnedPrograms: map<MeshShader.Parameters, nat>,
                           programs: seq<Program>)

  function Cache(c: Caches, skinned: bool): map<MeshShader.Parameters, nat>
  {
    if skinned then c.skinnedPrograms else c.staticPrograms
  }

  /** Every cached program exists and was built for its key, in its cache's variant. */
  predicate CachesValid(c: Caches)
  {
    && (forall p :: p in c.staticPrograms ==>
          c.staticPrograms[p] < |c.programs| && c.programs[c.staticPrograms[p]] == Program(p, false))
    && (forall p :: p in c.skinnedPrograms ==>
          c.skinnedPrograms[p] < |c.programs| && c.programs[c.skinnedPrograms[p]] == Program(p, true))
  }

  /**
   * The program for a material and mesh: the cached one for its parameters
   * in the skinned or static cache, otherwise a newly created program that
   * is then cached under those parameters.
   */
  function GetShaderProgram(c: Caches, m: MaterialTextures, skinned: bool, morphTargetCount: nat,
                            ssUpscaleFactor: nat): (r: (Caches, nat))
    ensures var p := ProgramParameters(m, morphTargetCount, ssUpscaleFactor);
            p in Cache(c, skinned) ==> r == (c, Cache(c, skinned)[p])
    ensures var p := ProgramParameters(m, morphTargetCount, ssUpscaleFactor);
            p !in Cache(c, skinned) ==> r.1 == |c.programs| && r.0.programs == c.programs + [Program(p, skinned)]
    ensures var p := ProgramParameters(m, morphTargetCount, ssUpscaleFactor);
            Cache(r.0, skinned) == Cache(c, skinned)[p := r.1] && Cache(r.0, !skinned) == Cache(c, !skinned)
  {
    var p := ProgramParameters(m, morphTargetCount, ssUpscaleFactor);
    if skinned then
      if p in c.skinnedPrograms then (c, c.skinnedPrograms[p])
      else (c.(skinnedPrograms := c.skinnedPrograms[p := |c.programs|], programs := c.programs + [Program(p, true)]),
            |c.programs|)
    else
      if p in c.staticPrograms then (c, c.staticPrograms[p])
      else (c.(staticPrograms := c.staticPrograms[p := |c.programs|], programs := c.programs + [Program(p, false)]),
            |c.programs|)
  }

  /**
   * One program per key: the program returned was built for exactly the
   * requested parameters and variant, the caches stay valid, and asking
   * again returns the same program and creates nothing.
   */
  lemma OneProgramPerKey(c: Caches, m: MaterialTextures, skinned: bool, morphTargetCount: nat, ssUpscaleFactor: nat)
    requires CachesValid(c)
    ensures var (c1, id) := GetShaderProgram(c, m, skinned, morphTargetCount, ssUpscaleFactor);
            && CachesValid(c1)
            && id < |c1.programs|
            && c1.programs[id] == Program(ProgramParameters(m, morphTargetCount, ssUpscaleFactor), skinned)
            && GetShaderProgram(c1, m, skinned, morphTargetCount, ssUpscaleFactor) == (c1, id)
  {
    var (c1, id) := GetShaderProgram(c, m, skinned, morphTargetCount, ssUpscaleFactor);
    var p := ProgramParameters(m, morphTargetCount, ssUpscaleFactor);
    if p !in Cache(c, skinned) {
      assert c1.programs[id] == Program(p, skinned);
      assert forall i :: 0 <= i < |c.programs| ==> c1.programs[i] == c.programs[i];
    }
  }

  /**
   * Two requests share a program exactly when they have the same parameters
   * and the same variant: different keys never share one, and a repeated
   * key gets the first request's program back without changing the caches.
   */
  lemma DistinctKeysDistinctPrograms(c: Caches, m1: MaterialTextures, m2: MaterialTextures, skinned1: bool,
                                     skinned2: bool, count1: nat, count2: nat, ss1: nat, ss2: nat)
    requires CachesValid(c)
    ensures var (c1, id1) := GetShaderProgram(c, m1, skinned1, count1, ss1);
            var (c2, id2) := GetShaderProgram(c1, m2, skinned2, count2, ss2);
            (ProgramParameters(m1, count1, ss1), skinned1) != (ProgramParameters(m2, count2, ss2), skinned2) ==>
              id1 != id2
    ensures var (c1, id1) := GetShaderProgram(c, m1, skinned1, count1, ss1);
            var (c2, id2) := GetShaderProgram(c1, m2, skinned2, count2, ss2);
            (ProgramParameters(m1, count1, ss1), skinned1) == (ProgramParameters(m2, count2, ss2), skinned2) ==>
              id1 == id2 && c2 == c1
  {
    var (c1, id1) := GetShaderProgram(c, m1, skinned1, count1, ss1);
    OneProgramPerKey(c, m1, skinned1, count1, ss1);
    var (c2, id2) := GetShaderProgram(c1, m2, skinned2, count2, ss2);
    OneProgramPerKey(c1, m2, skinned2, count2, ss2);
    assert |c1.programs| <= |c2.programs|;
    assert id1 < |c1.programs| ==> c2.programs[id1] == c1.programs[id1];
  }

  // ---------------------------------------------------------------------------
  // Per-mesh program caching
  // ---------------------------------------------------------------------------

  /** What drawing a mesh reads and updates: its primitives' materials and the program it cached. */
  datatype MeshDrawState = MeshDrawState(skinned: bool, morphTargetCount: nat, materials: seq<MaterialTextures>,
                                         cachedProgram: Option<nat>)

  /**
   * Draws every primitive of a mesh. The first primitive drawn without a
   * cached program selects one from its own material and caches it on the
   * mesh; every primitive, in this and every later draw, uses the cached
   * program. Returns the program used for each primitive.
   */
  method DrawMesh(c: Caches, mesh: MeshDrawState, ssUpscaleFactor: nat)
    returns (caches: Caches, drawn: MeshDrawState, used: seq<nat>)
    ensures |used| == |mesh.materials|
    ensures drawn == mesh.(cachedProgram := drawn.cachedProgram)
    ensures |mesh.materials| > 0 ==>
              (drawn.cachedProgram.Some? && forall j :: 0 <= j < |used| ==> used[j] == drawn.cachedProgram.value)
    ensures mesh.cachedProgram.Some? || |mesh.materials| == 0 ==> caches == c && drawn == mesh
    ensures mesh.cachedProgram.None? && |mesh.materials| > 0 ==>
              (caches, drawn.cachedProgram.value) ==
              GetShaderProgram(c, mesh.materials[0], mesh.skinned, mesh.morphTargetCount, ssUpscaleFactor)
  {
    caches := c;
    drawn := mesh;
    used := [];
    var j := 0;
    while j < |mesh.materials|
      invariant 0 <= j <= |mesh.materials| && |used| == j
      invariant drawn == mesh.(cachedProgram := drawn.cachedProgram)
      invariant j > 0 ==> drawn.cachedProgram.Some? && forall i :: 0 <= i < j ==> used[i] == drawn.cachedProgram.value
      invariant mesh.cachedProgram.Some? || j == 0 ==> caches == c && drawn == mesh
      invariant mesh.cachedProgram.None? && j > 0 ==>
                  (caches, drawn.cachedProgram.value) ==
                  GetShaderProgram(c, mesh.materials[0], mesh.skinned, mesh.morphTargetCount, ssUpscaleFactor)
    {
      if drawn.cachedProgram.None? {
        var (c1, id) := GetShaderProgram(caches, mesh.materials[j], mesh.skinned, mesh.morphTargetCount, ssUpscaleFactor);
        caches := c1;
        drawn := drawn.(cachedProgram := Some(id));
      }
      used := used + [drawn.cachedProgram.value];
      j := j + 1;
    }
  }

  // ---------------------------------------------------------------------------
  // Super-sampling factors and off-screen buffer sizes
  // ---------------------------------------------------------------------------

  /** The viewport renders at twice its size, render jobs at four times. */
  const ViewportUpscale: nat := 2
  const RenderJobUpscale: nat := 4

  /** Both factors are coverage-kernel sizes the mesh shader accepts. */
  lemma UpscaleFactorsSupported()
    ensures MeshShader.CoverageKernel(ViewportUpscale).Ok? && MeshShader.CoverageKernel(RenderJobUpscale).Ok?
    ensures |MeshShader.CoverageKernel(ViewportUpscale).value| == 20
    ensures |MeshShader.CoverageKernel(RenderJobUpscale).value| == 272
  {
  }

  const UIntModulus: nat := 0x1_0000_0000

  /** Unsigned 32-bit multiplication. */
  function UMul(a: nat, b: nat): (r: nat)
    ensures r < UIntModulus
    ensures a * b < UIntModulus ==> r == a * b
  {
    (a * b) % UIntModulus
  }

  datatype Size = Size(width: nat, height: nat)

  /**
   * The draw buffers: the stored super-sampling factor, the two
   * downscalers' factors fixed when the buffers are created, and the sizes
   * of the G-buffer (shared by the SSAO and PBR targets) and of the three
   * emissive targets.
   */
  datatype DrawBuffers = DrawBuffers(ssUpscaleFactor: nat, emissiveFactor: nat, pbrFactor: nat,
                                     full: Size, emissive: Size)

  /** Target sizes for a viewport of w x h: the super-sampled size, and that divided by the emissive factor. */
  function TargetSizes(width: nat, height: nat, ssUpscaleFactor: nat, emissiveFactor: nat): (r: (Size, Size))
    requires emissiveFactor > 0
  {
    var gw := UMul(width, ssUpscaleFactor);
    var gh := UMul(height, ssUpscaleFactor);
    (Size(gw, gh), Size(gw / emissiveFactor, gh / emissiveFactor))
  }

  /** Creating the buffers: the emissive downscaler's factor is twice the super-sampling factor. */
  function InitializeBuffers(width: nat, height: nat, ssUpscaleFactor: nat): (b: DrawBuffers)
    requires 0 < ssUpscaleFactor && 2 * ssUpscaleFactor < UIntModulus
    ensures b.ssUpscaleFactor == ssUpscaleFactor && b.emissiveFactor == 2 * ssUpscaleFactor &&
            b.pbrFactor == ssUpscaleFactor
    ensures width * ssUpscaleFactor < UIntModulus ==>
              b.full.width == width * ssUpscaleFactor && b.emissive.width == width / 2
    ensures height * ssUpscaleFactor < UIntModulus ==>
              b.full.height == height * ssUpscaleFactor && b.emissive.height == height / 2
  {
    var factor := UMul(ssUpscaleFactor, 2);
    var (full, emissive) := TargetSizes(width, height, ssUpscaleFactor, factor);
    HalfOfScaled(width, ssUpscaleFactor);
    HalfOfScaled(height, ssUpscaleFactor);
    DrawBuffers(ssUpscaleFactor, factor, ssUpscaleFactor, full, emissive)
  }

  /** Resizing keeps the factors chosen at creation and recomputes the sizes with them. */
  function ResizeBuffers(b: DrawBuffers, width: nat, height: nat, ssUpscaleFactor: nat): (r: DrawBuffers)
    requires b.emissiveFactor > 0
    ensures r.ssUpscaleFactor == b.ssUpscaleFactor && r.emissiveFactor == b.emissiveFactor &&
            r.pbrFactor == b.pbrFactor
  {
    var (full, emissive) := TargetSizes(width, height, ssUpscaleFactor, b.emissiveFactor);
    b.(full := full, emissive := emissive)
  }

  /** Resizing with the creation factor gives the buffers a fresh creation at the new size would. */
  lemma ResizeMatchesInitialize(w0: nat, h0: nat, width: nat, height: nat, ssUpscaleFactor: nat)
    requires 0 < ssUpscaleFactor && 2 * ssUpscaleFactor < UIntModulus
    ensures ResizeBuffers(InitializeBuffers(w0, h0, ssUpscaleFactor), width, height, ssUpscaleFactor) ==
            InitializeBuffers(width, height, ssUpscaleFactor)
  {
  }

  /** (w * ss) / (2 * ss) is w / 2: the emissive targets are half the viewport size whatever the factor. */
  lemma HalfOfScaled(w: nat, ss: nat)
    requires ss > 0
    ensures (w * ss) / (ss * 2) == w / 2
  {
    var q := w / 2;
    var r := w % 2;
    var rs := if r == 0 then 0 else ss;
    assert w == 2 * q + r;
    ScaleSplit(q, r, ss);
    assert r * ss == rs;
    DivUnique(w * ss, ss * 2, q, rs);
  }

  lemma ScaleSplit(q: int, r: int, ss: int)
    ensures (2 * q + r) * ss == q * (ss * 2) + r * ss
  {
  }

  lemma DivUnique(n: int, d: int, q: int, r: int)
    requires d > 0 && n == q * d + r && 0 <= r < d
    ensures n / d == q
  {
    var k := n / d;
    var m := n % d;
    assert n == k * d + m;
    assert (k - q) * d == r - m by {
      assert (k - q) * d == k * d - q * d;
    }
    if k > q {
      MulAtLeast(k - q, d);
    } else if k < q {
      MulAtLeast(q - k, d);
    }
  }

  lemma MulAtLeast(a: int, d: int)
    requires a >= 1 && d > 0
    ensures a * d >= d
  {
  }

  // ---------------------------------------------------------------------------
  // Render jobs
  // ---------------------------------------------------------------------------

  /** A queued render job; only its identity matters here. */
  type JobId = nat

  /** Submitting a job appends it at the back. */
  function SubmitJob(jobs: seq<JobId>, job: JobId): (r: seq<JobId>)
    ensures |r| == |jobs| + 1 && r[..|jobs|] == jobs && r[|jobs|] == job
  {
    jobs + [job]
  }

  /** A draw runs at most one job, taken from the back, after the viewport is drawn. */
  function NextJob(jobs: seq<JobId>): (r: Option<(JobId, seq<JobId>)>)
    ensures r.None? <==> jobs == []
    ensures r.Some? ==> r.value.1 + [r.value.0] == jobs
  {
    if jobs == [] then None else Some((jobs[|jobs| - 1], jobs[..|jobs| - 1]))
  }

  /** The queue is a stack: the job submitted last is the one run next, and the rest stay queued. */
  lemma LastSubmittedRunsFirst(jobs: seq<JobId>, job: JobId)
    ensures NextJob(SubmitJob(jobs, job)) == Some((job, jobs))
  {
  }

  // ---------------------------------------------------------------------------
  // Skins and meshes
  // ---------------------------------------------------------------------------

  /** A 4x4 matrix in column order; its entries are not interpreted here. */
  type Matrix = seq<real>

  datatype Skin = Skin(inverseBindMatrices: seq<Matrix>, joints: seq<Option<nat>>, skeleton: Option<nat>)

  /** A new skin: one unbound joint per inverse bind matrix and no skeleton; the scene manager binds them later. */
  function CreateSkin(inverseBindMatrices: seq<Matrix>): (s: Skin)
    ensures s.inverseBindMatrices == inverseBindMatrices && |s.joints| == |inverseBindMatrices|
    ensures forall i :: 0 <= i < |s.joints| ==> s.joints[i].None?
    ensures s.skeleton.None?
  {
    Skin(inverseBindMatrices, seq(|inverseBindMatrices|, _ => None), None)
  }

  /** The morph-target count a mesh takes: the first submesh's number of position differences, or 0. */
  function MorphTargetCount(morphTargets: seq<RasterizerMesh.MorphBuffers<Buffer>>): nat
  {
    if |morphTargets| > 0 then |morphTargets[0].posDiff| else 0
  }

  datatype EngineMesh = EngineMesh(name: string, materials: seq<MaterialTextures>, gpu: RasterizerMesh.Mesh)

  /**
   * A new mesh: skinned exactly when joint buffers are given, with the
   * first submesh's morph-target count, and its buffers uploaded.
   */
  function CreateMesh(name: string, materials: seq<MaterialTextures>, src: RasterizerMesh.Sources, first: nat)
    : (m: EngineMesh)
    requires first > 0
    requires RasterizerMesh.CreateInputsValid(|src.joints| > 0, MorphTargetCount(src.morphTargets), src)
    ensures m.name == name && m.materials == materials
    ensures m.gpu.skinned <==> |src.joints| > 0
    ensures m.gpu.morphTargetCount == MorphTargetCount(src.morphTargets)
    ensures RasterizerMesh.WellShaped(m.gpu) && RasterizerMesh.AllHandlesLive(m.gpu)
  {
    var skinned := |src.joints| > 0;
    var k := MorphTargetCount(src.morphTargets);
    RasterizerMesh.CreateShape(skinned, k, src, first);
    RasterizerMesh.CreateHandlesLive(skinned, k, src, first);
    EngineMesh(name, materials, RasterizerMesh.Create(skinned, k, src, first))
  }
}

=== FILE: rasterizer_mesh.dfy ===
/**
 * The rasterizer's GPU-side mesh: the buffer handles it keeps per submesh,
 * the vertex-attribute layout a draw binds, and buffer release.
 * GL handles come from the driver; here the k-th handle generated is
 * `first + k`, which is all the model needs (handles are non-zero).
 */
module RasterizerMesh {
  import opened Common
  import EngineTypes
  import MeshShader

  // ---------------------------------------------------------------------------
  // Buffers
  // ---------------------------------------------------------------------------

  /** A GL buffer: its handle (0 = none) and the layout copied from the mesh buffer. */
  datatype GlBuffer = GlBuffer(glId: nat, count: nat, stride: int, componentSize: int, componentType: int)

  /** Assigning a mesh buffer copies its layout and drops any handle. */
  function Assign(b: EngineTypes.Buffer): (g: GlBuffer)
    ensures g.glId == 0
    ensures g.count == b.count && g.stride == b.stride && g.componentSize == b.componentSize &&
            g.componentType == b.componentType
  {
    GlBuffer(0, b.count, b.stride, b.componentSize, b.componentType)
  }

  /** Assignment then a fresh handle from the driver. */
  function Upload(b: EngineTypes.Buffer, handle: nat): GlBuffer
  {
    Assign(b).(glId := handle)
  }

  function UploadAll(bs: seq<EngineTypes.Buffer>, first: nat): (gs: seq<GlBuffer>)
    ensures |gs| == |bs|
    ensures forall i :: 0 <= i < |bs| ==> gs[i] == Upload(bs[i], first + i)
    ensures forall i :: 0 <= i < |gs| ==> gs[i].glId == first + i
  {
    seq(|bs|, i requires 0 <= i < |bs| => Upload(bs[i], first + i))
  }

  /** The difference buffers of one submesh's morph targets. */
  datatype MorphBuffers<B> = MorphBuffers(posDiff: seq<B>, norDiff: seq<B>, tanDiff: seq<B>)

  datatype Mesh = Mesh(
    skinned: bool,
    morphTargetCount: nat,
    positions: seq<GlBuffer>,
    uvs: seq<GlBuffer>,
    normals: seq<GlBuffer>,
    tangents: seq<GlBuffer>,
    joints: seq<GlBuffer>,
    weights: seq<GlBuffer>,
    elements: seq<GlBuffer>,
    morphTargets: seq<MorphBuffers<GlBuffer>>)

  /** The mesh buffers `create` is given, one entry per submesh. */
  datatype Sources = Sources(
    positions: seq<EngineTypes.Buffer>,
    uvs: seq<EngineTypes.Buffer>,
    normals: seq<EngineTypes.Buffer>,
    tangents: seq<EngineTypes.Buffer>,
    joints: seq<EngineTypes.Buffer>,
    weights: seq<EngineTypes.Buffer>,
    indices: seq<EngineTypes.Buffer>,
    morphTargets: seq<MorphBuffers<EngineTypes.Buffer>>)

  /** What `create` asserts about its inputs, plus the morph buffers it reads for every target. */
  predicate CreateInputsValid(skinned: bool, morphTargetCount: nat, src: Sources)
  {
    var n := |src.positions|;
    && |src.uvs| == n && |src.normals| == n && |src.tangents| == n && |src.indices| == n
    && (skinned ==> |src.joints| == n && |src.weights| == n)
    && (morphTargetCount > 0 ==> |src.morphTargets| == n)
    && (morphTargetCount > 0 ==> forall i :: 0 <= i < n ==>
          |src.morphTargets[i].posDiff| >= morphTargetCount && |src.morphTargets[i].norDiff| >= morphTargetCount &&
          |src.morphTargets[i].tanDiff| >= morphTargetCount)
  }

  /**
   * The morph-target buffers of one submesh: exactly the first `count` of
   * each kind, generated target by target, position then normal then
   * tangent, so target `j` holds handles `first + 3j`, `first + 3j + 1`
   * and `first + 3j + 2`.
   */
  function UploadMorph(m: MorphBuffers<EngineTypes.Buffer>, count: nat, first: nat): (r: MorphBuffers<GlBuffer>)
    requires |m.posDiff| >= count && |m.norDiff| >= count && |m.tanDiff| >= count
    ensures |r.posDiff| == count && |r.norDiff| == count && |r.tanDiff| == count
    ensures forall j :: 0 <= j < count ==>
              r.posDiff[j] == Upload(m.posDiff[j], first + 3 * j) &&
              r.norDiff[j] == Upload(m.norDiff[j], first + 3 * j + 1) &&
              r.tanDiff[j] == Upload(m.tanDiff[j], first + 3 * j + 2)
  {
    MorphBuffers(seq(count, j requires 0 <= j < count => Upload(m.posDiff[j], first + 3 * j)),
                 seq(count, j requires 0 <= j < count => Upload(m.norDiff[j], first + 3 * j + 1)),
                 seq(count, j requires 0 <= j < count => Upload(m.tanDiff[j], first + 3 * j + 2)))
  }

  /** Every stored buffer has a live handle. */
  predicate AllHandlesLive(m: Mesh)
  {
    StreamHandlesLive(m) && MorphHandlesLive(m.morphTargets)
  }

  predicate StreamHandlesLive(m: Mesh)
  {
    && (forall i :: 0 <= i < |m.positions| ==> m.positions[i].glId != 0)
    && (forall i :: 0 <= i < |m.uvs| ==> m.uvs[i].glId != 0)
    && (forall i :: 0 <= i < |m.normals| ==> m.normals[i].glId != 0)
    && (forall i :: 0 <= i < |m.tangents| ==> m.tangents[i].glId != 0)
    && (forall i :: 0 <= i < |m.joints| ==> m.joints[i].glId != 0)
    && (forall i :: 0 <= i < |m.weights| ==> m.weights[i].glId != 0)
    && (forall i :: 0 <= i < |m.elements| ==> m.elements[i].glId != 0)
  }

  predicate MorphHandlesLive(ms: seq<MorphBuffers<GlBuffer>>)
  {
    && (forall i, j :: 0 <= i < |ms| && 0 <= j < |ms[i].posDiff| ==> ms[i].posDiff[j].glId != 0)
    && (forall i, j :: 0 <= i < |ms| && 0 <= j < |ms[i].norDiff| ==> ms[i].norDiff[j].glId != 0)
    && (forall i, j :: 0 <= i < |ms| && 0 <= j < |ms[i].tanDiff| ==> ms[i].tanDiff[j].glId != 0)
  }

  /** The shape `draw` relies on: one buffer of each kind per submesh and `morphTargetCount` diffs of each kind. */
  predicate WellShaped(m: Mesh)
  {
    var n := |m.positions|;
    && |m.uvs| == n && |m.normals| == n && |m.tangents| == n && |m.elements| == n
    && (m.skinned ==> |m.joints| == n && |m.weights| == n)
    && (!m.skinned ==> m.joints == [] && m.weights == [])
    && |m.morphTargets| == n
    && (forall i :: 0 <= i < n ==>
          |m.morphTargets[i].posDiff| == m.morphTargetCount && |m.morphTargets[i].norDiff| == m.morphTargetCount &&
          |m.morphTargets[i].tanDiff| == m.morphTargetCount)
  }

  /**
   * Uploads every submesh's buffers, kind by kind, joints and weights only
   * for a skinned mesh and exactly `morphTargetCount` difference buffers of
   * each kind per submesh.
   */
  function Create(skinned: bool, morphTargetCount: nat, src: Sources, first: nat): (m: Mesh)
    requires first > 0
    requires CreateInputsValid(skinned, morphTargetCount, src)
    ensures m.skinned == skinned && m.morphTargetCount == morphTargetCount
  {
    var n := |src.positions|;
    var k := morphTargetCount;
    var morphFirst := first + (if skinned then 6 else 4) * n;
    Mesh(skinned, k,
         UploadAll(src.positions, first),
         UploadAll(src.uvs, first + n),
         UploadAll(src.normals, first + 2 * n),
         UploadAll(src.tangents, first + 3 * n),
         if skinned then UploadAll(src.joints, first + 4 * n) else [],
         if skinned then UploadAll(src.weights, first + 5 * n) else [],
         UploadAll(src.indices, morphFirst + 3 * k * n),
         UploadMorphAll(src.morphTargets, k, n, morphFirst))
  }

  /** Morph-target buffers of `n` submeshes, none when there are no targets. */
  function UploadMorphAll(ms: seq<MorphBuffers<EngineTypes.Buffer>>, k: nat, n: nat, first: nat): (r: seq<MorphBuffers<GlBuffer>>)
    requires k > 0 ==> |ms| == n
    requires k > 0 ==> forall i :: 0 <= i < n ==> |ms[i].posDiff| >= k && |ms[i].norDiff| >= k && |ms[i].tanDiff| >= k
    ensures |r| == n
    ensures forall i :: 0 <= i < n ==> |r[i].posDiff| == k && |r[i].norDiff| == k && |r[i].tanDiff| == k
    ensures forall i, j :: 0 <= i < n && 0 <= j < k ==>
              r[i].posDiff[j].glId == first + 3 * k * i + 3 * j &&
              r[i].norDiff[j].glId == first + 3 * k * i + 3 * j + 1 &&
              r[i].tanDiff[j].glId == first + 3 * k * i + 3 * j + 2
  {
    seq(n, i requires 0 <= i < n =>
          if k > 0 then UploadMorph(ms[i], k, first + 3 * k * i) else MorphBuffers([], [], []))
  }

  /** A created mesh has the shape `draw` needs and copies each submesh's layout. */
  lemma CreateShape(skinned: bool, morphTargetCount: nat, src: Sources, first: nat)
    requires first > 0
    requires CreateInputsValid(skinned, morphTargetCount, src)
    ensures var m := Create(skinned, morphTargetCount, src, first);
            WellShaped(m) &&
            (forall i :: 0 <= i < |src.positions| ==>
               m.positions[i].count == src.positions[i].count && m.elements[i].count == src.indices[i].count &&
               m.elements[i].componentType == src.indices[i].componentType)
  {
  }

  /** Every buffer of a created mesh holds a live handle, so the destructor has something to free. */
  lemma CreateHandlesLive(skinned: bool, morphTargetCount: nat, src: Sources, first: nat)
    requires first > 0
    requires CreateInputsValid(skinned, morphTargetCount, src)
    ensures AllHandlesLive(Create(skinned, morphTargetCount, src, first))
  {
    CreateStreamsLive(skinned, morphTargetCount, src, first);
    CreateMorphLive(skinned, morphTargetCount, src, first);
  }

  lemma CreateStreamsLive(skinned: bool, morphTargetCount: nat, src: Sources, first: nat)
    requires first > 0
    requires CreateInputsValid(skinned, morphTargetCount, src)
    ensures StreamHandlesLive(Create(skinned, morphTargetCount, src, first))
  {
  }

  lemma CreateMorphLive(skinned: bool, morphTargetCount: nat, src: Sources, first: nat)
    requires first > 0
    requires CreateInputsValid(skinned, morphTargetCount, src)
    ensures MorphHandlesLive(Create(skinned, morphTargetCount, src, first).morphTargets)
  {
    var n := |src.positions|;
    var k := morphTargetCount;
    var morphFirst := first + (if skinned then 6 else 4) * n;
    var ms := Create(skinned, k, src, first).morphTargets;
    assert ms == UploadMorphAll(src.morphTargets, k, n, morphFirst);
    forall i, j | 0 <= i < n && 0 <= j < k
      ensures ms[i].posDiff[j].glId != 0 && ms[i].norDiff[j].glId != 0 && ms[i].tanDiff[j].glId != 0
    {
      MulNonNegative(3 * k, i);
    }
  }

  lemma MulNonNegative(a: nat, b: nat)
    ensures a * b >= 0
  {
  }

  // ---------------------------------------------------------------------------
  // Draw
  // ---------------------------------------------------------------------------

  /** One enabled vertex attribute: location, component count, source buffer and whether it is read as integers. */
  datatype Binding = Binding(location: nat, components: nat, buffer: GlBuffer, integer: bool)

  datatype DrawCall = DrawCall(count: nat, componentType: int)

  function Bind(location: nat, components: nat, b: GlBuffer): Binding
  {
    Binding(location, components, b, false)
  }

  /**
   * Draws submesh `index`: enables one attribute per vertex stream with a
   * running location counter, issues one indexed draw over the whole index
   * buffer and then disables locations 0 to 3.
   */
  method Draw(m: Mesh, index: nat) returns (bindings: seq<Binding>, call: DrawCall, disabled: seq<nat>)
    requires WellShaped(m) && index < |m.positions|
    ensures |bindings| == |MeshShader.VertexInputs(m.skinned, m.morphTargetCount)|
    ensures forall k :: 0 <= k < |bindings| ==> bindings[k].location == k
    ensures forall k :: 0 <= k < |bindings| ==>
              bindings[k].components == MeshShader.VertexInputs(m.skinned, m.morphTargetCount)[k].components
    ensures bindings[0].buffer == m.positions[index] && bindings[1].buffer == m.uvs[index] &&
            bindings[2].buffer == m.normals[index] && bindings[3].buffer == m.tangents[index]
    ensures m.skinned ==> bindings[4] == Binding(4, 4, m.joints[index], true) &&
                          bindings[5] == Bind(5, 4, m.weights[index])
    ensures forall j :: 0 <= j < m.morphTargetCount ==>
              var base := MeshShader.MorphTargetStart(m.skinned) + 3 * j;
              bindings[base].buffer == m.morphTargets[index].posDiff[j] &&
              bindings[base + 1].buffer == m.morphTargets[index].norDiff[j] &&
              bindings[base + 2].buffer == m.morphTargets[index].tanDiff[j]
    ensures call == DrawCall(m.elements[index].count, m.elements[index].componentType)
    ensures disabled == [0, 1, 2, 3]
  {
    var counter := 0;
    bindings := [Bind(counter, 3, m.positions[index])];
    counter := counter + 1;
    bindings := bindings + [Bind(counter, 2, m.uvs[index])];
    counter := counter + 1;
    bindings := bindings + [Bind(counter, 3, m.normals[index])];
    counter := counter + 1;
    bindings := bindings + [Bind(counter, 4, m.tangents[index])];
    counter := counter + 1;
    if m.skinned {
      bindings := bindings + [Binding(counter, 4, m.joints[index], true)];
      counter := counter + 1;
      bindings := bindings + [Bind(counter, 4, m.weights[index])];
      counter := counter + 1;
    }
    var start := counter;
    assert start == MeshShader.MorphTargetStart(m.skinned);
    var morph := BindMorphTargets(start, m.morphTargets[index], m.morphTargetCount);
    var prefix := bindings;
    bindings := prefix + morph;
    JoinBindings(prefix, morph);
    JoinMorphBuffers(prefix, morph, m.morphTargets[index], m.morphTargetCount);
    call := DrawCall(m.elements[index].count, m.elements[index].componentType);
    disabled := [0, 1, 2, 3];
    DrawMatchesComponents(m.skinned, m.morphTargetCount, bindings);
  }

  /** Bindings at consecutive locations from 0 followed by bindings at consecutive locations after them. */
  lemma JoinBindings(prefix: seq<Binding>, morph: seq<Binding>)
    requires forall k :: 0 <= k < |prefix| ==> prefix[k].location == k
    requires forall k :: 0 <= k < |morph| ==> morph[k].location == |prefix| + k && morph[k].components == 3
    ensures forall k :: 0 <= k < |prefix| ==> (prefix + morph)[k] == prefix[k]
    ensures forall k :: 0 <= k < |prefix + morph| ==> (prefix + morph)[k].location == k
    ensures forall k :: |prefix| <= k < |prefix + morph| ==> (prefix + morph)[k].components == 3
  {
  }

  /** The morph-target buffers keep their places once placed after the other streams. */
  lemma JoinMorphBuffers(prefix: seq<Binding>, morph: seq<Binding>, mb: MorphBuffers<GlBuffer>, count: nat)
    requires |morph| == 3 * count && count <= |mb.posDiff| && count <= |mb.norDiff| && count <= |mb.tanDiff|
    requires forall j :: 0 <= j < count ==>
               morph[3 * j].buffer == mb.posDiff[j] && morph[3 * j + 1].buffer == mb.norDiff[j] &&
               morph[3 * j + 2].buffer == mb.tanDiff[j]
    ensures forall j :: 0 <= j < count ==>
              (prefix + morph)[|prefix| + 3 * j].buffer == mb.posDiff[j] &&
              (prefix + morph)[|prefix| + 3 * j + 1].buffer == mb.norDiff[j] &&
              (prefix + morph)[|prefix| + 3 * j + 2].buffer == mb.tanDiff[j]
  {
    forall j | 0 <= j < count
      ensures (prefix + morph)[|prefix| + 3 * j].buffer == mb.posDiff[j]
      ensures (prefix + morph)[|prefix| + 3 * j + 1].buffer == mb.norDiff[j]
      ensures (prefix + morph)[|prefix| + 3 * j + 2].buffer == mb.tanDiff[j]
    {
      assert (prefix + morph)[|prefix| + 3 * j] == morph[3 * j];
      assert (prefix + morph)[|prefix| + 3 * j + 1] == morph[3 * j + 1];
      assert (prefix + morph)[|prefix| + 3 * j + 2] == morph[3 * j + 2];
    }
  }

  /**
   * The bindings of the morph-target streams: for each target its position,
   * normal and tangent difference buffers, at consecutive locations from
   * `start`, three components each.
   */
  method BindMorphTargets(start: nat, morph: MorphBuffers<GlBuffer>, count: nat) returns (bs: seq<Binding>)
    requires count <= |morph.posDiff| && count <= |morph.norDiff| && count <= |morph.tanDiff|
    ensures |bs| == 3 * count
    ensures forall k :: 0 <= k < |bs| ==> bs[k].location == start + k && bs[k].components == 3
    ensures forall j :: 0 <= j < count ==>
              bs[3 * j].buffer == morph.posDiff[j] && bs[3 * j + 1].buffer == morph.norDiff[j] &&
              bs[3 * j + 2].buffer == morph.tanDiff[j]
  {
    bs := [];
    var counter := start;
    var j := 0;
    while j < count
      invariant 0 <= j <= count
      invariant |bs| == 3 * j && counter == start + |bs|
      invariant forall k :: 0 <= k < |bs| ==> bs[k].location == start + k && bs[k].components == 3
      invariant forall i :: 0 <= i < j ==>
                  bs[3 * i].buffer == morph.posDiff[i] && bs[3 * i + 1].buffer == morph.norDiff[i] &&
                  bs[3 * i + 2].buffer == morph.tanDiff[i]
    {
      bs := bs + [Bind(counter, 3, morph.posDiff[j])];
      counter := counter + 1;
      bs := bs + [Bind(counter, 3, morph.norDiff[j])];
      counter := counter + 1;
      bs := bs + [Bind(counter, 3, morph.tanDiff[j])];
      counter := counter + 1;
      j := j + 1;
    }
  }

  lemma DrawMatchesComponents(skinned: bool, count: nat, bindings: seq<Binding>)
    requires |bindings| == MeshShader.MorphTargetStart(skinned) + 3 * count
    requires forall k :: 0 <= k < 4 ==> bindings[k].components == [3, 2, 3, 4][k]
    requires skinned ==> bindings[4].components == 4 && bindings[5].components == 4
    requires forall k :: MeshShader.MorphTargetStart(skinned) <= k < |bindings| ==> bindings[k].components == 3
    ensures |bindings| == |MeshShader.VertexInputs(skinned, count)|
    ensures forall k :: 0 <= k < |bindings| ==>
              bindings[k].components == MeshShader.VertexInputs(skinned, count)[k].components
  {
    var ins := MeshShader.VertexInputs(skinned, count);
    var base := MeshShader.BaseInputs(skinned);
    var start := MeshShader.MorphTargetStart(skinned);
    MeshShader.MorphTargetLayout(start, count);
    var morph := MeshShader.MorphTargetInputs(start, count);
    assert |base| == start;
    forall k | 0 <= k < |bindings| ensures bindings[k].components == ins[k].components {
      if k < start {
        assert ins[k] == base[k];
        assert k == 0 || k == 1 || k == 2 || k == 3 || k == 4 || k == 5;
      } else {
        assert ins[k] == morph[k - start];
      }
    }
  }

  /**
   * The attributes still enabled after a draw: everything bound at location
   * 4 or above, i.e. the joint, weight and morph-target streams.
   */
  function EnabledAfterDraw(bindings: seq<Binding>, disabled: seq<nat>): (locs: set<nat>)
    ensures forall l :: l in locs <==> (exists k :: 0 <= k < |bindings| && bindings[k].location == l) && l !in disabled
  {
    set k | 0 <= k < |bindings| && bindings[k].location !in disabled :: bindings[k].location
  }

  // ---------------------------------------------------------------------------
  // Release
  // ---------------------------------------------------------------------------

  /** Frees a buffer's handle if it has one and zeroes it; returns the handle freed. */
  function DeleteBuffer(b: GlBuffer): (r: (GlBuffer, Option<nat>))
    ensures r.0.glId == 0 && r.0 == b.(glId := 0)
    ensures r.1.Some? <==> b.glId != 0
    ensures r.1.Some? ==> r.1.value == b.glId
  {
    if b.glId != 0 then (b.(glId := 0), Some(b.glId)) else (b, None)
  }

  /** Deleting twice frees the handle once: the second call changes nothing and frees nothing. */
  lemma DeleteBufferIdempotent(b: GlBuffer)
    ensures DeleteBuffer(DeleteBuffer(b).0) == (DeleteBuffer(b).0, None)
  {
  }

  function Handles(bs: seq<GlBuffer>): set<nat>
  {
    set i | 0 <= i < |bs| && bs[i].glId != 0 :: bs[i].glId
  }

  function MorphHandles(ms: seq<MorphBuffers<GlBuffer>>): set<nat>
  {
    set i, j | 0 <= i < |ms| && 0 <= j < |ms[i].posDiff| + |ms[i].norDiff| + |ms[i].tanDiff| ::
      (ms[i].posDiff + ms[i].norDiff + ms[i].tanDiff)[j].glId
  }

  /** Every handle a mesh holds. */
  function AllHandles(m: Mesh): set<nat>
  {
    Handles(m.positions) + Handles(m.uvs) + Handles(m.normals) + Handles(m.tangents) + Handles(m.joints) +
    Handles(m.weights) + Handles(m.elements) + MorphHandles(m.morphTargets)
  }

  /**
   * The handles the destructor frees as written: the base streams, the
   * index buffers and, for a skinned mesh, joints and weights; the
   * morph-target difference buffers are never deleted.
   */
  function ReleasedAsWritten(m: Mesh): (freed: set<nat>)
    requires WellShaped(m)
    ensures freed <= AllHandles(m)
  {
    Handles(m.positions) + Handles(m.normals) + Handles(m.tangents) + Handles(m.uvs) + Handles(m.elements) +
    (if m.skinned then Handles(m.joints) + Handles(m.weights) else {})
  }

  /** The release the destructor evidently intends: every handle the mesh holds. */
  function Released(m: Mesh): (freed: set<nat>)
    requires WellShaped(m)
    ensures AllHandlesLive(m) ==> freed == AllHandles(m)
  {
    Handles(m.positions) + Handles(m.normals) + Handles(m.tangents) + Handles(m.uvs) + Handles(m.elements) +
    (if m.skinned then Handles(m.joints) + Handles(m.weights) else {}) + MorphHandles(m.morphTargets)
  }

  /** A set of buffers none of which holds handle `h`. */
  lemma NotAmongHandles(bs: seq<GlBuffer>, h: nat)
    requires forall i :: 0 <= i < |bs| ==> bs[i].glId != h
    ensures h !in Handles(bs)
  {
  }

  /**
   * Any created mesh with at least one submesh and one morph target leaks:
   * the first position-difference buffer holds a live handle that the
   * destructor as written never frees, while the corrected release frees
   * every handle the mesh holds.
   */
  lemma MorphBuffersLeak(skinned: bool, morphTargetCount: nat, src: Sources, first: nat)
    requires first > 0
    requires CreateInputsValid(skinned, morphTargetCount, src)
    requires morphTargetCount > 0 && |src.positions| > 0
    ensures var m := Create(skinned, morphTargetCount, src, first);
            ReleasedAsWritten(m) != AllHandles(m) && Released(m) == AllHandles(m)
  {
    var m := Create(skinned, morphTargetCount, src, first);
    var n := |src.positions|;
    var k := morphTargetCount;
    var morphFirst := first + (if skinned then 6 else 4) * n;
    CreateShape(skinned, k, src, first);
    CreateHandlesLive(skinned, k, src, first);
    assert m.morphTargets == UploadMorphAll(src.morphTargets, k, n, morphFirst);
    var h := m.morphTargets[0].posDiff[0].glId;
    assert h == morphFirst;
    assert h in MorphHandles(m.morphTargets) by {
      assert (m.morphTargets[0].posDiff + m.morphTargets[0].norDiff + m.morphTargets[0].tanDiff)[0].glId == h;
    }
    assert 3 * k * n > 0 by { MulPositive(3 * k, n); }
    NotAmongHandles(m.positions, h);
    NotAmongHandles(m.uvs, h);
    NotAmongHandles(m.normals, h);
    NotAmongHandles(m.tangents, h);
    NotAmongHandles(m.joints, h);
    NotAmongHandles(m.weights, h);
    NotAmongHandles(m.elements, h);
    assert h !in ReleasedAsWritten(m);
  }

  lemma MulPositive(a: nat, b: nat)
    requires a > 0 && b > 0
    ensures a * b > 0
  {
  }
}

=== FILE: scene_graph.dfy ===
/**
 * The node/scene containers both engines build: scenes hold root nodes,
 * nodes hold child nodes, and each node records the container it
 * belongs to. Pointers are indices into the scene manager's node and
 * scene lists, which only ever grow.
 */
module SceneGraph {
  import opened Common
  import opened EngineTypes

  /** What a node belongs to: a parent node or a scene. */
  datatype Container = InNode(node: nat) | InScene(scene: nat)

  datatype Node = Node(
    name: string,
    belongsTo: Container,
    children: seq<nat>,
    position: Vec3,
    scale: Vec3,
    rotation: Quat,
    mesh: Option<nat>,
    skin: Option<nat>)

  datatype Scene = Scene(name: string, roots: seq<nat>)

  datatype Graph = Graph(nodes: seq<Node>, scenes: seq<Scene>)

  predicate ContainerExists(g: Graph, c: Container)
  {
    match c
    case InNode(n) => n < |g.nodes|
    case InScene(s) => s < |g.scenes|
  }

  /** The node list of a container: a node's children or a scene's roots. */
  function Members(g: Graph, c: Container): seq<nat>
    requires ContainerExists(g, c)
  {
    match c
    case InNode(n) => g.nodes[n].children
    case InScene(s) => g.scenes[s].roots
  }

  /**
   * Every node's container exists and lists it, and every listed node
   * exists and names that container back.
   */
  predicate Consistent(g: Graph)
  {
    && (forall n :: 0 <= n < |g.nodes| ==> ContainerExists(g, g.nodes[n].belongsTo))
    && (forall n :: 0 <= n < |g.nodes| && ContainerExists(g, g.nodes[n].belongsTo) ==>
          n in Members(g, g.nodes[n].belongsTo))
    && (forall p, k :: 0 <= p < |g.nodes| && 0 <= k < |g.nodes[p].children| ==>
          g.nodes[p].children[k] < |g.nodes| && g.nodes[g.nodes[p].children[k]].belongsTo == InNode(p))
    && (forall s, k :: 0 <= s < |g.scenes| && 0 <= k < |g.scenes[s].roots| ==>
          g.scenes[s].roots[k] < |g.nodes| && g.nodes[g.scenes[s].roots[k]].belongsTo == InScene(s))
  }

  /** A new, empty scene appended to the scene list. */
  function CreateScene(g: Graph, name: string): (r: (Graph, nat))
    ensures r.1 == |g.scenes| && |r.0.scenes| == |g.scenes| + 1
    ensures r.0.scenes[r.1] == Scene(name, [])
    ensures r.0.nodes == g.nodes && r.0.scenes[..r.1] == g.scenes
  {
    (g.(scenes := g.scenes + [Scene(name, [])]), |g.scenes|)
  }

  /**
   * `h` is `g` with node `id` (fresh, childless, in container `c`) appended
   * to the node list and to the end of `c`'s list, and nothing else changed.
   */
  predicate Appended(g: Graph, h: Graph, id: nat, c: Container)
  {
    && ContainerExists(g, c)
    && id == |g.nodes| && |h.nodes| == id + 1 && |h.scenes| == |g.scenes|
    && h.nodes[id].belongsTo == c && h.nodes[id].children == []
    && ContainerExists(h, c) && Members(h, c) == Members(g, c) + [id]
    && (forall n :: 0 <= n < id ==> h.nodes[n].belongsTo == g.nodes[n].belongsTo)
    && (forall n :: 0 <= n < id && InNode(n) != c ==> h.nodes[n].children == g.nodes[n].children)
    && (forall sc :: 0 <= sc < |g.scenes| && InScene(sc) != c ==> h.scenes[sc].roots == g.scenes[sc].roots)
  }

  /**
   * A new node appended to the node list and to the end of its
   * container's list: the children of a parent node or the roots of a
   * scene. The container must exist (the engine dereferences it).
   */
  function CreateNode(g: Graph, name: string, belongsTo: Container, p: Vec3, s: Vec3, r: Quat,
                      mesh: Option<nat>, skin: Option<nat>): (res: (Graph, nat))
    requires ContainerExists(g, belongsTo)
    ensures Appended(g, res.0, res.1, belongsTo)
    ensures res.0.nodes[res.1] == Node(name, belongsTo, [], p, s, r, mesh, skin)
    ensures forall n :: 0 <= n < |g.nodes| ==> res.0.nodes[n].(children := []) == g.nodes[n].(children := [])
  {
    var id := |g.nodes|;
    var created := Node(name, belongsTo, [], p, s, r, mesh, skin);
    match belongsTo
    case InNode(parent) =>
      var nodes := g.nodes[parent := g.nodes[parent].(children := g.nodes[parent].children + [id])];
      (g.(nodes := nodes + [created]), id)
    case InScene(sc) =>
      (Graph(g.nodes + [created], g.scenes[sc := g.scenes[sc].(roots := g.scenes[sc].roots + [id])]), id)
  }

  /** Creating a node keeps the graph consistent: the new node and its container point at each other. */
  lemma CreateNodeKeepsConsistent(g: Graph, name: string, belongsTo: Container, p: Vec3, s: Vec3, r: Quat,
                                  mesh: Option<nat>, skin: Option<nat>)
    requires ContainerExists(g, belongsTo) && Consistent(g)
    ensures Consistent(CreateNode(g, name, belongsTo, p, s, r, mesh, skin).0)
  {
    var (h, id) := CreateNode(g, name, belongsTo, p, s, r, mesh, skin);
    AppendedKeepsConsistent(g, h, id, belongsTo);
  }

  lemma AppendedKeepsConsistent(g: Graph, h: Graph, id: nat, c: Container)
    requires Appended(g, h, id, c) && Consistent(g)
    ensures Consistent(h)
  {
    AppendedNodesListed(g, h, id, c);
    AppendedChildren(g, h, id, c);
    AppendedRoots(g, h, id, c);
  }

  lemma AppendedNodesListed(g: Graph, h: Graph, id: nat, c: Container)
    requires Appended(g, h, id, c) && Consistent(g)
    ensures forall n :: 0 <= n < |h.nodes| ==> ContainerExists(h, h.nodes[n].belongsTo)
    ensures forall n :: 0 <= n < |h.nodes| ==> n in Members(h, h.nodes[n].belongsTo)
  {
    forall n | 0 <= n < |h.nodes|
      ensures ContainerExists(h, h.nodes[n].belongsTo) && n in Members(h, h.nodes[n].belongsTo)
    {
      if n < id {
        var d := g.nodes[n].belongsTo;
        assert ContainerExists(g, d) && n in Members(g, d);
        if d == c {
          assert Members(h, d) == Members(g, d) + [id];
        } else {
          match d
          case InNode(q) => assert h.nodes[q].children == g.nodes[q].children;
          case InScene(sc) => assert h.scenes[sc].roots == g.scenes[sc].roots;
        }
      } else {
        assert Members(h, c)[|Members(g, c)|] == id;
      }
    }
  }

  lemma AppendedChildren(g: Graph, h: Graph, id: nat, c: Container)
    requires Appended(g, h, id, c) && Consistent(g)
    ensures forall q, k :: 0 <= q < |h.nodes| && 0 <= k < |h.nodes[q].children| ==>
              h.nodes[q].children[k] < |h.nodes| && h.nodes[h.nodes[q].children[k]].belongsTo == InNode(q)
  {
    forall q, k | 0 <= q < |h.nodes| && 0 <= k < |h.nodes[q].children|
      ensures h.nodes[q].children[k] < |h.nodes| && h.nodes[h.nodes[q].children[k]].belongsTo == InNode(q)
    {
      if q < id && InNode(q) != c {
        assert h.nodes[q].children == g.nodes[q].children;
      } else if q < id {
        assert h.nodes[q].children == g.nodes[q].children + [id];
      }
    }
  }

  lemma AppendedRoots(g: Graph, h: Graph, id: nat, c: Container)
    requires Appended(g, h, id, c) && Consistent(g)
    ensures forall sc, k :: 0 <= sc < |h.scenes| && 0 <= k < |h.scenes[sc].roots| ==>
              h.scenes[sc].roots[k] < |h.nodes| && h.nodes[h.scenes[sc].roots[k]].belongsTo == InScene(sc)
  {
    forall sc, k | 0 <= sc < |h.scenes| && 0 <= k < |h.scenes[sc].roots|
      ensures h.scenes[sc].roots[k] < |h.nodes| && h.nodes[h.scenes[sc].roots[k]].belongsTo == InScene(sc)
    {
      if InScene(sc) != c {
        assert h.scenes[sc].roots == g.scenes[sc].roots;
      } else {
        assert h.scenes[sc].roots == g.scenes[sc].roots + [id];
      }
    }
  }

  // ---------------------------------------------------------------------------
  // Loading a model file into the scene manager
  // ---------------------------------------------------------------------------

  type FileId = nat

  /**
   * The outcome of `loadModel`: whether it succeeded, the file the model
   * keeps ownership of, and the file handed to the scene manager.
   */
  datatype LoadOutcome = LoadOutcome(ok: bool, loadedFile: Option<FileId>, added: Option<FileId>)

  /**
   * `diskLoad` is what the glTF loader returns for the parameters' path
   * (None for a failed load). A preloaded file is added as is and the
   * model owns nothing; otherwise the freshly loaded file is kept and
   * added, and a failed load returns false without adding anything.
   */
  function LoadModel(preloaded: Option<FileId>, diskLoad: Option<FileId>): (o: LoadOutcome)
    ensures preloaded.Some? ==> o.ok && o.loadedFile.None? && o.added == preloaded
    ensures preloaded.None? ==> (o.ok <==> diskLoad.Some?) && o.loadedFile == diskLoad && o.added == diskLoad
  {
    if preloaded.Some? then LoadOutcome(true, None, preloaded)
    else if diskLoad.None? then LoadOutcome(false, None, None)
    else LoadOutcome(true, diskLoad, diskLoad)
  }

  /** With a preloaded file the disk is never consulted: the outcome does not depend on what it would return. */
  lemma PreloadedIgnoresDisk(f: FileId, a: Option<FileId>, b: Option<FileId>)
    ensures LoadModel(Some(f), a) == LoadModel(Some(f), b)
  {
  }
}

=== FILE: scene_manager.dfy ===
/**
 * Decisions the scene manager takes while turning a glTF document into
 * engine objects: index and joint decoding from raw buffers, one object per
 * (kind, glTF index), per-primitive materials and the skinning flag,
 * keyframe-segment lookup, skin-weight ordering and the common-ancestor
 * search.
 */
module SceneManager {
  import opened Common
  import opened EngineTypes

  // ---------------------------------------------------------------------------
  // Index and joint decoding
  // ---------------------------------------------------------------------------

  const UIntModulus: int := 0x1_0000_0000

  /** Unsigned little-endian value of `bytes`. */
  function LittleEndian(bytes: seq<byte>): (v: nat)
    ensures v < Power256(|bytes|)
  {
    if bytes == [] then 0 else bytes[0] + 256 * LittleEndian(bytes[1..])
  }

  function Power256(k: nat): (p: nat)
    ensures p >= 1
  {
    if k == 0 then 1 else 256 * Power256(k - 1)
  }

  /** Two's-complement value of `bytes`. */
  function Signed(bytes: seq<byte>): int
    requires |bytes| > 0
  {
    var u := LittleEndian(bytes);
    if 2 * u >= Power256(|bytes|) then u - Power256(|bytes|) else u
  }

  lemma PowerValues()
    ensures Power256(1) == 256 && Power256(2) == 65536 && Power256(4) == UIntModulus
  {
  }

  /** Bytes per component of a GL component type accepted by the index decoder, 0 for any other type. */
  function IndexSize(componentType: int): nat
  {
    if componentType == TypeInt || componentType == TypeUnsignedInt then 4
    else if componentType == TypeShort || componentType == TypeUnsignedShort then 2
    else if componentType == TypeByte || componentType == TypeUnsignedByte then 1
    else 0
  }

  predicate IsSignedType(componentType: int)
  {
    componentType == TypeInt || componentType == TypeShort || componentType == TypeByte
  }

  /** The element at index * stride can be read without leaving the buffer. */
  predicate ReadableAt(data: seq<byte>, offset: int, size: nat)
  {
    0 <= offset && offset + size <= |data|
  }

  /**
   * Index `index` of an index buffer, returned as a 32-bit unsigned value:
   * signed types are sign-extended first, unsigned ones zero-extended, and
   * any other component type throws.
   */
  function GetIndex(data: seq<byte>, index: nat, componentType: int, stride: nat): (r: Result<nat>)
    requires IndexSize(componentType) > 0 ==> ReadableAt(data, index * stride, IndexSize(componentType))
    ensures r.Ok? <==> IndexSize(componentType) > 0
    ensures r.Ok? ==> r.value < UIntModulus
    ensures r.Ok? && !IsSignedType(componentType) ==>
              r.value == LittleEndian(data[index * stride..index * stride + IndexSize(componentType)])
  {
    PowerValues();
    var size := IndexSize(componentType);
    if size == 0 then Fail("unsupported index component type")
    else
      var bytes := data[index * stride..index * stride + size];
      if IsSignedType(componentType) then Ok(Signed(bytes) % UIntModulus)
      else Ok(LittleEndian(bytes))
  }

  /** Little-endian encoding of `u` in `k` bytes. */
  function Encode(u: nat, k: nat): (bytes: seq<byte>)
    requires u < Power256(k)
    ensures |bytes| == k
  {
    if k == 0 then [] else [u % 256] + Encode(u / 256, k - 1)
  }

  lemma {:induction false} EncodeDecode(u: nat, k: nat)
    requires u < Power256(k)
    ensures LittleEndian(Encode(u, k)) == u
  {
    if k > 0 {
      EncodeDecode(u / 256, k - 1);
      assert Encode(u, k)[1..] == Encode(u / 256, k - 1);
    }
  }

  /**
   * Writing an index of any width in two's complement and reading it back
   * gives the index as a 32-bit unsigned number: a negative value of a
   * signed type comes back sign-extended, i.e. as 2^32 plus the value.
   */
  lemma GetIndexRoundTrip(v: int, componentType: int, index: nat, stride: nat, data: seq<byte>)
    requires IndexSize(componentType) > 0
    requires var k := IndexSize(componentType);
             if IsSignedType(componentType) then 0 <= 2 * v + Power256(k) && 2 * v < Power256(k)
             else 0 <= v < Power256(k)
    requires ReadableAt(data, index * stride, IndexSize(componentType))
    requires var k := IndexSize(componentType);
             data[index * stride..index * stride + k] == Encode(v % Power256(k), k)
    ensures GetIndex(data, index, componentType, stride) == Ok(v % UIntModulus)
  {
    var k := IndexSize(componentType);
    EncodeDecode(v % Power256(k), k);
    PowerValues();
    if IsSignedType(componentType) && v < 0 {
      assert v % Power256(k) == v + Power256(k);
    }
  }

  /** Joint `joint` of vertex `vertex`: only unsigned byte and unsigned short joints are accepted. */
  function GetJoint(data: seq<byte>, vertex: nat, componentType: int, stride: nat, joint: nat): (r: Result<nat>)
    requires componentType == TypeUnsignedByte ==> ReadableAt(data, vertex * stride + joint, 1)
    requires componentType == TypeUnsignedShort ==> ReadableAt(data, vertex * stride + 2 * joint, 2)
    ensures r.Ok? <==> componentType == TypeUnsignedByte || componentType == TypeUnsignedShort
    ensures componentType == TypeUnsignedByte ==> r == Ok(data[vertex * stride + joint])
    ensures r.Ok? ==> r.value < 65536
  {
    if componentType == TypeUnsignedByte then Ok(data[vertex * stride + joint])
    else if componentType == TypeUnsignedShort then
      var o := vertex * stride + 2 * joint;
      Ok(LittleEndian(data[o..o + 2]))
    else Fail("unsupported joint component type")
  }

  /** An unsigned-short joint reads back from its two little-endian bytes. */
  lemma GetJointRoundTrip(j: nat, vertex: nat, stride: nat, joint: nat, data: seq<byte>)
    requires j < 65536
    requires ReadableAt(data, vertex * stride + 2 * joint, 2)
    requires data[vertex * stride + 2 * joint..vertex * stride + 2 * joint + 2] == Encode(j, 2)
    ensures GetJoint(data, vertex, TypeUnsignedShort, stride, joint) == Ok(j)
  {
    PowerValues();
    EncodeDecode(j, 2);
  }

  // ---------------------------------------------------------------------------
  // One engine object per (kind, glTF index)
  // ---------------------------------------------------------------------------

  datatype ObjectKind = SceneObject | NodeObject | MeshObject | SkinObject | MaterialObject | ImageObject | AnimationObject

  /** The objects created so far, keyed by kind and glTF index; ids count creations. */
  datatype Registry = Registry(objects: map<(ObjectKind, int), nat>, created: nat)

  predicate RegistryValid(r: Registry)
  {
    && (forall key :: key in r.objects ==> r.objects[key] < r.created)
    && (forall k1, k2 :: k1 in r.objects && k2 in r.objects && k1 != k2 ==> r.objects[k1] != r.objects[k2])
  }

  /** Returns the object already made for (kind, index); otherwise asks the engine for a new one and records it. */
  function GetOrCreate(r: Registry, kind: ObjectKind, index: int): (res: (Registry, nat))
    ensures (kind, index) in r.objects ==> res == (r, r.objects[(kind, index)])
    ensures (kind, index) !in r.objects ==> res.0.created == r.created + 1 && res.1 == r.created
    ensures (kind, index) in res.0.objects && res.0.objects[(kind, index)] == res.1
    ensures forall key :: key in r.objects ==> key in res.0.objects && res.0.objects[key] == r.objects[key]
  {
    if (kind, index) in r.objects then (r, r.objects[(kind, index)])
    else (Registry(r.objects[(kind, index) := r.created], r.created + 1), r.created)
  }

  /**
   * Asking twice for the same (kind, index) returns the first object and
   * creates nothing; distinct keys never share an object.
   */
  lemma MemoisedOnce(r: Registry, kind: ObjectKind, index: int, kind2: ObjectKind, index2: int)
    requires RegistryValid(r)
    ensures RegistryValid(GetOrCreate(r, kind, index).0)
    ensures var (r1, o1) := GetOrCreate(r, kind, index);
            GetOrCreate(r1, kind, index) == (r1, o1)
    ensures var (r1, o1) := GetOrCreate(r, kind, index);
            var (r2, o2) := GetOrCreate(r1, kind2, index2);
            (kind, index) != (kind2, index2) ==> o1 != o2
  {
    var (r1, o1) := GetOrCreate(r, kind, index);
    var (r2, o2) := GetOrCreate(r1, kind2, index2);
    assert RegistryValid(r1);
    assert RegistryValid(r2);
  }

  // ---------------------------------------------------------------------------
  // Per-primitive materials and the skinning flag
  // ---------------------------------------------------------------------------

  /** A primitive's material: the shared default one, or the engine material made for a glTF material index. */
  datatype MaterialRef = DefaultMaterial | GltfMaterial(index: nat)

  datatype Primitive = Primitive(material: int, attributes: set<string>)

  /** Material -1 means the default material. */
  function MeshMaterials(prims: seq<Primitive>): (ms: seq<MaterialRef>)
    requires forall i :: 0 <= i < |prims| ==> prims[i].material >= -1
    ensures |ms| == |prims|
    ensures forall i :: 0 <= i < |prims| ==>
              (ms[i] == DefaultMaterial <==> prims[i].material == -1) &&
              (ms[i].GltfMaterial? ==> ms[i].index == prims[i].material)
  {
    seq(|prims|, i requires 0 <= i < |prims| =>
          if prims[i].material == -1 then DefaultMaterial else GltfMaterial(prims[i].material))
  }

  /** The primitive-by-primitive scan, stopping at the first primitive with joints or weights. */
  function ScanSkinning(prims: seq<Primitive>, i: nat): bool
    requires i <= |prims|
    decreases |prims| - i
  {
    if i == |prims| then false
    else if "JOINTS_0" in prims[i].attributes || "WEIGHTS_0" in prims[i].attributes then true
    else ScanSkinning(prims, i + 1)
  }

  predicate HasSkinAttributes(p: Primitive)
  {
    "JOINTS_0" in p.attributes || "WEIGHTS_0" in p.attributes
  }

  /** The mesh is skinned iff some primitive has JOINTS_0 or WEIGHTS_0. */
  lemma {:induction false} SkinningExact(prims: seq<Primitive>, i: nat)
    requires i <= |prims|
    ensures ScanSkinning(prims, i) <==> exists k :: i <= k < |prims| && HasSkinAttributes(prims[k])
    decreases |prims| - i
  {
    if i < |prims| {
      SkinningExact(prims, i + 1);
    }
  }

  function UsesSkinning(prims: seq<Primitive>): (b: bool)
    ensures b <==> exists k :: 0 <= k < |prims| && HasSkinAttributes(prims[k])
  {
    SkinningExact(prims, 0);
    ScanSkinning(prims, 0)
  }

  // ---------------------------------------------------------------------------
  // Keyframe segments
  // ---------------------------------------------------------------------------

  /** Keyframe times in strictly ascending order, each with its output index; the sampler's ordered map. */
  datatype Key = Key(time: real, output: nat)

  predicate Ascending(keys: seq<Key>)
  {
    forall a, b :: 0 <= a < b < |keys| ==> keys[a].time < keys[b].time
  }

  /** The position of the first key later than `t`, or |keys| when there is none. */
  function UpperBound(keys: seq<Key>, t: real): (e: nat)
    ensures e <= |keys|
    ensures forall a :: 0 <= a < e ==> !(keys[a].time > t) || exists b :: 0 <= b < a && keys[b].time > t
    ensures e < |keys| ==> keys[e].time > t
  {
    if keys == [] then 0
    else if keys[0].time > t then 0
    else 1 + UpperBound(keys[1..], t)
  }

  lemma {:induction false} UpperBoundExact(keys: seq<Key>, t: real)
    ensures forall a :: 0 <= a < UpperBound(keys, t) ==> keys[a].time <= t
  {
    if keys != [] && keys[0].time <= t {
      UpperBoundExact(keys[1..], t);
      forall a | 0 <= a < UpperBound(keys, t) ensures keys[a].time <= t {
        if a > 0 {
          assert keys[a] == keys[1..][a - 1];
        }
      }
    }
  }

  datatype Segment = Segment(factor: real, begin: nat, end: nat)

  /**
   * The keyframe pair around `t`: the first key later than `t` ends the
   * segment, stepped back to the last key when there is none and forward to
   * the second key when `t` precedes them all; the factor is the position in
   * the segment, clamped to [0, 1].
   */
  function InterpolationValues(keys: seq<Key>, t: real): (s: Segment)
    requires |keys| >= 2 && Ascending(keys)
    ensures 0.0 <= s.factor <= 1.0
  {
    var ub := UpperBound(keys, t);
    var e := if ub == |keys| then ub - 1 else if ub == 0 then 1 else ub;
    var b := e - 1;
    var duration := keys[e].time - keys[b].time;
    Segment(Clamp01((t - keys[b].time) / duration), keys[b].output, keys[e].output)
  }

  /** The position of the segment's first key. */
  function SegmentStart(keys: seq<Key>, t: real): (b: nat)
    requires |keys| >= 2
    ensures b + 1 < |keys|
  {
    var ub := UpperBound(keys, t);
    (if ub == |keys| then ub - 1 else if ub == 0 then 1 else ub) - 1
  }

  /** The segment is always a pair of consecutive keys. */
  lemma SegmentIsConsecutive(keys: seq<Key>, t: real)
    requires |keys| >= 2 && Ascending(keys)
    ensures var b := SegmentStart(keys, t);
            var s := InterpolationValues(keys, t);
            s.begin == keys[b].output && s.end == keys[b + 1].output
  {
  }

  /** Before the first key the first pair is used with factor 0. */
  lemma BeforeFirstKey(keys: seq<Key>, t: real)
    requires |keys| >= 2 && Ascending(keys)
    requires t < keys[0].time
    ensures SegmentStart(keys, t) == 0 && InterpolationValues(keys, t).factor == 0.0
  {
    assert UpperBound(keys, t) == 0;
    NegativeQuotient(t - keys[0].time, keys[1].time - keys[0].time);
  }

  /** At or after the last key the last pair is used with factor 1. */
  lemma AfterLastKey(keys: seq<Key>, t: real)
    requires |keys| >= 2 && Ascending(keys)
    requires t >= keys[|keys| - 1].time
    ensures SegmentStart(keys, t) == |keys| - 2 && InterpolationValues(keys, t).factor == 1.0
  {
    UpperBoundExact(keys, t);
    var n := |keys|;
    assert forall a :: 0 <= a < n ==> keys[a].time <= t;
    assert UpperBound(keys, t) == n;
    QuotientAtLeastOne(t - keys[n - 2].time, keys[n - 1].time - keys[n - 2].time);
  }

  /** Between the first and the last key the pair encloses `t` and the factor is its unclamped position. */
  lemma InsideKeys(keys: seq<Key>, t: real)
    requires |keys| >= 2 && Ascending(keys)
    requires keys[0].time <= t < keys[|keys| - 1].time
    ensures var b := SegmentStart(keys, t);
            keys[b].time <= t < keys[b + 1].time &&
            InterpolationValues(keys, t).factor == (t - keys[b].time) / (keys[b + 1].time - keys[b].time)
  {
    UpperBoundExact(keys, t);
    var ub := UpperBound(keys, t);
    assert ub != 0;
    assert ub < |keys|;
    var b := SegmentStart(keys, t);
    assert b == ub - 1;
    QuotientBelowOne(t - keys[b].time, keys[b + 1].time - keys[b].time);
  }

  /**
   * The lookup as the engine writes it, on iterator positions: the end
   * position is stepped back from past-the-end or forward from the first
   * key, and the begin position is the one before it. None when either
   * position falls outside the keys, where the engine steps before the
   * first key or reads past the last: exactly the samplers with fewer than
   * two keys.
   */
  function LookupAsWritten(keys: seq<Key>, t: real): (r: Option<Segment>)
    requires Ascending(keys)
    ensures r.None? <==> |keys| < 2
    ensures r.Some? ==> r.value == InterpolationValues(keys, t)
  {
    var ub := UpperBound(keys, t);
    var e: int := if ub == |keys| then ub - 1 else if ub == 0 then ub + 1 else ub;
    var b := e - 1;
    if b < 0 || e >= |keys| then None
    else Some(Segment(Clamp01((t - keys[b].time) / (keys[e].time - keys[b].time)), keys[b].output, keys[e].output))
  }

  /** A sampler with a single key, which glTF allows, has no defined lookup at any time. */
  lemma OneKeyLookupUndefined(k: Key, t: real)
    ensures LookupAsWritten([k], t).None?
  {
  }

  /**
   * The lookup as intended: a single key is held, both ends being its
   * output; with two or more keys it is the engine's lookup.
   */
  function SampleSegment(keys: seq<Key>, t: real): (s: Segment)
    requires |keys| >= 1 && Ascending(keys)
    ensures 0.0 <= s.factor <= 1.0
    ensures |keys| == 1 ==> s.begin == keys[0].output && s.end == keys[0].output
    ensures |keys| >= 2 ==> LookupAsWritten(keys, t) == Some(s)
  {
    if |keys| == 1 then Segment(0.0, keys[0].output, keys[0].output) else InterpolationValues(keys, t)
  }

  lemma NegativeQuotient(x: real, d: real)
    requires x < 0.0 < d
    ensures x / d < 0.0
  {
  }

  lemma QuotientAtLeastOne(x: real, d: real)
    requires 0.0 < d <= x
    ensures x / d >= 1.0
  {
  }

  lemma QuotientBelowOne(x: real, d: real)
    requires 0.0 <= x < d
    ensures 0.0 <= x / d < 1.0
  {
  }

  // ---------------------------------------------------------------------------
  // Skin weights
  // ---------------------------------------------------------------------------

  /** One joint's influence on a vertex. */
  datatype Influence = Influence(weight: real, joint: nat)

  predicate NonIncreasing(s: seq<Influence>)
  {
    forall a, b :: 0 <= a < b < |s| ==> s[a].weight >= s[b].weight
  }

  /** Out-of-order pairs; each swap of a neighbouring pair removes exactly one. */
  function Inversions(s: seq<Influence>): nat
    requires |s| == 4
  {
    (if s[0].weight < s[1].weight then 1 else 0) + (if s[0].weight < s[2].weight then 1 else 0) +
    (if s[0].weight < s[3].weight then 1 else 0) + (if s[1].weight < s[2].weight then 1 else 0) +
    (if s[1].weight < s[3].weight then 1 else 0) + (if s[2].weight < s[3].weight then 1 else 0)
  }

  function Swap(s: seq<Influence>, i: nat): (r: seq<Influence>)
    requires i + 1 < |s|
    ensures |r| == |s| && multiset(r) == multiset(s)
  {
    s[i := s[i + 1]][i + 1 := s[i]]
  }

  /** The length of the prefix of positive weights, scanning until the first that is not. */
  function PositivePrefix(s: seq<Influence>, l: nat): (n: nat)
    requires l <= |s|
    ensures l <= n <= |s|
    ensures forall k :: l <= k < n ==> s[k].weight > 0.0
    ensures n < |s| ==> s[n].weight <= 0.0
    decreases |s| - l
  {
    if l == |s| || s[l].weight <= 0.0 then l else PositivePrefix(s, l + 1)
  }

  /** Swapping an out-of-order neighbouring pair removes one inversion. */
  lemma SwapRemovesInversion(s: seq<Influence>, i: nat)
    requires |s| == 4 && i < 3 && s[i].weight < s[i + 1].weight
    ensures Inversions(Swap(s, i)) < Inversions(s)
  {
  }

  /** One pass of neighbouring swaps; `swapped` reports whether any pair was out of order. */
  method BubblePass(s: seq<Influence>) returns (t: seq<Influence>, swapped: bool)
    requires |s| == 4
    ensures |t| == 4 && multiset(t) == multiset(s)
    ensures swapped ==> Inversions(t) < Inversions(s)
    ensures !swapped ==> t == s && NonIncreasing(t)
  {
    t := s;
    swapped := false;
    var i := 0;
    while i < 3
      invariant 0 <= i <= 3
      invariant |t| == 4 && multiset(t) == multiset(s)
      invariant swapped ==> Inversions(t) < Inversions(s)
      invariant !swapped ==> t == s
      invariant !swapped ==> forall a :: 0 <= a < i ==> t[a].weight >= t[a + 1].weight
    {
      if t[i].weight < t[i + 1].weight {
        SwapRemovesInversion(t, i);
        swapped := true;
        t := Swap(t, i);
      }
      i := i + 1;
    }
  }

  /**
   * The four influences of a vertex are bubble-sorted by weight, largest
   * first, with each joint moving along with its weight; the weight count is
   * the length of the run of positive weights. The scan only assigns the
   * count when the largest weight is positive: with no positive weight the
   * engine leaves the field uninitialised, which is `None` here.
   */
  method SortInfluences(s: seq<Influence>) returns (sorted: seq<Influence>, wCount: Option<nat>)
    requires |s| == 4
    ensures |sorted| == 4 && multiset(sorted) == multiset(s)
    ensures NonIncreasing(sorted)
    ensures wCount.Some? <==> exists k :: 0 <= k < 4 && s[k].weight > 0.0
    ensures wCount.Some? ==> 1 <= wCount.value <= 4
    ensures wCount.Some? ==> forall k :: 0 <= k < wCount.value ==> sorted[k].weight > 0.0
    ensures wCount.Some? && wCount.value < 4 ==> sorted[wCount.value].weight <= 0.0
  {
    sorted := s;
    var goAgain := true;
    while goAgain
      invariant |sorted| == 4 && multiset(sorted) == multiset(s)
      invariant !goAgain ==> NonIncreasing(sorted)
      decreases Inversions(sorted), goAgain
    {
      sorted, goAgain := BubblePass(sorted);
    }
    if sorted[0].weight > 0.0 {
      assert sorted[0] in multiset(s);
      wCount := Some(PositivePrefix(sorted, 0));
    } else {
      forall k | 0 <= k < 4
        ensures s[k].weight <= 0.0
      {
        assert s[k] in multiset(sorted);
      }
      wCount := None;
    }
  }

  // ---------------------------------------------------------------------------
  // Common ancestor
  // ---------------------------------------------------------------------------

  /**
   * Node ids with each node's parent node; a node absent from `parent` hangs
   * directly below a scene. `rank` shows the chains are finite.
   */
  predicate Forest(parent: map<nat, nat>, rank: map<nat, nat>)
  {
    forall n :: n in parent ==> n in rank && parent[n] in rank && rank[parent[n]] < rank[n]
  }

  /** The nodes strictly above `n`, walking parents until a scene is reached. */
  function ProperAncestors(parent: map<nat, nat>, rank: map<nat, nat>, n: nat): set<nat>
    requires Forest(parent, rank) && (n in parent ==> n in rank)
    decreases if n in rank then rank[n] else 0
  {
    if n !in parent then {} else {parent[n]} + ProperAncestors(parent, rank, parent[n])
  }

  /** How many of the listed nodes have `a` strictly above them; the walk from each node visits `a` at most once. */
  function Hits(parent: map<nat, nat>, rank: map<nat, nat>, nodes: seq<nat>, a: nat): (h: nat)
    requires Forest(parent, rank)
    ensures h <= |nodes|
  {
    if nodes == [] then 0
    else
      var k := |nodes| - 1;
      Hits(parent, rank, nodes[..k], a) + (if a in ProperAncestors(parent, rank, nodes[k]) then 1 else 0)
  }

  predicate CommonAncestor(parent: map<nat, nat>, rank: map<nat, nat>, nodes: seq<nat>, a: nat)
    requires Forest(parent, rank)
  {
    forall i :: 0 <= i < |nodes| ==> a in ProperAncestors(parent, rank, nodes[i])
  }

  lemma {:induction false} HitsCountAll(parent: map<nat, nat>, rank: map<nat, nat>, nodes: seq<nat>, a: nat)
    requires Forest(parent, rank)
    ensures Hits(parent, rank, nodes, a) == |nodes| <==> CommonAncestor(parent, rank, nodes, a)
  {
    if nodes != [] {
      var k := |nodes| - 1;
      HitsCountAll(parent, rank, nodes[..k], a);
      assert forall i :: 0 <= i < k ==> nodes[..k][i] == nodes[i];
    }
  }

  /** Every node that some walk visits, with its hit count. */
  function HitsMap(parent: map<nat, nat>, rank: map<nat, nat>, nodes: seq<nat>): (m: map<nat, nat>)
    requires Forest(parent, rank)
    ensures forall a :: a in m ==> m[a] == Hits(parent, rank, nodes, a)
  {
    var visited := set i, a | 0 <= i < |nodes| && a in ProperAncestors(parent, rank, nodes[i]) :: a;
    map a | a in visited :: Hits(parent, rank, nodes, a)
  }

  /**
   * Scans the visited nodes in ascending id order (the engine's map is
   * ordered by address) and returns the first one every walk reached.
   */
  method FindCommonRoot(parent: map<nat, nat>, rank: map<nat, nat>, nodes: seq<nat>) returns (r: Option<nat>)
    requires Forest(parent, rank)
    ensures r.Some? ==> CommonAncestor(parent, rank, nodes, r.value) && |nodes| > 0
    ensures r.Some? ==> forall a :: a < r.value && a in HitsMap(parent, rank, nodes) ==> !CommonAncestor(parent, rank, nodes, a)
    ensures r.None? ==> |nodes| == 0 || forall a :: !CommonAncestor(parent, rank, nodes, a)
  {
    var hits := HitsMap(parent, rank, nodes);
    var remaining := hits.Keys;
    r := None;
    while remaining != {}
      invariant remaining <= hits.Keys
      invariant r.Some? ==> r.value in hits && hits[r.value] == |nodes|
      invariant r.Some? ==> forall a :: a in hits && a !in remaining && a < r.value ==> hits[a] != |nodes|
      invariant r.None? ==> forall a :: a in hits && a !in remaining ==> hits[a] != |nodes|
      decreases |remaining|
    {
      var a :| a in remaining;
      if hits[a] == |nodes| && (r.None? || a < r.value) {
        r := Some(a);
      }
      remaining := remaining - {a};
    }
    if r.Some? {
      HitsCountAll(parent, rank, nodes, r.value);
      forall a | a < r.value && a in hits ensures !CommonAncestor(parent, rank, nodes, a) {
        HitsCountAll(parent, rank, nodes, a);
      }
      assert r.value in hits;
    } else if |nodes| > 0 {
      var first := ProperAncestors(parent, rank, nodes[0]);
      forall a ensures !CommonAncestor(parent, rank, nodes, a) {
        HitsCountAll(parent, rank, nodes, a);
        assert CommonAncestor(parent, rank, nodes, a) ==> a in first;
        assert CommonAncestor(parent, rank, nodes, a) ==> a in hits;
      }
    }
  }
}

=== FILE: scene_variants.dfy ===
/**
 * Material variants (the KHR_materials_variants glTF extension) as the scene
 * manager applies them: which variant indices a model load keeps, and the
 * per-variant material list each mesh gets.
 */
module SceneVariants {
  import opened Common
  import GltfLoader
  import SceneManager

  // ---------------------------------------------------------------------------
  // Variant selection at model load
  // ---------------------------------------------------------------------------

  /** Whether the load keeps variant `i` of the file's variant list. */
  predicate Selected(names: seq<string>, all: bool, requested: set<string>, i: int)
  {
    0 <= i < |names| && (all || names[i] in requested)
  }

  /** The names reported for the loaded model: every variant, or the requested ones in file order. */
  function KeptNames(names: seq<string>, all: bool, requested: set<string>): (kept: seq<string>)
  {
    if all then names
    else if names == [] then []
    else
      var k := |names| - 1;
      KeptNames(names[..k], all, requested) + (if names[k] in requested then [names[k]] else [])
  }

  /**
   * The reported names are the file's variants that were asked for, each as
   * often as the file lists it, in file order.
   */
  lemma {:induction false} KeptNamesExact(names: seq<string>, all: bool, requested: set<string>)
    ensures all ==> KeptNames(names, all, requested) == names
    ensures !all ==> forall x :: multiset(KeptNames(names, all, requested))[x] ==
                                 (if x in requested then multiset(names)[x] else 0)
  {
    if !all && names != [] {
      var k := |names| - 1;
      KeptNamesExact(names[..k], all, requested);
      assert names == names[..k] + [names[k]];
    }
  }

  /** The indices the load adds to the filter. */
  function SelectedIndices(names: seq<string>, all: bool, requested: set<string>): (s: set<int>)
    ensures forall i :: i in s <==> Selected(names, all, requested, i)
  {
    set i | 0 <= i < |names| && Selected(names, all, requested, i)
  }

  /**
   * The filter after a model load as written: the manager's filter lives as
   * long as the engine and is never cleared, so the indices kept for earlier
   * models stay in it.
   */
  function LoadFilterAsWritten(previous: set<int>, names: seq<string>, all: bool, requested: set<string>): (f: set<int>)
    ensures previous <= f
    ensures forall i :: Selected(names, all, requested, i) ==> i in f
  {
    previous + SelectedIndices(names, all, requested)
  }

  /** The filter after a model load, holding exactly the indices this load selects. */
  function LoadFilter(names: seq<string>, all: bool, requested: set<string>): (f: set<int>)
    ensures forall i :: i in f <==> Selected(names, all, requested, i)
  {
    SelectedIndices(names, all, requested)
  }

  /**
   * A first model with a "red" variant, then a second one listing "green"
   * before "red", each loaded asking for "red" only: as written, the second
   * model's "green" (index 0) stays in the filter although the loaded model
   * reports only "red"; the corrected filter holds index 1 alone.
   */
  lemma StaleVariantSurvivesNextLoad()
    ensures var first := LoadFilterAsWritten({}, ["red"], false, {"red"});
            var second := LoadFilterAsWritten(first, ["green", "red"], false, {"red"});
            0 in second && KeptNames(["green", "red"], false, {"red"}) == ["red"]
    ensures LoadFilter(["green", "red"], false, {"red"}) == {1}
  {
    var names := ["green", "red"];
    assert names[..1] == ["green"];
    assert ["green"][..0] == [];
    var f := LoadFilter(names, false, {"red"});
    assert !Selected(names, false, {"red"}, 0);
    assert Selected(names, false, {"red"}, 1);
    assert forall i :: i in f <==> i == 1;
  }

  // ---------------------------------------------------------------------------
  // Per-variant material lists of a mesh
  // ---------------------------------------------------------------------------

  type Mapping = GltfLoader.Mapping
  type MaterialRef = SceneManager.MaterialRef

  /** A mapping applies when one of its variants is in the filter. */
  predicate Used(filter: set<int>, m: Mapping)
  {
    exists k :: 0 <= k < |m.variants| && m.variants[k] in filter
  }

  /**
   * The engine asserts a material only for the mappings the filter uses;
   * it skips the others before looking at their material.
   */
  predicate UsedHaveMaterials(filter: set<int>, ms: seq<Mapping>)
  {
    forall j :: 0 <= j < |ms| && Used(filter, ms[j]) ==> ms[j].material >= 0
  }

  /** Every primitive's used mappings name a material. */
  predicate MappingsValid(prims: seq<seq<Mapping>>, filter: set<int>)
  {
    forall i :: 0 <= i < |prims| ==> UsedHaveMaterials(filter, prims[i])
  }

  predicate ListsFit(lists: map<int, seq<MaterialRef>>, defaults: seq<MaterialRef>)
  {
    forall v :: v in lists ==> |lists[v]| == |defaults|
  }

  /** Every variant of a used mapping gets slot `i` set, its list starting as a copy of the defaults. */
  function ApplyVariants(lists: map<int, seq<MaterialRef>>, defaults: seq<MaterialRef>, i: nat, material: nat,
                         vs: seq<int>): (r: map<int, seq<MaterialRef>>)
    requires i < |defaults| && ListsFit(lists, defaults)
    ensures ListsFit(r, defaults)
  {
    if vs == [] then lists
    else
      var l := ApplyVariants(lists, defaults, i, material, vs[..|vs| - 1]);
      var v := vs[|vs| - 1];
      var base := if v in l then l[v] else defaults;
      l[v := base[i := SceneManager.GltfMaterial(material)]]
  }

  /** The mappings of primitive `i`, in order, skipping those the filter does not use. */
  function ApplyMappings(lists: map<int, seq<MaterialRef>>, defaults: seq<MaterialRef>, i: nat, ms: seq<Mapping>,
                         filter: set<int>): (r: map<int, seq<MaterialRef>>)
    requires i < |defaults| && ListsFit(lists, defaults)
    requires UsedHaveMaterials(filter, ms)
    ensures ListsFit(r, defaults)
  {
    if ms == [] then lists
    else
      var l := ApplyMappings(lists, defaults, i, ms[..|ms| - 1], filter);
      var m := ms[|ms| - 1];
      if Used(filter, m) then ApplyVariants(l, defaults, i, m.material, m.variants) else l
  }

  /** A mapping with no variant in the filter is skipped whatever its material, even -1. */
  lemma SkippedMappingNeedsNoMaterial(lists: map<int, seq<MaterialRef>>, defaults: seq<MaterialRef>, i: nat,
                                      m: Mapping, filter: set<int>)
    requires i < |defaults| && ListsFit(lists, defaults)
    requires forall k :: 0 <= k < |m.variants| ==> m.variants[k] !in filter
    ensures UsedHaveMaterials(filter, [m])
    ensures ApplyMappings(lists, defaults, i, [m], filter) == lists
  {
    assert [m][..0] == [];
  }

  /** The lists after the first `n` primitives. */
  function VariantLists(defaults: seq<MaterialRef>, prims: seq<seq<Mapping>>, filter: set<int>, n: nat): (r: map<int, seq<MaterialRef>>)
    requires |prims| == |defaults| && n <= |prims| && MappingsValid(prims, filter)
    ensures ListsFit(r, defaults)
  {
    if n == 0 then map[]
    else ApplyMappings(VariantLists(defaults, prims, filter, n - 1), defaults, n - 1, prims[n - 1], filter)
  }

  /** The material of the last used mapping that lists `v`, if any. */
  function LastUse(filter: set<int>, ms: seq<Mapping>, v: int): Option<nat>
    requires UsedHaveMaterials(filter, ms)
  {
    if ms == [] then None
    else
      var m := ms[|ms| - 1];
      if Used(filter, m) && v in m.variants then Some(m.material) else LastUse(filter, ms[..|ms| - 1], v)
  }

  /** Reference definition: some primitive has a used mapping listing `v`. */
  predicate HasList(filter: set<int>, prims: seq<seq<Mapping>>, n: nat, v: int)
    requires n <= |prims| && MappingsValid(prims, filter)
  {
    exists i :: 0 <= i < n && LastUse(filter, prims[i], v).Some?
  }

  /** Reference definition: slot `s` of variant `v`'s list. */
  function ExpectedSlot(defaults: seq<MaterialRef>, prims: seq<seq<Mapping>>, filter: set<int>, v: int, s: nat): MaterialRef
    requires |prims| == |defaults| && s < |prims| && MappingsValid(prims, filter)
  {
    match LastUse(filter, prims[s], v)
    case Some(mat) => SceneManager.GltfMaterial(mat)
    case None => defaults[s]
  }

  lemma {:induction false} ApplyVariantsEffect(lists: map<int, seq<MaterialRef>>, defaults: seq<MaterialRef>, i: nat,
                                               material: nat, vs: seq<int>)
    requires i < |defaults| && ListsFit(lists, defaults)
    ensures var r := ApplyVariants(lists, defaults, i, material, vs);
            (forall v :: v in r <==> v in lists || v in vs) &&
            (forall v :: v in vs ==> r[v] == (if v in lists then lists[v] else defaults)[i := SceneManager.GltfMaterial(material)]) &&
            (forall v :: v in lists && v !in vs ==> r[v] == lists[v])
  {
    if vs != [] {
      var k := |vs| - 1;
      ApplyVariantsEffect(lists, defaults, i, material, vs[..k]);
      assert vs == vs[..k] + [vs[k]];
    }
  }

  lemma {:induction false} ApplyMappingsEffect(lists: map<int, seq<MaterialRef>>, defaults: seq<MaterialRef>, i: nat,
                                               ms: seq<Mapping>, filter: set<int>)
    requires i < |defaults| && ListsFit(lists, defaults)
    requires UsedHaveMaterials(filter, ms)
    ensures forall v :: v in ApplyMappings(lists, defaults, i, ms, filter) <==> v in lists || LastUse(filter, ms, v).Some?
    ensures forall v, s :: v in ApplyMappings(lists, defaults, i, ms, filter) && 0 <= s < |defaults| && s != i ==>
              ApplyMappings(lists, defaults, i, ms, filter)[v][s] == (if v in lists then lists[v][s] else defaults[s])
    ensures forall v :: v in ApplyMappings(lists, defaults, i, ms, filter) ==>
              ApplyMappings(lists, defaults, i, ms, filter)[v][i]
                == (match LastUse(filter, ms, v)
                    case Some(mat) => SceneManager.GltfMaterial(mat)
                    case None => if v in lists then lists[v][i] else defaults[i])
  {
    if ms != [] {
      var k := |ms| - 1;
      var prefix := ms[..k];
      ApplyMappingsEffect(lists, defaults, i, prefix, filter);
      var m := ms[k];
      if Used(filter, m) {
        var l := ApplyMappings(lists, defaults, i, prefix, filter);
        ApplyVariantsEffect(l, defaults, i, m.material, m.variants);
      }
    }
  }

  /** A primitive's mappings leave the other primitives' slots as they were. */
  lemma OtherSlotKept(lists: map<int, seq<MaterialRef>>, defaults: seq<MaterialRef>, i: nat, ms: seq<Mapping>,
                      filter: set<int>, v: int, s: int)
    requires i < |defaults| && ListsFit(lists, defaults)
    requires UsedHaveMaterials(filter, ms)
    requires v in ApplyMappings(lists, defaults, i, ms, filter) && 0 <= s < |defaults| && s != i
    ensures ApplyMappings(lists, defaults, i, ms, filter)[v][s] == (if v in lists then lists[v][s] else defaults[s])
  {
    ApplyMappingsEffect(lists, defaults, i, ms, filter);
  }

  /**
   * The list of a variant exists exactly when some primitive has a used
   * mapping naming it, and its slot for a primitive holds the material of
   * that primitive's last such mapping, or the primitive's default material.
   */
  lemma {:induction false} VariantListsExact(defaults: seq<MaterialRef>, prims: seq<seq<Mapping>>, filter: set<int>, n: nat)
    requires |prims| == |defaults| && n <= |prims| && MappingsValid(prims, filter)
    ensures forall v :: v in VariantLists(defaults, prims, filter, n) <==> HasList(filter, prims, n, v)
    ensures forall v, s :: v in VariantLists(defaults, prims, filter, n) && 0 <= s < |defaults| ==>
              VariantLists(defaults, prims, filter, n)[v][s]
                == (if s < n then ExpectedSlot(defaults, prims, filter, v, s) else defaults[s])
  {
    if n > 0 {
      VariantListsExact(defaults, prims, filter, n - 1);
      var l := VariantLists(defaults, prims, filter, n - 1);
      ApplyMappingsEffect(l, defaults, n - 1, prims[n - 1], filter);
      var r := VariantLists(defaults, prims, filter, n);
      assert r == ApplyMappings(l, defaults, n - 1, prims[n - 1], filter);
      forall v ensures v in r <==> HasList(filter, prims, n, v) {
        assert LastUse(filter, prims[n - 1], v).Some? ==> HasList(filter, prims, n, v);
        assert HasList(filter, prims, n - 1, v) ==> HasList(filter, prims, n, v);
        if HasList(filter, prims, n, v) {
          var i :| 0 <= i < n && LastUse(filter, prims[i], v).Some?;
          assert i < n - 1 ==> HasList(filter, prims, n - 1, v);
        }
      }
      forall v, s | v in r && 0 <= s < |defaults|
        ensures r[v][s] == (if s < n then ExpectedSlot(defaults, prims, filter, v, s) else defaults[s])
      {
        assert v in l ==> l[v][s] == (if s < n - 1 then ExpectedSlot(defaults, prims, filter, v, s) else defaults[s]);
        if s == n - 1 {
          assert v in l ==> l[v][s] == defaults[s];
        } else {
          OtherSlotKept(l, defaults, n - 1, prims[n - 1], filter, v, s);
          if s < n - 1 && v !in l {
            assert !HasList(filter, prims, n - 1, v);
          }
        }
      }
    }
  }

  /** One entry of a mesh's variant list: the variant index and its materials, one per primitive. */
  datatype MeshVariant = MeshVariant(index: int, materials: seq<MaterialRef>)

  predicate StrictlyIncreasing(vs: seq<MeshVariant>)
  {
    forall a, b :: 0 <= a < b < |vs| ==> vs[a].index < vs[b].index
  }

  /** The smallest element of a non-empty set. */
  method Least(s: set<int>) returns (m: int)
    requires s != {}
    ensures m in s && forall x :: x in s ==> m <= x
  {
    assert (forall x :: x !in s) ==> s == {};
    m :| m in s;
    var rest := s - {m};
    while rest != {}
      invariant rest <= s && m in s
      invariant forall x :: x in s && x !in rest ==> m <= x
      decreases |rest|
    {
      assert (forall x :: x !in rest) ==> rest == {};
      var x :| x in rest;
      if x < m {
        m := x;
      }
      rest := rest - {x};
    }
  }

  /**
   * Part way through building the variant list: `vs` holds, in ascending
   * order, the wanted indices already taken, and `rest` the wanted indices
   * still to take, all larger than those taken.
   */
  ghost predicate Building(lists: map<int, seq<MaterialRef>>, filter: set<int>, vs: seq<MeshVariant>, rest: set<int>)
  {
    && (forall v :: v in lists && v in filter <==> v in rest || exists a :: 0 <= a < |vs| && vs[a].index == v)
    && StrictlyIncreasing(vs)
    && (forall a, x :: 0 <= a < |vs| && x in rest ==> vs[a].index < x)
    && (forall a :: 0 <= a < |vs| ==> vs[a].index in lists && vs[a].materials == lists[vs[a].index])
  }

  /** Taking the smallest index still to take keeps the list in order and loses no index. */
  lemma TakeLeast(lists: map<int, seq<MaterialRef>>, filter: set<int>, vs: seq<MeshVariant>, rest: set<int>, m: int)
    requires Building(lists, filter, vs, rest)
    requires m in rest && forall x :: x in rest ==> m <= x
    ensures m in lists
    ensures Building(lists, filter, vs + [MeshVariant(m, lists[m])], rest - {m})
  {
    var next := vs + [MeshVariant(m, lists[m])];
    TakeLeastCovers(lists, filter, vs, rest, next, m);
    TakeLeastOrdered(vs, rest, next, m);
    assert forall a :: 0 <= a < |vs| ==> next[a] == vs[a];
  }

  lemma TakeLeastCovers(lists: map<int, seq<MaterialRef>>, filter: set<int>, vs: seq<MeshVariant>, rest: set<int>,
                        next: seq<MeshVariant>, m: int)
    requires forall v :: v in lists && v in filter <==> v in rest || exists a :: 0 <= a < |vs| && vs[a].index == v
    requires m in rest && |next| == |vs| + 1 && next[..|vs|] == vs && next[|vs|].index == m
    ensures forall v :: v in lists && v in filter <==> v in rest - {m} || exists a :: 0 <= a < |next| && next[a].index == v
  {
    forall v
      ensures v in lists && v in filter <==> v in rest - {m} || exists a :: 0 <= a < |next| && next[a].index == v
    {
      if exists a :: 0 <= a < |vs| && vs[a].index == v {
        var a :| 0 <= a < |vs| && vs[a].index == v;
        assert next[a] == next[..|vs|][a];
      }
      if exists a :: 0 <= a < |next| && next[a].index == v {
        var a :| 0 <= a < |next| && next[a].index == v;
        if a < |vs| {
          assert vs[a] == next[..|vs|][a];
        }
      }
    }
  }

  lemma TakeLeastOrdered(vs: seq<MeshVariant>, rest: set<int>, next: seq<MeshVariant>, m: int)
    requires StrictlyIncreasing(vs) && forall a, x :: 0 <= a < |vs| && x in rest ==> vs[a].index < x
    requires m in rest && forall x :: x in rest ==> m <= x
    requires |next| == |vs| + 1 && next[..|vs|] == vs && next[|vs|].index == m
    ensures StrictlyIncreasing(next)
    ensures forall a, x :: 0 <= a < |next| && x in rest - {m} ==> next[a].index < x
  {
    assert forall a :: 0 <= a < |vs| ==> next[a] == vs[a];
  }

  /**
   * The mesh's variants: the lists whose variant index is in the filter, in
   * ascending index order (the engine walks an ordered map).
   */
  method MeshVariants(lists: map<int, seq<MaterialRef>>, filter: set<int>) returns (vs: seq<MeshVariant>)
    ensures StrictlyIncreasing(vs)
    ensures forall v :: v in lists && v in filter <==> exists a :: 0 <= a < |vs| && vs[a].index == v
    ensures forall a :: 0 <= a < |vs| ==> vs[a].index in lists && vs[a].materials == lists[vs[a].index]
  {
    vs := [];
    var rest := set v | v in lists && v in filter;
    while rest != {}
      invariant Building(lists, filter, vs, rest)
      decreases |rest|
    {
      var m := Least(rest);
      TakeLeast(lists, filter, vs, rest, m);
      vs := vs + [MeshVariant(m, lists[m])];
      rest := rest - {m};
    }
  }
}
